=== FILE: README.md ===
# Valkyrie persistence core, modelled in Dafny

This project models the persistence core of Valkyrie, a Ruby library that
stores resources (`Valkyrie::Resource` instances) through interchangeable
metadata adapters. It covers the following parts:

- **Attributes** (`Types`, `Resources`). These are the attribute types that
  coerce values on assignment: `ID`, `Params::ID`, `URI`, `Anything`,
  `Array`, `Set` and `SingleValuedString`. Around them sit the resource
  class machinery: inherited reserved attributes, `attribute`, `fields`,
  `[]`, `set_value`, `persisted?`, `to_param` and optimistic locking.
- **The in-memory persisters** (`MemoryPersister`, `LegacyPersister`,
  `Dates`). The current persister saves a copy. It issues lock tokens,
  checks them, stamps dates and normalises dates to UTC. The older one
  saves `Valkyrie::Model` objects. Ruby changes the caller's object in
  place; the model returns the changed value instead.
- **The Fedora adapter.** This part has several pieces:
  - the permissive predicate schema (`PermissiveSchema`);
  - the id ⇄ URI mapping with its pair path (`MetadataAdapter`);
  - the model-to-graph converter with its first-match mapper chain
    (`ModelConverter`, `ModelEncoding`);
  - the graph-to-attributes converter with its mapper chain and
    applicators (`OrmConverter`, `OrmDecoding`, `OrmMembers`,
    `OrmIdentity`);
  - the round trips between the two converters (`OrmRoundTrip`);
  - the query service over a fetched graph (`FedoraQuery`).

  Graphs are sequences of triples (`RdfGraph`). The ordered member list is
  a chain of proxy nodes.
- **The Postgres adapter.** It has three pieces:
  - the row's `all_attributes` with the `RDFMetadata` value mappers
    (`PostgresOrm`);
  - the resource factory's `from_model` (also `PostgresOrm`);
  - the semantics of the query service's SQL over a table of rows
    (`PostgresQuery`).
- **The change-set persister** (`ChangeSets`). It sets the order in which
  files are attached, the model is saved, the model is appended to a
  parent, and parents are detached before a delete.
- **The Fedora binary storage adapter** (`FedoraStorage`). This covers
  `handles?`, `find_by`, the id derived on `upload`, `version_name` and
  the ActiveFedora identifier.

Ruby objects are one `Value` datatype. Hashes are sequences of `Entry`
that keep insertion order, and hash keys tell symbols from strings.
Raised exceptions are the `Err` side of a `Result`.

The model takes these as parameters, since the source does not determine
them:

- the clock and `SecureRandom.uuid` (the `Env` and `LegacyEnv` records);
- the resource class resolver, the lock-token deserializer and Ruby's
  `to_s` of objects whose text is not modelled (`Config`);
- the HTTP transports (`Service` records of lookup functions);
- the Postgres resource factory's `to_resource` and PostgreSQL's
  text-to-uuid cast (`PostgresQuery.Service`).

Helper modules hold Ruby core behaviour that the rest relies on:

- `Wrappers`: `Option`, `Result` and the error kinds;
- `Strs`: string search, `gsub` and digits;
- `Values`: values, and hashes as ordered entries;
- `Seqs`: selection from a sequence;
- `Registries`: first-match registries.

## Model

| member | source | states |
|---|---|---|
| Types.ArrayCast | lib/valkyrie/types.rb:71-81 | `Array` turns nil into [], keeps an array, wraps a scalar in a one-element array, turns an empty hash into [] and a non-empty hash into [hash] |
| Types.ArrayCastIdempotent | lib/valkyrie/types.rb:71-81 | casting the result of an `Array` cast again changes nothing |
| Types.KernelArrayWrap | lib/valkyrie/types.rb:79 | `Kernel#Array` and `Array.wrap` agree on everything but a hash, which `Array.wrap` keeps whole as one element |
| Types.Clean | lib/valkyrie/types.rb:86-88 | the cleaned sequence holds exactly the input's elements other than those equal to '' (the string, an empty plain RDF literal, an empty RDF URI), an ID whose text is '' and nil, and is no longer than the input |
| Types.Uniq | lib/valkyrie/types.rb:88 | `uniq` has no duplicates, is no longer than its input, and holds exactly the input's elements |
| Types.UniqOrder | lib/valkyrie/types.rb:86-88 | `uniq` keeps the survivors in the order of their first occurrence |
| Types.UniqNoDup | lib/valkyrie/types.rb:88 | `uniq` of a sequence without duplicates is that sequence |
| Types.SetClean | lib/valkyrie/types.rb:84-88 | the sequence `Set` hands to `Anything` is duplicate-free, holds no dropped value (among them the empty plain RDF literal that `== ''` accepts), and holds each non-dropped input |
| Types.SetEmptyLiterals | lib/valkyrie/types.rb:86-87 | `Set` drops an empty plain RDF literal and an empty RDF URI, which `== ''` accepts, and keeps an empty language-tagged literal, which it does not |
| Types.SetAllDropped | lib/valkyrie/types.rb:86-87 | an array whose every element is one `Set` rejects casts to the empty set |
| Types.IdCast | lib/valkyrie/types.rb:21-30 | the result is always an ID: an array gives the ID of its first element's text (the empty ID when there is none), a value that is neither array nor hash the ID of its own text |
| Types.ParamsId | lib/valkyrie/types.rb:21-40 | the input is cast to an ID first, as `constructor` on `ID` runs the `ID` block before its own; the result is nil exactly when that ID is blank (for a scalar, when its text is blank) and is that ID otherwise |
| Types.ParamsIdThroughId | lib/valkyrie/types.rb:21-40 | `Params::ID` of any input equals `Params::ID` of the input's `ID` cast |
| Types.ParamsIdIdempotent | lib/valkyrie/types.rb:32-40 | casting a `Params::ID` result again gives the same result, nil or ID |
| Types.ParamsIdOfFalse | lib/valkyrie/types.rb:21-40 | the blank input `false` gives the ID "false", and the non-blank `[""]` gives nil |
| Types.UriCast | lib/valkyrie/types.rb:43-51 | a present value becomes the URI of its text, a blank one is returned as it is |
| Types.UriCastIdempotent | lib/valkyrie/types.rb:43-51 | casting a cast URI again gives the same value |
| Types.SingleValuedString | lib/valkyrie/types.rb:105-107 | always a string: the text of the first element of `Array.wrap(value)`, and "" when the wrap is empty |
| Types.Anything | lib/valkyrie/types.rb:62-69 | a hash with a truthy `internal_resource` becomes an instance of the class the resolver returns for that tag; an untagged array raises TypeError; every other untagged value passes through unchanged; TypeError is the only error |
| Types.MapAnything | lib/valkyrie/types.rb:90-92 | the map succeeds exactly when `Anything` succeeds on every element, and then holds each element's cast at the element's position |
| Types.MapAnythingIdentity | lib/valkyrie/types.rb:90-92 | untagged non-array elements come back unchanged |
| Types.SetCast | lib/valkyrie/types.rb:84-93 | a successful `Set` cast holds, position by position, the `Anything` cast of the cleaned, de-duplicated `Array` cast; the only error is TypeError |
| Types.SetCastProps | lib/valkyrie/types.rb:84-92 | a `Set` result is never longer than the `Array` cast of the input and holds no nil, '' or empty ID |
| Types.SetIdempotent | lib/valkyrie/types.rb:84-93 | on input without type-tagged hashes, casting a `Set` result again gives the same elements |
| Types.SetCastFixpoint | lib/valkyrie/types.rb:84-93 | a duplicate-free sequence of untagged, undropped scalars is its own `Set` cast |
| Types.Coerce | lib/valkyrie/resource.rb:167 | `schema[key].call(value)`: nil under `optional` stays nil, nil under a default gives the default, and a `Set`-typed attribute succeeds exactly when the `Set` cast does and then holds its result |
| Types.MapDeserialize | lib/valkyrie/types.rb:54-59 | each element becomes a lock token, and a token stays the token it was |
| Types.NewResource | lib/valkyrie/resource.rb:21-31 | a new instance has the class it was made from and the attribute hash `NewAttrs` builds, and fails only with TypeError |
| Types.NewAttrs | lib/valkyrie/resource.rb:21-31 | only declared names become attributes; with unique names, a declared name is present exactly when the input has it or its type has a default; the only error is TypeError |
| Types.NewAttrsOrder | lib/valkyrie/resource.rb:21-31 | the attribute hash lists its names in schema declaration order, for exactly the names given or defaulted |
| Types.AttrValue | lib/valkyrie/resource.rb:22-29 | an attribute gets a value exactly when the input has the key or the type has a default, and a missing key takes the default |
| Resources.BaseSchema | lib/valkyrie/resource.rb:35-43 | every subclass starts with five declarations with distinct reserved names, none of them ordered |
| Resources.Inherited | lib/valkyrie/resource.rb:35-43 | a freshly defined subclass carries its own name and the base schema |
| Resources.RemoveDecl | lib/valkyrie/resource.rb:61 | `schema.delete(name)` drops every declaration of the name and keeps the others in order |
| Resources.Declare | lib/valkyrie/resource.rb:56-68 | declaring raises RepeatedAttribute exactly when the name is declared already, unless it is reserved and declared without `internal:`; it warns exactly in that reserved case; the class keeps its name |
| Resources.NewDecl | lib/valkyrie/resource.rb:56-67 | the declaration added has the name, the given type or `Set.optional`, and `ordered` exactly for `member_ids` |
| Resources.DeclareLookup | lib/valkyrie/resource.rb:56-68 | after a declaration the name is looked up as declared and every other name as before |
| Resources.DeclareSchema | lib/valkyrie/resource.rb:56-68 | a declaration keeps names unique and declares no other name |
| Resources.BaseDeclaresReserved | lib/valkyrie/resource.rb:70-72 | every reserved name is declared by the base schema |
| Resources.BaseDecl | lib/valkyrie/resource.rb:38-42 | each inherited attribute is looked up with its inherited type |
| Resources.ReservedRedeclarationWins | lib/valkyrie/resource.rb:57-62 | re-declaring a reserved name without `internal:` warns, and the new declaration is the one looked up |
| Resources.Fields | lib/valkyrie/resource.rb:46-48 | `fields` holds exactly the declared names other than `new_record` |
| Resources.GetUndeclared | lib/valkyrie/resource.rb:156-160 | reading a name the class does not declare gives nil instead of raising |
| Resources.NewResourceWellFormed | lib/valkyrie/resource.rb:21-31 | instantiation fills only declared attributes |
| Resources.NewAttrsEmptyOk | lib/valkyrie/resource.rb:21-31 | instantiating without input never fails |
| Resources.NewAttrsMissing | lib/valkyrie/resource.rb:21-31 | an attribute missing from the input takes its type's default, or is left out when there is none |
| Resources.NewInheritedDefaults | lib/valkyrie/resource.rb:35-43 | a new instance of a fresh subclass has its class name as `internal_resource`, `new_record` true, and is not persisted |
| Resources.SetValue | lib/valkyrie/resource.rb:166-168 | the stored value is the input coerced by the attribute's schema type; other attributes and the class are unchanged; well-formedness and unique keys are kept; an undeclared name raises NoMethodError; a declared name whose coercion succeeds is set |
| Resources.ToParam | lib/valkyrie/resource.rb:128-134 | `to_param` is the text of the id, and "" when there is no id |
| Resources.EnableLocking | lib/valkyrie/resource.rb:90-92 | enabling succeeds exactly when locking is not yet enabled (declaring the lock attribute again raises), and afterwards locking is enabled without a warning |
| PermissiveSchema.UriFor | lib/valkyrie/persistence/fedora/permissive_schema.rb:63-65 | `uri_for(p)` is the predicate prefix followed by p |
| PermissiveSchema.Configured | lib/valkyrie/persistence/fedora/permissive_schema.rb:80 | the configured predicate of a name is present exactly when the name is a schema key |
| PermissiveSchema.PredicateFor | lib/valkyrie/persistence/fedora/permissive_schema.rb:79-81 | an unconfigured name gets `uri_for(name)`; a configured one (names being unique) gets its configured predicate |
| PermissiveSchema.FindPredicate | lib/valkyrie/persistence/fedora/permissive_schema.rb:92 | nothing exactly when no name is configured with the predicate, otherwise the first such entry in hash order |
| PermissiveSchema.PropertyFor | lib/valkyrie/persistence/fedora/permissive_schema.rb:91-97 | the first name configured with the predicate, failing that the predicate with every occurrence of the prefix removed |
| PermissiveSchema.RoundTripUnconfigured | lib/valkyrie/persistence/fedora/permissive_schema.rb:79-97 | for an unconfigured name without the prefix inside, and whose predicate no name is configured with, `property_for(predicate_for(p)) == p` |
| PermissiveSchema.RoundTripConfigured | lib/valkyrie/persistence/fedora/permissive_schema.rb:79-97 | for a configured name, when no two names share a predicate, `property_for(predicate_for(k)) == k` |
| PermissiveSchema.ClassPredicatesRoundTrip | lib/valkyrie/persistence/fedora/permissive_schema.rb:13-58 | with nothing configured, the `member_ids`, `id`, `valkyrie_id` and `optimistic_lock_token` predicates lead back to their own names |
| MetadataAdapter.ConnectionPrefix | valkyrie/lib/valkyrie/persistence/fedora/metadata_adapter.rb:30-32 | the options, a slash, then the base path |
| MetadataAdapter.UriToId | valkyrie/lib/valkyrie/persistence/fedora/metadata_adapter.rb:18-20 | on a one-line URI, the text after its last '/'; the whole text when there is none |
| MetadataAdapter.Pairs | valkyrie/lib/valkyrie/persistence/fedora/metadata_adapter.rb:27 | consecutive pieces of two characters, the last of one or two, and no pieces exactly for the empty string |
| MetadataAdapter.PairsConcat | valkyrie/lib/valkyrie/persistence/fedora/metadata_adapter.rb:27 | the pieces put back together spell the input |
| MetadataAdapter.PairPath | valkyrie/lib/valkyrie/persistence/fedora/metadata_adapter.rb:26-28 | the part of the id before its first '-', cut into pairs joined by '/'; NoMethodError exactly when the id is made only of dashes |
| MetadataAdapter.PairPathSpells | valkyrie/lib/valkyrie/persistence/fedora/metadata_adapter.rb:26-28 | with the slashes taken out, the pair path is the id up to its first '-' (slashes taken out too), and it contains no '-' |
| MetadataAdapter.PairPathAbsent | valkyrie/lib/valkyrie/persistence/fedora/metadata_adapter.rb:26-28 | a character other than '/' missing from the id is missing from its pair path |
| MetadataAdapter.IdToUri | valkyrie/lib/valkyrie/persistence/fedora/metadata_adapter.rb:22-24 | the connection prefix, '/', the pair path, '/', then the id; NoMethodError exactly when the pair path raises |
| MetadataAdapter.RoundTrip | valkyrie/lib/valkyrie/persistence/fedora/metadata_adapter.rb:18-24 | `uri_to_id(id_to_uri(id)) == id` for an id that is not all dashes and has no '/', with no line break in the id or the prefix |
| RdfGraph.Add | valkyrie/lib/valkyrie/persistence/fedora/persister/model_converter.rb:46 | `graph << statement` keeps the graph, puts the statement in it, adds nothing else, and keeps each statement once |
| RdfGraph.AddAll | valkyrie/lib/valkyrie/persistence/fedora/persister/model_converter.rb:75-77 | `graph << other_graph` holds exactly the statements of both, extends the first, and keeps each statement once |
| RdfGraph.AddAllDisjoint | valkyrie/lib/valkyrie/persistence/fedora/persister/model_converter.rb:75-77 | adding a repeat-free graph that shares no statement with the first appends it unchanged |
| RdfGraph.NodeIri | valkyrie/lib/valkyrie/persistence/fedora/persister/model_converter.rb:132 | a fresh blank node becomes a fragment IRI starting with '#' |
| RdfGraph.NodeIriInjective | valkyrie/lib/valkyrie/persistence/fedora/persister/model_converter.rb:132 | different node counters give different fragment IRIs |
| RdfGraph.FirstObject | valkyrie/lib/valkyrie/persistence/fedora/persister/model_converter.rb:101-102 | nothing exactly when no statement has the subject and predicate, otherwise the object of the first such statement |
| RdfGraph.ListFrom | valkyrie/lib/valkyrie/persistence/fedora/persister/model_converter.rb:95-97 | every statement of the list from proxy i on is about one of the proxies from i on |
| RdfGraph.ListGraph | valkyrie/lib/valkyrie/persistence/fedora/persister/model_converter.rb:95-97 | every statement of the ordered list is about one of its proxies |
| RdfGraph.Walk | valkyrie/lib/valkyrie/persistence/fedora/persister/model_converter.rb:111-112 | a list that cannot be walked fails with MalformedList and nothing else |
| RdfGraph.Decode | valkyrie/lib/valkyrie/persistence/fedora/persister/model_converter.rb:111-112 | a list that reads back holds at least one element |
| RdfGraph.WalkList | valkyrie/lib/valkyrie/persistence/fedora/persister/model_converter.rb:105-112 | walking a written list from its i-th proxy gives the remaining targets, in any graph that says nothing else about the proxies |
| RdfGraph.DecodeList | valkyrie/lib/valkyrie/persistence/fedora/persister/model_converter.rb:105-112 | reading the list back from its first to its last proxy gives the inserted targets in order |
| Registries.FirstWhere | valkyrie/lib/valkyrie/persistence/fedora/persister/model_converter.rb:80-84 | nothing exactly when no element qualifies, otherwise the first element that qualifies |
| Registries.FirstWhereAt | valkyrie/lib/valkyrie/persistence/fedora/persister/model_converter.rb:80-84 | a qualifying element with none qualifying before it is the one selected |
| ModelConverter.ToUri | valkyrie/lib/valkyrie/persistence/fedora/persister/model_converter.rb:33-35 | the predicate of a key is the key under the predicate prefix |
| ModelConverter.ToTerm | valkyrie/lib/valkyrie/persistence/fedora/persister/model_converter.rb:46 | an RDF term stays as it is, a string becomes a plain literal, an integer an integer literal, a date-time or a time a date-time literal, a symbol the blank node it names; no other value becomes a blank node |
| ModelConverter.PropTriples | valkyrie/lib/valkyrie/persistence/fedora/persister/model_converter.rb:44-49 | one statement per element, in order, about the subject under the key's predicate |
| ModelConverter.ToGraph | valkyrie/lib/valkyrie/persistence/fedora/persister/model_converter.rb:44-77 | the graph of an output holds exactly that output's statements, each once |
| ModelConverter.Dispatch | valkyrie/lib/valkyrie/persistence/fedora/persister/model_converter.rb:83-192 | the mapper picked handles the value; it is the first registered mapper that does, and the fallback exactly when none does |
| ModelConverter.ListOut | valkyrie/lib/valkyrie/persistence/fedora/persister/model_converter.rb:95-103 | every statement of the member list and its `first`/`last` links is about the subject or one of the proxies allocated for it |
| ModelConverter.NestedOut | valkyrie/lib/valkyrie/persistence/fedora/persister/model_converter.rb:122-125 | the result holds exactly the nested graph's statements and the statement linking the subject to the nested node through the key's predicate; it is about the subject or nodes allocated for it, and repeats nothing the nested graph does not |
| ModelConverter.Rewrite | valkyrie/lib/valkyrie/persistence/fedora/persister/model_converter.rb:136-178 | `InternalValkyrieID` makes the URI of the ID (failing as `id_to_uri` does); the two literal mappers make a literal typed `valkyrie_id`; `TimeValue` makes the date-time of the time |
| ModelConverter.Resolve | valkyrie/lib/valkyrie/persistence/fedora/persister/model_converter.rb:16 | a resolved property only adds statements about the subject or nodes allocated while resolving it |
| ModelConverter.Apply | valkyrie/lib/valkyrie/persistence/fedora/persister/model_converter.rb:83-192 | each mapper's result only adds statements about the subject or nodes it allocated |
| ModelConverter.ApplyMembers | valkyrie/lib/valkyrie/persistence/fedora/persister/model_converter.rb:89-93 | the ordered members mapper yields a graph property whose statements are about the subject or its proxies |
| ModelConverter.ApplyNested | valkyrie/lib/valkyrie/persistence/fedora/persister/model_converter.rb:116-133 | the nested property mapper yields a graph property under the subject and key, holding the link to the nested node, whose statements are about the subject or its nodes; a hash `Anything` cannot instantiate raises its TypeError |
| ModelConverter.ResolveEach | valkyrie/lib/valkyrie/persistence/fedora/persister/model_converter.rb:186-191 | each element resolves to one output, in order, adding statements only about the subject or nodes allocated for it |
| ModelConverter.ResolveMembers | valkyrie/lib/valkyrie/persistence/fedora/persister/model_converter.rb:105-109 | each member gets one term and one proxy node, the nodes allocated in increasing order |
| ModelConverter.Convert | valkyrie/lib/valkyrie/persistence/fedora/persister/model_converter.rb:13-28 | the resource's graph is about the subject or nodes allocated for it, holds each statement once, and a present id made only of dashes raises NoMethodError |
| ModelConverter.ConvertEntries | valkyrie/lib/valkyrie/persistence/fedora/persister/model_converter.rb:15-18 | the attribute loop extends the graph, adds statements only about the subject or allocated nodes, and keeps each statement once |
| ModelEncoding.DispatchAt | valkyrie/lib/valkyrie/persistence/fedora/persister/model_converter.rb:80-192 | a mapper that handles the value, with none registered before it doing so, is the one picked |
| ModelEncoding.Rewritten | valkyrie/lib/valkyrie/persistence/fedora/persister/model_converter.rb:136-178 | a rewriting mapper's result is the result of resolving the rewritten value |
| ModelEncoding.PropGraph | valkyrie/lib/valkyrie/persistence/fedora/persister/model_converter.rb:44-49 | `Property#to_graph` holds exactly one statement per element of `Array(value)`, in element order when the elements' terms differ |
| ModelEncoding.PropTriplesHas | valkyrie/lib/valkyrie/persistence/fedora/persister/model_converter.rb:44-49 | the statements of a property are those of its elements, each once when their terms differ |
| ModelEncoding.PlainEncoding | valkyrie/lib/valkyrie/persistence/fedora/persister/model_converter.rb:16-17 | a value no mapper rewrites, outside `member_ids`, is stored as the single statement with its literal as object |
| ModelEncoding.NoneHandles | valkyrie/lib/valkyrie/persistence/fedora/persister/model_converter.rb:83-192 | a value that is not a tagged hash, an array, an ID or a time, outside a non-empty `member_ids`, goes to the fallback |
| ModelEncoding.IdAsLiteral | valkyrie/lib/valkyrie/persistence/fedora/persister/model_converter.rb:136-145 | an ID under a blank-node subject, or one containing "://", is stored as a literal typed `valkyrie_id` |
| ModelEncoding.IdAsUri | valkyrie/lib/valkyrie/persistence/fedora/persister/model_converter.rb:147-156 | any other ID is stored as the URI `id_to_uri` gives it, and an ID made only of dashes raises NoMethodError |
| ModelEncoding.TimeEncoding | valkyrie/lib/valkyrie/persistence/fedora/persister/model_converter.rb:158-167 | a time is stored as the single statement holding its date-time literal |
| ModelEncoding.SymbolEncoding | valkyrie/lib/valkyrie/persistence/fedora/persister/model_converter.rb:46 | a symbol is stored as one statement whose object is the blank node it names |
| ModelEncoding.NestedEncoding | valkyrie/lib/valkyrie/persistence/fedora/persister/model_converter.rb:116-133 | a hash naming its `internal_resource` (outside `member_ids`) is converted, as the resource `Anything` makes of it, under the fresh node, and the property's statements are exactly that graph's plus the link from the subject to the node |
| ModelEncoding.NestedFails | valkyrie/lib/valkyrie/persistence/fedora/persister/model_converter.rb:128-130 | such a hash raises the cast's TypeError when `Anything` cannot instantiate it, and the model answers StackExhausted when no nesting depth is left |
| ModelEncoding.PlainElements | valkyrie/lib/valkyrie/persistence/fedora/persister/model_converter.rb:186-191 | an array of plain values resolves element by element, and its statements are the elements' statements in order |
| ModelEncoding.PlainArrayEncoding | valkyrie/lib/valkyrie/persistence/fedora/persister/model_converter.rb:180-192 | an array of plain values outside `member_ids` gives one statement per element, in order |
| ModelEncoding.NoMembers | valkyrie/lib/valkyrie/persistence/fedora/persister/model_converter.rb:85-87 | empty `member_ids` (nil, [] or {}) succeeds and adds no statement, so no `first` or `last` |
| ModelEncoding.ListOutShape | valkyrie/lib/valkyrie/persistence/fedora/persister/model_converter.rb:99-103 | `iana:first` and `iana:last` point at the first and last proxy, and the list between them reads back the targets in order |
| ModelEncoding.NodesDistinct | valkyrie/lib/valkyrie/persistence/fedora/persister/model_converter.rb:132 | proxies allocated on increasing counters have distinct IRIs |
| ModelEncoding.ListNotAbout | valkyrie/lib/valkyrie/persistence/fedora/persister/model_converter.rb:95-97 | no statement of the proxy list is about a subject that is not a blank node |
| ModelEncoding.MemberTerm | valkyrie/lib/valkyrie/persistence/fedora/persister/model_converter.rb:147-156 | a member ID containing "://" is stored as a literal typed `valkyrie_id`, any other as its `id_to_uri` URI |
| ModelEncoding.MembersResolved | valkyrie/lib/valkyrie/persistence/fedora/persister/model_converter.rb:105-109 | each member ID gets its stored term, in order, and consecutive counters as proxy nodes |
| ModelEncoding.MembersApplied | valkyrie/lib/valkyrie/persistence/fedora/persister/model_converter.rb:89-103 | the ordered members mapper builds the list of the members' terms on consecutive counters from the next free one |
| ModelEncoding.MemberListShape | valkyrie/lib/valkyrie/persistence/fedora/persister/model_converter.rb:99-109 | `iana:first` and `iana:last` of the member list lead back to the members' terms in order |
| ModelEncoding.MemberIdsEncoding | valkyrie/lib/valkyrie/persistence/fedora/persister/model_converter.rb:83-114 | a non-empty array of member IDs under a subject that is not a blank node resolves, takes one counter per member, and its `first`/`last` links lead back to the members' terms in order |
| OrmConverter.Index | valkyrie/lib/valkyrie/persistence/fedora/persister/orm_converter.rb:48-253 | a registered mapper is located at its place in registration order, and `FedoraValue` after all of them |
| OrmConverter.Dispatch | valkyrie/lib/valkyrie/persistence/fedora/persister/orm_converter.rb:39 | the mapper `FedoraValue.for` picks handles the statement |
| OrmConverter.DispatchFirst | valkyrie/lib/valkyrie/persistence/fedora/persister/orm_converter.rb:48-253 | no mapper registered after one that handles the statement is picked (first match in registration order) |
| OrmConverter.DispatchPast | valkyrie/lib/valkyrie/persistence/fedora/persister/orm_converter.rb:54-113 | a statement reaches `NestedValue` or a decoding mapper only if it is about the resource itself and is not a list head |
| OrmConverter.Decoded | valkyrie/lib/valkyrie/persistence/fedora/persister/orm_converter.rb:162-220 | a decoding mapper replaces the object by a Ruby value, never an RDF term, and it is an ID exactly for `ValkyrieIDValue` and `InternalURI` |
| OrmConverter.StripLine | valkyrie/lib/valkyrie/persistence/fedora/persister/orm_converter.rb:275 | stripping a namespace from one line leaves a suffix of the line |
| OrmConverter.StripNs | valkyrie/lib/valkyrie/persistence/fedora/persister/orm_converter.rb:275 | on text without a line break, `gsub(/^ns/, '')` strips one match at the start |
| OrmConverter.CastArray | valkyrie/lib/valkyrie/persistence/fedora/persister/orm_converter.rb:287-293 | a `Time` becomes a one-element array, anything else goes through `Kernel#Array` |
| OrmConverter.AppendTo | valkyrie/lib/valkyrie/persistence/fedora/persister/orm_converter.rb:266-270 | a blacklisted key leaves the hash alone; otherwise the key's array (new when unset, nil or false) grows by the object cast to an array, and every other key is unchanged; a stored value that cannot take `+ array` raises |
| OrmConverter.ApplyTo | valkyrie/lib/valkyrie/persistence/fedora/persister/orm_converter.rb:255-325 | the null applicator changes nothing; `SingleApplicator` stores the object's text and `NonStringSingleApplicator` the object itself under the key, leaving every other key unchanged |
| OrmConverter.ApplyAll | valkyrie/lib/valkyrie/persistence/fedora/persister/orm_converter.rb:82-87 | a composite of no parts changes nothing |
| OrmConverter.Renamed | valkyrie/lib/valkyrie/persistence/fedora/persister/orm_converter.rb:124-128 | the nested graph has at most as many statements as the scope |
| OrmConverter.NestedScope | valkyrie/lib/valkyrie/persistence/fedora/persister/orm_converter.rb:124-128 | the nested graph holds exactly the renamed fragment statements, each once |
| OrmConverter.RenamedShorter | valkyrie/lib/valkyrie/persistence/fedora/persister/orm_converter.rb:124-128 | a scope with a statement about a non-fragment has fewer fragment statements than statements |
| OrmConverter.AddAllSize | valkyrie/lib/valkyrie/persistence/fedora/persister/orm_converter.rb:127 | adding statements to a graph grows it by at most their number |
| OrmConverter.NestedSmaller | valkyrie/lib/valkyrie/persistence/fedora/persister/orm_converter.rb:115-139 | the nested resource's graph is smaller than the scope it is cut from, so nested reading ends |
| OrmConverter.Resolve | valkyrie/lib/valkyrie/persistence/fedora/persister/orm_converter.rb:39 | the applicator a statement resolves to writes only under that statement's own key (or `member_ids` for a list head) |
| OrmConverter.Apply | valkyrie/lib/valkyrie/persistence/fedora/persister/orm_converter.rb:48-253 | each mapper's applicator writes only under the statement's own key |
| OrmConverter.ApplyMembers | valkyrie/lib/valkyrie/persistence/fedora/persister/orm_converter.rb:97-104 | `MemberID` yields an applicator that writes only under `member_ids` |
| OrmConverter.ResolveAll | valkyrie/lib/valkyrie/persistence/fedora/persister/orm_converter.rb:100-102 | each list member resolves to one applicator, all of them writing under `member_ids` |
| OrmConverter.ApplyNested | valkyrie/lib/valkyrie/persistence/fedora/persister/orm_converter.rb:123-131 | `NestedValue` yields an applicator that writes only under the statement's key |
| OrmConverter.Attributes | valkyrie/lib/valkyrie/persistence/fedora/persister/orm_converter.rb:37-42 | reading no statements leaves the attributes as they were |
| OrmConverter.IdProperty | valkyrie/lib/valkyrie/persistence/fedora/persister/orm_converter.rb:25-28 | there is an id property exactly when the subject is a fragment |
| OrmConverter.IdOf | valkyrie/lib/valkyrie/persistence/fedora/persister/orm_converter.rb:21-23 | the converter's id is always an ID |
| OrmDecoding.KeyOfUriFor | valkyrie/lib/valkyrie/persistence/fedora/persister/orm_converter.rb:272-278 | a predicate made up under the predicate prefix is read back under its own name, when the name holds no line break |
| OrmDecoding.KeyOfOwn | valkyrie/lib/valkyrie/persistence/fedora/persister/orm_converter.rb:272-278 | a one-line predicate under none of the three namespaces is its own key |
| OrmDecoding.KeyOfIana | valkyrie/lib/valkyrie/persistence/fedora/persister/orm_converter.rb:280-300 | the list predicates are their own keys; `iana:first`'s is kept and `iana:last`'s is blacklisted |
| OrmDecoding.KeyOfClassPredicates | valkyrie/lib/valkyrie/persistence/fedora/persister/orm_converter.rb:272-300 | `member_ids`, `internal_resource`, `created_at` and `updated_at` are read under their own names, none blacklisted |
| OrmDecoding.UriForOrdinary | valkyrie/lib/valkyrie/persistence/fedora/persister/orm_converter.rb:222-253 | a made-up predicate goes to no singular mapper unless it names `internal_resource`, `created_at` or `updated_at` |
| OrmDecoding.ApplyFrame | valkyrie/lib/valkyrie/persistence/fedora/persister/orm_converter.rb:255-325 | an applicator changes nothing but the key it writes under, and the null applicator nothing at all |
| OrmDecoding.AppendFrame | valkyrie/lib/valkyrie/persistence/fedora/persister/orm_converter.rb:266-270 | an appending applicator changes nothing but its own key |
| OrmDecoding.ApplyAllFrame | valkyrie/lib/valkyrie/persistence/fedora/persister/orm_converter.rb:82-87 | a composite of member applicators changes nothing but `member_ids` |
| OrmDecoding.BlacklistedKeyDropped | valkyrie/lib/valkyrie/persistence/fedora/persister/orm_converter.rb:267 | a statement whose key is blacklisted leaves the attributes as they were |
| OrmDecoding.IgnoredStatement | valkyrie/lib/valkyrie/persistence/fedora/persister/orm_converter.rb:54-74 | a statement about a fragment, or whose object's text starts like an LDP or Fedora term, resolves to the null applicator |
| OrmDecoding.IgnoredStep | valkyrie/lib/valkyrie/persistence/fedora/persister/orm_converter.rb:38-40 | such a statement leaves the attributes unchanged |
| OrmDecoding.FragmentsSkipped | valkyrie/lib/valkyrie/persistence/fedora/persister/orm_converter.rb:65-74 | a run of statements about fragments adds nothing to the attributes |
| OrmDecoding.AttributesSplit | valkyrie/lib/valkyrie/persistence/fedora/persister/orm_converter.rb:37-42 | reading statements i..k is reading i..j and then j..k from what that left, an error stopping the read |
| OrmDecoding.ReadAlone | valkyrie/lib/valkyrie/persistence/fedora/persister/orm_converter.rb:287-293 | a decoded literal is a single value to `cast_array` |
| OrmDecoding.IntReadable | valkyrie/lib/valkyrie/persistence/fedora/persister/orm_converter.rb:162-172 | every integer literal decodes and never looks like a server term |
| OrmDecoding.LiteralRead | valkyrie/lib/valkyrie/persistence/fedora/persister/orm_converter.rb:162-208 | a readable literal of an ordinary statement about the resource resolves to appending its decoded value |
| OrmDecoding.LiteralDispatch | valkyrie/lib/valkyrie/persistence/fedora/persister/orm_converter.rb:162-208 | a readable literal goes to a decoding mapper, which decodes it as `ReadLiteral` does |
| OrmDecoding.DecodedDispatch | valkyrie/lib/valkyrie/persistence/fedora/persister/orm_converter.rb:48-52 | a decoded object that does not look like a server term goes to `FedoraValue` |
| OrmDecoding.AttributesCons | valkyrie/lib/valkyrie/persistence/fedora/persister/orm_converter.rb:38-40 | reading goes on from the next statement with what the first left |
| OrmDecoding.LiteralStep | valkyrie/lib/valkyrie/persistence/fedora/persister/orm_converter.rb:266-270 | one readable literal of an ordinary property is appended to that property's array |
| OrmDecoding.PropertyRead | valkyrie/lib/valkyrie/persistence/fedora/persister/orm_converter.rb:37-42 | a run of readable literals for one property appends their decoded values to the property's array, in statement order |
| OrmMembers.ReadableStorable | valkyrie/lib/valkyrie/persistence/fedora/metadata_adapter.rb:26-28 | member IDs that can be read back can also be stored |
| OrmMembers.UriDispatch | valkyrie/lib/valkyrie/persistence/fedora/persister/orm_converter.rb:210-220 | a member stored as a URI under the connection prefix goes to `InternalURI` |
| OrmMembers.MemberRead | valkyrie/lib/valkyrie/persistence/fedora/persister/orm_converter.rb:100-102 | a member's term, resolved as a `member_ids` statement, appends the member's ID |
| OrmMembers.MemberUriRead | valkyrie/lib/valkyrie/persistence/fedora/persister/orm_converter.rb:210-220 | a URI under the connection resolves to appending the ID `uri_to_id` gives |
| OrmMembers.MembersResolved | valkyrie/lib/valkyrie/persistence/fedora/persister/orm_converter.rb:99-102 | each member term resolves to its appending applicator, in list order |
| OrmMembers.MembersApplied | valkyrie/lib/valkyrie/persistence/fedora/persister/orm_converter.rb:82-87 | the member applicators append the IDs, in order, to `member_ids` |
| OrmMembers.HeadResolve | valkyrie/lib/valkyrie/persistence/fedora/persister/orm_converter.rb:97-112 | the list head of a list of readable members resolves to the members' appending applicators, in list order |
| OrmMembers.HeadDispatch | valkyrie/lib/valkyrie/persistence/fedora/persister/orm_converter.rb:93-95 | a list head about the resource itself goes to `MemberID` |
| OrmMembers.HeadStep | valkyrie/lib/valkyrie/persistence/fedora/persister/orm_converter.rb:37-40 | reading a list head appends the member IDs, in list order, to `member_ids` |
| OrmMembers.ListOutHead | valkyrie/lib/valkyrie/persistence/fedora/persister/model_converter.rb:99-103 | the stored `iana:first` points at a fragment node, which does not look like a server term |
| OrmMembers.HeadsRead | valkyrie/lib/valkyrie/persistence/fedora/persister/orm_converter.rb:93-112 | in a graph whose head leads to the member terms, every head statement for the subject appends the member IDs in order |
| OrmMembers.StoredHeads | valkyrie/lib/valkyrie/persistence/fedora/persister/model_converter.rb:99-103 | the stored list heads point at no server term |
| OrmMembers.MemberIdsRoundTrip | valkyrie/lib/valkyrie/persistence/fedora/persister/orm_converter.rb:90-113 | a non-empty list of readable member IDs stored by the model converter is read back as the same IDs, in the same order |
| OrmIdentity.IdOfStored | valkyrie/lib/valkyrie/persistence/fedora/persister/orm_converter.rb:21-23 | a resource read from the URI made from an ID gets that ID back |
| OrmIdentity.IdOfNested | valkyrie/lib/valkyrie/persistence/fedora/persister/orm_converter.rb:21-28 | a nested resource takes the text of its first `id` statement as its ID, or when that is blank the ID its subject names |
| OrmIdentity.IdOfNestedLiteral | valkyrie/lib/valkyrie/persistence/fedora/persister/orm_converter.rb:21-28 | a `valkyrie_id` literal under the `id` predicate gives the nested resource that ID |
| OrmIdentity.ConvertIdLast | valkyrie/lib/valkyrie/persistence/fedora/persister/orm_converter.rb:12-19 | the hash handed to `Anything` holds the converter's id under `id`, whatever the statements said, and every other key as read; a read error is the result |
| OrmRoundTrip.TermRead | valkyrie/lib/valkyrie/persistence/fedora/persister/orm_converter.rb:162-208 | the literal written for a restorable value decodes and is readable; it reads back as the value itself, except that a `DateTime` reads back as a `Time` in UTC at the same instant |
| OrmRoundTrip.TermsRead | valkyrie/lib/valkyrie/persistence/fedora/persister/orm_converter.rb:162-208 | the terms written for restorable values decode, in order, to the values as read back |
| OrmRoundTrip.PlainRead | valkyrie/lib/valkyrie/persistence/fedora/persister/orm_converter.rb:37-42 | reading the statements of a plain property appends the values, as read back, to the key's array |
| OrmRoundTrip.RunRead | valkyrie/lib/valkyrie/persistence/fedora/persister/orm_converter.rb:37-42 | a run of literals decoding to values reads back as those values |
| OrmRoundTrip.WrittenRun | valkyrie/lib/valkyrie/persistence/fedora/persister/model_converter.rb:44-49 | the statements written for restorable values are a run of readable literals decoding to the values as read back |
| OrmRoundTrip.PlainWritten | valkyrie/lib/valkyrie/persistence/fedora/persister/model_converter.rb:180-192 | an array of restorable values outside `member_ids` is written one statement per value |
| OrmRoundTrip.PlainRoundTrip | valkyrie/lib/valkyrie/persistence/fedora/persister/orm_converter.rb:37-42 | an array of restorable values under an ordinary key, written by the model converter, is read back into the key's array in order |
| Dates.AtUtc | lib/valkyrie/persistence/memory/persister.rb:80-81 | the same instant at offset 0, as a `Time` exactly when dates are normalised to `Time` |
| Dates.NormalizeDateValue | lib/valkyrie/persistence/memory/persister.rb:79-83 | the result is a UTC value of the persister's date class: a `DateTime` or `Time` becomes the same instant in UTC in that class, anything else is kept |
| Dates.NormalizeDateValues | lib/valkyrie/persistence/memory/persister.rb:74-77 | an array keeps its length and every element is normalised; any other value is normalised alone; either way the result is in UTC |
| Dates.NormalizeIdempotent | lib/valkyrie/persistence/memory/persister.rb:74-83 | normalising twice is normalising once |
| Dates.NormalizeFixpoint | lib/valkyrie/persistence/memory/persister.rb:74-83 | a value already in UTC, of the persister's class, is left as it is |
| Dates.CoerceKeepsUtc | lib/valkyrie/resource.rb:166-168 | re-assigning a normalised value through its attribute's type keeps it normalised, whatever the type, when the type's defaults hold no date |
| Dates.NormalizeEach | lib/valkyrie/persistence/memory/persister.rb:70-72 | each attribute of the snapshot is assigned its normalised value through its setter, names not in the snapshot keep their values, and the class and validity are kept |
| Dates.NormalizeDates | lib/valkyrie/persistence/memory/persister.rb:70-72 | normalisation keeps the class and keeps the resource valid |
| Dates.NormalizedGet | lib/valkyrie/persistence/memory/persister.rb:70-72 | afterwards a present attribute holds its old value, normalised and coerced again by its type |
| Dates.NormalizeDatesUtc | lib/valkyrie/persistence/memory/persister.rb:69-83 | afterwards every date an attribute holds, alone or inside an array, is of the persister's class and in UTC |
| MemoryPersister.TokenFor | lib/valkyrie/persistence/memory/persister.rb:101-104 | nil and false read as the empty list; an array is searched from the left for the adapter's token; only a non-token met first raises NoMethodError |
| MemoryPersister.FindToken | lib/valkyrie/persistence/memory/persister.rb:102 | the token found is the first with the adapter's id, and every element before it is a token of another adapter; nothing found means every element is such a token; a list of tokens never raises |
| MemoryPersister.ValidLock | lib/valkyrie/persistence/memory/persister.rb:95-108 | the save may go ahead without locking, or with nothing cached under the id; otherwise exactly when the incoming resource has no token of this adapter or its token equals the cached one |
| MemoryPersister.Stamp | lib/valkyrie/persistence/memory/persister.rb:28-31 | the bookkeeping steps keep the class and keep the resource valid |
| MemoryPersister.StampId | lib/valkyrie/persistence/memory/persister.rb:65-67 | `generate_id` keeps the class and validity |
| MemoryPersister.StampCreated | lib/valkyrie/persistence/memory/persister.rb:29 | `created_at ||= now` keeps the class and validity |
| MemoryPersister.Finish | lib/valkyrie/persistence/memory/persister.rb:32-33 | writing the token and normalising keep the class and validity |
| MemoryPersister.WithToken | lib/valkyrie/persistence/memory/persister.rb:90-91 | writing the token keeps the class and validity |
| MemoryPersister.Save | lib/valkyrie/persistence/memory/persister.rb:22-35 | a stale resource raises StaleObjectError and leaves the store alone; a failing lock check leaves the store alone; a success stores the result under its id, records the new token under the id, keeps the class and validity, and never drops a cached id |
| MemoryPersister.SaveAll | lib/valkyrie/persistence/memory/persister.rb:42-49 | a successful batch returns one resource per input, each of its input's class; no cached id is dropped; a stale first resource stops the batch with StaleObjectError and the store unchanged |
| MemoryPersister.Delete | lib/valkyrie/persistence/memory/persister.rb:54-56 | only the entry under the resource's id goes; every other entry and the issued tokens stay |
| MemoryPersister.Wipe | lib/valkyrie/persistence/memory/persister.rb:59-61 | the cache and the issued tokens are empty afterwards |
| MemoryPersister.InheritedStandard | lib/valkyrie/resource.rb:35-43 | every freshly defined class has the bookkeeping attributes as `Resource` declares them |
| MemoryPersister.InheritedUnlocked | lib/valkyrie/resource.rb:94-100 | a freshly defined class does not have locking enabled |
| MemoryPersister.EnableLockingStandard | lib/valkyrie/resource.rb:90-92 | enabling locking keeps a class's bookkeeping attributes as they were |
| MemoryPersister.DeclareStandard | lib/valkyrie/resource.rb:56-68 | declaring an application attribute whose default holds no date keeps them too |
| MemoryPersister.SetNominal | lib/valkyrie/resource.rb:166-168 | an attribute typed as a plain optional value, or a plain value with a default, stores any non-nil value as given |
| MemoryPersister.StampFacts | lib/valkyrie/persistence/memory/persister.rb:28-31 | on a standard class the bookkeeping steps succeed: a blank id becomes the fresh id and a present one stays, a present `created_at` stays and an absent one is the clock read, `updated_at` is the clock read, `new_record` is false, and nothing else changes |
| MemoryPersister.LockTokenCast | lib/valkyrie/resource.rb:90-92 | the lock attribute's type turns a token, or a list of just that token, into the list of just that token |
| MemoryPersister.WithTokenFacts | lib/valkyrie/persistence/memory/persister.rb:86-92 | with locking enabled the token is written into the lock attribute, and nothing else changes |
| MemoryPersister.SaveSteps | lib/valkyrie/persistence/memory/persister.rb:26-34 | a successful save is the stamped resource with its token, normalised |
| MemoryPersister.SaveId | lib/valkyrie/persistence/memory/persister.rb:28-34 | a blank id comes back as the fresh id and a present one unchanged, and the token is recorded under the returned id |
| MemoryPersister.Prepared | lib/valkyrie/persistence/memory/persister.rb:28-33 | the prepared resource keeps its class |
| MemoryPersister.SavePrepared | lib/valkyrie/persistence/memory/persister.rb:22-35 | a successful save returns the prepared resource |
| MemoryPersister.PreparedCreatedSet | lib/valkyrie/persistence/memory/persister.rb:29-33 | a resource without `created_at` gets the clock read, in UTC, as a `DateTime` |
| MemoryPersister.PreparedCreatedKept | lib/valkyrie/persistence/memory/persister.rb:29-33 | a resource with `created_at` keeps it, normalised |
| MemoryPersister.PreparedUpdated | lib/valkyrie/persistence/memory/persister.rb:30-33 | `updated_at` is the clock read in UTC, and the resource is persisted |
| MemoryPersister.SaveCreated | lib/valkyrie/persistence/memory/persister.rb:29-34 | a saved resource's `created_at` is the clock read in UTC when it had none, otherwise its own, normalised |
| MemoryPersister.SaveUpdated | lib/valkyrie/persistence/memory/persister.rb:30-34 | a saved resource's `updated_at` is the clock read in UTC, and it is persisted |
| MemoryPersister.SaveLockAndDates | lib/valkyrie/persistence/memory/persister.rb:32-34 | the saved lock attribute holds just the new token when locking is enabled and is nil otherwise, and every date in the result is a UTC `DateTime` |
| MemoryPersister.SavedIsCurrent | lib/valkyrie/persistence/memory/persister.rb:95-108 | handing a saved resource straight back passes the lock check |
| MemoryPersister.OutdatedCopyIsStale | lib/valkyrie/persistence/memory/persister.rb:95-108 | once a save of an id has issued a new token, a copy holding an older token of this adapter is stale: saving it raises StaleObjectError and leaves the store alone |
| MemoryPersister.StaleAgainstCached | lib/valkyrie/persistence/memory/persister.rb:101-107 | the lock check fails when the cached resource holds just one token of this adapter and the incoming one holds another |
| MemoryPersister.SaveAllCached | lib/valkyrie/persistence/memory/persister.rb:42-45 | every resource a successful batch returns is in the cache under its id afterwards |
| MemoryPersister.SaveAllNoRollback | lib/valkyrie/persistence/memory/persister.rb:42-49 | once the first save of a batch succeeds, its result stays cached whatever happens to the rest |
| LegacyPersister.GenerateId | valkyrie/lib/valkyrie/persistence/memory/persister.rb:39-42 | `generate_id` keeps the class and validity |
| LegacyPersister.Touch | valkyrie/lib/valkyrie/persistence/memory/persister.rb:16-17 | the steps before normalisation keep the class and validity |
| LegacyPersister.Save | valkyrie/lib/valkyrie/persistence/memory/persister.rb:15-20 | a success stores the model under its id, replacing what was there, and returns it; a failure leaves the cache alone; no cached id is dropped; the class and validity are kept |
| LegacyPersister.SaveAll | valkyrie/lib/valkyrie/persistence/memory/persister.rb:25-29 | a successful batch returns one model per input, each of its input's class, and no cached id is dropped |
| LegacyPersister.Delete | valkyrie/lib/valkyrie/persistence/memory/persister.rb:33-35 | only the entry under the model's id goes |
| LegacyPersister.NormalizedOptional | valkyrie/lib/valkyrie/persistence/memory/persister.rb:44-46 | normalising leaves a plain optional attribute holding its value, normalised |
| LegacyPersister.TouchNew | valkyrie/lib/valkyrie/persistence/memory/persister.rb:16-17 | a blank id becomes the fresh id and sets `created_at`, and `updated_at` is set |
| LegacyPersister.TouchExisting | valkyrie/lib/valkyrie/persistence/memory/persister.rb:16-17 | a present id leaves the id and `created_at` alone, and `updated_at` is set |
| LegacyPersister.SaveNew | valkyrie/lib/valkyrie/persistence/memory/persister.rb:15-20 | a model saved with a blank id comes back with the fresh id and the first clock read, in UTC, as `created_at` |
| LegacyPersister.SaveExisting | valkyrie/lib/valkyrie/persistence/memory/persister.rb:15-20 | a model with an id keeps it, and its `created_at` only goes through normalisation |
| LegacyPersister.SaveUpdatedAndDates | valkyrie/lib/valkyrie/persistence/memory/persister.rb:15-20 | every save sets `updated_at` to the last clock read in UTC, and leaves every date as a `Time` in UTC, never a `DateTime` |
| LegacyPersister.SaveAllCached | valkyrie/lib/valkyrie/persistence/memory/persister.rb:25-29 | every model of a successful batch is in the cache under its id afterwards |
| LegacyPersister.SaveAllHead | valkyrie/lib/valkyrie/persistence/memory/persister.rb:25-29 | a successful batch starts with the first model's save and goes on with the rest, on the cache the first save left |
| FedoraQuery.ValidateId | lib/valkyrie/persistence/fedora/query_service.rb:148-151 | a String or an ID passes, as its text, and anything else raises ArgumentError |
| FedoraQuery.FindBy | lib/valkyrie/persistence/fedora/query_service.rb:14-19 | an id that is neither String nor ID raises ArgumentError; the lookup succeeds exactly when the id validates, its URI can be made and the resource is there, and then gives that resource; a resource that is gone or missing raises ObjectNotFoundError |
| FedoraQuery.FindEach | lib/valkyrie/persistence/fedora/query_service.rb:64-66 | every id is looked up, in order; the whole succeeds exactly when every lookup does and then holds one resource per id; otherwise the error is that of the first failing id |
| FedoraQuery.Collect | lib/valkyrie/persistence/fedora/query_service.rb:33-39 | the found resources are looked up from the ids and are no more than the ids; ObjectNotFoundError is never raised |
| FedoraQuery.FindManyByIds | lib/valkyrie/persistence/fedora/query_service.rb:31-40 | never more resources than ids, and ObjectNotFoundError is never raised |
| FedoraQuery.CollectAppend | lib/valkyrie/persistence/fedora/query_service.rb:33-39 | the lookups of a concatenation are those of each part, in order, the first failure winning |
| FedoraQuery.MissingSkipped | lib/valkyrie/persistence/fedora/query_service.rb:36-37 | a missing id anywhere in the input leaves no trace in the result |
| FedoraQuery.CollectAllFound | lib/valkyrie/persistence/fedora/query_service.rb:33-39 | when every id is found, the result is one resource per id, in input order |
| FedoraQuery.FindManyRepeated | lib/valkyrie/persistence/fedora/query_service.rb:31-40 | with results standardized, asking twice for the same ids gives what asking once does; without, every found id counts each time it is asked for |
| FedoraQuery.OfModel | lib/valkyrie/persistence/fedora/query_service.rb:67-68 | without a model everything is kept; with one, exactly the resources of that class are kept |
| FedoraQuery.FindMembers | lib/valkyrie/persistence/fedora/query_service.rb:62-69 | a class without `member_ids` gives nothing; otherwise the query succeeds exactly when every member lookup does, and every member returned is of the model when one is given |
| FedoraQuery.MembersInOrder | lib/valkyrie/persistence/fedora/query_service.rb:62-69 | without a model there is one member per id, each the lookup of its id, in `member_ids` order; with one, the same list narrowed to the model |
| FedoraQuery.ReferencedIds | lib/valkyrie/persistence/fedora/query_service.rb:91 | an array gives exactly its IDs; nil, false or a hash gives nothing; every result is an ID |
| FedoraQuery.FindReferencesBy | lib/valkyrie/persistence/fedora/query_service.rb:90-94 | nil gives nothing; an array gives the lookups of its IDs in attribute order |
| FedoraQuery.ReferencesSkipOthers | lib/valkyrie/persistence/fedora/query_service.rb:91 | values other than IDs in the property are never looked up, wherever they sit |
| FedoraQuery.StripFragment | lib/valkyrie/persistence/fedora/query_service.rb:45 | on one line, `gsub(/#.*/, '')` keeps the text before the first '#' |
| FedoraQuery.Referrers | lib/valkyrie/persistence/fedora/query_service.rb:133 | the ids of the subjects of exactly the matching statements, no more than there are statements |
| FedoraQuery.Standardized | lib/valkyrie/persistence/fedora/query_service.rb:46 | the same ids, without duplicates when results are standardized, and untouched otherwise |
| FedoraQuery.FindParents | lib/valkyrie/persistence/fedora/query_service.rb:43-50 | `find_parents` needs the resource's URI and gives one parent per (standardized) subject of a proxy statement in the fetched graph |
| FedoraQuery.FoundMembers | lib/valkyrie/persistence/fedora/query_service.rb:47-49 | the resources found for some ids are exactly the lookups of those ids |
| FedoraQuery.ParentsMembers | lib/valkyrie/persistence/fedora/query_service.rb:43-50 | `find_parents` returns a resource exactly when it is what `find_by` gives for the subject of some proxy statement in the fetched graph |
| FedoraQuery.ProxySubjectNamesParent | lib/valkyrie/persistence/fedora/query_service.rb:45 | a proxy subject that is a parent's URI with a fragment names that parent |
| FedoraQuery.OrderedProperty | lib/valkyrie/persistence/fedora/query_service.rb:171-173 | an undeclared property raises NoMethodError; a declared one gives its declaration's `ordered` flag |
| FedoraQuery.Includes | lib/valkyrie/persistence/fedora/query_service.rb:142 | an array answers whether it holds the id; anything else (nil included) raises NoMethodError |
| FedoraQuery.FindSelect | lib/valkyrie/persistence/fedora/query_service.rb:142 | succeeds exactly when every id is found and its property is an array; a resource is kept exactly when it is the lookup of one of the ids and its property includes the resource's id |
| FedoraQuery.SelectHolders | lib/valkyrie/persistence/fedora/query_service.rb:142 | a successful select equals looking every id up and keeping, in id order, the resources whose property includes the id |
| FedoraQuery.FindInverseReferencesBy | lib/valkyrie/persistence/fedora/query_service.rb:114-121 | an unsaved resource raises ArgumentError; an undeclared property raises NoMethodError; for an ordered property every referrer holds the resource's id under the property |
| FedoraQuery.OrderedReferrers | lib/valkyrie/persistence/fedora/query_service.rb:138-143 | for an ordered property the query asks for one id per proxy statement for the resource, each once when results are standardized, and keeps in that order exactly the lookups whose property includes the resource's id |
| FedoraQuery.UnorderedReferrers | lib/valkyrie/persistence/fedora/query_service.rb:130-136 | for an unordered property the query looks up, in order, one id per statement pointing at the resource through the property's predicate, each once when results are standardized |
| PostgresOrm.Literal | lib/valkyrie/persistence/postgres/orm/resource.rb:38 | a string becomes a literal tagged with the language (none for nil), and an integer an integer literal |
| PostgresOrm.PgValue | lib/valkyrie/persistence/postgres/orm/resource.rb:29-75 | a scalar is returned as it is; an array is mapped to an array of the same length; a hash that no earlier handler takes is mapped pair by pair into an array of the same length |
| PostgresOrm.PgValues | lib/valkyrie/persistence/postgres/orm/resource.rb:70-74 | mapping an array keeps its length |
| PostgresOrm.PgPairs | lib/valkyrie/persistence/postgres/orm/resource.rb:70-74 | mapping a hash gives one element per pair |
| PostgresOrm.PgValuesAt | lib/valkyrie/persistence/postgres/orm/resource.rb:70-74 | each element is mapped in its own place |
| PostgresOrm.HandlerOrder | lib/valkyrie/persistence/postgres/orm/resource.rb:31-62 | a hash with a truthy "@value" becomes a literal with its "@language"; otherwise one with a truthy "id" becomes an ID; otherwise one with a truthy "@id" becomes a URI |
| PostgresOrm.PgValueSettles | lib/valkyrie/persistence/postgres/orm/resource.rb:29-75 | the mapper leaves no hash behind, and mapping its result again changes nothing |
| PostgresOrm.RdfMetadata | lib/valkyrie/persistence/postgres/orm/resource.rb:21-27 | the result has the metadata's keys, in order |
| PostgresOrm.RdfMetadataLookup | lib/valkyrie/persistence/postgres/orm/resource.rb:21-27 | a key of the metadata finds its mapped value, and a key the metadata lacks finds nothing |
| PostgresOrm.MergeStrUnique | lib/valkyrie/persistence/postgres/orm/resource.rb:8 | merging two string-keyed hashes keeps the keys unique and string-keyed |
| PostgresOrm.SymEntriesUnique | lib/valkyrie/persistence/postgres/orm/resource.rb:8 | distinct string keys stay distinct as symbols |
| PostgresOrm.AllAttributesLookup | lib/valkyrie/persistence/postgres/orm/resource.rb:7-9 | `all_attributes` holds under a name the mapped metadata value when the metadata has the name and the column value otherwise, and holds no string key |
| PostgresOrm.FindOrInitialize | valkyrie/lib/valkyrie/persistence/postgres/resource_factory.rb:23 | the row carries the identifier; it is a row of the table when one exists, and otherwise a new row with empty metadata |
| PostgresOrm.FromModel | valkyrie/lib/valkyrie/persistence/postgres/resource_factory.rb:16-28 | IllegalOperation is raised exactly when `created_at` is blank, the id is present and a row with that identifier exists; otherwise the row carries the id's text and the resource's `internal_model` |
| PostgresOrm.FromModelMetadata | valkyrie/lib/valkyrie/persistence/postgres/resource_factory.rb:26 | the saved row's metadata holds the resource's value under each attribute it has, except the bookkeeping ones, and keeps the existing row's value everywhere else |
| PostgresOrm.ResaveAllowed | valkyrie/lib/valkyrie/persistence/postgres/resource_factory.rb:17 | saving a resource that already has `created_at` never raises |
| PostgresQuery.Load | valkyrie/lib/valkyrie/persistence/postgres/query_service.rb:64-68 | one resource per row, each built from its row, in order |
| PostgresQuery.AtMostOne | valkyrie/lib/valkyrie/persistence/postgres/query_service.rb:26-30 | under the primary key at most one row has an id, and it is the row with that id |
| PostgresQuery.FindBy | valkyrie/lib/valkyrie/persistence/postgres/query_service.rb:26-30 | the lookup succeeds exactly when the id's text spells a UUID that a row has, and gives the resource built from such a row; otherwise ObjectNotFoundError, also for an id that spells no UUID |
| PostgresQuery.FindByRow | valkyrie/lib/valkyrie/persistence/postgres/query_service.rb:26-30 | under the primary key, looking up a row's (canonical) id gives that row's resource |
| PostgresQuery.FindAll | valkyrie/lib/valkyrie/persistence/postgres/query_service.rb:12-16 | one resource per row of the table, built from it, in table order |
| PostgresQuery.OfModel | valkyrie/lib/valkyrie/persistence/postgres/query_service.rb:20 | exactly the rows whose `internal_resource` is the model |
| PostgresQuery.FindAllOfModel | valkyrie/lib/valkyrie/persistence/postgres/query_service.rb:19-23 | one resource per row of the model, built from it, in table order |
| PostgresQuery.JoinAppend | valkyrie/lib/valkyrie/persistence/postgres/query_service.rb:70-77 | the join of a concatenation of member elements is the concatenation of the joins: order follows position, and a repeated id gives its row again |
| PostgresQuery.CastableAppend | valkyrie/lib/valkyrie/persistence/postgres/query_service.rb:74 | the `::uuid` cast succeeds on a concatenation of elements exactly when it succeeds on both parts |
| PostgresQuery.JoinDangling | valkyrie/lib/valkyrie/persistence/postgres/query_service.rb:74 | an element whose `->>'id'` is NULL, or spells a UUID no row has, joins with nothing |
| PostgresQuery.DanglingDropped | valkyrie/lib/valkyrie/persistence/postgres/query_service.rb:70-77 | such an element contributes no row and does not make the query raise, wherever it sits |
| PostgresQuery.JoinMembers | valkyrie/lib/valkyrie/persistence/postgres/query_service.rb:72-74 | a row is in the join exactly when it is a row of the table whose UUID some element's id spells |
| PostgresQuery.JoinPositional | valkyrie/lib/valkyrie/persistence/postgres/query_service.rb:70-77 | when every element spells the UUID of a row and ids are unique, the join is one row per element, in element order |
| PostgresQuery.JoinOfModel | valkyrie/lib/valkyrie/persistence/postgres/query_service.rb:79-87 | restricting the positional join to a model keeps, in order, the joined rows of that model |
| PostgresQuery.JoinModel | valkyrie/lib/valkyrie/persistence/postgres/query_service.rb:84 | every row of the model join is of the model |
| PostgresQuery.FindMembers | valkyrie/lib/valkyrie/persistence/postgres/query_service.rb:38-87 | a blank id gives nothing; an id that spells no UUID raises (`a.id = ?`), and every failure is a query error; with a model, every member returned is built from a row of that model |
| PostgresQuery.MembersJoin | valkyrie/lib/valkyrie/persistence/postgres/query_service.rb:70-77 | for a present id naming a row with member elements, `find_members` succeeds exactly when every element's id casts to a UUID (`::uuid` raises otherwise), and then returns a resource exactly when it is built from a row whose UUID some element spells |
| PostgresQuery.MembersInOrder | valkyrie/lib/valkyrie/persistence/postgres/query_service.rb:70-77 | under the primary key, when every element names a row, `find_members` returns one resource per element in `member_pos` order, each built from the row that element names |
| PostgresQuery.MembersOfModel | valkyrie/lib/valkyrie/persistence/postgres/query_service.rb:38-45 | with a model the query succeeds exactly when it does without one, and gives the members without one narrowed to the model, in the same order |
| PostgresQuery.FindReferencesBy | valkyrie/lib/valkyrie/persistence/postgres/query_service.rb:53-102 | a blank id or a blank property gives nothing; an id that spells no UUID raises, and every failure is a query error |
| PostgresQuery.ReferencesMembers | valkyrie/lib/valkyrie/persistence/postgres/query_service.rb:96-102 | for a present id and property, a property that holds no JSON array raises; otherwise the query succeeds exactly when every element's id casts to a UUID, and returns a resource exactly when it is built from a row whose UUID some element under the property spells |
| PostgresQuery.FindInverseReferencesBy | valkyrie/lib/valkyrie/persistence/postgres/query_service.rb:59-62 | the query raises exactly when the id's text, pasted unescaped into the JSON string, is not a valid string body; otherwise it returns no more resources than rows |
| PostgresQuery.InversePlainId | valkyrie/lib/valkyrie/persistence/postgres/query_service.rb:59-62 | an id of characters JSON takes literally (a UUID, for one) is compared as it is and never raises |
| PostgresQuery.InverseEscapedId | valkyrie/lib/valkyrie/persistence/postgres/query_service.rb:59-62 | an id holding a bare quotation mark raises, and one holding an escape is compared as the text the escape stands for |
| JsonText.UnescapeEscape | valkyrie/lib/valkyrie/persistence/postgres/query_service.rb:60 | reading a string body written with JSON escapes gives the text back, for any text without NUL |
| JsonText.UnescapePlain | valkyrie/lib/valkyrie/persistence/postgres/query_service.rb:60 | a body of characters JSON takes literally is written as itself and stands for itself |
| JsonText.QuoteExamples | valkyrie/lib/valkyrie/persistence/postgres/query_service.rb:60 | a bare quotation mark or an unknown escape makes the body malformed; `\"` and `\\` stand for the quotation mark and the reverse solidus |
| PostgresQuery.FindParents | valkyrie/lib/valkyrie/persistence/postgres/query_service.rb:48-50 | `find_parents` is `find_inverse_references_by` through `member_ids` |
| PostgresQuery.LoadMembers | valkyrie/lib/valkyrie/persistence/postgres/query_service.rb:64-68 | the resources loaded from rows are exactly those built from one of the rows |
| PostgresQuery.AllOfModelMembers | valkyrie/lib/valkyrie/persistence/postgres/query_service.rb:19-23 | `find_all_of_model` returns a resource exactly when it is built from a row of that model |
| PostgresQuery.InverseReferencesMembers | valkyrie/lib/valkyrie/persistence/postgres/query_service.rb:89-94 | when it succeeds, `find_inverse_references_by` returns a resource exactly when it is built from a row whose property holds an object whose id is the text the resource's id stands for in the JSON document |
| PostgresQuery.ParentsInverseMembers | valkyrie/lib/valkyrie/persistence/postgres/query_service.rb:70-94 | when every `member_ids` element is written as Valkyrie writes it (an object with a canonical UUID string), a row refers to a child through `member_ids` (JSON containment) exactly when the child's row is among the rows its `member_ids` join gives (UUID comparison) |
| ChangeSets.Files | app/change_set_persisters/change_set_persister.rb:52-54 | the files are never nil: the change set's files when truthy, otherwise [] |
| ChangeSets.Plus | app/change_set_persisters/change_set_persister.rb:40 | `v + [x]` succeeds exactly on an array, and appends x |
| ChangeSets.Without | app/change_set_persisters/change_set_persister.rb:59 | `Array#-` with one element removes every occurrence and keeps exactly the other elements |
| ChangeSets.WithoutAbsent | app/change_set_persisters/change_set_persister.rb:59 | removing an element that is not there changes nothing |
| ChangeSets.WithoutAppend | app/change_set_persisters/change_set_persister.rb:59 | removing from a concatenation removes from both parts, keeping their order |
| ChangeSets.Minus | app/change_set_persisters/change_set_persister.rb:59 | `v - [x]` succeeds exactly on an array, and removes every x |
| ChangeSets.Appended | app/change_set_persisters/change_set_persister.rb:40 | appending needs an array in `member_ids` and changes no other attribute |
| ChangeSets.AppendedAtEnd | app/change_set_persisters/change_set_persister.rb:40 | with `member_ids` typed as an array, the saved model's id lands at the end of the parent's members |
| ChangeSets.Append | app/change_set_persisters/change_set_persister.rb:38-42 | the parent is fetched first; a success fetches it and saves it with the id appended, and makes no other call |
| ChangeSets.Save | app/change_set_persisters/change_set_persister.rb:10-15 | files are attached first; no save comes before them; without an `append_id` no parent is fetched; a success saves the model with its files second and answers with that save's result |
| ChangeSets.SaveWithParent | app/change_set_persisters/change_set_persister.rb:10-42 | with an `append_id`, a success makes exactly four calls: the files, the model, the parent's fetch, the parent's save with the id appended |
| ChangeSets.SaveWithoutParent | app/change_set_persisters/change_set_persister.rb:34-36 | without an `append_id`, a success makes two calls and ends in the model save's state |
| ChangeSets.SaveAll | app/change_set_persisters/change_set_persister.rb:22-26 | a successful batch gives one result per change set, each the save of that change set from the state the previous one left |
| ChangeSets.Unlinked | app/change_set_persisters/change_set_persister.rb:59 | unlinking needs an array in `member_ids` and changes no other attribute |
| ChangeSets.UnlinkedDropsId | app/change_set_persisters/change_set_persister.rb:59 | with `member_ids` typed as an array, the parent no longer lists the id, and its other members keep their order |
| ChangeSets.UnlinkAll | app/change_set_persisters/change_set_persister.rb:58-61 | only save calls are made, at most one per parent |
| ChangeSets.UnlinkAllSaves | app/change_set_persisters/change_set_persister.rb:58-61 | when every parent was re-saved, each was saved once, in the order found, as updated |
| ChangeSets.Delete | app/change_set_persisters/change_set_persister.rb:17-20 | the parents are found first; the delete is the last call and deletes the model; a success is the parents found, each re-saved, then the delete |
| ChangeSets.DeleteUnlinksParents | app/change_set_persisters/change_set_persister.rb:56-62 | every parent found is re-saved without the model's id, in the order found, before the model is deleted |
| FedoraStorage.FedoraUrl | valkyrie/lib/valkyrie/storage/fedora.rb:95-99 | an id in the `fedora://` scheme gets the repository's scheme instead, the rest unchanged |
| FedoraStorage.ForeignUrl | valkyrie/lib/valkyrie/storage/fedora.rb:97 | an id without `fedora://` is used as it is |
| FedoraStorage.FindBy | valkyrie/lib/valkyrie/storage/fedora.rb:20-24 | the lookup succeeds exactly when the file at the translated URL is present, and gives that file with its size; otherwise FileNotFound |
| FedoraStorage.LastSep | valkyrie/lib/valkyrie/storage/fedora.rb:41 | the position of the last "//" after the line's first character, or none when there is no such "//" |
| FedoraStorage.AfterProtocol | valkyrie/lib/valkyrie/storage/fedora.rb:41 | removing "/fcr:metadata" from a `fedora://` id keeps "fedora:/" and searches the rest from the slash that ends it |
| FedoraStorage.KeepsProtocol | valkyrie/lib/valkyrie/storage/fedora.rb:41 | unless the path starts with "fcr:metadata", removing "/fcr:metadata" keeps the scheme |
| FedoraStorage.UploadHandled | valkyrie/lib/valkyrie/storage/fedora.rb:41 | when the location's first line has a "//" after its first character, and the path after the last one does not start with "fcr:metadata", the new id is handled by this adapter |
| FedoraStorage.UploadEdge | valkyrie/lib/valkyrie/storage/fedora.rb:41 | when the path after the last "//" starts with "fcr:metadata", the removal takes the scheme's second slash |
| FedoraStorage.MetadataFirst | valkyrie/lib/valkyrie/storage/fedora.rb:41 | a path that starts with "fcr:metadata" loses it, with the slash before it |
| FedoraStorage.LocationRoundTrip | valkyrie/lib/valkyrie/storage/fedora.rb:41-42 | a location in the repository's own scheme, with no "//", line break or "/fcr:metadata" in its path, gets the `fedora://` id that translates back to the location |
| FedoraStorage.VersionName | valkyrie/lib/valkyrie/storage/fedora.rb:77-83 | every version name starts with "version" |
| FedoraStorage.VersionNumbered | valkyrie/lib/valkyrie/storage/fedora.rb:77-83 | the name is "version" followed by the count plus one, so the first is "version1" either way |
| FedoraStorage.VersionNamesDistinct | valkyrie/lib/valkyrie/storage/fedora.rb:77-83 | different version counts give different names |
| FedoraStorage.Upload | valkyrie/lib/valkyrie/storage/fedora.rb:40-42 | an upload gives the file under the new id, at the URL that id translates to, or FileNotFound |
| FedoraStorage.UploadReadsLocation | valkyrie/lib/valkyrie/storage/fedora.rb:40-42 | an upload whose location is an ordinary URL in the repository's scheme succeeds exactly when the file is at that location, and reads it from there |

## Left out

- The clock (`Time.current`, `Time.now`) and `SecureRandom.uuid` are parameters. `MemoryPersister.Env` holds the fresh id (`freshId`), the `Time.current` read for `created_at` (`created`), the one for `updated_at` (`updated`) and the `Time.now.to_r` of the lock token (`token`). `LegacyPersister.LegacyEnv` holds `freshId`, `created` and `updated`. Each read of the clock is its own field, so the model does not assume two reads give the same time.
- Three pieces of Ruby behaviour are parameters of `Values.Config`, because their code is not part of this model: the resolution of a resource class from its `internal_resource`, `OptimisticLockToken.deserialize` (tokens pass through it unchanged), and `to_s` of values whose string form is not modelled (dates, compound values).
- `Value` has no `Float`. No float crosses the modelled paths, and IEEE arithmetic is out of scope.
- ActiveSupport time zones are reduced to an offset in seconds. `ToUtc` sets the offset to zero and keeps the instant.
- Dates.NormalizeDateValue: the earlier persister's `.utc` is taken with ActiveSupport loaded, where it gives a `Time` in zone UTC (form `AsTime`). The current persister's `new_offset(0)` gives a `DateTime` (form `AsDateTime`). What `DateTime#utc` would give without ActiveSupport is not modelled.
- OrmConverter.Decoded: a date literal decodes to a UTC `Time`, the ActiveSupport result of `DateTime#utc`. `OrmDecoding.ReadLiteral` and `OrmRoundTrip.ReadBack` follow it.
- Types.NewAttrs: attributes come out in declaration order. Dry-types 1.x orders the keys it was given by the input hash and appends the defaulted ones after them. The set of keys and every value agree either way.
- Types.NewAttrsOrder: states declaration order, which is the model's choice above, and not the input order of dry-types 1.x.
- FedoraQuery.FindMembers: `is_a?(model)` is modelled as an exact class-name match (`FedoraQuery.IsModel`), because `Resources.Klass` has no superclass chain. A member whose class is a subclass of the model is dropped in the model but kept in Ruby.
- The Fedora query service's `find_all`, `find_all_of_model` and `find_by_alternate_identifier` list the repository over HTTP (LDP containment and Solr), so they are not modelled.
- The Fedora transport is not modelled: HTTP and LDP requests, `Prefer` headers, `wipe!` over HTTP, the ActiveFedora file I/O and the version POST. The fetched graph and the file store are inputs.
- Solr is not modelled. Neither are lazy enumerators: every query returns a finite sequence.
- ActiveFedora's `OrderedList` is not part of this model. The ordered member list uses an explicit proxy-node encoding in its place (`OrmMembers`, `RdfGraph.ListFrom`, `RdfGraph.Walk`): the list node has `iana:first` and `iana:last`, and each proxy has `proxyFor`, `next` and `prev`.
- The `Valkyrie::ValueMapper` base class is not part of this model. Its fallback `result` is taken as the identity, which is what both converters assume when they call `to_graph` or `apply_to` on it.
- OrmConverter.CastArray: `Kernel#Array` on a `Time` is modelled as `[t]`, as in Ruby. `Array()` on other objects that respond to `to_a` is not modelled.
- PostgresOrm.FromModel: the resource factory's `to_model` (row to resource) goes through `DynamicKlass` and the ORM's attribute readers. These are not part of this model, so `PostgresQuery.Service.toResource` is a parameter, and no `from_model`/`to_model` round trip is claimed.
- PostgresQuery.FindBy: ActiveRecord's UUID type turns a string that is not a UUID into `nil`, so `find` finds nothing and the model answers ObjectNotFoundError. ActiveRecord's UUID pattern is taken to accept the strings PostgreSQL's cast accepts. ActiveRecord and SQL execution are not modelled: the queries are stated as their meaning over a table of rows.
- PostgreSQL's text-to-uuid cast is the parameter `PostgresQuery.Service.uuid`: the canonical text of the UUID a string spells, or `None`. Row ids are taken in canonical form, as the `uuid` column gives them. Under `->>`, a value that is not a string is read as its `to_s` (`Values.ToS`), which stands for its JSON text.
- PostgresQuery.FindInverseReferencesBy: the `@>` JSONB containment test is modelled as "the property holds an object whose id is the id". Other JSON shapes that containment would match are not modelled. The id is pasted unescaped into `[{"id": "<id>"}]`. An id whose text is not a valid JSON string body makes the model answer QueryFailed. For most such ids PostgreSQL raises too. One holding a bare `"` can instead close the string early and spell a valid document of another shape, such as `a", "x": "b`. PostgreSQL would then run a different containment test, which is not modelled.
- ModelConverter.ApplyNested: the `depth` parameter of the converter stands for Ruby's stack, which nesting exhausts with a SystemStackError. A hash nested deeper than the `depth` given answers StackExhausted, including cases where Ruby's real stack would still have room.
- LegacyPersister.Save: Ruby sets `id`, `created_at`, `updated_at` and the normalised dates on the caller's model object, caches that same object and returns it. The model returns a new value, which the cache holds. Later changes to the caller's object would show through Ruby's cache; the model has no aliasing, so they cannot. A setter that raises part-way leaves the caller's object half updated in Ruby; the model's failure result carries no such object. The `Valkyrie::Model` setters are taken to coerce as `Resources.SetValue` does.
- ChangeSets.Save: `append_files` mutates the change set in place, and Ruby ignores its return value. The model saves the value that `appendFiles` returns, which stands for the mutated change set.
- ChangeSets.Plus: a stored value other than an array, an integer, a string or a time is taken to have no `+` and raise. `RDF::URI#+` exists and would concatenate the array's text into a new URI; that case is not modelled. `OrmConverter.PlusError` makes the same assumption.
- ChangeSets.Append: the `member_ids` setter of the application's Virtus-era models is modelled with the coercion of `Resources.SetValue`. Virtus setters are not modelled.
- ChangeSets.Delete: `before_delete` reads `change_set.id`. The model uses the model's id, which the change set delegates to.
- MemoryPersister.SaveAll: `save_all` re-raises a StaleObjectError with a new message. The model passes the same error kind through, because message text is not modelled.
- ChangeSets.Files: `create_files` and the file storage calls are effects outside the model. The model only records that files were attached, as the first call.
- FedoraStorage.UploadHandled: the id is handled only when the path after the last "//" does not start with "fcr:metadata". `FedoraStorage.UploadEdge` shows what happens otherwise: the removal of "/fcr:metadata" takes the second slash of the scheme.
- The storage adapter's `delete` only issues an HTTP DELETE, so it is not modelled.
- MemoryPersister.Save: Ruby saves a `dup` and leaves the caller's resource alone. Values here are immutable, so the model has no aliasing to model.
- The Postgres query service's `find_all_by_checksum` is not modelled. It is a stub outside the queries this model states.

=== FILE: change_sets.dfy ===
/** `ChangeSetPersister`: the order in which saving a change set attaches
    files, saves the model and appends it to a parent, and in which
    deleting one detaches it from its parents before the delete. The
    metadata adapter, the storage adapter and `FileAppender` are a
    `Backend` over an opaque state `S`; every call the orchestrator makes
    is recorded, in order, in the run's `calls`. */
module ChangeSets {
  import opened Wrappers
  import opened Values
  import opened Resources

  /** What a backend call leaves behind: the new state and its outcome. */
  datatype Reply<S, T> = Reply(state: S, result: Result<T>)

  /** The collaborators: `FileAppender#append_to` (the model it leaves),
      `persister.save`, `persister.delete`, `query_service.find_by` and
      `query_service.find_parents`. */
  datatype Backend<!S> = Backend(
    cfg: Config,
    appendFiles: (S, Resource, Value) -> Reply<S, Resource>,
    save: (S, Resource) -> Reply<S, Resource>,
    delete: (S, Resource) -> Reply<S, Resource>,
    findBy: (S, Value) -> Result<Resource>,
    findParents: (S, Resource) -> Result<seq<Resource>>)

  /** One call on the backend. */
  datatype Call =
    | FilesAppended(model: Resource, files: Value)
    | Saved(model: Resource)
    | Fetched(id: Value)
    | ParentsFound(model: Resource)
    | Deleted(model: Resource)

  /** An orchestration: the final state, the calls made, the outcome. */
  datatype Run<S, T> = Run(state: S, calls: seq<Call>, result: Result<T>)

  /** A change set: its model, its `append_id` and its `files` (`Nil` when
      the change set has none). Its `id` is the model's. */
  datatype ChangeSet = ChangeSet(model: Resource, appendId: Value, files: Value)

  /** `change_set.try(:files) || []`: never nil. */
  function Files(cs: ChangeSet): (r: Value)
    ensures Truthy(r)
    ensures Truthy(cs.files) ==> r == cs.files
    ensures !Truthy(cs.files) ==> r == Arr([])
  {
    if Truthy(cs.files) then cs.files else Arr([])
  }

  /** `v + [x]` on whatever `member_ids` holds: arrays concatenate; an
      integer, string or time refuses an array operand; anything else is
      taken to raise, although `RDF::URI#+` would concatenate the array's
      text. */
  function Plus(v: Value, x: Value): (r: Result<Value>)
    ensures r.Ok? <==> v.Arr?
    ensures v.Arr? ==> r == Ok(Arr(v.items + [x]))
  {
    match v
    case Arr(xs) => Ok(Arr(xs + [x]))
    case Int(_) => Err(TypeError)
    case Str(_) => Err(TypeError)
    case Time(_) => Err(TypeError)
    case DateTime(_) => Err(TypeError)
    case _ => Err(NoMethodError)
  }

  /** `Array#-` with one element: every occurrence goes, the rest keep
      their order. */
  function Without(xs: seq<Value>, x: Value): (r: seq<Value>)
    ensures x !in r
    ensures forall y :: y in r <==> y in xs && y != x
    ensures |r| <= |xs|
  {
    if |xs| == 0 then []
    else (if xs[0] == x then [] else [xs[0]]) + Without(xs[1..], x)
  }

  /** Removing an element that is not there changes nothing. */
  lemma {:induction false} WithoutAbsent(xs: seq<Value>, x: Value)
    requires x !in xs
    ensures Without(xs, x) == xs
  {
    if |xs| > 0 {
      assert xs[1..] + [] == xs[1..];
      assert x !in xs[1..];
      WithoutAbsent(xs[1..], x);
      assert [xs[0]] + xs[1..] == xs;
    }
  }

  /** Removing after appending removes from both parts: appending an id
      and then removing it gives back the array without the id. */
  lemma {:induction false} WithoutAppend(xs: seq<Value>, ys: seq<Value>, x: Value)
    ensures Without(xs + ys, x) == Without(xs, x) + Without(ys, x)
  {
    if |xs| > 0 {
      assert (xs + ys)[1..] == xs[1..] + ys;
      assert (xs + ys)[0] == xs[0];
      WithoutAppend(xs[1..], ys, x);
    } else {
      assert xs + ys == ys;
    }
  }

  /** `v - [x]`: arrays drop every `x`; integers and times refuse an
      array operand; anything else has no `-`. */
  function Minus(v: Value, x: Value): (r: Result<Value>)
    ensures r.Ok? <==> v.Arr?
    ensures v.Arr? ==> r == Ok(Arr(Without(v.items, x)))
  {
    match v
    case Arr(xs) => Ok(Arr(Without(xs, x)))
    case Int(_) => Err(TypeError)
    case Time(_) => Err(TypeError)
    case DateTime(_) => Err(TypeError)
    case _ => Err(NoMethodError)
  }

  // ---- save ----

  /** The parent re-saved by `append`: its `member_ids` with the saved
      model's id at the end, through the attribute's setter. */
  function Appended(cfg: Config, parent: Resource, out: Resource): (r: Result<Resource>)
    ensures r.Ok? ==> Get(parent, "member_ids").Arr?
    ensures r.Ok? ==> forall n :: n != "member_ids" ==> Get(r.value, n) == Get(parent, n)
  {
    var ids :- Plus(Get(parent, "member_ids"), Get(out, "id"));
    SetValue(cfg, parent, "member_ids", ids)
  }

  /** With `member_ids` declared as `Valkyrie::Types::Array`, the saved
      model's id lands at the end of the parent's members, and nothing
      else changes. */
  lemma AppendedAtEnd(cfg: Config, parent: Resource, out: Resource, d: Decl)
    requires DeclOf(parent.klass.schema, "member_ids") == Some(d) && d.ty == TArray
    requires Get(parent, "member_ids").Arr?
    ensures Appended(cfg, parent, out).Ok?
    ensures Get(Appended(cfg, parent, out).value, "member_ids") == Arr(Get(parent, "member_ids").items + [Get(out, "id")])
  {
    assert Declares(parent.klass.schema, "member_ids");
  }

  /** `append`: fetch the parent, add the id, save the parent. */
  function Append<S>(b: Backend<S>, s: S, appendId: Value, out: Resource): (r: Run<S, Resource>)
    ensures |r.calls| >= 1 && r.calls[0] == Fetched(appendId)
    ensures r.result.Ok? ==>
      && b.findBy(s, appendId).Ok?
      && Appended(b.cfg, b.findBy(s, appendId).value, out).Ok?
      && r.calls == [Fetched(appendId), Saved(Appended(b.cfg, b.findBy(s, appendId).value, out).value)]
  {
    match b.findBy(s, appendId)
    case Err(e) => Run(s, [Fetched(appendId)], Err(e))
    case Ok(p) =>
      match Appended(b.cfg, p, out)
      case Err(e) => Run(s, [Fetched(appendId)], Err(e))
      case Ok(p2) =>
        var r := b.save(s, p2);
        Run(r.state, [Fetched(appendId), Saved(p2)], r.result)
  }

  /** `save`: attach the files, save the model, append it to the parent
      named by `append_id` if there is one; the answer is the model save's
      output. */
  function Save<S>(b: Backend<S>, s: S, cs: ChangeSet): (r: Run<S, Resource>)
    ensures |r.calls| >= 1 && r.calls[0] == FilesAppended(cs.model, Files(cs))
    ensures forall i :: 0 <= i < |r.calls| && r.calls[i].Saved? ==> i >= 1
    ensures !Truthy(cs.appendId) ==> forall i :: 0 <= i < |r.calls| ==> !r.calls[i].Fetched?
    ensures r.result.Ok? ==>
      var f := b.appendFiles(s, cs.model, Files(cs));
      f.result.Ok? && |r.calls| >= 2 && r.calls[1] == Saved(f.result.value)
      && r.result == b.save(f.state, f.result.value).result
  {
    var files := Files(cs);
    var f := b.appendFiles(s, cs.model, files);
    var c0 := [FilesAppended(cs.model, files)];
    match f.result
    case Err(e) => Run(f.state, c0, Err(e))
    case Ok(m) =>
      var saved := b.save(f.state, m);
      var c1 := c0 + [Saved(m)];
      match saved.result
      case Err(e) => Run(saved.state, c1, Err(e))
      case Ok(out) =>
        if !Truthy(cs.appendId) then Run(saved.state, c1, saved.result)
        else
          var a := Append(b, saved.state, cs.appendId, out);
          Run(a.state, c1 + a.calls, if a.result.Err? then Err(a.result.error) else saved.result)
  }

  /** A successful save with an `append_id` makes exactly four calls: the
      files, the model, the parent's fetch, the parent's save with the new
      id appended. */
  lemma SaveWithParent<S>(b: Backend<S>, s: S, cs: ChangeSet)
    requires Truthy(cs.appendId) && Save(b, s, cs).result.Ok?
    ensures var f := b.appendFiles(s, cs.model, Files(cs));
      var m := b.save(f.state, f.result.value);
      var p := b.findBy(m.state, cs.appendId);
      p.Ok? && m.result.Ok? && Appended(b.cfg, p.value, m.result.value).Ok?
      && Save(b, s, cs).calls == [FilesAppended(cs.model, Files(cs)), Saved(f.result.value),
                                  Fetched(cs.appendId), Saved(Appended(b.cfg, p.value, m.result.value).value)]
  {
  }

  /** Without an `append_id`, saving touches no parent: two calls, and the
      final state is the model save's. */
  lemma SaveWithoutParent<S>(b: Backend<S>, s: S, cs: ChangeSet)
    requires !Truthy(cs.appendId) && Save(b, s, cs).result.Ok?
    ensures var f := b.appendFiles(s, cs.model, Files(cs));
      Save(b, s, cs).calls == [FilesAppended(cs.model, Files(cs)), Saved(f.result.value)]
      && Save(b, s, cs).state == b.save(f.state, f.result.value).state
  {
  }

  /** The states `save_all` passes through: each save starts where the
      previous one left off. */
  function States<S>(b: Backend<S>, s: S, css: seq<ChangeSet>): (r: seq<S>)
    ensures |r| == |css|
    ensures |css| > 0 ==> r[0] == s
  {
    if |css| == 0 then [] else [s] + States(b, Save(b, s, css[0]).state, css[1..])
  }

  /** `save_all`: the saves in input order; the first failure ends it. */
  function SaveAll<S>(b: Backend<S>, s: S, css: seq<ChangeSet>): (r: Run<S, seq<Resource>>)
    ensures r.result.Ok? ==> |r.result.value| == |css|
    ensures r.result.Ok? ==> forall i :: 0 <= i < |css| ==>
      Save(b, States(b, s, css)[i], css[i]).result == Ok(r.result.value[i])
  {
    if |css| == 0 then Run(s, [], Ok([]))
    else
      var r := Save(b, s, css[0]);
      match r.result
      case Err(e) => Run(r.state, r.calls, Err(e))
      case Ok(out) =>
        var rest := SaveAll(b, r.state, css[1..]);
        assert forall i :: 1 <= i < |css| ==> States(b, s, css)[i] == States(b, r.state, css[1..])[i - 1] && css[i] == css[1..][i - 1];
        Run(rest.state, r.calls + rest.calls, match rest.result case Err(e) => Err(e) case Ok(outs) => Ok([out] + outs))
  }

  // ---- delete ----

  /** `parent.member_ids -= [id]` through the attribute's setter. */
  function Unlinked(cfg: Config, parent: Resource, id: Value): (r: Result<Resource>)
    ensures r.Ok? ==> Get(parent, "member_ids").Arr?
    ensures r.Ok? ==> forall n :: n != "member_ids" ==> Get(r.value, n) == Get(parent, n)
  {
    var ids :- Minus(Get(parent, "member_ids"), id);
    SetValue(cfg, parent, "member_ids", ids)
  }

  /** With `member_ids` declared as `Valkyrie::Types::Array`, the re-saved
      parent no longer lists the id, and its other members stay in order. */
  lemma UnlinkedDropsId(cfg: Config, parent: Resource, id: Value, d: Decl)
    requires DeclOf(parent.klass.schema, "member_ids") == Some(d) && d.ty == TArray
    requires Get(parent, "member_ids").Arr?
    ensures Unlinked(cfg, parent, id).Ok?
    ensures Get(Unlinked(cfg, parent, id).value, "member_ids") == Arr(Without(Get(parent, "member_ids").items, id))
    ensures id !in Get(Unlinked(cfg, parent, id).value, "member_ids").items
  {
    assert Declares(parent.klass.schema, "member_ids");
  }

  /** The save calls for the given models, in order. */
  function Saves(ms: seq<Resource>): (r: seq<Call>)
    ensures |r| == |ms| && forall i :: 0 <= i < |ms| ==> r[i] == Saved(ms[i])
  {
    if |ms| == 0 then [] else [Saved(ms[0])] + Saves(ms[1..])
  }

  /** `parent.member_ids -= [id]` as a function of the parent. */
  function Unlinker(cfg: Config, id: Value): Resource -> Result<Resource> {
    p => Unlinked(cfg, p, id)
  }

  /** The `each` of `before_delete`: every parent, in order, is updated by
      `f` and saved; the first failure ends it. The value is the parents as
      saved. */
  function UnlinkAll<S>(b: Backend<S>, s: S, ps: seq<Resource>, f: Resource -> Result<Resource>): (r: Run<S, seq<Resource>>)
    ensures forall i :: 0 <= i < |r.calls| ==> r.calls[i].Saved?
    ensures |r.calls| <= |ps|
  {
    if |ps| == 0 then Run(s, [], Ok([]))
    else
      match f(ps[0])
      case Err(e) => Run(s, [], Err(e))
      case Ok(p) =>
        var saved := b.save(s, p);
        if saved.result.Err? then Run(saved.state, [Saved(p)], Err(saved.result.error))
        else
          var rest := UnlinkAll(b, saved.state, ps[1..], f);
          Run(rest.state, [Saved(p)] + rest.calls, if rest.result.Err? then Err(rest.result.error) else Ok([p] + rest.result.value))
  }

  /** When every parent was re-saved, each was saved once, in the order
      found, as updated. */
  lemma {:induction false} UnlinkAllSaves<S>(b: Backend<S>, s: S, ps: seq<Resource>, f: Resource -> Result<Resource>)
    requires UnlinkAll(b, s, ps, f).result.Ok?
    ensures var r := UnlinkAll(b, s, ps, f);
      |r.result.value| == |ps| && r.calls == Saves(r.result.value)
      && forall i :: 0 <= i < |ps| ==> f(ps[i]) == Ok(r.result.value[i])
  {
    if |ps| > 0 {
      var p := f(ps[0]).value;
      var saved := b.save(s, p);
      UnlinkAllSaves(b, saved.state, ps[1..], f);
      var rest := UnlinkAll(b, saved.state, ps[1..], f);
      var qs := [p] + rest.result.value;
      assert UnlinkAll(b, s, ps, f).result.value == qs;
      assert qs[1..] == rest.result.value;
      assert forall i :: 1 <= i < |ps| ==> ps[i] == ps[1..][i - 1] && qs[i] == rest.result.value[i - 1];
    }
  }

  /** `delete`: find the parents, unlink the model from each and save it,
      then delete the model. The delete is the last call, after every
      parent's save. */
  function Delete<S>(b: Backend<S>, s: S, cs: ChangeSet): (r: Run<S, Resource>)
    ensures |r.calls| >= 1 && r.calls[0] == ParentsFound(cs.model)
    ensures forall i :: 0 <= i < |r.calls| && r.calls[i].Deleted? ==> i == |r.calls| - 1 && r.calls[i] == Deleted(cs.model)
    ensures r.result.Ok? ==>
      && b.findParents(s, cs.model).Ok?
      && var u := UnlinkAll(b, s, b.findParents(s, cs.model).value, Unlinker(b.cfg, Get(cs.model, "id")));
      && u.result.Ok?
      && r.calls == [ParentsFound(cs.model)] + u.calls + [Deleted(cs.model)]
  {
    var c0 := [ParentsFound(cs.model)];
    match b.findParents(s, cs.model)
    case Err(e) => Run(s, c0, Err(e))
    case Ok(ps) =>
      var u := UnlinkAll(b, s, ps, Unlinker(b.cfg, Get(cs.model, "id")));
      if u.result.Err? then Run(u.state, c0 + u.calls, Err(u.result.error))
      else
        var d := b.delete(u.state, cs.model);
        Run(d.state, c0 + u.calls + [Deleted(cs.model)], d.result)
  }

  /** Every parent found is re-saved without the model, in the order
      found, before the model is deleted. */
  lemma DeleteUnlinksParents<S>(b: Backend<S>, s: S, cs: ChangeSet)
    requires Delete(b, s, cs).result.Ok?
    ensures b.findParents(s, cs.model).Ok?
    ensures var ps := b.findParents(s, cs.model).value;
      var calls := Delete(b, s, cs).calls;
      |calls| == |ps| + 2 && calls[|calls| - 1] == Deleted(cs.model)
      && forall i :: 0 <= i < |ps| ==> calls[i + 1].Saved? && Unlinked(b.cfg, ps[i], Get(cs.model, "id")) == Ok(calls[i + 1].model)
  {
    var ps := b.findParents(s, cs.model).value;
    var f := Unlinker(b.cfg, Get(cs.model, "id"));
    var u := UnlinkAll(b, s, ps, f);
    UnlinkAllSaves(b, s, ps, f);
    var calls := Delete(b, s, cs).calls;
    assert calls == [ParentsFound(cs.model)] + u.calls + [Deleted(cs.model)];
    forall i | 0 <= i < |ps| ensures calls[i + 1] == Saved(u.result.value[i]) && f(ps[i]) == Ok(u.result.value[i]) {
      assert calls[i + 1] == u.calls[i];
    }
  }
}

=== FILE: dates.dfy ===
/** Date normalisation shared by both in-memory persisters: every `DateTime`
    or `Time` attribute value, alone or directly inside an array, is
    rewritten at UTC and assigned back through the attribute's setter,
    which coerces it again. The current persister rewrites to a `DateTime`
    (`new_offset(0)`); the earlier one calls ActiveSupport's `utc`, which
    gives a `Time` in zone "UTC". */
module Dates {
  import opened Wrappers
  import opened Values
  import opened Types
  import opened Resources

  /** Which class a normalised date has. */
  datatype DateForm = AsDateTime | AsTime

  /** The instant `t` at UTC, as a value of the given class. */
  function AtUtc(form: DateForm, t: Instant): (r: Value)
    ensures (r.DateTime? || r.Time?) && r.t.epoch == t.epoch && r.t.offset == 0
    ensures r.Time? <==> form.AsTime?
  {
    match form
    case AsDateTime => DateTime(ToUtc(t))
    case AsTime => Time(ToUtc(t))
  }

  /** No date of the other class, and every date at offset 0. */
  predicate UtcScalar(form: DateForm, v: Value) {
    (if form.AsTime? then !v.DateTime? else !v.Time?) && (v.DateTime? || v.Time? ==> v.t.offset == 0)
  }

  /** A normalised attribute value: the value and, for an array, each of
      its elements are UTC scalars. */
  predicate UtcValue(form: DateForm, v: Value) {
    UtcScalar(form, v) && (v.Arr? ==> forall i :: 0 <= i < |v.items| ==> UtcScalar(form, v.items[i]))
  }

  /** `normalize_date_value`: a `DateTime` or a `Time` moves to UTC as a
      value of the form's class; anything else is kept. */
  function NormalizeDateValue(form: DateForm, v: Value): (r: Value)
    ensures UtcScalar(form, r)
    ensures !v.Time? && !v.DateTime? ==> r == v
    ensures v.Time? || v.DateTime? ==>
      (r.Time? <==> form.AsTime?) && (r.DateTime? <==> form.AsDateTime?) && r.t == ToUtc(v.t)
  {
    match v
    case DateTime(t) => AtUtc(form, t)
    case Time(t) => AtUtc(form, t)
    case _ => v
  }

  /** `normalize_date_values`: arrays are normalised element by element. */
  function NormalizeDateValues(form: DateForm, v: Value): (r: Value)
    ensures UtcValue(form, r)
    ensures v.Arr? ==> r.Arr? && |r.items| == |v.items|
    ensures !v.Arr? ==> r == NormalizeDateValue(form, v)
  {
    match v
    case Arr(xs) => Arr(NormalizeEachValue(form, xs))
    case _ => NormalizeDateValue(form, v)
  }

  function NormalizeEachValue(form: DateForm, xs: seq<Value>): (r: seq<Value>)
    ensures |r| == |xs|
    ensures forall i :: 0 <= i < |xs| ==> r[i] == NormalizeDateValue(form, xs[i])
  {
    if |xs| == 0 then [] else [NormalizeDateValue(form, xs[0])] + NormalizeEachValue(form, xs[1..])
  }

  /** Normalising twice is normalising once. */
  lemma NormalizeIdempotent(form: DateForm, v: Value)
    ensures NormalizeDateValues(form, NormalizeDateValues(form, v)) == NormalizeDateValues(form, v)
  {
    var r := NormalizeDateValues(form, v);
    if v.Arr? {
      assert NormalizeDateValues(form, r).items == r.items;
    }
  }

  /** An already normalised value is left as it is. */
  lemma NormalizeFixpoint(form: DateForm, v: Value)
    requires UtcValue(form, v)
    ensures NormalizeDateValues(form, v) == v
  {
    if v.Arr? {
      assert NormalizeDateValues(form, v).items == v.items;
    }
  }

  // ---- re-coercion keeps normalised values normalised ----

  /** Neither a date nor an array holding one. */
  predicate Dateless(v: Value) {
    !v.Time? && !v.DateTime? && (v.Arr? ==> forall i :: 0 <= i < |v.items| ==> !v.items[i].Time? && !v.items[i].DateTime?)
  }

  /** Every default the type can fall back on holds no date, so it is
      normalised whichever class dates are normalised to. */
  predicate UtcDefaults(ty: AttrType) {
    match ty
    case TDefault(inner, d) => Dateless(d) && UtcDefaults(inner)
    case TOptional(inner) => UtcDefaults(inner)
    case _ => true
  }

  predicate SchemaUtcDefaults(klass: Klass) {
    forall i :: 0 <= i < |klass.schema| ==> UtcDefaults(klass.schema[i].ty)
  }

  /** Coercing a normalised value gives a normalised value: no attribute type
      manufactures a date of the other class or off UTC. */
  lemma {:induction false} CoerceKeepsUtc(cfg: Config, form: DateForm, ty: AttrType, v: Value)
    requires UtcValue(form, v) && UtcDefaults(ty)
    requires Coerce(cfg, ty, v).Ok?
    ensures UtcValue(form, Coerce(cfg, ty, v).value)
    decreases ty
  {
    match ty
    case TOptional(inner) =>
      if !v.Nil? {
        CoerceKeepsUtc(cfg, form, inner, v);
      }
    case TDefault(inner, d) =>
      if !v.Nil? {
        CoerceKeepsUtc(cfg, form, inner, v);
      }
    case TArray =>
    case TSet =>
      SetCastKeepsUtc(cfg, form, v);
    case TLockTokens =>
    case TAnything =>
    case _ =>
  }

  lemma SetCastKeepsUtc(cfg: Config, form: DateForm, v: Value)
    requires UtcValue(form, v) && SetCast(cfg, v).Ok?
    ensures forall i :: 0 <= i < |SetCast(cfg, v).value| ==> UtcScalar(form, SetCast(cfg, v).value[i])
  {
    var xs := SetClean(ArrayCast(v));
    var ys := SetCast(cfg, v).value;
    forall i | 0 <= i < |ys| ensures UtcScalar(form, ys[i]) {
      assert xs[i] in ArrayCast(v);
      assert Anything(cfg, xs[i]) == Ok(ys[i]);
    }
  }

  // ---- normalize_dates! ----

  /** Some entry of `es` is named `n`. */
  predicate NameIn(es: seq<Entry>, n: string) {
    exists i :: 0 <= i < |es| && es[i].key.name == n
  }

  predicate NamesUnique(es: seq<Entry>) {
    forall i, j :: 0 <= i < j < |es| ==> es[i].key.name != es[j].key.name
  }

  /** Assign each entry of the snapshot `es`, normalised, through its setter. */
  function NormalizeEach(cfg: Config, form: DateForm, acc: Resource, es: seq<Entry>): (r: Result<Resource>)
    ensures r.Ok? ==> r.value.klass == acc.klass
    ensures r.Ok? ==> forall n :: !NameIn(es, n) ==> Get(r.value, n) == Get(acc, n)
    ensures r.Ok? && NamesUnique(es) ==> forall i :: 0 <= i < |es| ==>
      Declares(acc.klass.schema, es[i].key.name) &&
      Coerce(cfg, DeclOf(acc.klass.schema, es[i].key.name).value.ty, NormalizeDateValues(form, es[i].val))
        == Ok(Get(r.value, es[i].key.name))
    ensures r.Ok? && Valid(acc) ==> Valid(r.value)
    decreases |es|
  {
    if |es| == 0 then Ok(acc)
    else
      var n := es[0].key.name;
      var acc' :- SetValue(cfg, acc, n, NormalizeDateValues(form, es[0].val));
      var r := NormalizeEach(cfg, form, acc', es[1..]);
      if r.Err? then r
      else
        assert forall m :: !NameIn(es, m) ==> !NameIn(es[1..], m) && m != n by {
          forall m | NameIn(es[1..], m) ensures NameIn(es, m) {
            var i :| 0 <= i < |es| - 1 && es[1..][i].key.name == m;
            assert es[i + 1].key.name == m;
          }
        }
        assert NamesUnique(es) ==> NamesUnique(es[1..]) && !NameIn(es[1..], n) by {
          if NamesUnique(es) {
            forall i, j | 0 <= i < j < |es| - 1 ensures es[1..][i].key.name != es[1..][j].key.name {
              assert es[i + 1].key.name != es[j + 1].key.name;
            }
            forall i | 0 <= i < |es| - 1 ensures es[1..][i].key.name != n {
              assert es[i + 1].key.name != n;
            }
          }
        }
        assert NamesUnique(es) ==> forall i :: 1 <= i < |es| ==> es[i] == es[1..][i - 1];
        r
  }

  /** `normalize_dates!`: every attribute present, in hash order. */
  function NormalizeDates(cfg: Config, form: DateForm, r: Resource): (r': Result<Resource>)
    ensures r'.Ok? ==> r'.value.klass == r.klass
    ensures r'.Ok? && Valid(r) ==> Valid(r'.value)
  {
    NormalizeEach(cfg, form, r, r.attrs)
  }

  lemma ValidNamesUnique(r: Resource)
    requires Valid(r)
    ensures NamesUnique(r.attrs)
  {
    forall i, j | 0 <= i < j < |r.attrs| ensures r.attrs[i].key.name != r.attrs[j].key.name {
      assert r.attrs[i].key.SymKey? && r.attrs[j].key.SymKey?;
    }
  }

  /** After normalisation an attribute that was present holds its old value,
      normalised and coerced again by its type. */
  lemma NormalizedGet(cfg: Config, form: DateForm, r: Resource, n: string)
    requires Valid(r) && HasKey(r.attrs, SymKey(n))
    requires NormalizeDates(cfg, form, r).Ok?
    ensures Declares(r.klass.schema, n)
    ensures Coerce(cfg, DeclOf(r.klass.schema, n).value.ty, NormalizeDateValues(form, Get(r, n)))
      == Ok(Get(NormalizeDates(cfg, form, r).value, n))
  {
    ValidNamesUnique(r);
    var i :| 0 <= i < |r.attrs| && r.attrs[i].key == SymKey(n);
    LookupUnique(r.attrs, i);
  }

  /** After normalisation every date an attribute holds, alone or directly
      inside an array, is of the form's class and at UTC. */
  lemma NormalizeDatesUtc(cfg: Config, form: DateForm, r: Resource)
    requires Valid(r) && SchemaUtcDefaults(r.klass)
    requires NormalizeDates(cfg, form, r).Ok?
    ensures forall n :: UtcValue(form, Get(NormalizeDates(cfg, form, r).value, n))
  {
    var r' := NormalizeDates(cfg, form, r).value;
    ValidNamesUnique(r);
    forall n ensures UtcValue(form, Get(r', n)) {
      if NameIn(r.attrs, n) {
        var i :| 0 <= i < |r.attrs| && r.attrs[i].key.name == n;
        var d := DeclOf(r.klass.schema, n).value;
        var j :| 0 <= j < |r.klass.schema| && r.klass.schema[j] == d;
        CoerceKeepsUtc(cfg, form, d.ty, NormalizeDateValues(form, r.attrs[i].val));
      } else {
        assert !HasKey(r.attrs, SymKey(n)) by {
          forall i | 0 <= i < |r.attrs| ensures r.attrs[i].key != SymKey(n) {
            assert r.attrs[i].key.name != n;
          }
        }
      }
    }
  }
}

=== FILE: fedora_query.dfy ===
/** `Valkyrie::Persistence::Fedora::QueryService`: lookups by id and the
    queries built on them. The LDP transport is a parameter: `load` gives
    the resource the resource factory builds from what Fedora returns for a
    URI, or says the URI is gone or not found, and `inbound` gives the
    statements of a resource's container, inbound references included, in
    enumeration order. Ruby's lazy enumerators are evaluated in full. */
module FedoraQuery {
  import opened Wrappers
  import opened Strs
  import opened Values
  import opened Types
  import opened Resources
  import opened MetadataAdapter
  import opened PermissiveSchema
  import opened RdfGraph
  import opened Seqs

  /** What a GET of a URI leads to: a resource, or `Ldp::Gone` /
      `Ldp::NotFound`. */
  datatype Fetched = Found(resource: Resource) | Missing

  datatype Service = Service(
    adapter: Adapter,
    standardize: bool,          // `adapter.standardize_query_result?`
    schema: seq<Mapping>,       // `adapter.schema`
    load: string -> Fetched,
    inbound: string -> seq<Triple>)

  /** `validate_id`: a String or a `Valkyrie::ID` passes, as its string;
      anything else is an `ArgumentError`. */
  function ValidateId(id: Value): (r: Result<string>)
    ensures r.Ok? <==> id.Str? || id.Id?
    ensures r.Err? ==> r.error == ArgumentError
    ensures id.Str? ==> r == Ok(id.s)
    ensures id.Id? ==> r == Ok(id.id)
  {
    match id
    case Str(s) => Ok(s)
    case Id(s) => Ok(s)
    case _ => Err(ArgumentError)
  }

  /** `find_by`: validate the id, make its URI, fetch it; a gone or missing
      resource is an `ObjectNotFoundError`. */
  function FindBy(svc: Service, id: Value): (r: Result<Resource>)
    ensures !(id.Str? || id.Id?) ==> r == Err(ArgumentError)
    ensures r.Ok? <==> ValidateId(id).Ok? && IdToUri(svc.adapter, ValidateId(id).value).Ok?
                       && svc.load(IdToUri(svc.adapter, ValidateId(id).value).value).Found?
    ensures r.Ok? ==> r.value == svc.load(IdToUri(svc.adapter, ValidateId(id).value).value).resource
    ensures r.Err? && ValidateId(id).Ok? && IdToUri(svc.adapter, ValidateId(id).value).Ok? ==> r.error == ObjectNotFound
  {
    var s :- ValidateId(id);
    var u :- IdToUri(svc.adapter, s);
    match svc.load(u)
    case Found(x) => Ok(x)
    case Missing => Err(ObjectNotFound)
  }

  /** `ids.map { find_by }` with nothing rescued: every lookup must succeed,
      and the first failure in input order is the one raised. */
  function FindEach(svc: Service, ids: seq<Value>): (r: Result<seq<Resource>>)
    ensures r.Ok? <==> forall i :: 0 <= i < |ids| ==> FindBy(svc, ids[i]).Ok?
    ensures r.Ok? ==> |r.value| == |ids| && forall i :: 0 <= i < |ids| ==> r.value[i] == FindBy(svc, ids[i]).value
    ensures r.Err? ==> exists i :: 0 <= i < |ids| && FindBy(svc, ids[i]) == Err(r.error)
                                   && forall k :: 0 <= k < i ==> FindBy(svc, ids[k]).Ok?
  {
    if |ids| == 0 then Ok([])
    else
      var x :- FindBy(svc, ids[0]);
      var rest :- FindEach(svc, ids[1..]);
      assert forall i :: 1 <= i < |ids| ==> ids[i] == ids[1..][i - 1];
      Ok([x] + rest)
  }

  /** The lookups of `find_many_by_ids`: a missing id is skipped, any other
      failure is raised. */
  function Collect(svc: Service, ids: seq<Value>): (r: Result<seq<Resource>>)
    ensures r.Ok? ==> |r.value| <= |ids|
    ensures r.Ok? ==> forall i :: 0 <= i < |r.value| ==> exists j :: 0 <= j < |ids| && FindBy(svc, ids[j]) == Ok(r.value[i])
    ensures r.Err? ==> r.error != ObjectNotFound
  {
    if |ids| == 0 then Ok([])
    else
      match FindBy(svc, ids[0])
      case Err(ObjectNotFound) =>
        var r := Collect(svc, ids[1..]);
        assert forall j :: 0 <= j < |ids| - 1 ==> ids[1..][j] == ids[j + 1];
        r
      case Err(e) => Err(e)
      case Ok(x) =>
        var rest :- Collect(svc, ids[1..]);
        assert forall j :: 0 <= j < |ids| - 1 ==> ids[1..][j] == ids[j + 1];
        Ok([x] + rest)
  }

  /** `find_many_by_ids`: duplicates are dropped first when the adapter
      standardizes query results. */
  function FindManyByIds(svc: Service, ids: seq<Value>): (r: Result<seq<Resource>>)
    ensures r.Ok? ==> |r.value| <= |ids|
    ensures r.Err? ==> r.error != ObjectNotFound
  {
    Collect(svc, if svc.standardize then Uniq(ids) else ids)
  }

  /** One step of `Collect`: the lookup of the head, then the rest. */
  function CollectStep(head: Result<Resource>, rest: Result<seq<Resource>>): Result<seq<Resource>> {
    match head
    case Err(ObjectNotFound) => rest
    case Err(e) => Err(e)
    case Ok(x) => (match rest case Err(e) => Err(e) case Ok(b) => Ok([x] + b))
  }

  /** Both parts' lookups, the first failure winning. */
  function Both(a: Result<seq<Resource>>, b: Result<seq<Resource>>): Result<seq<Resource>> {
    match a
    case Err(e) => Err(e)
    case Ok(x) => (match b case Err(e) => Err(e) case Ok(y) => Ok(x + y))
  }

  lemma CollectCons(svc: Service, ids: seq<Value>)
    requires |ids| > 0
    ensures Collect(svc, ids) == CollectStep(FindBy(svc, ids[0]), Collect(svc, ids[1..]))
  {
  }

  lemma StepBoth(h: Result<Resource>, a: Result<seq<Resource>>, b: Result<seq<Resource>>)
    ensures CollectStep(h, Both(a, b)) == Both(CollectStep(h, a), b)
  {
    if h.Ok? && a.Ok? && b.Ok? {
      assert [h.value] + (a.value + b.value) == ([h.value] + a.value) + b.value;
    }
  }

  /** Lookups of a concatenation are the lookups of each part, in order. */
  lemma {:induction false} CollectAppend(svc: Service, xs: seq<Value>, ys: seq<Value>)
    ensures Collect(svc, xs + ys) == Both(Collect(svc, xs), Collect(svc, ys))
  {
    if |xs| > 0 {
      var z := xs + ys;
      assert z[1..] == xs[1..] + ys;
      assert z[0] == xs[0];
      CollectAppend(svc, xs[1..], ys);
      CollectCons(svc, z);
      CollectCons(svc, xs);
      StepBoth(FindBy(svc, xs[0]), Collect(svc, xs[1..]), Collect(svc, ys));
    } else {
      assert xs + ys == ys;
      match Collect(svc, ys)
      case Err(e) =>
      case Ok(b) => assert [] + b == b;
    }
  }

  /** A missing id anywhere in the input leaves no trace in the result. */
  lemma MissingSkipped(svc: Service, xs: seq<Value>, x: Value, ys: seq<Value>)
    requires FindBy(svc, x) == Err(ObjectNotFound)
    ensures Collect(svc, xs + [x] + ys) == Collect(svc, xs + ys)
  {
    CollectAppend(svc, xs, [x] + ys);
    CollectAppend(svc, xs, ys);
    assert ([x] + ys)[1..] == ys;
    assert xs + [x] + ys == xs + ([x] + ys);
  }

  /** When every id is found, the result is one resource per id, in input
      order. */
  lemma {:induction false} CollectAllFound(svc: Service, ids: seq<Value>)
    requires forall i :: 0 <= i < |ids| ==> FindBy(svc, ids[i]).Ok?
    ensures Collect(svc, ids) == FindEach(svc, ids)
  {
    if |ids| > 0 {
      assert forall i :: 0 <= i < |ids| - 1 ==> ids[1..][i] == ids[i + 1];
      CollectAllFound(svc, ids[1..]);
    }
  }

  /** With results standardized, asking twice for the same ids gives what
      asking once does; without, every found id counts each time it is
      asked for. */
  lemma FindManyRepeated(svc: Service, ids: seq<Value>)
    ensures svc.standardize ==> FindManyByIds(svc, ids + ids) == FindManyByIds(svc, ids)
    ensures !svc.standardize && (forall i :: 0 <= i < |ids| ==> FindBy(svc, ids[i]).Ok?) ==>
      FindManyByIds(svc, ids + ids).Ok? && |FindManyByIds(svc, ids + ids).value| == 2 * |ids|
  {
    var twice := ids + ids;
    if svc.standardize {
      UniqAbsorbs(ids, ids);
    } else if forall i :: 0 <= i < |ids| ==> FindBy(svc, ids[i]).Ok? {
      assert forall i :: 0 <= i < |twice| ==> FindBy(svc, twice[i]).Ok? by {
        forall i | 0 <= i < |twice| ensures FindBy(svc, twice[i]).Ok? {
          if i < |ids| { assert twice[i] == ids[i]; } else { assert twice[i] == ids[i - |ids|]; }
        }
      }
      CollectAllFound(svc, twice);
    }
  }

  /** Appending elements already present changes nothing under `uniq`. */
  lemma {:induction false} UniqAbsorbs(xs: seq<Value>, ys: seq<Value>)
    requires forall i :: 0 <= i < |ys| ==> ys[i] in xs
    ensures Uniq(xs + ys) == Uniq(xs)
    decreases |ys|
  {
    if |ys| > 0 {
      var pre := ys[..|ys| - 1];
      UniqAbsorbs(xs, pre);
      assert (xs + ys)[..|xs + ys| - 1] == xs + pre;
      assert ys[|ys| - 1] in Uniq(xs + pre);
    } else {
      assert xs + ys == xs;
    }
  }

  // ---- members and references ----

  /** `x.is_a?(Valkyrie::ID)`. */
  predicate IsId(x: Value) {
    x.Id?
  }

  /** `obj.is_a?(model)` for a model given by class name. */
  function IsModel(model: string): Resource -> bool {
    (x: Resource) => x.klass.name == model
  }

  /** The resources that are instances of the model; no model keeps
      everything. */
  function OfModel(rs: seq<Resource>, model: Option<string>): (r: seq<Resource>)
    ensures model.None? ==> r == rs
    ensures model.Some? ==> |r| <= |rs| && forall i :: 0 <= i < |r| ==> r[i].klass.name == model.value && r[i] in rs
    ensures model.Some? ==> forall x :: x in rs && x.klass.name == model.value ==> x in r
  {
    if model.None? then rs else Filter(rs, IsModel(model.value))
  }

  /** `find_members`: nothing for a class without `member_ids`; otherwise
      every member looked up in `member_ids` order, then narrowed to the
      model. */
  function FindMembers(svc: Service, res: Resource, model: Option<string>): (r: Result<seq<Resource>>)
    ensures !Declares(res.klass.schema, "member_ids") ==> r == Ok([])
    ensures Declares(res.klass.schema, "member_ids") ==> r.Ok? == FindEach(svc, KernelArray(Get(res, "member_ids"))).Ok?
    ensures r.Ok? ==> forall i :: 0 <= i < |r.value| ==> model.None? || r.value[i].klass.name == model.value
  {
    if !Declares(res.klass.schema, "member_ids") then Ok([])
    else
      var found :- FindEach(svc, KernelArray(Get(res, "member_ids")));
      Ok(OfModel(found, model))
  }

  /** Without a model, the members come back one per id, in the order of
      `member_ids`; with one, the members of other classes are dropped and
      the rest keep that order. */
  lemma MembersInOrder(svc: Service, res: Resource, model: Option<string>, ms: seq<Resource>)
    requires Declares(res.klass.schema, "member_ids")
    requires FindMembers(svc, res, None) == Ok(ms)
    ensures |ms| == |KernelArray(Get(res, "member_ids"))|
    ensures forall i :: 0 <= i < |ms| ==> Ok(ms[i]) == FindBy(svc, KernelArray(Get(res, "member_ids"))[i])
    ensures FindMembers(svc, res, model) == Ok(OfModel(ms, model))
  {
  }

  /** `(resource[property] || []).select { |x| x.is_a?(Valkyrie::ID) }`:
      the IDs of an array, nothing for `nil`, `false` or a hash (whose
      pairs are never IDs); any other value has no `select`. */
  function ReferencedIds(v: Value): (r: Result<seq<Value>>)
    ensures v.Arr? ==> r.Ok? && forall x :: x in r.value <==> x in v.items && x.Id?
    ensures v.Nil? || v == Bool(false) || v.Map? ==> r == Ok([])
    ensures r.Ok? ==> forall i :: 0 <= i < |r.value| ==> r.value[i].Id?
  {
    match v
    case Nil => Ok([])
    case Bool(b) => if b then Err(NoMethodError) else Ok([])
    case Arr(xs) => Ok(Filter(xs, IsId))
    case Map(_) => Ok([])
    case _ => Err(NoMethodError)
  }

  /** `find_references_by`: the resources the property's IDs name, in
      attribute order. */
  function FindReferencesBy(svc: Service, res: Resource, property: string): (r: Result<seq<Resource>>)
    ensures Get(res, property).Nil? ==> r == Ok([])
    ensures Get(res, property).Arr? ==> r == FindEach(svc, Filter(Get(res, property).items, IsId))
  {
    var ids :- ReferencedIds(Get(res, property));
    FindEach(svc, ids)
  }

  /** Values other than IDs in the property (strings, URIs, nested
      resources) are never looked up, wherever they sit. */
  lemma ReferencesSkipOthers(svc: Service, res: Resource, property: string, xs: seq<Value>, x: Value, ys: seq<Value>)
    requires Get(res, property) == Arr(xs + [x] + ys) && !x.Id?
    ensures FindReferencesBy(svc, res, property) == FindEach(svc, Filter(xs + ys, IsId))
  {
    SkipNonId(xs, x, ys);
    assert ReferencedIds(Get(res, property)) == Ok(Filter(xs + [x] + ys, IsId));
  }

  lemma SkipNonId(xs: seq<Value>, x: Value, ys: seq<Value>)
    requires !x.Id?
    ensures Filter(xs + [x] + ys, IsId) == Filter(xs + ys, IsId)
  {
    var a := xs + [x];
    FilterAppend(a, ys, IsId);
    FilterAppend(xs, [x], IsId);
    FilterAppend(xs, ys, IsId);
    assert [x][1..] == [];
    assert Filter([x], IsId) == [];
    assert Filter(a, IsId) == Filter(xs, IsId);
  }

  // ---- inverse references ----

  /** `x.to_s.gsub(/#.*\/, '')`: on each line, everything from the first '#'
      on is removed. */
  function StripFragment(s: string): (r: string)
    ensures '\n' !in s ==> r == BeforeFirst(s, '#')
    decreases |s|
  {
    if '\n' !in s then BeforeFirst(s, '#')
    else
      var line := BeforeFirst(s, '\n');
      BeforeFirst(line, '#') + "\n" + StripFragment(s[|line| + 1..])
  }

  /** `graph.query([nil, p, o])`: the statements with predicate `p` and, if
      given, object `o`. */
  predicate Matches(t: Triple, p: string, o: Option<Term>) {
    t.p == p && (o.None? || t.o == o.value)
  }

  /** The id a referring subject names: fragment stripped, then
      `uri_to_id`. */
  function SubjectId(s: string): Value {
    Id(UriToId(StripFragment(s)))
  }

  /** The ids of the subjects of the matching statements, in enumeration
      order, one per statement. */
  function Referrers(g: seq<Triple>, p: string, o: Option<Term>): (ids: seq<Value>)
    ensures |ids| <= |g|
    ensures forall x :: x in ids <==> exists j :: 0 <= j < |g| && Matches(g[j], p, o) && x == SubjectId(g[j].s)
  {
    if |g| == 0 then []
    else
      var rest := Referrers(g[1..], p, o);
      assert forall j :: 0 <= j < |g| - 1 ==> g[1..][j] == g[j + 1];
      (if Matches(g[0], p, o) then [SubjectId(g[0].s)] else []) + rest
  }

  /** `ids.uniq!` when the adapter standardizes query results. */
  function Standardized(svc: Service, ids: seq<Value>): (r: seq<Value>)
    ensures svc.standardize ==> NoDup(r)
    ensures forall x :: x in r <==> x in ids
    ensures !svc.standardize ==> r == ids
  {
    if svc.standardize then Uniq(ids) else ids
  }

  /** The text Ruby interpolates for a resource's id. */
  function IdText(cfg: Config, res: Resource): string {
    ToS(cfg, Get(res, "id"))
  }

  /** `find_parents`: every resource holding a proxy in the graph fetched
      for this one. */
  function FindParents(cfg: Config, svc: Service, res: Resource): (r: Result<seq<Resource>>)
    ensures r.Ok? ==> IdToUri(svc.adapter, IdText(cfg, res)).Ok?
    ensures r.Ok? ==> |r.value| == |Standardized(svc, Referrers(svc.inbound(IdToUri(svc.adapter, IdText(cfg, res)).value), ProxyFor, None))|
  {
    var u :- IdToUri(svc.adapter, IdText(cfg, res));
    FindEach(svc, Standardized(svc, Referrers(svc.inbound(u), ProxyFor, None)))
  }

  /** The resources found for some ids are exactly the lookups of one of
      the ids. */
  lemma FoundMembers(svc: Service, ids: seq<Value>)
    requires FindEach(svc, ids).Ok?
    ensures forall x :: x in FindEach(svc, ids).value <==> exists k :: k in ids && FindBy(svc, k) == Ok(x)
  {
    var r := FindEach(svc, ids).value;
    forall x ensures x in r <==> exists k :: k in ids && FindBy(svc, k) == Ok(x) {
      if x in r {
        var i :| 0 <= i < |r| && r[i] == x;
        assert ids[i] in ids;
      }
      if exists k :: k in ids && FindBy(svc, k) == Ok(x) {
        var k :| k in ids && FindBy(svc, k) == Ok(x);
        var j :| 0 <= j < |ids| && ids[j] == k;
        assert r[j] == x;
      }
    }
  }

  /** `x` is what `find_by` gives for the subject of some proxy statement
      of `g`. */
  predicate ProxyParent(svc: Service, g: seq<Triple>, x: Resource) {
    exists j :: 0 <= j < |g| && g[j].p == ProxyFor && FindBy(svc, SubjectId(g[j].s)) == Ok(x)
  }

  /** `find_parents` returns a resource exactly when it is what `find_by`
      gives for the subject of some proxy statement in the fetched graph,
      with or without `uniq!`. */
  lemma ParentsMembers(cfg: Config, svc: Service, res: Resource, u: string)
    requires IdToUri(svc.adapter, IdText(cfg, res)) == Ok(u)
    requires FindParents(cfg, svc, res).Ok?
    ensures forall x :: x in FindParents(cfg, svc, res).value <==> ProxyParent(svc, svc.inbound(u), x)
  {
    ProxyLookups(svc, svc.inbound(u));
  }

  /** The lookups of the proxy subjects of `g` are the proxy parents. */
  lemma ProxyLookups(svc: Service, g: seq<Triple>)
    requires FindEach(svc, Standardized(svc, Referrers(g, ProxyFor, None))).Ok?
    ensures forall x :: x in FindEach(svc, Standardized(svc, Referrers(g, ProxyFor, None))).value <==> ProxyParent(svc, g, x)
  {
    var ids := Standardized(svc, Referrers(g, ProxyFor, None));
    FoundMembers(svc, ids);
    forall x | ProxyParent(svc, g, x) ensures exists k :: k in ids && FindBy(svc, k) == Ok(x) {
      var j :| 0 <= j < |g| && g[j].p == ProxyFor && FindBy(svc, SubjectId(g[j].s)) == Ok(x);
      ProxyId(svc, g, j);
    }
  }

  /** The subject of a proxy statement is among the ids `find_parents`
      looks up. */
  lemma ProxyId(svc: Service, g: seq<Triple>, j: nat)
    requires j < |g| && g[j].p == ProxyFor
    ensures SubjectId(g[j].s) in Standardized(svc, Referrers(g, ProxyFor, None))
  {
    assert Matches(g[j], ProxyFor, None);
  }

  /** A referring subject that is the URI of `x` with a fragment names `x`,
      and the lookups of `find_parents` ask for each parent only once when
      results are standardized. */
  lemma ProxySubjectNamesParent(a: Adapter, x: string, frag: string)
    requires !AllChar(x, '-') && '/' !in x && '\n' !in x && '#' !in x
    requires '\n' !in a.options && '\n' !in a.basePath && '#' !in a.options && '#' !in a.basePath
    requires '\n' !in frag
    ensures IdToUri(a, x).Ok?
    ensures SubjectId(IdToUri(a, x).value + "#" + frag) == Id(x)
  {
    RoundTrip(a, x);
    var u := IdToUri(a, x).value;
    UriPlain(a, x);
    assert '\n' !in u + "#" + frag;
    BeforeFirstAppend(u, '#', frag);
  }

  /** The URI of such an id holds no '#' and no line break. */
  lemma UriPlain(a: Adapter, x: string)
    requires !AllChar(x, '-') && '\n' !in x && '#' !in x
    requires '\n' !in a.options && '\n' !in a.basePath && '#' !in a.options && '#' !in a.basePath
    ensures IdToUri(a, x).Ok?
    ensures '#' !in IdToUri(a, x).value && '\n' !in IdToUri(a, x).value
  {
    PairPathAbsent(x, '#');
    PairPathAbsent(x, '\n');
  }

  /** `ordered_property?`: the schema entry's `ordered` flag. The schema is
      a hash, so a name the class does not declare yields `nil`, whose
      `meta` is a `NoMethodError`. */
  function OrderedProperty(klass: Klass, property: string): (r: Result<bool>)
    ensures r.Err? <==> !Declares(klass.schema, property)
    ensures r.Err? ==> r.error == NoMethodError
    ensures r.Ok? ==> exists d :: d in klass.schema && d.name == property && d.ordered == r.value
  {
    match DeclOf(klass.schema, property)
    case Some(d) => Ok(d.ordered)
    case None => Err(NoMethodError)
  }

  /** The declared property is ordered. */
  predicate Ordered(klass: Klass, property: string) {
    OrderedProperty(klass, property) == Ok(true)
  }

  /** `o[property].include?(id)` for an array or `nil` (which has no
      `include?`). */
  function Includes(v: Value, x: Value): (r: Result<bool>)
    ensures v.Arr? ==> r == Ok(x in v.items)
    ensures !v.Arr? ==> r == Err(NoMethodError)
  {
    if v.Arr? then Ok(x in v.items) else Err(NoMethodError)
  }

  /** The resource's property is an array including `x`. */
  predicate Holds(y: Resource, property: string, x: Value) {
    Get(y, property).Arr? && x in Get(y, property).items
  }

  /** The id is found and the resource's property is an array, so that
      `include?` can be asked. */
  predicate Selectable(svc: Service, id: Value, property: string) {
    FindBy(svc, id).Ok? && Get(FindBy(svc, id).value, property).Arr?
  }

  /** `ids.lazy.map { find_by }.select { o[property].include?(x) }`, run to
      the end: each id is looked up and checked before the next one. */
  function FindSelect(svc: Service, ids: seq<Value>, property: string, x: Value): (r: Result<seq<Resource>>)
    ensures r.Ok? ==> |r.value| <= |ids|
    ensures r.Ok? ==> forall i :: 0 <= i < |r.value| ==> Includes(Get(r.value[i], property), x) == Ok(true)
    ensures r.Ok? ==> forall i :: 0 <= i < |r.value| ==> exists j :: 0 <= j < |ids| && FindBy(svc, ids[j]) == Ok(r.value[i])
    ensures r.Ok? <==> forall j :: 0 <= j < |ids| ==> Selectable(svc, ids[j], property)
    ensures r.Ok? ==> forall y :: y in r.value <==>
      exists j :: 0 <= j < |ids| && FindBy(svc, ids[j]) == Ok(y) && Holds(y, property, x)
    decreases |ids|, 1
  {
    if |ids| == 0 then Ok([])
    else
      match FindBy(svc, ids[0])
      case Err(e) => Err(e)
      case Ok(o) =>
        match Includes(Get(o, property), x)
        case Err(e) => Err(e)
        case Ok(keep) => SelectRest(svc, ids, property, x, o, keep)
  }

  /** The select once the first id has been looked up and checked: the
      first resource, if kept, in front of the rest's selection, or the
      rest's error. */
  function SelectRest(svc: Service, ids: seq<Value>, property: string, x: Value, o: Resource, keep: bool): (r: Result<seq<Resource>>)
    requires |ids| > 0 && FindBy(svc, ids[0]) == Ok(o) && Includes(Get(o, property), x) == Ok(keep)
    ensures r.Ok? ==> |r.value| <= |ids|
    ensures r.Ok? ==> forall i :: 0 <= i < |r.value| ==> Includes(Get(r.value[i], property), x) == Ok(true)
    ensures r.Ok? ==> forall i :: 0 <= i < |r.value| ==> exists j :: 0 <= j < |ids| && FindBy(svc, ids[j]) == Ok(r.value[i])
    ensures r.Ok? <==> forall j :: 0 <= j < |ids| ==> Selectable(svc, ids[j], property)
    ensures r.Ok? ==> forall y :: y in r.value <==>
      exists j :: 0 <= j < |ids| && FindBy(svc, ids[j]) == Ok(y) && Holds(y, property, x)
    decreases |ids|, 0
  {
    match FindSelect(svc, ids[1..], property, x)
    case Err(e) =>
      assert !forall j :: 0 <= j < |ids| ==> Selectable(svc, ids[j], property) by {
        var k :| 0 <= k < |ids[1..]| && !Selectable(svc, ids[1..][k], property);
        assert ids[1..][k] == ids[k + 1];
      }
      Err(e)
    case Ok(rest) =>
      SelectCons(svc, ids, property, x, o, keep, rest);
      SelectFound(svc, ids, property, x, o, keep, rest);
      Ok((if keep then [o] else []) + rest)
  }

  /** A select step keeps only holders, only found ones, and every id was
      selectable. */
  lemma SelectFound(svc: Service, ids: seq<Value>, property: string, x: Value, o: Resource, keep: bool, rest: seq<Resource>)
    requires |ids| > 0 && FindBy(svc, ids[0]) == Ok(o) && Includes(Get(o, property), x) == Ok(keep)
    requires forall i :: 0 <= i < |rest| ==> Includes(Get(rest[i], property), x) == Ok(true)
    requires forall i :: 0 <= i < |rest| ==> exists j :: 0 <= j < |ids[1..]| && FindBy(svc, ids[1..][j]) == Ok(rest[i])
    requires forall j :: 0 <= j < |ids[1..]| ==> Selectable(svc, ids[1..][j], property)
    ensures var r := (if keep then [o] else []) + rest;
      forall i :: 0 <= i < |r| ==> Includes(Get(r[i], property), x) == Ok(true)
    ensures var r := (if keep then [o] else []) + rest;
      forall i :: 0 <= i < |r| ==> exists j :: 0 <= j < |ids| && FindBy(svc, ids[j]) == Ok(r[i])
    ensures forall j :: 0 <= j < |ids| ==> Selectable(svc, ids[j], property)
  {
    var r := (if keep then [o] else []) + rest;
    var d := |r| - |rest|;
    forall i | 0 <= i < |r| ensures Includes(Get(r[i], property), x) == Ok(true) && exists j :: 0 <= j < |ids| && FindBy(svc, ids[j]) == Ok(r[i]) {
      if i >= d {
        assert r[i] == rest[i - d];
        SelectShift(svc, ids, rest[i - d]);
      } else {
        assert FindBy(svc, ids[0]) == Ok(r[i]);
      }
    }
    SelectAllIds(svc, ids, property);
  }

  /** Every id is selectable when the first one and all the later ones
      are. */
  lemma SelectAllIds(svc: Service, ids: seq<Value>, property: string)
    requires |ids| > 0 && Selectable(svc, ids[0], property)
    requires forall j :: 0 <= j < |ids[1..]| ==> Selectable(svc, ids[1..][j], property)
    ensures forall j :: 0 <= j < |ids| ==> Selectable(svc, ids[j], property)
  {
    forall j | 0 < j < |ids| ensures Selectable(svc, ids[j], property) {
      assert ids[1..][j - 1] == ids[j];
    }
  }

  /** A lookup of one of the later ids is a lookup of one of the ids. */
  lemma SelectShift(svc: Service, ids: seq<Value>, y: Resource)
    requires |ids| > 0 && exists j :: 0 <= j < |ids[1..]| && FindBy(svc, ids[1..][j]) == Ok(y)
    ensures exists j :: 0 <= j < |ids| && FindBy(svc, ids[j]) == Ok(y)
  {
    var j :| 0 <= j < |ids[1..]| && FindBy(svc, ids[1..][j]) == Ok(y);
    assert ids[1..][j] == ids[j + 1];
  }

  /** A select step: the first lookup, kept or not, in front of the rest's
      selection keeps exactly the holders among all the lookups. */
  lemma SelectCons(svc: Service, ids: seq<Value>, property: string, x: Value, o: Resource, keep: bool, rest: seq<Resource>)
    requires |ids| > 0 && FindBy(svc, ids[0]) == Ok(o) && Includes(Get(o, property), x) == Ok(keep)
    requires forall y :: y in rest <==>
      exists j :: 0 <= j < |ids[1..]| && FindBy(svc, ids[1..][j]) == Ok(y) && Holds(y, property, x)
    ensures forall y :: y in (if keep then [o] else []) + rest <==>
      exists j :: 0 <= j < |ids| && FindBy(svc, ids[j]) == Ok(y) && Holds(y, property, x)
  {
    forall y ensures y in (if keep then [o] else []) + rest <==>
      exists j :: 0 <= j < |ids| && FindBy(svc, ids[j]) == Ok(y) && Holds(y, property, x)
    {
      if y in rest {
        var j :| 0 <= j < |ids[1..]| && FindBy(svc, ids[1..][j]) == Ok(y) && Holds(y, property, x);
        assert ids[1..][j] == ids[j + 1];
      }
      if exists j :: 0 <= j < |ids| && FindBy(svc, ids[j]) == Ok(y) && Holds(y, property, x) {
        var j :| 0 <= j < |ids| && FindBy(svc, ids[j]) == Ok(y) && Holds(y, property, x);
        if j > 0 {
          assert ids[1..][j - 1] == ids[j];
        }
      }
    }
  }

  /** `find_inverse_references_by`: an unsaved resource is an
      `ArgumentError`; for an ordered property the referrers are the
      holders of a proxy for the resource, kept only when their property
      includes its id; otherwise the subjects of statements with the
      property's predicate and the resource's URI as object. */
  function FindInverseReferencesBy(cfg: Config, svc: Service, res: Resource, property: string): (r: Result<seq<Resource>>)
    ensures !Persisted(res) ==> r == Err(ArgumentError)
    ensures Persisted(res) && !Declares(res.klass.schema, property) ==> r == Err(NoMethodError)
    ensures r.Ok? ==> Persisted(res) && Declares(res.klass.schema, property) && IdToUri(svc.adapter, IdText(cfg, res)).Ok?
    ensures r.Ok? && Ordered(res.klass, property) ==>
      forall i :: 0 <= i < |r.value| ==> Get(r.value[i], property).Arr? && Get(res, "id") in Get(r.value[i], property).items
  {
    if !Persisted(res) then Err(ArgumentError)
    else
      var ordered :- OrderedProperty(res.klass, property);
      var u :- IdToUri(svc.adapter, IdText(cfg, res));
      var g := svc.inbound(u);
      if ordered then
        FindSelect(svc, Standardized(svc, Referrers(g, ProxyFor, Some(Iri(u)))), property, Get(res, "id"))
      else
        FindEach(svc, Standardized(svc, Referrers(g, PredicateFor(svc.schema, property), Some(Iri(u)))))
  }

  /** Which subjects an unordered inverse query asks for: one id per
      statement pointing at the resource through the property's predicate,
      each once when results are standardized, and every such subject
      among them. */
  lemma UnorderedReferrers(cfg: Config, svc: Service, res: Resource, property: string, u: string, j: nat)
    requires Persisted(res) && OrderedProperty(res.klass, property) == Ok(false)
    requires IdToUri(svc.adapter, IdText(cfg, res)) == Ok(u)
    requires j < |svc.inbound(u)| && svc.inbound(u)[j].p == PredicateFor(svc.schema, property) && svc.inbound(u)[j].o == Iri(u)
    ensures SubjectId(svc.inbound(u)[j].s) in Standardized(svc, Referrers(svc.inbound(u), PredicateFor(svc.schema, property), Some(Iri(u))))
    ensures svc.standardize ==> NoDup(Standardized(svc, Referrers(svc.inbound(u), PredicateFor(svc.schema, property), Some(Iri(u)))))
    ensures FindInverseReferencesBy(cfg, svc, res, property) ==
      FindEach(svc, Standardized(svc, Referrers(svc.inbound(u), PredicateFor(svc.schema, property), Some(Iri(u)))))
  {
    assert Matches(svc.inbound(u)[j], PredicateFor(svc.schema, property), Some(Iri(u)));
  }

  /** The resources among `rs` whose property is an array including `x`,
      in order. */
  function Holders(rs: seq<Resource>, property: string, x: Value): (hs: seq<Resource>)
    ensures |hs| <= |rs|
  {
    if |rs| == 0 then []
    else
      (if Holds(rs[0], property, x) then [rs[0]] else []) + Holders(rs[1..], property, x)
  }

  /** A successful select is the filter of the lookups of all ids: the
      same resources as looking every id up first, keeping those that hold
      `x`, in id order. */
  lemma {:induction false} SelectHolders(svc: Service, ids: seq<Value>, property: string, x: Value)
    requires FindSelect(svc, ids, property, x).Ok?
    ensures FindEach(svc, ids).Ok?
    ensures FindSelect(svc, ids, property, x).value == Holders(FindEach(svc, ids).value, property, x)
    decreases |ids|
  {
    if |ids| > 0 {
      SelectHolders(svc, ids[1..], property, x);
      var rs := FindEach(svc, ids).value;
      assert rs[1..] == FindEach(svc, ids[1..]).value;
    }
  }

  /** Which subjects an ordered inverse query asks for: one id per proxy
      statement for the resource, each once when results are standardized,
      and every such subject among them; the query keeps, in that order,
      the lookups whose property includes the resource's id. */
  lemma OrderedReferrers(cfg: Config, svc: Service, res: Resource, property: string, u: string, j: nat)
    requires Persisted(res) && Ordered(res.klass, property)
    requires IdToUri(svc.adapter, IdText(cfg, res)) == Ok(u)
    requires j < |svc.inbound(u)| && svc.inbound(u)[j].p == ProxyFor && svc.inbound(u)[j].o == Iri(u)
    ensures SubjectId(svc.inbound(u)[j].s) in Standardized(svc, Referrers(svc.inbound(u), ProxyFor, Some(Iri(u))))
    ensures svc.standardize ==> NoDup(Standardized(svc, Referrers(svc.inbound(u), ProxyFor, Some(Iri(u)))))
    ensures FindInverseReferencesBy(cfg, svc, res, property) ==
      FindSelect(svc, Standardized(svc, Referrers(svc.inbound(u), ProxyFor, Some(Iri(u)))), property, Get(res, "id"))
    ensures FindInverseReferencesBy(cfg, svc, res, property).Ok? ==>
      FindInverseReferencesBy(cfg, svc, res, property).value ==
      Holders(FindEach(svc, Standardized(svc, Referrers(svc.inbound(u), ProxyFor, Some(Iri(u))))).value, property, Get(res, "id"))
  {
    assert Matches(svc.inbound(u)[j], ProxyFor, Some(Iri(u)));
    var ids := Standardized(svc, Referrers(svc.inbound(u), ProxyFor, Some(Iri(u))));
    if FindSelect(svc, ids, property, Get(res, "id")).Ok? {
      SelectHolders(svc, ids, property, Get(res, "id"));
    }
  }
}

=== FILE: fedora_storage.dfy ===
/** `Valkyrie::Storage::Fedora`: the naming side of the Fedora storage
    adapter. File ids carry the `fedora://` scheme; reading translates them
    back to the repository's own scheme, and an upload derives the new id
    from the location Fedora answers when a version is created. The LDP
    connection is a `fetch` function from URL to what is there. */
module FedoraStorage {
  import opened Wrappers
  import opened Strs
  import opened Values

  /** `PROTOCOL`. */
  const Protocol: string := "fedora://"

  /** What `ActiveFedora::File#ldp_source` finds at a URL: content of some
      size, a resource that does not exist yet (`new?`), or a tombstone
      (`Ldp::Gone`). */
  datatype Source = Present(size: nat) | Fresh | Gone

  /** The adapter: Ruby's `to_s` for ids, the scheme of the configured
      Fedora URL, and the repository. */
  datatype Storage = Storage(cfg: Config, scheme: string, fetch: string -> Source)

  /** `StreamFile`: the id asked for, and the URL and size it is read from. */
  datatype StreamFile = StreamFile(id: Value, url: string, size: nat)

  /** `handles?`: ids in the `fedora://` scheme. */
  predicate Handles(st: Storage, id: Value) {
    StartsWith(ToS(st.cfg, id), Protocol)
  }

  /** `active_fedora_identifier`: the first `fedora://` becomes the
      repository's scheme. */
  function FedoraUrl(scheme: string, id: string): (r: string)
    ensures StartsWith(id, Protocol) ==> r == scheme + "://" + id[|Protocol|..]
  {
    ReplaceFirst(id, Protocol, scheme + "://")
  }

  /** Ids in other schemes are used as they are. */
  lemma ForeignUrl(scheme: string, id: string)
    requires !Contains(id, Protocol)
    ensures FedoraUrl(scheme, id) == id
  {
    ReplaceFirstAbsent(id, Protocol, scheme + "://");
  }

  /** `find_by`: the file at the translated URL; a resource that does not
      exist yet or is gone is `FileNotFound`. */
  function FindBy(st: Storage, id: Value): (r: Result<StreamFile>)
    ensures var url := FedoraUrl(st.scheme, ToS(st.cfg, id));
      && (r.Ok? <==> st.fetch(url).Present?)
      && (r.Err? ==> r.error == FileNotFound)
      && (r.Ok? ==> r.value == StreamFile(id, url, st.fetch(url).size))
  {
    var url := FedoraUrl(st.scheme, ToS(st.cfg, id));
    match st.fetch(url)
    case Present(n) => Ok(StreamFile(id, url, n))
    case Fresh => Err(FileNotFound)
    case Gone => Err(FileNotFound)
  }

  // ---- the id of an uploaded file ----

  /** A "//" starts at `k`. */
  predicate Sep(line: string, k: int) {
    0 <= k && k + 1 < |line| && line[k] == '/' && line[k + 1] == '/'
  }

  /** The position of the last "//" in a line that has at least one
      character before it: where a greedy `.+//` stops. */
  function LastSep(line: string): (r: Option<nat>)
    ensures r.Some? ==> 1 <= r.value && Sep(line, r.value)
    ensures r.Some? ==> forall k :: r.value < k ==> !Sep(line, k)
    ensures r.None? ==> forall k :: 1 <= k ==> !Sep(line, k)
    decreases |line|
  {
    if |line| < 3 then None
    else if Sep(line, |line| - 2) then Some(|line| - 2)
    else
      var pre := line[..|line| - 1];
      assert forall k :: k < |line| - 2 ==> (Sep(pre, k) <==> Sep(line, k));
      LastSep(pre)
  }

  /** `sub(/^.+\/\//, PROTOCOL)`: in the first line that has a "//" after
      its first character, everything from the line's start through its
      last "//" becomes `fedora://`; a string with no such line is left
      alone. */
  function ToProtocol(s: string): string
    decreases |s|, 1
  {
    FirstLine(s, LastSep(BeforeFirst(s, '\n')), NextLines(s))
  }

  /** The replacement in the first line when it has its last "//" at
      `sep`; otherwise `next`, the result for the lines after it. */
  function FirstLine(s: string, sep: Option<nat>, next: string): string
    requires sep.Some? ==> sep.value + 2 <= |s|
  {
    if sep.Some? then Protocol + s[sep.value + 2..] else next
  }

  /** The lines after the first. */
  function NextLines(s: string): string
    decreases |s|, 0
  {
    var n := |BeforeFirst(s, '\n')|;
    if n == |s| then s else s[..n + 1] + ToProtocol(s[n + 1..])
  }

  /** The id `upload` gives the file: the version location in the
      `fedora://` scheme, without the first "/fcr:metadata". */
  function NewId(location: string): string {
    ReplaceFirst(ToProtocol(location), "/fcr:metadata", "")
  }

  /** A prefix in which no occurrence of the pattern starts is kept by
      `sub`. */
  lemma {:induction false} ReplaceFirstAfter(a: string, b: string, p: string, q: string)
    requires |p| > 0
    requires forall i :: 0 <= i < |a| ==> !StartsWith((a + b)[i..], p)
    ensures ReplaceFirst(a + b, p, q) == a + ReplaceFirst(b, p, q)
  {
    if |a| > 0 {
      var s := a + b;
      assert s[1..] == a[1..] + b;
      assert !StartsWith(s[0..], p);
      assert s[0..] == s;
      forall i | 0 <= i < |a| - 1 ensures !StartsWith((a[1..] + b)[i..], p) {
        assert (a[1..] + b)[i..] == s[i + 1..];
      }
      ReplaceFirstAfter(a[1..], b, p, q);
      assert a == [a[0]] + a[1..];
    } else {
      assert a + b == b;
    }
  }

  /** No "/fcr:metadata" starts inside "fedora:/". */
  lemma ProtocolHead(rest: string)
    ensures forall i :: 0 <= i < 8 ==> !StartsWith((Protocol + rest)[i..], "/fcr:metadata")
  {
    var s := Protocol + rest;
    forall i | 0 <= i < 8 ensures !StartsWith(s[i..], "/fcr:metadata") {
      if i < 7 {
        assert s[i] != '/';
        DiffersAt(s[i..], "/fcr:metadata", 0);
      } else {
        assert s[i + 1] == '/';
        DiffersAt(s[i..], "/fcr:metadata", 1);
      }
    }
  }

  /** "/" + rest starts with "/fcr:metadata" exactly when rest starts with
      "fcr:metadata". */
  lemma SlashPrefix(rest: string)
    ensures StartsWith("/" + rest, "/fcr:metadata") <==> StartsWith(rest, "fcr:metadata")
  {
    assert "/fcr:metadata" == "/" + "fcr:metadata";
    var b := "/" + rest;
    if StartsWith(rest, "fcr:metadata") {
      assert b[..13] == "/" + rest[..12];
    }
    if StartsWith(b, "/fcr:metadata") {
      assert rest[..12] == b[1..13];
    }
  }

  /** `sub` of "/fcr:metadata" on a `fedora://` id: the scheme is kept and
      the rest is searched from the slash that ends it. */
  lemma AfterProtocol(rest: string)
    ensures ReplaceFirst(Protocol + rest, "/fcr:metadata", "") == "fedora:/" + ReplaceFirst("/" + rest, "/fcr:metadata", "")
  {
    ProtocolSplit(rest);
    ProtocolHead(rest);
    ReplaceFirstAfter("fedora:/", "/" + rest, "/fcr:metadata", "");
  }

  /** Removing "/fcr:metadata" from a `fedora://` id keeps the scheme,
      unless the path starts with "fcr:metadata" right after it. */
  lemma KeepsProtocol(rest: string)
    requires !StartsWith(rest, "fcr:metadata")
    ensures ReplaceFirst(Protocol + rest, "/fcr:metadata", "") == Protocol + ReplaceFirst(rest, "/fcr:metadata", "")
  {
    AfterProtocol(rest);
    SlashPrefix(rest);
    var b := "/" + rest;
    ReplaceFirstAfter("/", rest, "/fcr:metadata", "");
    assert "fedora:/" + ("/" + ReplaceFirst(rest, "/fcr:metadata", "")) == Protocol + ReplaceFirst(rest, "/fcr:metadata", "");
  }

  /** Uploaded files are this adapter's own: when the location's first line
      has a "//" after its first character, the new id is in the
      `fedora://` scheme, provided the path after the last "//" does not
      start with "fcr:metadata". */
  lemma UploadHandled(st: Storage, location: string, k: nat)
    requires LastSep(BeforeFirst(location, '\n')) == Some(k)
    requires !StartsWith(location[k + 2..], "fcr:metadata")
    ensures Handles(st, Id(NewId(location)))
  {
    ToProtocolAt(location, k);
    KeepsProtocol(location[k + 2..]);
  }

  /** `sub(/^.+\/\//, ...)` when the first line has its last "//" at `k`. */
  lemma ToProtocolAt(location: string, k: nat)
    requires LastSep(BeforeFirst(location, '\n')) == Some(k)
    ensures k + 2 <= |location|
    ensures ToProtocol(location) == Protocol + location[k + 2..]
  {
    assert ToProtocol(location) == FirstLine(location, Some(k), NextLines(location));
    Replaced(location, k, NextLines(location));
  }

  lemma Replaced(s: string, k: nat, next: string)
    requires k + 2 <= |s|
    ensures FirstLine(s, Some(k), next) == Protocol + s[k + 2..]
  {
  }

  /** `sub` replaces an occurrence at the very start. */
  lemma ReplaceFirstHere(s: string, p: string, q: string)
    requires |p| > 0 && StartsWith(s, p)
    ensures ReplaceFirst(s, p, q) == q + s[|p|..]
  {
  }

  /** The exception: when the path after the last "//" starts with
      "fcr:metadata", the removal takes the scheme's second slash. */
  lemma UploadEdge(location: string, k: nat)
    requires LastSep(BeforeFirst(location, '\n')) == Some(k)
    requires StartsWith(location[k + 2..], "fcr:metadata")
    ensures NewId(location) == "fedora:/" + location[k + 14..]
  {
    ToProtocolAt(location, k);
    var rest := location[k + 2..];
    var tail := location[k + 14..];
    assert NewId(location) == ReplaceFirst(Protocol + rest, "/fcr:metadata", "");
    AfterProtocol(rest);
    SlashPrefix(rest);
    MetadataFirst(rest, tail);
  }

  /** A path that starts with "fcr:metadata" loses it, with the slash
      before it. */
  lemma MetadataFirst(rest: string, tail: string)
    requires StartsWith(rest, "fcr:metadata") && StartsWith("/" + rest, "/fcr:metadata")
    requires tail == rest[12..]
    ensures ReplaceFirst("/" + rest, "/fcr:metadata", "") == tail
  {
    var b := "/" + rest;
    ReplaceFirstHere(b, "/fcr:metadata", "");
    assert b[13..] == tail;
  }

  /** A location in the repository's own scheme whose path has no "//",
      no line break and no "/fcr:metadata" is read back from itself: the
      new id translates back to the location. */
  lemma LocationRoundTrip(scheme: string, rest: string)
    requires '\n' !in scheme && '\n' !in rest
    requires !Contains("/" + rest, "//") && !Contains("/" + rest, "/fcr:metadata")
    ensures NewId(scheme + "://" + rest) == Protocol + rest
    ensures FedoraUrl(scheme, NewId(scheme + "://" + rest)) == scheme + "://" + rest
  {
    var loc := scheme + "://" + rest;
    SchemeSep(scheme, rest);
    BeforeFirstAbsent(loc);
    ToProtocolAt(loc, |scheme| + 1);
    assert loc[|scheme| + 3..] == rest;
    AfterProtocol(rest);
    ReplaceFirstAbsent("/" + rest, "/fcr:metadata", "");
    ProtocolSplit(rest);
  }

  /** `fedora://` is "fedora:/" followed by a slash. */
  lemma ProtocolSplit(rest: string)
    ensures "fedora:/" + ("/" + rest) == Protocol + rest
  {
  }

  lemma BeforeFirstAbsent(s: string)
    requires '\n' !in s
    ensures BeforeFirst(s, '\n') == s
  {
  }

  /** In `scheme://rest`, the last "//" is the scheme's when "/" + rest has
      none. */
  lemma SchemeSep(scheme: string, rest: string)
    requires !Contains("/" + rest, "//")
    ensures LastSep(scheme + "://" + rest) == Some(|scheme| + 1)
  {
    var loc := scheme + "://" + rest;
    var k := |scheme| + 1;
    var pre := scheme + ":/";
    var b := "/" + rest;
    SchemeSplit(scheme, rest);
    forall j | k < j ensures !Sep(loc, j) {
      if Sep(loc, j) {
        SepInside(pre, b, j);
      }
    }
  }

  /** `scheme://rest` split after its first slash. */
  lemma SchemeSplit(scheme: string, rest: string)
    ensures scheme + "://" + rest == (scheme + ":/") + ("/" + rest)
    ensures Sep(scheme + "://" + rest, |scheme| + 1)
  {
    var loc := scheme + "://" + rest;
    assert loc[|scheme| + 1] == '/' && loc[|scheme| + 2] == '/';
  }

  /** A "//" that starts past `pre` lies inside what follows it. */
  lemma SepInside(pre: string, b: string, j: int)
    requires |pre| <= j && Sep(pre + b, j)
    ensures Contains(b, "//")
  {
    var i := j - |pre|;
    assert b[i] == (pre + b)[j] && b[i + 1] == (pre + b)[j + 1];
    assert b[i..i + 2] == "//";
    ContainsAt(b, "//", i);
  }

  // ---- versions ----

  /** `version_name`: "version1" for a file with no versions, otherwise
      "version" followed by one more than the number of versions. */
  function VersionName(count: nat): (r: string)
    ensures StartsWith(r, "version")
  {
    if count == 0 then "version1" else "version" + IntToString(count + 1)
  }

  /** Every name is "version" and the count plus one: the first version is
      "version1" either way. */
  lemma VersionNumbered(count: nat)
    ensures VersionName(count) == "version" + Digits(count + 1)
  {
    if count == 0 {
      assert Digits(1) == "1";
    }
  }

  /** Different version counts give different slugs. */
  lemma VersionNamesDistinct(a: nat, b: nat)
    requires VersionName(a) == VersionName(b)
    ensures a == b
  {
    VersionNumbered(a);
    VersionNumbered(b);
    assert Digits(a + 1) == VersionName(a)[7..];
    assert Digits(b + 1) == VersionName(b)[7..];
    DigitsInjective(a + 1, b + 1);
  }

  /** `upload`: the file is looked up under the new id derived from the
      location of the version just created. */
  function Upload(st: Storage, location: string): (r: Result<StreamFile>)
    ensures r.Ok? ==> r.value.id == Id(NewId(location)) && r.value.url == FedoraUrl(st.scheme, NewId(location))
    ensures r.Err? ==> r.error == FileNotFound
  {
    FindBy(st, Id(NewId(location)))
  }

  /** An upload whose location is an ordinary URL in the repository's own
      scheme reads the file back from that very location. */
  lemma UploadReadsLocation(st: Storage, rest: string)
    requires '\n' !in st.scheme && '\n' !in rest
    requires !Contains("/" + rest, "//") && !Contains("/" + rest, "/fcr:metadata")
    ensures var loc := st.scheme + "://" + rest;
      Upload(st, loc).Ok? <==> st.fetch(loc).Present?
    ensures var loc := st.scheme + "://" + rest;
      Upload(st, loc).Ok? ==> Upload(st, loc).value.url == loc
  {
    LocationRoundTrip(st.scheme, rest);
  }
}

=== FILE: json_text.dfy ===
/** The body of a JSON string literal, as PostgreSQL's `jsonb` input reads
    it (section 7 of RFC 8259): which text a body written between two
    quotation marks stands for, and when it is malformed. */
module JsonText {
  import opened Wrappers

  /** A character that stands for itself inside a JSON string: anything
      but the quotation mark, the reverse solidus and the control
      characters U+0000 to U+001F. */
  predicate Plain(c: char) {
    c != '"' && c != '\\' && c as int >= 0x20
  }

  /** The value of a hexadecimal digit of either case. */
  function HexValue(c: char): (r: Option<nat>)
    ensures r.Some? ==> r.value < 16
  {
    if '0' <= c <= '9' then Some(c as int - '0' as int)
    else if 'a' <= c <= 'f' then Some(c as int - 'a' as int + 10)
    else if 'A' <= c <= 'F' then Some(c as int - 'A' as int + 10)
    else None
  }

  /** The lower-case digit of a value below 16. */
  function HexChar(d: nat): (c: char)
    requires d < 16
    ensures HexValue(c) == Some(d)
  {
    if d < 10 then (d + '0' as int) as char else (d - 10 + 'a' as int) as char
  }

  /** Four hexadecimal digits as a UTF-16 code unit. */
  function Hex4(s: string): (r: Option<nat>)
    requires |s| == 4
    ensures r.Some? ==> r.value < 0x10000
    ensures r.Some? <==> forall i :: 0 <= i < 4 ==> HexValue(s[i]).Some?
  {
    if HexValue(s[0]).Some? && HexValue(s[1]).Some? && HexValue(s[2]).Some? && HexValue(s[3]).Some? then
      Some(((HexValue(s[0]).value * 16 + HexValue(s[1]).value) * 16 + HexValue(s[2]).value) * 16 + HexValue(s[3]).value)
    else None
  }

  /** The character a one-letter escape stands for. */
  function ShortEscape(c: char): (r: Option<char>)
    ensures r.Some? ==> c != 'u'
  {
    match c
    case '"' => Some('"')
    case '\\' => Some('\\')
    case '/' => Some('/')
    case 'b' => Some(8 as char)
    case 'f' => Some(12 as char)
    case 'n' => Some('\n')
    case 'r' => Some('\r')
    case 't' => Some('\t')
    case _ => None
  }

  /** `c` in front of a read text, or the failure to read it. */
  function Cons(c: char, r: Option<string>): (r': Option<string>)
    ensures r'.Some? <==> r.Some?
    ensures r.Some? ==> r'.value == [c] + r.value
  {
    match r
    case Some(t) => Some([c] + t)
    case None => None
  }

  /** The text a string body stands for, or `None` when `jsonb` refuses
      it: an unescaped quotation mark or control character, a reverse
      solidus that starts no escape, `\u0000` (which `jsonb` cannot store
      as text), or a surrogate escape that is not a high-low pair. */
  function Unescape(s: string): (r: Option<string>)
    decreases |s|
  {
    if |s| == 0 then Some("")
    else if Plain(s[0]) then Cons(s[0], Unescape(s[1..]))
    else if s[0] != '\\' || |s| < 2 then None
    else if s[1] != 'u' then
      (match ShortEscape(s[1])
       case Some(c) => Cons(c, Unescape(s[2..]))
       case None => None)
    else if |s| < 6 || Hex4(s[2..6]).None? then None
    else
      var h := Hex4(s[2..6]).value;
      if h == 0 || 0xDC00 <= h < 0xE000 then None
      else if h < 0xD800 || 0xE000 <= h then Cons(h as char, Unescape(s[6..]))
      else if |s| < 12 || s[6] != '\\' || s[7] != 'u' || Hex4(s[8..12]).None? then None
      else
        var l := Hex4(s[8..12]).value;
        if 0xDC00 <= l < 0xE000 then Cons((0x10000 + (h - 0xD800) * 0x400 + (l - 0xDC00)) as char, Unescape(s[12..]))
        else None
  }

  /** How a character is written inside a JSON string: the quotation mark
      and the reverse solidus after a reverse solidus, a control character
      as a `\u00XX` escape, anything else as itself. */
  function EscapeChar(c: char): (s: string)
    ensures |s| > 0
    ensures Plain(c) <==> s == [c]
  {
    if c == '"' then ['\\', '"']
    else if c == '\\' then ['\\', '\\']
    else if c as int < 0x20 then ['\\', 'u', '0', '0', HexChar(c as int / 16), HexChar(c as int % 16)]
    else [c]
  }

  /** A text written as the body of a JSON string. */
  function Escape(t: string): (s: string)
    ensures |s| >= |t|
  {
    if |t| == 0 then "" else EscapeChar(t[0]) + Escape(t[1..])
  }

  /** Reading back one written character, whatever follows it. */
  lemma UnescapeChar(c: char, rest: string)
    requires c != '\0'
    ensures Unescape(EscapeChar(c) + rest) == Cons(c, Unescape(rest))
  {
    var s := EscapeChar(c) + rest;
    if Plain(c) {
      assert s[1..] == rest;
    } else if c == '"' || c == '\\' {
      assert s[2..] == rest;
    } else {
      var hi, lo := c as int / 16, c as int % 16;
      assert s[2..6] == ['0', '0', HexChar(hi), HexChar(lo)];
      assert Hex4(s[2..6]) == Some(c as int);
      assert s[6..] == rest;
    }
  }

  /** A text without NUL survives being written as a string body and read
      back. */
  lemma {:induction false} UnescapeEscape(t: string)
    requires '\0' !in t
    ensures Unescape(Escape(t)) == Some(t)
    decreases |t|
  {
    if |t| > 0 {
      UnescapeEscape(t[1..]);
      UnescapeChar(t[0], Escape(t[1..]));
      assert [t[0]] + t[1..] == t;
    }
  }

  /** A body of plain characters only is written as itself and stands for
      itself. */
  lemma {:induction false} UnescapePlain(s: string)
    requires forall i :: 0 <= i < |s| ==> Plain(s[i])
    ensures Unescape(s) == Some(s)
    ensures Escape(s) == s
    decreases |s|
  {
    if |s| > 0 {
      UnescapePlain(s[1..]);
      assert [s[0]] + s[1..] == s;
    }
  }

  /** A body holding a bare quotation mark is refused, while an escaped one
      stands for the mark and an escaped reverse solidus for itself. */
  lemma QuoteExamples()
    ensures Unescape(['a', '"', 'b']) == None
    ensures Unescape(['a', '\\', '"', 'b']) == Some(['a', '"', 'b'])
    ensures Unescape(['\\', '\\', 'n']) == Some(['\\', 'n'])
    ensures Unescape(['\\', 'x']) == None
  {
    assert ['a', '"', 'b'][1..] == ['"', 'b'];
    UnescapePlain(['b']);
    UnescapePlain(['n']);
    assert EscapeChar('"') + ['b'] == ['\\', '"', 'b'];
    UnescapeChar('"', ['b']);
    assert ['"'] + ['b'] == ['"', 'b'];
    assert Unescape(['\\', '"', 'b']) == Some(['"', 'b']);
    assert EscapeChar('a') + ['\\', '"', 'b'] == ['a', '\\', '"', 'b'];
    UnescapeChar('a', ['\\', '"', 'b']);
    assert ['a'] + ['"', 'b'] == ['a', '"', 'b'];
    assert EscapeChar('\\') + ['n'] == ['\\', '\\', 'n'];
    UnescapeChar('\\', ['n']);
    assert ['\\'] + ['n'] == ['\\', 'n'];
  }
}

=== FILE: legacy_persister.dfy ===
/** The older in-memory persister, which saves `Valkyrie::Model` objects in
    place: the model handed in is the one that is changed, cached and
    returned. As values, "in place" reads as: the result replaces the
    caller's model, and the cache holds that same result. The model's
    setters are taken to coerce like a resource's attribute setters. Its
    date normalisation calls ActiveSupport's `utc`, which turns a `DateTime`
    as well as a `Time` into a `Time` in UTC. */
module LegacyPersister {
  import opened Wrappers
  import opened Values
  import opened Types
  import opened Resources
  import opened Dates
  import MemoryPersister

  /** What one save reads from the outside world: the UUID and the first
      `Time.current` (both only for a blank id), then the `Time.current`
      for `updated_at`. */
  datatype LegacyEnv = LegacyEnv(freshId: string, created: Instant, updated: Instant)

  /** The cache after an operation, with the saved model or the error. */
  datatype LegacyOutcome = LegacyOutcome(cache: map<Value, Resource>, result: Result<Resource>)

  /** The cache after a batch, with the saved models or the first error. */
  datatype LegacyBatch = LegacyBatch(cache: map<Value, Resource>, result: Result<seq<Resource>>)

  /** `generate_id`: a fresh id and a creation time, both through the
      setters. */
  function GenerateId(cfg: Config, m: Resource, env: LegacyEnv): (r: Result<Resource>)
    ensures r.Ok? ==> r.value.klass == m.klass
    ensures r.Ok? && Valid(m) ==> Valid(r.value)
  {
    var m1 :- SetValue(cfg, m, "id", Str(env.freshId));
    SetValue(cfg, m1, "created_at", Time(env.created))
  }

  /** Steps of `save` before date normalisation: an id (and creation time)
      only for a blank id, `updated_at` always. */
  function Touch(cfg: Config, m: Resource, env: LegacyEnv): (r: Result<Resource>)
    ensures r.Ok? ==> r.value.klass == m.klass
    ensures r.Ok? && Valid(m) ==> Valid(r.value)
  {
    var m1 :- if Blank(Get(m, "id")) then GenerateId(cfg, m, env) else Ok(m);
    SetValue(cfg, m1, "updated_at", Time(env.updated))
  }

  /** `save(model:)`: no lock check and no existence check; the model goes
      into the cache under its (normalised) id, replacing whatever was
      there, and is returned. A failing setter leaves the cache alone. */
  function Save(cfg: Config, cache: map<Value, Resource>, m: Resource, env: LegacyEnv): (o: LegacyOutcome)
    ensures o.result.Ok? ==> o.cache == cache[Get(o.result.value, "id") := o.result.value]
    ensures o.result.Ok? ==> Get(o.result.value, "id") in o.cache && o.cache[Get(o.result.value, "id")] == o.result.value
    ensures o.result.Err? ==> o.cache == cache
    ensures cache.Keys <= o.cache.Keys
    ensures o.result.Ok? ==> o.result.value.klass == m.klass
    ensures o.result.Ok? && Valid(m) ==> Valid(o.result.value)
  {
    match Touch(cfg, m, env)
    case Err(e) => LegacyOutcome(cache, Err(e))
    case Ok(m1) =>
      match NormalizeDates(cfg, AsTime, m1)
      case Err(e) => LegacyOutcome(cache, Err(e))
      case Ok(m2) => LegacyOutcome(cache[Get(m2, "id") := m2], Ok(m2))
  }

  /** `save_all(models:)`: `map` over the models in order; an exception in
      one save propagates, and the saves before it stay in the cache.
      `env(i)` is what the `i`-th save reads. */
  function SaveAll(cfg: Config, cache: map<Value, Resource>, ms: seq<Resource>, env: nat -> LegacyEnv, i: nat): (o: LegacyBatch)
    ensures o.result.Ok? ==> |o.result.value| == |ms|
    ensures o.result.Ok? ==> forall j :: 0 <= j < |ms| ==> o.result.value[j].klass == ms[j].klass
    ensures cache.Keys <= o.cache.Keys
    decreases |ms|
  {
    if |ms| == 0 then LegacyBatch(cache, Ok([]))
    else
      var first := Save(cfg, cache, ms[0], env(i));
      if first.result.Err? then LegacyBatch(first.cache, Err(first.result.error))
      else
        var rest := SaveAll(cfg, first.cache, ms[1..], env, i + 1);
        if rest.result.Err? then rest
        else
          KlassCons(first.result.value, rest.result.value, ms);
          LegacyBatch(rest.cache, Ok([first.result.value] + rest.result.value))
  }

  /** A saved model in front of the saved rest keeps every model's class in
      its place. */
  lemma KlassCons(x: Resource, xs: seq<Resource>, ms: seq<Resource>)
    requires |ms| > 0 && x.klass == ms[0].klass && |xs| == |ms| - 1
    requires forall j :: 0 <= j < |xs| ==> xs[j].klass == ms[1..][j].klass
    ensures forall j :: 0 <= j < |ms| ==> ([x] + xs)[j].klass == ms[j].klass
  {
    forall j | 0 <= j < |ms| ensures ([x] + xs)[j].klass == ms[j].klass {
      if j > 0 {
        assert ([x] + xs)[j] == xs[j - 1] && ms[1..][j - 1] == ms[j];
      }
    }
  }

  /** `delete(model:)`: only the entry under the model's id goes. */
  function Delete(cache: map<Value, Resource>, m: Resource): (c: map<Value, Resource>)
    ensures Get(m, "id") !in c
    ensures forall k :: k != Get(m, "id") ==> (k in c <==> k in cache)
    ensures forall k :: k != Get(m, "id") && k in c ==> c[k] == cache[k]
  {
    cache - {Get(m, "id")}
  }

  // ---- what a save leaves in the model ----

  /** Normalisation leaves an attribute typed as a plain optional value
      holding its value, normalised; `nil` and a missing key stay `nil`. */
  lemma NormalizedOptional(cfg: Config, f: Resource, name: string)
    requires Valid(f) && DeclOf(f.klass.schema, name).Some?
    requires DeclOf(f.klass.schema, name).value.ty == TOptional(TNominal)
    requires NormalizeDates(cfg, AsTime, f).Ok?
    ensures Get(NormalizeDates(cfg, AsTime, f).value, name) == NormalizeDateValues(AsTime, Get(f, name))
  {
    if HasKey(f.attrs, SymKey(name)) {
      NormalizedGet(cfg, AsTime, f, name);
      if !Get(f, name).Nil? {
        MemoryPersister.CoerceNominal(cfg, TOptional(TNominal), NormalizeDateValues(AsTime, Get(f, name)));
      }
    } else {
      assert !NameIn(f.attrs, name) by {
        forall i | 0 <= i < |f.attrs| ensures f.attrs[i].key.name != name {
          assert f.attrs[i].key != SymKey(name);
        }
      }
    }
  }

  /** Before normalisation, on a standard class, a blank id becomes the
      fresh id and sets `created_at`, and `updated_at` is set. */
  lemma TouchNew(cfg: Config, m: Resource, env: LegacyEnv)
    requires MemoryPersister.Standard(m.klass) && Blank(Get(m, "id"))
    ensures Touch(cfg, m, env).Ok?
    ensures Get(Touch(cfg, m, env).value, "id") == Id(env.freshId)
    ensures Get(Touch(cfg, m, env).value, "created_at") == Time(env.created)
    ensures Get(Touch(cfg, m, env).value, "updated_at") == Time(env.updated)
  {
    MemoryPersister.StandardNominal(m.klass);
    MemoryPersister.BookkeepingNames();
    GenerateIdFacts(cfg, m, env);
    MemoryPersister.SetNominal(cfg, GenerateId(cfg, m, env).value, "updated_at", Time(env.updated));
  }

  /** Before normalisation, a present id leaves the id and `created_at`
      alone, and `updated_at` is set. */
  lemma TouchExisting(cfg: Config, m: Resource, env: LegacyEnv)
    requires MemoryPersister.Standard(m.klass) && !Blank(Get(m, "id"))
    ensures Touch(cfg, m, env).Ok?
    ensures Get(Touch(cfg, m, env).value, "id") == Get(m, "id")
    ensures Get(Touch(cfg, m, env).value, "created_at") == Get(m, "created_at")
    ensures Get(Touch(cfg, m, env).value, "updated_at") == Time(env.updated)
  {
    MemoryPersister.StandardNominal(m.klass);
    MemoryPersister.BookkeepingNames();
    MemoryPersister.SetNominal(cfg, m, "updated_at", Time(env.updated));
  }

  /** `generate_id` on a standard class sets the id and `created_at`. */
  lemma GenerateIdFacts(cfg: Config, m: Resource, env: LegacyEnv)
    requires MemoryPersister.Standard(m.klass)
    ensures GenerateId(cfg, m, env).Ok?
    ensures Get(GenerateId(cfg, m, env).value, "id") == Id(env.freshId)
    ensures Get(GenerateId(cfg, m, env).value, "created_at") == Time(env.created)
  {
    MemoryPersister.StandardNominal(m.klass);
    MemoryPersister.BookkeepingNames();
    assert Coerce(cfg, TOptional(TId), Str(env.freshId)) == Ok(Id(env.freshId));
    var a := SetValue(cfg, m, "id", Str(env.freshId)).value;
    MemoryPersister.SetNominal(cfg, a, "created_at", Time(env.created));
  }

  /** A model saved with a blank id comes back with the fresh id and the
      first clock read as `created_at`, normalised. */
  lemma SaveNew(cfg: Config, cache: map<Value, Resource>, m: Resource, env: LegacyEnv)
    requires MemoryPersister.Standard(m.klass) && Valid(m) && Blank(Get(m, "id"))
    requires Save(cfg, cache, m, env).result.Ok?
    ensures Get(Save(cfg, cache, m, env).result.value, "id") == Id(env.freshId)
    ensures Get(Save(cfg, cache, m, env).result.value, "created_at") == Time(ToUtc(env.created))
  {
    TouchNew(cfg, m, env);
    var t := Touch(cfg, m, env).value;
    MemoryPersister.NormalizedId(cfg, AsTime, t, env.freshId);
    NormalizedOptional(cfg, t, "created_at");
  }

  /** A model that already has an id keeps it, and its `created_at` is not
      touched beyond date normalisation. */
  lemma SaveExisting(cfg: Config, cache: map<Value, Resource>, m: Resource, env: LegacyEnv)
    requires MemoryPersister.Standard(m.klass) && Valid(m) && !Blank(Get(m, "id")) && Get(m, "id").Id?
    requires Save(cfg, cache, m, env).result.Ok?
    ensures Get(Save(cfg, cache, m, env).result.value, "id") == Get(m, "id")
    ensures Get(Save(cfg, cache, m, env).result.value, "created_at") == NormalizeDateValues(AsTime, Get(m, "created_at"))
  {
    TouchExisting(cfg, m, env);
    var t := Touch(cfg, m, env).value;
    MemoryPersister.NormalizedId(cfg, AsTime, t, Get(m, "id").id);
    NormalizedOptional(cfg, t, "created_at");
  }

  /** Every save sets `updated_at` to the last clock read, and leaves every
      date as ActiveSupport's `utc` makes it: a `Time` in UTC, never a
      `DateTime`. */
  lemma SaveUpdatedAndDates(cfg: Config, cache: map<Value, Resource>, m: Resource, env: LegacyEnv)
    requires MemoryPersister.Standard(m.klass) && Valid(m)
    requires Save(cfg, cache, m, env).result.Ok?
    ensures Get(Save(cfg, cache, m, env).result.value, "updated_at") == Time(ToUtc(env.updated))
    ensures forall n :: UtcValue(AsTime, Get(Save(cfg, cache, m, env).result.value, n))
  {
    if Blank(Get(m, "id")) {
      TouchNew(cfg, m, env);
    } else {
      TouchExisting(cfg, m, env);
    }
    var t := Touch(cfg, m, env).value;
    NormalizedOptional(cfg, t, "updated_at");
    NormalizeDatesUtc(cfg, AsTime, t);
  }

  /** A successful batch returns one model per input, in input order, and
      each is in the cache under its id afterwards. */
  lemma {:induction false} SaveAllCached(cfg: Config, cache: map<Value, Resource>, ms: seq<Resource>, env: nat -> LegacyEnv, i: nat)
    requires SaveAll(cfg, cache, ms, env, i).result.Ok?
    ensures var o := SaveAll(cfg, cache, ms, env, i);
      forall j :: 0 <= j < |ms| ==> Get(o.result.value[j], "id") in o.cache
    decreases |ms|
  {
    if |ms| > 0 {
      var first := Save(cfg, cache, ms[0], env(i));
      var rest := SaveAll(cfg, first.cache, ms[1..], env, i + 1);
      SaveAllCached(cfg, first.cache, ms[1..], env, i + 1);
      SaveAllHead(cfg, cache, ms, env, i);
      var o := SaveAll(cfg, cache, ms, env, i);
      forall j | 0 <= j < |ms| ensures Get(o.result.value[j], "id") in o.cache {
        if j > 0 {
          assert o.result.value[j] == rest.result.value[j - 1];
        }
      }
    }
  }

  /** A successful batch starts with the first model's save and goes on
      with the rest of the batch, run on the cache the first save left. */
  lemma SaveAllHead(cfg: Config, cache: map<Value, Resource>, ms: seq<Resource>, env: nat -> LegacyEnv, i: nat)
    requires SaveAll(cfg, cache, ms, env, i).result.Ok? && |ms| > 0
    ensures var first := Save(cfg, cache, ms[0], env(i));
      var o := SaveAll(cfg, cache, ms, env, i);
      first.result.Ok? && o.result.value[0] == first.result.value &&
      o.result.value == [first.result.value] + SaveAll(cfg, first.cache, ms[1..], env, i + 1).result.value &&
      o.cache == SaveAll(cfg, first.cache, ms[1..], env, i + 1).cache &&
      Get(first.result.value, "id") in first.cache
  {
  }
}

=== FILE: memory_persister.dfy ===
/** The in-memory persister (`Valkyrie::Persistence::Memory::Persister`) as a
    state transformer over its cache. Each save works on a copy of the
    caller's resource: a resource is an immutable value here, so the caller's
    resource can never be changed by a save. Clock reads, the fresh UUID and
    the lock token's timestamp are inputs. */
module MemoryPersister {
  import opened Wrappers
  import opened Values
  import opened Types
  import opened Resources
  import opened Dates

  /** The adapter's cache: resources by id, and the issued lock tokens by id
      (Ruby keeps the latter in the same hash under `:versions`, so `wipe!`
      clears both). */
  datatype Store = Store(cache: map<Value, Resource>, versions: map<Value, LockToken>)

  /** The store after an operation together with its result or its error. */
  datatype Outcome<T> = Outcome(store: Store, result: Result<T>)

  /** What one save reads from the outside world: the UUID for a blank id,
      the two `Time.current` reads (for `created_at` and `updated_at`) and
      the `Time.now.to_r` of the lock token. */
  datatype Env = Env(freshId: string, created: Instant, updated: Instant, token: int)

  // ---- optimistic locking ----

  /** `(tokens || []).find { |t| t.adapter_id == id }` on an attribute value:
      `nil` and `false` read as the empty list, an array is searched from the
      left, an empty hash finds nothing, and anything else has no usable
      `find` (or yields elements without `adapter_id`). */
  function TokenFor(v: Value, adapterId: string): (r: Result<Option<LockToken>>)
    ensures !Truthy(v) ==> r == Ok(None)
    ensures v.Arr? ==> r == FindToken(v.items, adapterId)
    ensures r.Err? ==> r.error == NoMethodError
  {
    if !Truthy(v) then Ok(None)
    else
      match v
      case Arr(xs) => FindToken(xs, adapterId)
      case Map(es) => if |es| == 0 then Ok(None) else Err(NoMethodError)
      case _ => Err(NoMethodError)
  }

  /** The first token issued by `adapterId`; an element that is not a token
      before it has no `adapter_id`. */
  function FindToken(xs: seq<Value>, adapterId: string): (r: Result<Option<LockToken>>)
    ensures r.Ok? && r.value.Some? ==>
      exists i :: 0 <= i < |xs| && xs[i] == Token(r.value.value) && r.value.value.adapterId == adapterId &&
        forall k :: 0 <= k < i ==> xs[k].Token? && xs[k].token.adapterId != adapterId
    ensures r.Ok? && r.value.None? ==> forall i :: 0 <= i < |xs| ==> xs[i].Token? && xs[i].token.adapterId != adapterId
    ensures (forall i :: 0 <= i < |xs| ==> xs[i].Token?) ==> r.Ok?
    ensures r.Err? ==> r.error == NoMethodError
  {
    if |xs| == 0 then Ok(None)
    else if !xs[0].Token? then Err(NoMethodError)
    else if xs[0].token.adapterId == adapterId then Ok(Some(xs[0].token))
    else
      var r := FindToken(xs[1..], adapterId);
      assert r.Ok? && r.value.Some? ==>
        exists i :: 0 <= i < |xs| && xs[i] == Token(r.value.value) &&
          forall k :: 0 <= k < i ==> xs[k].Token? && xs[k].token.adapterId != adapterId
      by {
        if r.Ok? && r.value.Some? {
          var i :| 0 <= i < |xs| - 1 && xs[1..][i] == Token(r.value.value) &&
            forall k :: 0 <= k < i ==> xs[1..][k].Token? && xs[1..][k].token.adapterId != adapterId;
          assert xs[i + 1] == Token(r.value.value);
          forall k | 0 <= k < i + 1 ensures xs[k].Token? && xs[k].token.adapterId != adapterId {
            if k > 0 {
              assert xs[k] == xs[1..][k - 1];
            }
          }
        }
      }
      assert r.Ok? && r.value.None? ==> forall i :: 0 <= i < |xs| ==> xs[i].Token? && xs[i].token.adapterId != adapterId by {
        if r.Ok? && r.value.None? {
          forall i | 0 <= i < |xs| ensures xs[i].Token? && xs[i].token.adapterId != adapterId {
            if i > 0 {
              assert xs[i] == xs[1..][i - 1];
            }
          }
        }
      }
      r
  }

  /** `valid_lock?`: without locking, or with nothing cached under the id,
      the save may go ahead; so it may when the incoming resource carries no
      token of this adapter. Otherwise the cached resource's token of this
      adapter must equal the incoming one. */
  function ValidLock(adapterId: string, st: Store, r: Resource): (ok: Result<bool>)
    ensures !LockingEnabled(r.klass) ==> ok == Ok(true)
    ensures Get(r, "id") !in st.cache ==> ok == Ok(true)
    ensures ok.Err? ==> ok.error == NoMethodError
    ensures LockingEnabled(r.klass) && Get(r, "id") in st.cache ==>
      (ok.Ok? <==> TokenFor(Get(r, OptimisticLock), adapterId).Ok? &&
                   TokenFor(Get(st.cache[Get(r, "id")], OptimisticLock), adapterId).Ok?)
    ensures LockingEnabled(r.klass) && Get(r, "id") in st.cache && ok.Ok? ==>
      (ok.value <==>
        (TokenFor(Get(r, OptimisticLock), adapterId).value.None? ||
         TokenFor(Get(st.cache[Get(r, "id")], OptimisticLock), adapterId) == TokenFor(Get(r, OptimisticLock), adapterId)))
  {
    if !LockingEnabled(r.klass) then Ok(true)
    else if Get(r, "id") !in st.cache then Ok(true)
    else
      var mine :- TokenFor(Get(r, OptimisticLock), adapterId);
      var cached :- TokenFor(Get(st.cache[Get(r, "id")], OptimisticLock), adapterId);
      Ok(mine.None? || cached == mine)
  }

  // ---- save ----

  /** Steps of `save` before the lock token: a blank id is replaced through
      `new(id: uuid)`, `created_at ||= now`, `updated_at = now`,
      `new_record = false`, each through the attribute's setter. */
  function Stamp(cfg: Config, r: Resource, env: Env): (s: Result<Resource>)
    ensures s.Ok? ==> s.value.klass == r.klass
    ensures s.Ok? && Valid(r) ==> Valid(s.value)
  {
    var r1 :- StampId(cfg, r, env);
    var r2 :- StampCreated(cfg, r1, env);
    var r3 :- SetValue(cfg, r2, "updated_at", Time(env.updated));
    SetValue(cfg, r3, "new_record", Bool(false))
  }

  /** `generate_id` when the id is blank. */
  function StampId(cfg: Config, r: Resource, env: Env): (s: Result<Resource>)
    ensures s.Ok? ==> s.value.klass == r.klass
    ensures s.Ok? && Valid(r) ==> Valid(s.value)
  {
    if Blank(Get(r, "id")) then SetValue(cfg, r, "id", Str(env.freshId)) else Ok(r)
  }

  /** `created_at ||= Time.current`. */
  function StampCreated(cfg: Config, r: Resource, env: Env): (s: Result<Resource>)
    ensures s.Ok? ==> s.value.klass == r.klass
    ensures s.Ok? && Valid(r) ==> Valid(s.value)
  {
    if Truthy(Get(r, "created_at")) then Ok(r) else SetValue(cfg, r, "created_at", Time(env.created))
  }

  /** `generate_lock_token`'s write into the resource (only with locking),
      then `normalize_dates!`. */
  function Finish(cfg: Config, r: Resource, tok: LockToken): (s: Result<Resource>)
    ensures s.Ok? ==> s.value.klass == r.klass
    ensures s.Ok? && Valid(r) ==> Valid(s.value)
  {
    var r1 :- WithToken(cfg, r, tok);
    NormalizeDates(cfg, AsDateTime, r1)
  }

  /** The resource's part of `generate_lock_token`. */
  function WithToken(cfg: Config, r: Resource, tok: LockToken): (s: Result<Resource>)
    ensures s.Ok? ==> s.value.klass == r.klass
    ensures s.Ok? && Valid(r) ==> Valid(s.value)
  {
    if LockingEnabled(r.klass) then SetValue(cfg, r, OptimisticLock, Token(tok)) else Ok(r)
  }

  /** `save(resource:)`. A stale resource raises `StaleObjectError` and
      leaves the store alone. Otherwise the new token is recorded under the
      id before the resource is finished, so a later failure keeps it, and a
      successful save puts the result in the cache under its id, replacing
      whatever was there. */
  function Save(cfg: Config, adapterId: string, st: Store, r: Resource, env: Env): (o: Outcome<Resource>)
    ensures ValidLock(adapterId, st, r) == Ok(false) ==> o == Outcome(st, Err(StaleObject))
    ensures ValidLock(adapterId, st, r).Err? ==> o.store == st && o.result.Err?
    ensures o.result.Ok? ==> o.store.cache == st.cache[Get(o.result.value, "id") := o.result.value]
    ensures o.result.Ok? ==> Stamp(cfg, r, env).Ok?
    ensures o.result.Ok? ==>
      o.store.versions == st.versions[Get(Stamp(cfg, r, env).value, "id") := LockToken(adapterId, env.token)]
    ensures o.result.Ok? ==> o.result.value.klass == r.klass
    ensures o.result.Ok? && Valid(r) ==> Valid(o.result.value)
    ensures o.store.cache.Keys >= st.cache.Keys
  {
    match ValidLock(adapterId, st, r)
    case Err(e) => Outcome(st, Err(e))
    case Ok(valid) =>
      if !valid then Outcome(st, Err(StaleObject))
      else
        match Stamp(cfg, r, env)
        case Err(e) => Outcome(st, Err(e))
        case Ok(r1) =>
          var tok := LockToken(adapterId, env.token);
          var st1 := st.(versions := st.versions[Get(r1, "id") := tok]);
          match Finish(cfg, r1, tok)
          case Err(e) => Outcome(st1, Err(e))
          case Ok(r2) =>
            Outcome(st1.(cache := st1.cache[Get(r2, "id") := r2]), Ok(r2))
  }

  /** `save_all(resources:)`: the saves happen in order and each sees the
      store the previous one left; the first failure stops the batch without
      undoing the saves before it. `env(i)` is what the `i`-th save reads. */
  function SaveAll(cfg: Config, adapterId: string, st: Store, rs: seq<Resource>, env: nat -> Env, i: nat): (o: Outcome<seq<Resource>>)
    ensures o.result.Ok? ==> |o.result.value| == |rs|
    ensures o.result.Ok? ==> forall j :: 0 <= j < |rs| ==> o.result.value[j].klass == rs[j].klass
    ensures st.cache.Keys <= o.store.cache.Keys
    ensures |rs| > 0 && ValidLock(adapterId, st, rs[0]) == Ok(false) ==> o == Outcome(st, Err(StaleObject))
    decreases |rs|
  {
    if |rs| == 0 then Outcome(st, Ok([]))
    else
      var first := Save(cfg, adapterId, st, rs[0], env(i));
      if first.result.Err? then Outcome(first.store, Err(first.result.error))
      else
        var rest := SaveAll(cfg, adapterId, first.store, rs[1..], env, i + 1);
        if rest.result.Err? then rest
        else Outcome(rest.store, Ok([first.result.value] + rest.result.value))
  }

  /** `delete(resource:)`: only the entry under the resource's id goes. */
  function Delete(st: Store, r: Resource): (st': Store)
    ensures Get(r, "id") !in st'.cache
    ensures forall k :: k != Get(r, "id") ==> (k in st'.cache <==> k in st.cache)
    ensures forall k :: k != Get(r, "id") && k in st'.cache ==> st'.cache[k] == st.cache[k]
    ensures st'.versions == st.versions
  {
    st.(cache := st.cache - {Get(r, "id")})
  }

  /** `wipe!`: the cache and the issued tokens are gone. */
  function Wipe(st: Store): (st': Store)
    ensures |st'.cache| == 0 && |st'.versions| == 0
  {
    Store(map[], map[])
  }

  // ---- what a save leaves in the resource ----

  /** A class whose bookkeeping attributes have the types `Resource` gives
      them, whose lock attribute, if declared, is the one
      `enable_optimistic_locking` declares, and whose defaults hold no
      un-normalised dates. */
  predicate Standard(klass: Klass) {
    DeclOf(klass.schema, "id") == Some(Decl("id", TOptional(TId), false)) &&
    DeclOf(klass.schema, "created_at") == Some(Decl("created_at", TOptional(TNominal), false)) &&
    DeclOf(klass.schema, "updated_at") == Some(Decl("updated_at", TOptional(TNominal), false)) &&
    DeclOf(klass.schema, "new_record") == Some(Decl("new_record", TDefault(TNominal, Bool(true)), false)) &&
    (LockingEnabled(klass) ==>
      DeclOf(klass.schema, OptimisticLock) == Some(Decl(OptimisticLock, TDefault(TLockTokens, Arr([])), false))) &&
    SchemaUtcDefaults(klass)
  }

  /** Every freshly defined resource class is standard. */
  lemma InheritedStandard(className: string)
    ensures Standard(Inherited(className))
  {
    BaseDecl(className, 0);
    BaseDecl(className, 2);
    BaseDecl(className, 3);
    BaseDecl(className, 4);
    InheritedUnlocked(className);
    InheritedUtcDefaults(className);
  }

  /** A freshly defined class has no lock attribute. */
  lemma InheritedUnlocked(className: string)
    ensures !LockingEnabled(Inherited(className))
  {
    var ds := BaseSchema(className);
    forall i | 0 <= i < |ds| ensures ds[i].name != OptimisticLock {
      assert Reserved(ds[i].name);
    }
  }

  lemma InheritedUtcDefaults(className: string)
    ensures SchemaUtcDefaults(Inherited(className))
  {
  }

  /** Enabling locking keeps a class standard. */
  lemma EnableLockingStandard(klass: Klass)
    requires Standard(klass) && UniqueNames(klass.schema)
    requires EnableLocking(klass).Ok?
    ensures Standard(EnableLocking(klass).value.klass)
  {
    var ty := Some(TDefault(TLockTokens, Arr([])));
    var r := Declare(klass, OptimisticLock, ty, false);
    assert EnableLocking(klass) == r;
    DeclareLookup(klass, OptimisticLock, ty, false);
    DeclareSchema(klass, OptimisticLock, ty, false);
    LockedStandard(klass, r.value.klass);
  }

  /** A class that differs from a standard one only by the lock token
      declaration is standard. */
  lemma LockedStandard(klass: Klass, k: Klass)
    requires Standard(klass) && UniqueNames(k.schema)
    requires DeclOf(k.schema, OptimisticLock) == Some(Decl(OptimisticLock, TDefault(TLockTokens, Arr([])), false))
    requires forall n :: n != OptimisticLock ==> DeclOf(k.schema, n) == DeclOf(klass.schema, n)
    requires forall i :: 0 <= i < |k.schema| ==> k.schema[i] in klass.schema || k.schema[i].name == OptimisticLock
    ensures Standard(k)
  {
    var ty := Some(TDefault(TLockTokens, Arr([])));
    var d := NewDecl(OptimisticLock, ty);
    NewDeclUtc(OptimisticLock, ty);
    DeclaredUtcDefaults(klass, k, OptimisticLock, d);
    LockNotReserved();
    StandardAfterDeclare(klass, k, OptimisticLock);
  }

  /** So does declaring an application attribute whose default holds no
      un-normalised date. */
  lemma DeclareStandard(klass: Klass, name: string, ty: Option<AttrType>, internal: bool)
    requires Standard(klass) && UniqueNames(klass.schema)
    requires !Reserved(name) && name != OptimisticLock
    requires ty.Some? ==> UtcDefaults(ty.value)
    requires Declare(klass, name, ty, internal).Ok?
    ensures Standard(Declare(klass, name, ty, internal).value.klass)
  {
    DeclareLookup(klass, name, ty, internal);
    DeclareSchema(klass, name, ty, internal);
    var k := Declare(klass, name, ty, internal).value.klass;
    var d := NewDecl(name, ty);
    NewDeclUtc(name, ty);
    DeclaredUtcDefaults(klass, k, name, d);
    StandardAfterDeclare(klass, k, name);
  }

  lemma LockNotReserved()
    ensures !Reserved(OptimisticLock) && OptimisticLock != "member_ids"
  {
  }

  lemma NewDeclUtc(name: string, ty: Option<AttrType>)
    requires ty.Some? ==> UtcDefaults(ty.value)
    ensures UtcDefaults(NewDecl(name, ty).ty)
  {
    if ty.None? {
      assert Dateless(Arr([]));
    }
  }

  lemma StandardAfterDeclare(klass: Klass, k: Klass, name: string)
    requires Standard(klass) && SchemaUtcDefaults(k) && !Reserved(name)
    requires forall n :: n != name ==> DeclOf(k.schema, n) == DeclOf(klass.schema, n)
    requires name == OptimisticLock ==>
      DeclOf(k.schema, name) == Some(Decl(OptimisticLock, TDefault(TLockTokens, Arr([])), false))
    ensures Standard(k)
  {
    assert DeclOf(k.schema, "id") == DeclOf(klass.schema, "id");
    assert DeclOf(k.schema, "created_at") == DeclOf(klass.schema, "created_at");
    assert DeclOf(k.schema, "updated_at") == DeclOf(klass.schema, "updated_at");
    assert DeclOf(k.schema, "new_record") == DeclOf(klass.schema, "new_record");
    if name != OptimisticLock {
      assert DeclOf(k.schema, OptimisticLock) == DeclOf(klass.schema, OptimisticLock);
    }
  }

  lemma DeclaredUtcDefaults(klass: Klass, k: Klass, name: string, d: Decl)
    requires SchemaUtcDefaults(klass) && UniqueNames(k.schema) && UtcDefaults(d.ty)
    requires forall i :: 0 <= i < |k.schema| ==> k.schema[i] in klass.schema || k.schema[i].name == name
    requires DeclOf(k.schema, name) == Some(d)
    ensures SchemaUtcDefaults(k)
  {
    forall i | 0 <= i < |k.schema| ensures UtcDefaults(k.schema[i].ty) {
      if k.schema[i] in klass.schema {
        var j :| 0 <= j < |klass.schema| && klass.schema[j] == k.schema[i];
      } else {
        UniqueDeclOf(k.schema, i);
      }
    }
  }

  /** With unique names, the declaration found for a name is the one at its
      position. */
  lemma {:induction false} UniqueDeclOf(ds: seq<Decl>, i: nat)
    requires UniqueNames(ds) && i < |ds|
    ensures DeclOf(ds, ds[i].name) == Some(ds[i])
  {
    if i > 0 {
      assert UniqueNames(ds[1..]) by {
        forall a, b | 0 <= a < b < |ds| - 1 ensures ds[1..][a].name != ds[1..][b].name {
          assert ds[a + 1].name != ds[b + 1].name;
        }
      }
      assert ds[0].name != ds[i].name;
      UniqueDeclOf(ds[1..], i - 1);
    }
  }

  /** An attribute typed as a plain optional value or a plain value with a
      default, like the bookkeeping attributes. */
  predicate NominalDecl(ds: seq<Decl>, name: string) {
    DeclOf(ds, name).Some? &&
    (DeclOf(ds, name).value.ty == TOptional(TNominal) ||
     (DeclOf(ds, name).value.ty.TDefault? && DeclOf(ds, name).value.ty.inner == TNominal))
  }

  /** Such an attribute stores any non-nil value exactly as given. */
  lemma SetNominal(cfg: Config, r: Resource, name: string, v: Value)
    requires NominalDecl(r.klass.schema, name) && !v.Nil?
    ensures SetValue(cfg, r, name, v).Ok?
    ensures Get(SetValue(cfg, r, name, v).value, name) == v
  {
    assert Coerce(cfg, DeclOf(r.klass.schema, name).value.ty, v) == Ok(v);
  }

  lemma StampIdFacts(cfg: Config, r: Resource, env: Env)
    requires DeclOf(r.klass.schema, "id") == Some(Decl("id", TOptional(TId), false))
    ensures StampId(cfg, r, env).Ok?
    ensures Blank(Get(r, "id")) ==> Get(StampId(cfg, r, env).value, "id") == Id(env.freshId)
    ensures !Blank(Get(r, "id")) ==> StampId(cfg, r, env) == Ok(r)
    ensures forall n :: n != "id" ==> Get(StampId(cfg, r, env).value, n) == Get(r, n)
  {
    assert Coerce(cfg, TOptional(TId), Str(env.freshId)) == Ok(Id(env.freshId));
  }

  lemma StampCreatedFacts(cfg: Config, r: Resource, env: Env)
    requires NominalDecl(r.klass.schema, "created_at")
    ensures StampCreated(cfg, r, env).Ok?
    ensures Truthy(Get(r, "created_at")) ==> StampCreated(cfg, r, env) == Ok(r)
    ensures !Truthy(Get(r, "created_at")) ==> Get(StampCreated(cfg, r, env).value, "created_at") == Time(env.created)
    ensures forall n :: n != "created_at" ==> Get(StampCreated(cfg, r, env).value, n) == Get(r, n)
  {
    if !Truthy(Get(r, "created_at")) {
      SetNominal(cfg, r, "created_at", Time(env.created));
    }
  }

  lemma StandardNominal(klass: Klass)
    requires Standard(klass)
    ensures NominalDecl(klass.schema, "created_at")
    ensures NominalDecl(klass.schema, "updated_at")
    ensures NominalDecl(klass.schema, "new_record")
  {
  }

  /** The bookkeeping steps of a save on a standard class cannot fail: a
      blank id becomes the fresh id, a present `created_at` is kept and an
      absent one is set, `updated_at` is always set, and the resource stops
      being a new record. */
  lemma StampFacts(cfg: Config, r: Resource, env: Env)
    requires Standard(r.klass)
    ensures Stamp(cfg, r, env).Ok?
    ensures Blank(Get(r, "id")) ==> Get(Stamp(cfg, r, env).value, "id") == Id(env.freshId)
    ensures !Blank(Get(r, "id")) ==> Get(Stamp(cfg, r, env).value, "id") == Get(r, "id")
    ensures Truthy(Get(r, "created_at")) ==> Get(Stamp(cfg, r, env).value, "created_at") == Get(r, "created_at")
    ensures !Truthy(Get(r, "created_at")) ==> Get(Stamp(cfg, r, env).value, "created_at") == Time(env.created)
    ensures Get(Stamp(cfg, r, env).value, "updated_at") == Time(env.updated)
    ensures Get(Stamp(cfg, r, env).value, "new_record") == Bool(false)
    ensures forall n :: n != "id" && n != "created_at" && n != "updated_at" && n != "new_record" ==>
      Get(Stamp(cfg, r, env).value, n) == Get(r, n)
  {
    StandardNominal(r.klass);
    StampIdFacts(cfg, r, env);
    var r1 := StampId(cfg, r, env).value;
    StampCreatedFacts(cfg, r1, env);
    StampTail(cfg, StampCreated(cfg, r1, env).value, env);
    BookkeepingNames();
  }

  /** The last two bookkeeping steps set `updated_at` and `new_record`. */
  lemma StampTail(cfg: Config, r2: Resource, env: Env)
    requires NominalDecl(r2.klass.schema, "updated_at") && NominalDecl(r2.klass.schema, "new_record")
    ensures SetValue(cfg, r2, "updated_at", Time(env.updated)).Ok?
    ensures SetValue(cfg, SetValue(cfg, r2, "updated_at", Time(env.updated)).value, "new_record", Bool(false)).Ok?
    ensures var r4 := SetValue(cfg, SetValue(cfg, r2, "updated_at", Time(env.updated)).value, "new_record", Bool(false)).value;
      Get(r4, "updated_at") == Time(env.updated) && Get(r4, "new_record") == Bool(false) &&
      forall n :: n != "updated_at" && n != "new_record" ==> Get(r4, n) == Get(r2, n)
  {
    SetNominal(cfg, r2, "updated_at", Time(env.updated));
    var r3 := SetValue(cfg, r2, "updated_at", Time(env.updated)).value;
    SetNominal(cfg, r3, "new_record", Bool(false));
    BookkeepingNames();
  }

  /** The bookkeeping names are distinct. */
  lemma BookkeepingNames()
    ensures "id" != "created_at" && "id" != "updated_at" && "id" != "new_record"
    ensures "created_at" != "updated_at" && "created_at" != "new_record" && "updated_at" != "new_record"
  {
  }

  /** `Set` of a single lock token is that token. */
  lemma SetOfToken(cfg: Config, tok: LockToken)
    ensures SetCast(cfg, Token(tok)) == Ok([Token(tok)])
    ensures SetCast(cfg, Arr([Token(tok)])) == Ok([Token(tok)])
  {
    var xs := [Token(tok)];
    CleanNothingDropped(xs);
    UniqNoDup(xs);
    assert SetClean(ArrayCast(Token(tok))) == xs;
    MapAnythingIdentity(cfg, xs, Size(Token(tok)));
    SetCastFixpoint(cfg, xs);
  }

  /** The lock attribute's type turns a token, or a list holding just that
      token, into the list holding just that token. */
  lemma LockTokenCast(cfg: Config, tok: LockToken)
    ensures Coerce(cfg, TDefault(TLockTokens, Arr([])), Token(tok)) == Ok(Arr([Token(tok)]))
    ensures Coerce(cfg, TDefault(TLockTokens, Arr([])), Arr([Token(tok)])) == Ok(Arr([Token(tok)]))
  {
    SetOfToken(cfg, tok);
    LockCast(cfg, Token(tok), tok);
    LockCast(cfg, Arr([Token(tok)]), tok);
  }

  /** A value the set cast turns into one token is stored as that token. */
  lemma LockCast(cfg: Config, v: Value, tok: LockToken)
    requires SetCast(cfg, v) == Ok([Token(tok)])
    ensures Coerce(cfg, TDefault(TLockTokens, Arr([])), v) == Ok(Arr([Token(tok)]))
  {
    var xs := [Token(tok)];
    CastNotNil(cfg, v, xs);
    DefaultOfPresent(cfg, TLockTokens, Arr([]), v);
    LockTokensOfSet(cfg, v, xs);
    var ys := MapDeserialize(cfg, xs);
    assert ys == xs by { assert |ys| == 1 && ys[0] == xs[0]; }
  }

  /** `nil` set-casts to the empty list, so a non-empty cast came from a
      present value. */
  lemma CastNotNil(cfg: Config, v: Value, xs: seq<Value>)
    requires SetCast(cfg, v) == Ok(xs) && |xs| > 0
    ensures !v.Nil?
  {
    if v.Nil? {
      assert false;
    }
  }

  /** A default only fills in for `nil`: a present value goes to the inner
      type. */
  lemma DefaultOfPresent(cfg: Config, inner: AttrType, d: Value, v: Value)
    requires !v.Nil?
    ensures Coerce(cfg, TDefault(inner, d), v) == Coerce(cfg, inner, v)
  {
  }

  /** The lock-token type deserializes each element the set cast kept. */
  lemma LockTokensOfSet(cfg: Config, v: Value, xs: seq<Value>)
    requires SetCast(cfg, v) == Ok(xs)
    ensures Coerce(cfg, TLockTokens, v) == Ok(Arr(MapDeserialize(cfg, xs)))
  {
  }

  /** With locking enabled, the token is written into the lock attribute;
      nothing else changes. */
  lemma WithTokenFacts(cfg: Config, r: Resource, tok: LockToken)
    requires Standard(r.klass)
    ensures WithToken(cfg, r, tok).Ok?
    ensures LockingEnabled(r.klass) ==> Get(WithToken(cfg, r, tok).value, OptimisticLock) == Arr([Token(tok)])
    ensures forall n :: n != OptimisticLock ==> Get(WithToken(cfg, r, tok).value, n) == Get(r, n)
  {
    if LockingEnabled(r.klass) {
      LockTokenCast(cfg, tok);
    }
  }

  /** Normalisation leaves a bookkeeping attribute holding its value,
      normalised. */
  lemma NormalizedNominal(cfg: Config, f: Resource, name: string)
    requires Valid(f) && NominalDecl(f.klass.schema, name) && !Get(f, name).Nil?
    requires NormalizeDates(cfg, AsDateTime, f).Ok?
    ensures Get(NormalizeDates(cfg, AsDateTime, f).value, name) == NormalizeDateValues(AsDateTime, Get(f, name))
  {
    var v := NormalizeDateValues(AsDateTime, Get(f, name));
    assert !v.Nil?;
    CoerceNominal(cfg, DeclOf(f.klass.schema, name).value.ty, v);
    NormalizedGet(cfg, AsDateTime, f, name);
  }

  lemma CoerceId(cfg: Config, s: string)
    ensures Coerce(cfg, TOptional(TId), Id(s)) == Ok(Id(s))
  {
    IdCastId(cfg, s);
  }

  lemma CoerceNominal(cfg: Config, ty: AttrType, v: Value)
    requires ty == TOptional(TNominal) || (ty.TDefault? && ty.inner == TNominal)
    requires !v.Nil?
    ensures Coerce(cfg, ty, v) == Ok(v)
  {
    assert Coerce(cfg, TNominal, v) == Ok(v);
  }

  lemma NormalizedId(cfg: Config, form: DateForm, f: Resource, s: string)
    requires Valid(f) && DeclOf(f.klass.schema, "id") == Some(Decl("id", TOptional(TId), false))
    requires Get(f, "id") == Id(s)
    requires NormalizeDates(cfg, form, f).Ok?
    ensures Get(NormalizeDates(cfg, form, f).value, "id") == Id(s)
  {
    assert NormalizeDateValues(form, Id(s)) == Id(s);
    CoerceId(cfg, s);
    NormalizedGet(cfg, form, f, "id");
  }

  lemma NormalizedLock(cfg: Config, f: Resource, tok: LockToken)
    requires Valid(f)
    requires DeclOf(f.klass.schema, OptimisticLock) == Some(Decl(OptimisticLock, TDefault(TLockTokens, Arr([])), false))
    requires Get(f, OptimisticLock) == Arr([Token(tok)])
    requires NormalizeDates(cfg, AsDateTime, f).Ok?
    ensures Get(NormalizeDates(cfg, AsDateTime, f).value, OptimisticLock) == Arr([Token(tok)])
  {
    LockTokenCast(cfg, tok);
    NormalizeFixpoint(AsDateTime, Arr([Token(tok)]));
    NormalizedGet(cfg, AsDateTime, f, OptimisticLock);
  }

  /** A successful save is the stamped resource, with the token, normalised. */
  lemma SaveSteps(cfg: Config, adapterId: string, st: Store, r: Resource, env: Env)
    requires Standard(r.klass) && Valid(r)
    requires Save(cfg, adapterId, st, r, env).result.Ok?
    ensures Stamp(cfg, r, env).Ok?
    ensures WithToken(cfg, Stamp(cfg, r, env).value, LockToken(adapterId, env.token)).Ok?
    ensures Valid(WithToken(cfg, Stamp(cfg, r, env).value, LockToken(adapterId, env.token)).value)
    ensures NormalizeDates(cfg, AsDateTime, WithToken(cfg, Stamp(cfg, r, env).value, LockToken(adapterId, env.token)).value)
      == Save(cfg, adapterId, st, r, env).result
  {
    StampFacts(cfg, r, env);
    WithTokenFacts(cfg, Stamp(cfg, r, env).value, LockToken(adapterId, env.token));
  }

  /** What a successful save of a well-formed resource of a standard class
      returns for its id: the fresh one when the id was blank, the given one
      otherwise; and the token just issued is recorded under that id. */
  lemma SaveId(cfg: Config, adapterId: string, st: Store, r: Resource, env: Env)
    requires Standard(r.klass) && Valid(r)
    requires Save(cfg, adapterId, st, r, env).result.Ok?
    ensures Blank(Get(r, "id")) ==> Get(Save(cfg, adapterId, st, r, env).result.value, "id") == Id(env.freshId)
    ensures Get(r, "id").Id? && !Blank(Get(r, "id")) ==>
      Get(Save(cfg, adapterId, st, r, env).result.value, "id") == Get(r, "id")
    ensures Get(r, "id").Id? || Blank(Get(r, "id")) ==>
      Save(cfg, adapterId, st, r, env).store.versions ==
        st.versions[Get(Save(cfg, adapterId, st, r, env).result.value, "id") := LockToken(adapterId, env.token)]
  {
    var tok := LockToken(adapterId, env.token);
    SaveSteps(cfg, adapterId, st, r, env);
    StampFacts(cfg, r, env);
    var s := Stamp(cfg, r, env).value;
    WithTokenFacts(cfg, s, tok);
    var f := WithToken(cfg, s, tok).value;
    LockNotReserved();
    assert Get(f, "id") == Get(s, "id");
    if Blank(Get(r, "id")) {
      NormalizedId(cfg, AsDateTime, f, env.freshId);
    } else if Get(r, "id").Id? {
      NormalizedId(cfg, AsDateTime, f, Get(r, "id").id);
    }
  }

  /** What a save makes of a resource once the lock check has passed: the
      bookkeeping steps, the token, then date normalisation. */
  function Prepared(cfg: Config, r: Resource, env: Env, tok: LockToken): (p: Result<Resource>)
    ensures p.Ok? ==> p.value.klass == r.klass
  {
    var s :- Stamp(cfg, r, env);
    Finish(cfg, s, tok)
  }

  /** A successful save returns the prepared resource. */
  lemma SavePrepared(cfg: Config, adapterId: string, st: Store, r: Resource, env: Env)
    requires Save(cfg, adapterId, st, r, env).result.Ok?
    ensures Save(cfg, adapterId, st, r, env).result == Prepared(cfg, r, env, LockToken(adapterId, env.token))
  {
  }

  /** A bookkeeping attribute of a prepared resource holds what the
      bookkeeping steps put there, normalised. */
  lemma PreparedNominal(cfg: Config, r: Resource, env: Env, tok: LockToken, name: string)
    requires Standard(r.klass) && Valid(r)
    requires Prepared(cfg, r, env, tok).Ok?
    requires NominalDecl(r.klass.schema, name) && name != OptimisticLock
    requires Stamp(cfg, r, env).Ok? && !Get(Stamp(cfg, r, env).value, name).Nil?
    ensures Get(Prepared(cfg, r, env, tok).value, name) == NormalizeDateValues(AsDateTime, Get(Stamp(cfg, r, env).value, name))
  {
    var s := Stamp(cfg, r, env).value;
    WithTokenFacts(cfg, s, tok);
    NormalizedNominal(cfg, WithToken(cfg, s, tok).value, name);
  }

  /** A prepared resource that had no `created_at` gets the second clock
      read, normalised. */
  lemma PreparedCreatedSet(cfg: Config, r: Resource, env: Env, tok: LockToken)
    requires Standard(r.klass) && Valid(r) && !Truthy(Get(r, "created_at"))
    requires Prepared(cfg, r, env, tok).Ok?
    ensures Get(Prepared(cfg, r, env, tok).value, "created_at") == DateTime(ToUtc(env.created))
  {
    StampedCreated(cfg, r, env);
    var v := Get(Stamp(cfg, r, env).value, "created_at");
    assert v == Time(env.created);
    assert NormalizeDateValues(AsDateTime, v) == DateTime(ToUtc(env.created));
    StandardNominal(r.klass);
    LockNotReserved();
    PreparedNominal(cfg, r, env, tok, "created_at");
  }

  /** A prepared resource keeps its `created_at`, normalised. */
  lemma PreparedCreatedKept(cfg: Config, r: Resource, env: Env, tok: LockToken)
    requires Standard(r.klass) && Valid(r) && Truthy(Get(r, "created_at"))
    requires Prepared(cfg, r, env, tok).Ok?
    ensures Get(Prepared(cfg, r, env, tok).value, "created_at") == NormalizeDateValues(AsDateTime, Get(r, "created_at"))
  {
    StampedCreated(cfg, r, env);
    StandardNominal(r.klass);
    LockNotReserved();
    PreparedNominal(cfg, r, env, tok, "created_at");
  }

  /** `updated_at` of a prepared resource is the clock read, normalised, and
      the resource is no longer a new record. */
  lemma PreparedUpdated(cfg: Config, r: Resource, env: Env, tok: LockToken)
    requires Standard(r.klass) && Valid(r)
    requires Prepared(cfg, r, env, tok).Ok?
    ensures Get(Prepared(cfg, r, env, tok).value, "updated_at") == DateTime(ToUtc(env.updated))
    ensures Persisted(Prepared(cfg, r, env, tok).value)
  {
    StampFacts(cfg, r, env);
    StandardNominal(r.klass);
    LockNotReserved();
    PreparedNominal(cfg, r, env, tok, "updated_at");
    PreparedNominal(cfg, r, env, tok, "new_record");
  }

  /** The timestamps of a successful save. */
  lemma SaveCreated(cfg: Config, adapterId: string, st: Store, r: Resource, env: Env)
    requires Standard(r.klass) && Valid(r)
    requires Save(cfg, adapterId, st, r, env).result.Ok?
    ensures !Truthy(Get(r, "created_at")) ==>
      Get(Save(cfg, adapterId, st, r, env).result.value, "created_at") == DateTime(ToUtc(env.created))
    ensures Truthy(Get(r, "created_at")) ==>
      Get(Save(cfg, adapterId, st, r, env).result.value, "created_at") == NormalizeDateValues(AsDateTime, Get(r, "created_at"))
  {
    SavePrepared(cfg, adapterId, st, r, env);
    if Truthy(Get(r, "created_at")) {
      PreparedCreatedKept(cfg, r, env, LockToken(adapterId, env.token));
    } else {
      PreparedCreatedSet(cfg, r, env, LockToken(adapterId, env.token));
    }
  }

  lemma SaveUpdated(cfg: Config, adapterId: string, st: Store, r: Resource, env: Env)
    requires Standard(r.klass) && Valid(r)
    requires Save(cfg, adapterId, st, r, env).result.Ok?
    ensures Get(Save(cfg, adapterId, st, r, env).result.value, "updated_at") == DateTime(ToUtc(env.updated))
    ensures Persisted(Save(cfg, adapterId, st, r, env).result.value)
  {
    SavePrepared(cfg, adapterId, st, r, env);
    PreparedUpdated(cfg, r, env, LockToken(adapterId, env.token));
  }

  /** `created_at` after the bookkeeping steps alone. */
  lemma StampedCreated(cfg: Config, r: Resource, env: Env)
    requires Standard(r.klass)
    ensures Stamp(cfg, r, env).Ok?
    ensures Truthy(Get(r, "created_at")) ==> Get(Stamp(cfg, r, env).value, "created_at") == Get(r, "created_at")
    ensures !Truthy(Get(r, "created_at")) ==> Get(Stamp(cfg, r, env).value, "created_at") == Time(env.created)
  {
    StampFacts(cfg, r, env);
  }

  /** The lock attribute of a successful save holds the token just issued
      exactly when locking is enabled, and every date in the result is in
      UTC. */
  lemma SaveLockAndDates(cfg: Config, adapterId: string, st: Store, r: Resource, env: Env)
    requires Standard(r.klass) && Valid(r)
    requires Save(cfg, adapterId, st, r, env).result.Ok?
    ensures LockingEnabled(r.klass) ==>
      Get(Save(cfg, adapterId, st, r, env).result.value, OptimisticLock) == Arr([Token(LockToken(adapterId, env.token))])
    ensures !LockingEnabled(r.klass) ==> Get(Save(cfg, adapterId, st, r, env).result.value, OptimisticLock) == Nil
    ensures forall n :: UtcValue(AsDateTime, Get(Save(cfg, adapterId, st, r, env).result.value, n))
  {
    var tok := LockToken(adapterId, env.token);
    SaveSteps(cfg, adapterId, st, r, env);
    var s := Stamp(cfg, r, env).value;
    WithTokenFacts(cfg, s, tok);
    var f := WithToken(cfg, s, tok).value;
    var res := Save(cfg, adapterId, st, r, env).result.value;
    if LockingEnabled(r.klass) {
      NormalizedLock(cfg, f, tok);
    } else {
      GetUndeclared(res, OptimisticLock);
    }
    NormalizeDatesUtc(cfg, AsDateTime, f);
  }

  // ---- optimistic locking across saves ----

  /** The token of `adapterId` in a lock attribute holding just that token. */
  lemma TokenForSingle(adapterId: string, tok: LockToken)
    requires tok.adapterId == adapterId
    ensures TokenFor(Arr([Token(tok)]), adapterId) == Ok(Some(tok))
  {
    assert FindToken([Token(tok)], adapterId) == Ok(Some(tok));
  }

  /** What a successful save returns is current: handing it straight back
      passes the lock check in the store the save left. */
  lemma SavedIsCurrent(cfg: Config, adapterId: string, st: Store, r: Resource, env: Env)
    requires Standard(r.klass) && Valid(r)
    requires Save(cfg, adapterId, st, r, env).result.Ok?
    ensures var o := Save(cfg, adapterId, st, r, env);
      ValidLock(adapterId, o.store, o.result.value) == Ok(true)
  {
    var o := Save(cfg, adapterId, st, r, env);
    var res := o.result.value;
    if LockingEnabled(res.klass) {
      SaveLockAndDates(cfg, adapterId, st, r, env);
      TokenForSingle(adapterId, LockToken(adapterId, env.token));
      assert o.store.cache[Get(res, "id")] == res;
    }
  }

  /** A copy that still carries an older token of this adapter is stale once
      a save of the same id has issued a newer one: saving it again raises
      `StaleObjectError` and leaves the store alone. */
  lemma OutdatedCopyIsStale(cfg: Config, adapterId: string, st: Store, r: Resource, env: Env,
                            copy: Resource, env2: Env, held: LockToken)
    requires Standard(r.klass) && Valid(r) && LockingEnabled(r.klass)
    requires Get(r, "id").Id? && !Blank(Get(r, "id"))
    requires Save(cfg, adapterId, st, r, env).result.Ok?
    requires copy.klass == r.klass && Get(copy, "id") == Get(r, "id")
    requires TokenFor(Get(copy, OptimisticLock), adapterId) == Ok(Some(held))
    requires held != LockToken(adapterId, env.token)
    ensures var st1 := Save(cfg, adapterId, st, r, env).store;
      Save(cfg, adapterId, st1, copy, env2) == Outcome(st1, Err(StaleObject))
  {
    var o := Save(cfg, adapterId, st, r, env);
    SaveId(cfg, adapterId, st, r, env);
    SaveLockAndDates(cfg, adapterId, st, r, env);
    StaleAgainstCached(adapterId, o.store, copy, LockToken(adapterId, env.token), held);
  }

  /** The lock check fails when the cached resource holds just one token of
      this adapter and the incoming one holds a different one. */
  lemma StaleAgainstCached(adapterId: string, st: Store, copy: Resource, cached: LockToken, held: LockToken)
    requires LockingEnabled(copy.klass) && Get(copy, "id") in st.cache
    requires Get(st.cache[Get(copy, "id")], OptimisticLock) == Arr([Token(cached)])
    requires cached.adapterId == adapterId
    requires TokenFor(Get(copy, OptimisticLock), adapterId) == Ok(Some(held)) && held != cached
    ensures ValidLock(adapterId, st, copy) == Ok(false)
  {
    TokenForSingle(adapterId, cached);
  }

  // ---- save_all ----

  /** Every resource a successful batch returns is in the cache under its
      id afterwards. */
  lemma {:induction false} SaveAllCached(cfg: Config, adapterId: string, st: Store, rs: seq<Resource>, env: nat -> Env, i: nat)
    requires SaveAll(cfg, adapterId, st, rs, env, i).result.Ok?
    ensures var o := SaveAll(cfg, adapterId, st, rs, env, i);
      forall j :: 0 <= j < |rs| ==> Get(o.result.value[j], "id") in o.store.cache
    decreases |rs|
  {
    if |rs| > 0 {
      var first := Save(cfg, adapterId, st, rs[0], env(i));
      var rest := SaveAll(cfg, adapterId, first.store, rs[1..], env, i + 1);
      SaveAllCached(cfg, adapterId, first.store, rs[1..], env, i + 1);
      var o := SaveAll(cfg, adapterId, st, rs, env, i);
      assert o.result.value == [first.result.value] + rest.result.value;
      forall j | 0 <= j < |rs| ensures Get(o.result.value[j], "id") in o.store.cache {
        if j > 0 {
          assert o.result.value[j] == rest.result.value[j - 1];
        }
      }
    }
  }

  /** No rollback: when the first save of a batch succeeds, its result stays
      in the cache whatever happens to the rest of the batch. */
  lemma SaveAllNoRollback(cfg: Config, adapterId: string, st: Store, rs: seq<Resource>, env: nat -> Env, i: nat)
    requires |rs| > 0
    requires Save(cfg, adapterId, st, rs[0], env(i)).result.Ok?
    ensures var first := Save(cfg, adapterId, st, rs[0], env(i));
      Get(first.result.value, "id") in SaveAll(cfg, adapterId, st, rs, env, i).store.cache
  {
    var first := Save(cfg, adapterId, st, rs[0], env(i));
    assert Get(first.result.value, "id") in first.store.cache;
  }
}

=== FILE: metadata_adapter.dfy ===
/** `Valkyrie::Persistence::Fedora::MetadataAdapter`'s naming: where a
    resource with a given id lives in Fedora, and which id a Fedora URI
    names. The connection is reduced to the string form of its options. */
module MetadataAdapter {
  import opened Wrappers
  import opened Strs

  datatype Adapter = Adapter(options: string, basePath: string)

  /** `connection_prefix`: the options, a slash, the base path. */
  function ConnectionPrefix(a: Adapter): (p: string)
    ensures |p| == |a.options| + 1 + |a.basePath|
    ensures p[..|a.options|] == a.options && p[|a.options|] == '/' && p[|a.options| + 1..] == a.basePath
  {
    a.options + "/" + a.basePath
  }

  /** `uri.to_s.gsub(/^.*\//, '')`: `^` matches at the start of every line
      and `.` does not cross a line break, so on each line everything up to
      the line's last '/' is removed. */
  function UriToId(uri: string): (id: string)
    ensures '\n' !in uri ==> id == AfterLast(uri, '/')
    decreases |uri|
  {
    if '\n' !in uri then AfterLast(uri, '/')
    else
      var line := BeforeFirst(uri, '\n');
      AfterLast(line, '/') + "\n" + UriToId(uri[|line| + 1..])
  }

  /** `s.split("").each_slice(2).map(&:join)`: consecutive pieces of two
      characters, the last possibly of one. */
  function Pairs(s: string): (ps: seq<string>)
    ensures |s| == 0 <==> |ps| == 0
    ensures forall i :: 0 <= i < |ps| - 1 ==> |ps[i]| == 2
    ensures |ps| > 0 ==> 1 <= |ps[|ps| - 1]| <= 2
    decreases |s|
  {
    if |s| == 0 then []
    else if |s| <= 2 then [s]
    else [s[..2]] + Pairs(s[2..])
  }

  /** The pieces put back together. */
  function Concat(ps: seq<string>): string {
    if |ps| == 0 then "" else ps[0] + Concat(ps[1..])
  }

  /** `join("/")`. */
  function JoinSlash(ps: seq<string>): string {
    if |ps| == 0 then ""
    else if |ps| == 1 then ps[0]
    else ps[0] + "/" + JoinSlash(ps[1..])
  }

  lemma {:induction false} PairsConcat(s: string)
    ensures Concat(Pairs(s)) == s
    decreases |s|
  {
    if |s| > 2 {
      PairsConcat(s[2..]);
      assert s == s[..2] + s[2..];
    }
  }

  /** Taking the separators out of a joined list leaves the pieces, with
      their own slashes taken out. */
  lemma {:induction false} JoinWithout(ps: seq<string>)
    ensures Without(JoinSlash(ps), '/') == Without(Concat(ps), '/')
  {
    if |ps| == 1 {
      assert Concat(ps) == ps[0] + Concat(ps[1..]);
      assert ps[0] + "" == ps[0];
    } else if |ps| > 1 {
      JoinWithout(ps[1..]);
      WithoutAppend(ps[0] + "/", JoinSlash(ps[1..]), '/');
      WithoutAppend(ps[0], "/", '/');
      WithoutAppend(ps[0], Concat(ps[1..]), '/');
      assert Without("/", '/') == "";
      assert ps[0] + "/" + JoinSlash(ps[1..]) == (ps[0] + "/") + JoinSlash(ps[1..]);
    }
  }

  /** A character other than '/' occurs in a joined list only if it occurs
      in a piece. */
  lemma {:induction false} JoinAbsent(ps: seq<string>, c: char)
    requires c != '/' && c !in Concat(ps)
    ensures c !in JoinSlash(ps)
  {
    if |ps| > 1 {
      assert c !in ps[0] && c !in Concat(ps[1..]);
      JoinAbsent(ps[1..], c);
    } else if |ps| == 1 {
      assert Concat(ps) == ps[0] + "";
    }
  }

  /** `pair_path`: the part of the id before the first '-', cut into pairs
      joined by '/'. Ruby's `split("-")` drops trailing empty fields, so an
      id made only of dashes (or empty) has no first field and the chained
      `split("")` raises `NoMethodError` on `nil`. */
  function PairPath(id: string): (r: Result<string>)
    ensures r.Err? <==> AllChar(id, '-')
    ensures r.Err? ==> r.error == NoMethodError
    ensures r.Ok? ==> r.value == JoinSlash(Pairs(BeforeFirst(id, '-')))
  {
    match SplitFirst(id, '-')
    case None => Err(NoMethodError)
    case Some(first) => Ok(JoinSlash(Pairs(first)))
  }

  /** The pair path spells the id up to its first '-', with separators
      added, and contains no '-'. */
  lemma PairPathSpells(id: string)
    requires !AllChar(id, '-')
    ensures Without(PairPath(id).value, '/') == Without(BeforeFirst(id, '-'), '/')
    ensures '-' !in PairPath(id).value
  {
    var first := BeforeFirst(id, '-');
    JoinWithout(Pairs(first));
    PairsConcat(first);
    JoinAbsent(Pairs(first), '-');
  }

  /** A character other than '/' that the id lacks is missing from its
      pair path too. */
  lemma PairPathAbsent(id: string, c: char)
    requires !AllChar(id, '-') && c != '/' && c !in id
    ensures c !in PairPath(id).value
  {
    var first := BeforeFirst(id, '-');
    PairsConcat(first);
    JoinAbsent(Pairs(first), c);
  }

  /** `id_to_uri`: prefix, pair path, then the id itself. */
  function IdToUri(a: Adapter, id: string): (u: Result<string>)
    ensures u.Err? <==> AllChar(id, '-')
    ensures u.Err? ==> u.error == NoMethodError
    ensures u.Ok? ==> u.value == ConnectionPrefix(a) + "/" + PairPath(id).value + "/" + id
  {
    var pp :- PairPath(id);
    Ok(ConnectionPrefix(a) + "/" + pp + "/" + id)
  }

  /** Round trip: the URI made for an id names that id again, as long as
      the id has no '/' and nothing involved breaks the line. */
  lemma RoundTrip(a: Adapter, id: string)
    requires !AllChar(id, '-') && '/' !in id && '\n' !in id
    requires '\n' !in a.options && '\n' !in a.basePath
    ensures IdToUri(a, id).Ok?
    ensures UriToId(IdToUri(a, id).value) == id
  {
    var pp := PairPath(id).value;
    var first := BeforeFirst(id, '-');
    PairsConcat(first);
    JoinAbsent(Pairs(first), '\n');
    var head := ConnectionPrefix(a) + "/" + pp;
    assert IdToUri(a, id).value == head + ['/'] + id;
    assert '\n' !in head + ['/'] + id;
    AfterLastAppend(head, '/', id);
  }
}

=== FILE: model_converter.dfy ===
/** `Valkyrie::Persistence::Fedora::Persister::ModelConverter`: a resource's
    attribute hash as RDF statements about a subject. Each attribute becomes
    a `Property`, which the first registered value mapper that handles it
    rewrites; what comes out is added to the resource's graph.

    Blank nodes for nested resources and proxy nodes for ordered members
    are named `#g<n>` from a counter threaded through the conversion, in the
    order the code creates them. Ruby recursion has no bound of its own; the
    model carries a nesting `depth`, standing for the Ruby stack, and
    answers `StackExhausted` past it. */
module ModelConverter {
  import opened Wrappers
  import opened Strs
  import opened Values
  import opened Types
  import opened Resources
  import opened MetadataAdapter
  import opened PermissiveSchema
  import opened RdfGraph
  import opened Registries

  /** `Property.to_uri`: the key under the predicate prefix. */
  function ToUri(key: string): (u: string)
    ensures u == UriFor(key)
  {
    UriPrefix + key
  }

  /** The object `RDF::Statement.new` makes of a Ruby value: RDF terms stay
      as they are, strings, integers, date-times, times and booleans become
      the matching literals, a symbol becomes the blank node it names
      (`RDF::Node.intern`), anything else a plain literal of its string
      form. */
  function ToTerm(cfg: Config, v: Value): (t: Term)
    ensures v.Rdf? ==> t == v.term
    ensures v.Str? ==> t == StrLit(v.s, "")
    ensures v.Int? ==> t == IntLit(v.i)
    ensures v.DateTime? || v.Time? ==> t == DateTimeLit(v.t)
    ensures v.Symbol? ==> t == BNode(v.name)
    ensures t.BNode? <==> v.Symbol? || (v.Rdf? && v.term.BNode?)
  {
    match v
    case Rdf(t) => t
    case Str(s) => StrLit(s, "")
    case Int(i) => IntLit(i)
    case DateTime(t) => DateTimeLit(t)
    case Time(t) => DateTimeLit(t)
    case Bool(b) => BoolLit(b)
    case Symbol(n) => BNode(n)
    case _ => StrLit(ToS(cfg, v), "")
  }

  /** What a value mapper returns: a `Property` (statements about its
      value), a `CompositeProperty` or a `GraphProperty`. */
  datatype Output =
    | Prop(subject: string, key: string, value: Value)
    | Composite(parts: seq<Output>)
    | GraphOut(subject: string, key: string, graph: seq<Triple>)

  /** `Property#to_graph`'s statements: one per element of `Array(value)`. */
  function PropTriples(cfg: Config, subject: string, key: string, vals: seq<Value>): (g: seq<Triple>)
    ensures |g| == |vals|
    ensures forall i :: 0 <= i < |vals| ==> g[i] == Triple(subject, ToUri(key), ToTerm(cfg, vals[i]))
  {
    if |vals| == 0 then []
    else [Triple(subject, ToUri(key), ToTerm(cfg, vals[0]))] + PropTriples(cfg, subject, key, vals[1..])
  }

  /** The statements an output adds, in order. A composite adds its parts
      one after another into the same graph, a graph property its graph. */
  function Statements(cfg: Config, o: Output): seq<Triple>
    decreases o
  {
    match o
    case Prop(s, k, v) => PropTriples(cfg, s, k, KernelArray(v))
    case Composite(parts) => StatementsAll(cfg, parts)
    case GraphOut(_, _, g) => g
  }

  function StatementsAll(cfg: Config, parts: seq<Output>): seq<Triple>
    decreases parts
  {
    if |parts| == 0 then [] else Statements(cfg, parts[0]) + StatementsAll(cfg, parts[1..])
  }

  /** `to_graph` into a fresh graph. */
  function ToGraph(cfg: Config, o: Output): (g: seq<Triple>)
    ensures NoRepeat(g)
    ensures forall t :: t in g <==> t in Statements(cfg, o)
  {
    AddAll([], Statements(cfg, o))
  }

  // ---- the value mappers ----

  datatype Handler =
    | OrderedMembers
    | NestedProperty
    | NestedInternalValkyrieId
    | InternalValkyrieId
    | TimeValue
    | IdentifiableValue
    | EnumerableValue
    | Fallback  // no mapper handles the property: it is its own result

  /** The mappers in registration order. */
  const Registry: seq<Handler> := [OrderedMembers, NestedProperty, NestedInternalValkyrieId,
    InternalValkyrieId, TimeValue, IdentifiableValue, EnumerableValue]

  /** Each mapper's `handles?`. */
  predicate Handles(h: Handler, subject: string, key: string, v: Value) {
    match h
    case OrderedMembers => key == "member_ids" && |KernelArray(v)| > 0
    case NestedProperty => Tagged(v)
    case NestedInternalValkyrieId => v.Id? && '#' in subject
    case InternalValkyrieId => v.Id? && !Contains(v.id, "://")
    case TimeValue => v.Time?
    case IdentifiableValue => v.Id?
    case EnumerableValue => v.Arr?
    case Fallback => true
  }

  /** `FedoraValue.for(property)`: the first registered mapper that handles
      the property, or none. */
  function Dispatch(subject: string, key: string, v: Value): (h: Handler)
    ensures Handles(h, subject, key, v)
    ensures h == Fallback <==> forall i :: 0 <= i < |Registry| ==> !Handles(Registry[i], subject, key, v)
    ensures h != Fallback ==>
      exists i :: 0 <= i < |Registry| && Registry[i] == h &&
        forall j :: 0 <= j < i ==> !Handles(Registry[j], subject, key, v)
  {
    var handles := (h: Handler) => Handles(h, subject, key, v);
    assert forall i :: 0 <= i < |Registry| ==> Registry[i] != Fallback;
    match FirstWhere(Registry, handles)
    case Some(h) => h
    case None => Fallback
  }

  // ---- conversion ----

  /** A mapper's result and the counter after it. */
  datatype Step = Step(out: Output, next: nat)

  /** Results of several properties and the counter after them. */
  datatype Steps = Steps(outs: seq<Output>, next: nat)

  /** The resolved members of an ordered list with the counters of their
      proxy nodes. */
  datatype Members = Members(targets: seq<Term>, ids: seq<nat>, next: nat)

  /** A converted resource's graph and the counter after it. */
  datatype Converted = Converted(graph: seq<Triple>, next: nat)

  /** Every statement is about `subject` or about a node numbered in
      `[lo, hi)`. */
  predicate Within(g: seq<Triple>, subject: string, lo: nat, hi: nat) {
    forall t :: t in g ==> t.s == subject || exists m :: lo <= m < hi && t.s == NodeIri(m)
  }

  lemma WithinWiden(g: seq<Triple>, subject: string, lo: nat, hi: nat, lo': nat, hi': nat)
    requires Within(g, subject, lo, hi) && lo' <= lo && hi <= hi'
    ensures Within(g, subject, lo', hi')
  {
    forall t | t in g && t.s != subject ensures exists m :: lo' <= m < hi' && t.s == NodeIri(m) {
      var m :| lo <= m < hi && t.s == NodeIri(m);
    }
  }

  /** Node counters strictly increasing and within `[lo, hi)`. */
  predicate Allocated(ids: seq<nat>, lo: nat, hi: nat)
    decreases |ids|
  {
    |ids| == 0 || (lo <= ids[0] < hi && Allocated(ids[1..], ids[0] + 1, hi))
  }

  /** What being allocated means, element by element. */
  lemma {:induction false} AllocatedBounds(ids: seq<nat>, lo: nat, hi: nat)
    requires Allocated(ids, lo, hi)
    ensures forall i :: 0 <= i < |ids| ==> lo <= ids[i] < hi
    ensures forall i, j :: 0 <= i < j < |ids| ==> ids[i] < ids[j]
    decreases |ids|
  {
    if |ids| > 0 {
      AllocatedBounds(ids[1..], ids[0] + 1, hi);
      forall i | 0 < i < |ids| ensures ids[0] < ids[i] {
        assert ids[i] == ids[1..][i - 1];
      }
    }
  }

  /** A member in front of the ones after it, with its proxy's counter. */
  function Prepend(t: Term, x: nat, rest: Members): (m: Members)
    requires x < rest.next && Allocated(rest.ids, x + 1, rest.next)
    ensures m.targets == [t] + rest.targets && m.ids == [x] + rest.ids && m.next == rest.next
    ensures forall lo: nat :: lo <= x ==> Allocated(m.ids, lo, m.next)
  {
    var m := Members([t] + rest.targets, [x] + rest.ids, rest.next);
    assert m.ids[1..] == rest.ids;
    m
  }

  /** The proxy nodes' IRIs. */
  function NodeIris(ids: seq<nat>): (ns: seq<string>)
    ensures |ns| == |ids|
    ensures forall i :: 0 <= i < |ids| ==> ns[i] == NodeIri(ids[i])
  {
    if |ids| == 0 then [] else [NodeIri(ids[0])] + NodeIris(ids[1..])
  }

  /** The `:member_ids` key's flag in the recursion measure: the ordered
      members mapper resolves each member under `:member_id`. */
  function MemberKey(key: string): nat {
    if key == "member_ids" then 1 else 0
  }

  /** Values a mapper rewrites into a value of the same size: an ID (to a
      literal or a URI), a time (to a date-time). */
  function Rank(v: Value): nat {
    match v
    case Id(_) => 2
    case Time(_) => 1
    case _ => 0
  }

  /** `OrderedMembers#graph` after `apply_first_and_last`: the proxy list,
      then `iana:first` and `iana:last` pointing at its first and last
      proxy. */
  function ListOut(subject: string, ms: Members, n: nat): (g: seq<Triple>)
    requires |ms.targets| == |ms.ids| > 0 && Allocated(ms.ids, n, ms.next)
    ensures Within(g, subject, n, ms.next)
  {
    AllocatedBounds(ms.ids, n, ms.next);
    var nodes := NodeIris(ms.ids);
    var first := Triple(subject, IanaFirst, Iri(nodes[0]));
    var last := Triple(subject, IanaLast, Iri(nodes[|nodes| - 1]));
    var g := Add(Add(ListGraph(ms.targets, nodes), first), last);
    assert Within(g, subject, n, ms.next) by {
      forall t | t in g && t.s != subject ensures exists m :: n <= m < ms.next && t.s == NodeIri(m) {
        var i :| 0 <= i < |nodes| && t.s == nodes[i];
        assert t.s == NodeIri(ms.ids[i]);
      }
    }
    g
  }

  /** `NestedProperty#result`: the nested resource's graph under node `n`,
      plus the statement linking the subject to that node. */
  function NestedOut(subject: string, key: string, c: Converted, n: nat): (g: seq<Triple>)
    requires n < c.next && Within(c.graph, NodeIri(n), n + 1, c.next)
    ensures Within(g, subject, n, c.next)
    ensures Triple(subject, ToUri(key), Iri(NodeIri(n))) in g
    ensures forall t :: t in g <==> t in c.graph || t == Triple(subject, ToUri(key), Iri(NodeIri(n)))
    ensures c.graph <= g
    ensures NoRepeat(c.graph) ==> NoRepeat(g)
  {
    WithinWiden(c.graph, NodeIri(n), n + 1, c.next, n, c.next);
    Add(c.graph, Triple(subject, ToUri(key), Iri(NodeIri(n))))
  }

  /** The value the four rewriting mappers resolve again in place of an ID
      or a time: an ID under a blank node, and any ID that names a URI, as
      a `valkyrie_id` literal; any other ID as the URI of the resource it
      names; a time as a date-time. */
  function Rewrite(a: Adapter, h: Handler, v: Value): (w: Result<Value>)
    requires h.NestedInternalValkyrieId? || h.InternalValkyrieId? || h.TimeValue? || h.IdentifiableValue?
    requires h.TimeValue? ==> v.Time?
    requires !h.TimeValue? ==> v.Id?
    ensures w.Ok? ==> Size(w.value) == 1 && Rank(w.value) == 0
    ensures h.InternalValkyrieId? ==> w == (match IdToUri(a, v.id) case Ok(u) => Ok(Rdf(Iri(u))) case Err(e) => Err(e))
    ensures h.NestedInternalValkyrieId? || h.IdentifiableValue? ==> w == Ok(Rdf(TypedLit(v.id, ValkyrieId)))
    ensures h.TimeValue? ==> w == Ok(DateTime(v.t))
  {
    match h
    case InternalValkyrieId =>
      var u :- IdToUri(a, v.id);
      Ok(Rdf(Iri(u)))
    case TimeValue => Ok(DateTime(v.t))
    case NestedInternalValkyrieId | IdentifiableValue => Ok(Rdf(TypedLit(v.id, ValkyrieId)))
  }

  /** `FedoraValue.for(Property.new(subject, key, v, adapter)).result`. */
  function Resolve(cfg: Config, a: Adapter, subject: string, key: string, v: Value, n: nat, depth: nat): (r: Result<Step>)
    ensures r.Ok? ==> n <= r.value.next
    ensures r.Ok? ==> Within(Statements(cfg, r.value.out), subject, n, r.value.next)
    decreases depth, 0, MemberKey(key), Size(v), Rank(v), 2
  {
    Apply(cfg, a, Dispatch(subject, key, v), subject, key, v, n, depth)
  }

  /** The `result` of mapper `h` on the property. */
  function Apply(cfg: Config, a: Adapter, h: Handler, subject: string, key: string, v: Value, n: nat, depth: nat): (r: Result<Step>)
    requires Handles(h, subject, key, v)
    ensures r.Ok? ==> n <= r.value.next
    ensures r.Ok? ==> Within(Statements(cfg, r.value.out), subject, n, r.value.next)
    decreases depth, 0, MemberKey(key), Size(v), Rank(v), 1
  {
    if h.OrderedMembers? then ApplyMembers(cfg, a, subject, key, v, n, depth)
    else if h.NestedProperty? then ApplyNested(cfg, a, subject, key, v, n, depth)
    else if h.EnumerableValue? then
      var ps :- ResolveEach(cfg, a, subject, key, v.items, n, depth);
      Ok(Step(Composite(ps.outs), ps.next))
    else if h.Fallback? then
      Ok(Step(Prop(subject, key, v), n))
    else
      var w :- Rewrite(a, h, v);
      Resolve(cfg, a, subject, key, w, n, depth)
  }

  /** `OrderedMembers#result`: the members' list, hung from the subject. */
  function ApplyMembers(cfg: Config, a: Adapter, subject: string, key: string, v: Value, n: nat, depth: nat): (r: Result<Step>)
    requires key == "member_ids" && |KernelArray(v)| > 0
    ensures r.Ok? ==> n <= r.value.next && r.value.out.GraphOut?
    ensures r.Ok? ==> Within(r.value.out.graph, subject, n, r.value.next)
    decreases depth, 0, MemberKey(key), Size(v), Rank(v), 0
  {
    match ResolveMembers(cfg, a, subject, KernelArray(v), n, depth)
    case Err(e) => Err(e)
    case Ok(ms) => Ok(Step(GraphOut(subject, key, ListOut(subject, ms, n)), ms.next))
  }

  /** `NestedProperty#result`: the nested resource converted under a fresh
      blank node, linked from the subject. */
  function ApplyNested(cfg: Config, a: Adapter, subject: string, key: string, v: Value, n: nat, depth: nat): (r: Result<Step>)
    requires Tagged(v)
    ensures r.Ok? ==> n <= r.value.next && r.value.out.GraphOut?
    ensures r.Ok? ==> Within(r.value.out.graph, subject, n, r.value.next)
    ensures r.Ok? ==> r.value.out.subject == subject && r.value.out.key == key
    ensures r.Ok? ==> Triple(subject, ToUri(key), Iri(NodeIri(n))) in r.value.out.graph
    ensures Anything(cfg, v).Err? ==> r == Err(TypeError)
    decreases depth, 0, MemberKey(key), Size(v), Rank(v), 0
  {
    var inner :- Anything(cfg, v);
    if depth == 0 then Err(StackExhausted)
    else
      var c :- Convert(cfg, a, inner.resource, NodeIri(n), n + 1, depth - 1);
      Ok(Step(GraphOut(subject, key, NestedOut(subject, key, c, n)), c.next))
  }

  /** `EnumerableValue#result`: each element resolved under the same key,
      in order. */
  function ResolveEach(cfg: Config, a: Adapter, subject: string, key: string, xs: seq<Value>, n: nat, depth: nat): (r: Result<Steps>)
    ensures r.Ok? ==> |r.value.outs| == |xs| && n <= r.value.next
    ensures r.Ok? ==> Within(StatementsAll(cfg, r.value.outs), subject, n, r.value.next)
    decreases depth, 0, MemberKey(key), SizeSeq(xs), 3, 0
  {
    if |xs| == 0 then Ok(Steps([], n))
    else
      var s :- Resolve(cfg, a, subject, key, xs[0], n, depth);
      var rest :- ResolveEach(cfg, a, subject, key, xs[1..], s.next, depth);
      var outs := [s.out] + rest.outs;
      assert outs[1..] == rest.outs;
      WithinWiden(Statements(cfg, s.out), subject, n, s.next, n, rest.next);
      WithinWiden(StatementsAll(cfg, rest.outs), subject, s.next, rest.next, n, rest.next);
      Ok(Steps(outs, rest.next))
  }

  /** `OrderedMembers#initialize_list`: each member is resolved under
      `:member_id` and must come back as a plain property, whose value the
      list takes (`.value` is not defined on the other outputs); its proxy
      node is created after it. */
  function ResolveMembers(cfg: Config, a: Adapter, subject: string, vals: seq<Value>, n: nat, depth: nat): (r: Result<Members>)
    ensures r.Ok? ==> |r.value.targets| == |vals| && |r.value.ids| == |vals|
    ensures r.Ok? ==> n <= r.value.next && Allocated(r.value.ids, n, r.value.next)
    decreases depth, 0, 0, SizeSeq(vals), 3, 0
  {
    if |vals| == 0 then Ok(Members([], [], n))
    else MembersAfter(cfg, a, subject, vals, n, depth, Resolve(cfg, a, subject, "member_id", vals[0], n, depth))
  }

  /** The rest of the list once the first member has been resolved. */
  function MembersAfter(cfg: Config, a: Adapter, subject: string, vals: seq<Value>, n: nat, depth: nat, first: Result<Step>): (r: Result<Members>)
    requires |vals| > 0 && (first.Ok? ==> n <= first.value.next)
    ensures r.Ok? ==> |r.value.targets| == |vals| && |r.value.ids| == |vals|
    ensures r.Ok? ==> n <= r.value.next && Allocated(r.value.ids, n, r.value.next)
    decreases depth, 0, 0, SizeSeq(vals), 2, 0
  {
    match first
    case Err(e) => Err(e)
    case Ok(s) =>
      if !s.out.Prop? then Err(NoMethodError)
      else
        Joined(ToTerm(cfg, s.out.value), s.next, ResolveMembers(cfg, a, subject, vals[1..], s.next + 1, depth))
  }

  /** The first member's term and proxy in front of the rest, or the rest's
      error. */
  function Joined(t: Term, x: nat, rest: Result<Members>): (r: Result<Members>)
    requires rest.Ok? ==> x < rest.value.next && Allocated(rest.value.ids, x + 1, rest.value.next)
    ensures r.Ok? <==> rest.Ok?
    ensures r.Ok? ==> r.value == Members([t] + rest.value.targets, [x] + rest.value.ids, rest.value.next)
  {
    match rest
    case Err(e) => Err(e)
    case Ok(m) => Ok(Prepend(t, x, m))
  }

  /** `ModelConverter#convert`: building the LDP container first computes
      the resource's URI from a present id, which fails for an id
      `pair_path` cannot split; then the graph starts empty and each
      attribute's output is added in hash order. */
  function Convert(cfg: Config, a: Adapter, r: Resource, subject: string, n: nat, depth: nat): (c: Result<Converted>)
    ensures c.Ok? ==> n <= c.value.next && Within(c.value.graph, subject, n, c.value.next)
    ensures c.Ok? ==> NoRepeat(c.value.graph)
    ensures Truthy(Get(r, "id")) && AllChar(ToS(cfg, Get(r, "id")), '-') ==> c == Err(NoMethodError)
    decreases depth, 2, 0, 0, 0, 0
  {
    var id := Get(r, "id");
    if Truthy(id) && IdToUri(a, ToS(cfg, id)).Err? then Err(NoMethodError)
    else ConvertEntries(cfg, a, r.attrs, subject, [], n, depth)
  }

  /** The attribute loop of `convert`, from graph `g` onwards. */
  function ConvertEntries(cfg: Config, a: Adapter, es: seq<Entry>, subject: string, g: seq<Triple>, n: nat, depth: nat): (c: Result<Converted>)
    ensures c.Ok? ==> n <= c.value.next && g <= c.value.graph
    ensures c.Ok? ==> forall t :: t in c.value.graph ==>
      t in g || t.s == subject || exists m :: n <= m < c.value.next && t.s == NodeIri(m)
    ensures c.Ok? && NoRepeat(g) ==> NoRepeat(c.value.graph)
    decreases depth, 1, |es|, 0, 0, 0
  {
    if |es| == 0 then Ok(Converted(g, n))
    else
      var s :- Resolve(cfg, a, subject, es[0].key.name, es[0].val, n, depth);
      var g' := AddAll(g, ToGraph(cfg, s.out));
      var rest :- ConvertEntries(cfg, a, es[1..], subject, g', s.next, depth);
      assert forall t :: t in rest.graph ==>
        t in g || t.s == subject || exists m :: n <= m < rest.next && t.s == NodeIri(m)
      by {
        forall t | t in rest.graph && t !in g && t.s != subject
          ensures exists m :: n <= m < rest.next && t.s == NodeIri(m)
        {
          if t in g' {
            assert t in Statements(cfg, s.out);
            var m :| n <= m < s.next && t.s == NodeIri(m);
          } else {
            var m :| s.next <= m < rest.next && t.s == NodeIri(m);
          }
        }
      }
      Ok(rest)
  }
}

=== FILE: model_encoding.dfy ===
/** What `ModelConverter` makes of each kind of value: the statements a
    plain value, an ID, a time, an array and the ordered `member_ids`
    produce, stated against the mappers' registration order. */
module ModelEncoding {
  import opened Wrappers
  import opened Strs
  import opened Values
  import opened Types
  import opened Resources
  import opened Dates
  import opened MetadataAdapter
  import opened PermissiveSchema
  import opened RdfGraph
  import opened ModelConverter

  /** The mapper `Dispatch` picks, located by its place in the registry. */
  lemma DispatchAt(subject: string, key: string, v: Value, i: nat)
    requires i < |Registry| && Handles(Registry[i], subject, key, v)
    requires forall j :: 0 <= j < i ==> !Handles(Registry[j], subject, key, v)
    ensures Dispatch(subject, key, v) == Registry[i]
  {
    var h := Dispatch(subject, key, v);
    var k :| 0 <= k < |Registry| && Registry[k] == h &&
      forall j :: 0 <= j < k ==> !Handles(Registry[j], subject, key, v);
    assert Handles(Registry[k], subject, key, v);
  }

  /** A mapper that rewrites the value hands the rewritten value back to
      `FedoraValue.for`. */
  lemma Rewritten(cfg: Config, a: Adapter, h: Handler, subject: string, key: string, v: Value, w: Value, n: nat, depth: nat)
    requires h.NestedInternalValkyrieId? || h.InternalValkyrieId? || h.TimeValue? || h.IdentifiableValue?
    requires (h.TimeValue? ==> v.Time?) && (!h.TimeValue? ==> v.Id?)
    requires Dispatch(subject, key, v) == h && Rewrite(a, h, v) == Ok(w)
    ensures Resolve(cfg, a, subject, key, v, n, depth) == Resolve(cfg, a, subject, key, w, n, depth)
  {
    assert Resolve(cfg, a, subject, key, v, n, depth) == Apply(cfg, a, h, subject, key, v, n, depth);
  }

  /** Values no mapper rewrites. */
  predicate Plain(v: Value) {
    v.Bool? || v.Int? || v.Str? || v.Symbol? || v.DateTime? || v.Rdf? || v.Token?
  }

  /** `Property#to_graph` adds one statement per element of
      `Array(value)`: the graph holds exactly the element statements and,
      when the elements make distinct objects, holds each once, in element
      order. */
  lemma PropGraph(cfg: Config, subject: string, key: string, v: Value)
    ensures forall t :: t in ToGraph(cfg, Prop(subject, key, v)) <==>
      exists i :: 0 <= i < |KernelArray(v)| && t == Triple(subject, ToUri(key), ToTerm(cfg, KernelArray(v)[i]))
    ensures DistinctTerms(cfg, KernelArray(v)) ==>
      ToGraph(cfg, Prop(subject, key, v)) == PropTriples(cfg, subject, key, KernelArray(v))
  {
    var vals := KernelArray(v);
    PropTriplesHas(cfg, subject, key, vals);
    if DistinctTerms(cfg, vals) {
      AddAllDisjoint([], PropTriples(cfg, subject, key, vals));
    }
  }

  /** The statements of a property are those of its elements, each once
      when their objects differ. */
  lemma PropTriplesHas(cfg: Config, subject: string, key: string, vals: seq<Value>)
    ensures forall t :: t in PropTriples(cfg, subject, key, vals) <==>
      exists i :: 0 <= i < |vals| && t == Triple(subject, ToUri(key), ToTerm(cfg, vals[i]))
    ensures DistinctTerms(cfg, vals) ==> NoRepeat(PropTriples(cfg, subject, key, vals))
  {
    var g := PropTriples(cfg, subject, key, vals);
    forall t | t in g ensures exists i :: 0 <= i < |vals| && t == Triple(subject, ToUri(key), ToTerm(cfg, vals[i])) {
      var i :| 0 <= i < |g| && g[i] == t;
    }
  }

  /** Elements whose objects are pairwise different. */
  predicate DistinctTerms(cfg: Config, xs: seq<Value>) {
    forall i, j :: 0 <= i < j < |xs| ==> ToTerm(cfg, xs[i]) != ToTerm(cfg, xs[j])
  }

  /** A value no mapper handles, outside `member_ids`, is its own result:
      one statement with the value's literal as object. */
  lemma PlainEncoding(cfg: Config, a: Adapter, subject: string, key: string, v: Value, n: nat, depth: nat)
    requires Plain(v) && key != "member_ids"
    ensures Resolve(cfg, a, subject, key, v, n, depth) == Ok(Step(Prop(subject, key, v), n))
    ensures Statements(cfg, Prop(subject, key, v)) == [Triple(subject, ToUri(key), ToTerm(cfg, v))]
  {
    NoneHandles(subject, key, v);
  }

  /** A value no mapper handles goes to the fallback. */
  lemma NoneHandles(subject: string, key: string, v: Value)
    requires !Tagged(v) && !v.Arr? && !v.Id? && !v.Time?
    requires key != "member_ids" || |KernelArray(v)| == 0
    ensures Dispatch(subject, key, v) == Fallback
  {
    forall i | 0 <= i < |Registry| ensures !Handles(Registry[i], subject, key, v) {
    }
  }

  /** An ID outside `member_ids`, under a blank-node subject or looking
      like a URI, becomes a literal typed `valkyrie_id`. */
  lemma IdAsLiteral(cfg: Config, a: Adapter, subject: string, key: string, x: string, n: nat, depth: nat)
    requires key != "member_ids"
    requires '#' in subject || Contains(x, "://")
    ensures Resolve(cfg, a, subject, key, Id(x), n, depth) == Ok(Step(Prop(subject, key, Rdf(TypedLit(x, ValkyrieId))), n))
  {
    var w := Rdf(TypedLit(x, ValkyrieId));
    if '#' in subject {
      DispatchAt(subject, key, Id(x), 2);
      Rewritten(cfg, a, NestedInternalValkyrieId, subject, key, Id(x), w, n, depth);
    } else {
      DispatchAt(subject, key, Id(x), 5);
      Rewritten(cfg, a, IdentifiableValue, subject, key, Id(x), w, n, depth);
    }
    PlainEncoding(cfg, a, subject, key, w, n, depth);
  }

  /** Any other ID outside `member_ids` becomes the URI of the resource it
      names, which does not exist for an ID made only of dashes. */
  lemma IdAsUri(cfg: Config, a: Adapter, subject: string, key: string, x: string, n: nat, depth: nat)
    requires key != "member_ids"
    requires '#' !in subject && !Contains(x, "://")
    ensures AllChar(x, '-') ==> Resolve(cfg, a, subject, key, Id(x), n, depth) == Err(NoMethodError)
    ensures !AllChar(x, '-') ==>
      Resolve(cfg, a, subject, key, Id(x), n, depth) == Ok(Step(Prop(subject, key, Rdf(Iri(IdToUri(a, x).value))), n))
  {
    DispatchAt(subject, key, Id(x), 3);
    if !AllChar(x, '-') {
      var w := Rdf(Iri(IdToUri(a, x).value));
      Rewritten(cfg, a, InternalValkyrieId, subject, key, Id(x), w, n, depth);
      PlainEncoding(cfg, a, subject, key, w, n, depth);
    } else {
      assert Resolve(cfg, a, subject, key, Id(x), n, depth) == Apply(cfg, a, InternalValkyrieId, subject, key, Id(x), n, depth);
    }
  }

  /** A time outside `member_ids` is stored as the date-time it converts
      to. */
  lemma TimeEncoding(cfg: Config, a: Adapter, subject: string, key: string, t: Instant, n: nat, depth: nat)
    requires key != "member_ids"
    ensures Resolve(cfg, a, subject, key, Time(t), n, depth) == Ok(Step(Prop(subject, key, DateTime(t)), n))
    ensures Statements(cfg, Prop(subject, key, DateTime(t))) == [Triple(subject, ToUri(key), DateTimeLit(t))]
  {
    DispatchAt(subject, key, Time(t), 4);
    Rewritten(cfg, a, TimeValue, subject, key, Time(t), DateTime(t), n, depth);
    PlainEncoding(cfg, a, subject, key, DateTime(t), n, depth);
  }

  /** A symbol outside `member_ids` is stored as the blank node it names,
      not as a literal. */
  lemma SymbolEncoding(cfg: Config, a: Adapter, subject: string, key: string, name: string, n: nat, depth: nat)
    requires key != "member_ids"
    ensures Resolve(cfg, a, subject, key, Symbol(name), n, depth) == Ok(Step(Prop(subject, key, Symbol(name)), n))
    ensures Statements(cfg, Prop(subject, key, Symbol(name))) == [Triple(subject, ToUri(key), BNode(name))]
  {
    PlainEncoding(cfg, a, subject, key, Symbol(name), n, depth);
  }

  /** A hash naming its `internal_resource`, under any key but
      `member_ids`, goes to `NestedProperty`: the resource
      `Types::Anything` makes of it is converted with the fresh node
      `#g<n>` as subject, and the property's graph is that graph plus the
      statement linking the subject to the node through the key's
      predicate. */
  lemma NestedEncoding(cfg: Config, a: Adapter, subject: string, key: string, v: Value, n: nat, depth: nat, x: Resource, c: Converted)
    requires Tagged(v) && key != "member_ids"
    requires Anything(cfg, v) == Ok(Res(x))
    requires depth > 0 && Convert(cfg, a, x, NodeIri(n), n + 1, depth - 1) == Ok(c)
    ensures n < c.next
    ensures Resolve(cfg, a, subject, key, v, n, depth) ==
      Ok(Step(GraphOut(subject, key, NestedOut(subject, key, c, n)), c.next))
    ensures forall t :: t in Statements(cfg, Resolve(cfg, a, subject, key, v, n, depth).value.out) <==>
      t in c.graph || t == Triple(subject, ToUri(key), Iri(NodeIri(n)))
  {
    NestedDispatch(cfg, a, subject, key, v, n, depth);
  }

  /** The nested mapper fails with the cast's `TypeError` when the hash
      does not make a resource, and with `StackExhausted` when no nesting
      depth is left. */
  lemma NestedFails(cfg: Config, a: Adapter, subject: string, key: string, v: Value, n: nat, depth: nat)
    requires Tagged(v) && key != "member_ids"
    ensures Anything(cfg, v).Err? ==> Resolve(cfg, a, subject, key, v, n, depth) == Err(TypeError)
    ensures Anything(cfg, v).Ok? && depth == 0 ==> Resolve(cfg, a, subject, key, v, n, depth) == Err(StackExhausted)
  {
    NestedDispatch(cfg, a, subject, key, v, n, depth);
  }

  /** Such a hash is resolved by the nested mapper. */
  lemma NestedDispatch(cfg: Config, a: Adapter, subject: string, key: string, v: Value, n: nat, depth: nat)
    requires Tagged(v) && key != "member_ids"
    ensures Resolve(cfg, a, subject, key, v, n, depth) == ApplyNested(cfg, a, subject, key, v, n, depth)
  {
    DispatchAt(subject, key, v, 1);
    assert Resolve(cfg, a, subject, key, v, n, depth) == Apply(cfg, a, NestedProperty, subject, key, v, n, depth);
  }

  /** One plain property per element. */
  function Props(subject: string, key: string, xs: seq<Value>): (os: seq<Output>)
    ensures |os| == |xs|
    ensures forall i :: 0 <= i < |xs| ==> os[i] == Prop(subject, key, xs[i])
  {
    if |xs| == 0 then [] else [Prop(subject, key, xs[0])] + Props(subject, key, xs[1..])
  }

  /** An array of plain values is resolved element by element, and its
      statements are the elements' statements in order. */
  lemma {:induction false} PlainElements(cfg: Config, a: Adapter, subject: string, key: string, xs: seq<Value>, n: nat, depth: nat)
    requires key != "member_ids" && forall i :: 0 <= i < |xs| ==> Plain(xs[i])
    ensures ResolveEach(cfg, a, subject, key, xs, n, depth) == Ok(Steps(Props(subject, key, xs), n))
    ensures StatementsAll(cfg, Props(subject, key, xs)) == PropTriples(cfg, subject, key, xs)
  {
    if |xs| > 0 {
      PlainEncoding(cfg, a, subject, key, xs[0], n, depth);
      PlainElements(cfg, a, subject, key, xs[1..], n, depth);
      assert Props(subject, key, xs)[1..] == Props(subject, key, xs[1..]);
      assert PropTriples(cfg, subject, key, xs)[1..] == PropTriples(cfg, subject, key, xs[1..]);
    }
  }

  /** An array of plain values outside `member_ids` gives one statement per
      element, in order. */
  lemma PlainArrayEncoding(cfg: Config, a: Adapter, subject: string, key: string, xs: seq<Value>, n: nat, depth: nat)
    requires key != "member_ids" && forall i :: 0 <= i < |xs| ==> Plain(xs[i])
    ensures Resolve(cfg, a, subject, key, Arr(xs), n, depth) == Ok(Step(Composite(Props(subject, key, xs)), n))
    ensures Statements(cfg, Composite(Props(subject, key, xs))) == PropTriples(cfg, subject, key, xs)
  {
    DispatchAt(subject, key, Arr(xs), 6);
    PlainElements(cfg, a, subject, key, xs, n, depth);
  }

  /** Empty `member_ids` (nil, `[]` or `{}`) gives no statements at all, so
      in particular no `first` or `last`. */
  lemma NoMembers(cfg: Config, a: Adapter, subject: string, v: Value, n: nat, depth: nat)
    requires |KernelArray(v)| == 0
    ensures Resolve(cfg, a, subject, "member_ids", v, n, depth).Ok?
    ensures Statements(cfg, Resolve(cfg, a, subject, "member_ids", v, n, depth).value.out) == []
  {
    if v.Arr? {
      DispatchAt(subject, "member_ids", v, 6);
      assert Resolve(cfg, a, subject, "member_ids", v, n, depth) == Apply(cfg, a, EnumerableValue, subject, "member_ids", v, n, depth);
      assert ResolveEach(cfg, a, subject, "member_ids", [], n, depth) == Ok(Steps([], n));
    } else {
      assert !Tagged(v);
      NoneHandles(subject, "member_ids", v);
      assert Resolve(cfg, a, subject, "member_ids", v, n, depth) == Apply(cfg, a, Fallback, subject, "member_ids", v, n, depth);
    }
  }

  // ---- member_ids ----

  /** The `iana:first` and `iana:last` of a subject that is not a blank
      node lead to the list of the members' terms. */
  lemma ListOutShape(subject: string, ms: Members, n: nat)
    requires |ms.targets| == |ms.ids| > 0 && Allocated(ms.ids, n, ms.next)
    requires '#' !in subject
    ensures var g := ListOut(subject, ms, n);
      var nodes := NodeIris(ms.ids);
      FirstObject(g, subject, IanaFirst) == Some(Iri(nodes[0])) &&
      FirstObject(g, subject, IanaLast) == Some(Iri(nodes[|nodes| - 1])) &&
      Decode(g, Iri(nodes[0]), Iri(nodes[|nodes| - 1])) == Ok(ms.targets)
  {
    var nodes := NodeIris(ms.ids);
    var lg := ListGraph(ms.targets, nodes);
    var first := Triple(subject, IanaFirst, Iri(nodes[0]));
    var last := Triple(subject, IanaLast, Iri(nodes[|nodes| - 1]));
    var g := ListOut(subject, ms, n);
    assert g == Add(Add(lg, first), last);
    NodesDistinct(ms.ids, n, ms.next);
    ListNotAbout(subject, ms.targets, ms.ids);
    assert ListIn(g, ms.targets, nodes);
    FirstObjectOnly(g, first);
    FirstObjectOnly(g, last);
    DecodeList(g, ms.targets, nodes);
  }

  /** Distinct counters give distinct proxy nodes. */
  lemma NodesDistinct(ids: seq<nat>, n: nat, next: nat)
    requires Allocated(ids, n, next)
    ensures DistinctNodes(NodeIris(ids))
  {
    var nodes := NodeIris(ids);
    AllocatedBounds(ids, n, next);
    forall i, j | 0 <= i < j < |nodes| ensures nodes[i] != nodes[j] {
      if nodes[i] == nodes[j] {
        NodeIriInjective(ids[i], ids[j]);
      }
    }
  }

  /** No statement of the list is about a subject that is not a blank
      node. */
  lemma ListNotAbout(subject: string, targets: seq<Term>, ids: seq<nat>)
    requires |targets| == |ids| && '#' !in subject
    ensures forall t :: t in ListGraph(targets, NodeIris(ids)) ==> t.s != subject
  {
    var nodes := NodeIris(ids);
    forall t | t in ListGraph(targets, nodes) ensures t.s != subject {
      var i :| 0 <= i < |nodes| && t.s == nodes[i];
      assert t.s[0] == '#';
    }
  }

  /** The term a member ID is stored as, under a subject that is not a
      blank node. */
  function MemberTerm(a: Adapter, x: string): (t: Term)
    requires Contains(x, "://") || !AllChar(x, '-')
    ensures Contains(x, "://") ==> t == TypedLit(x, ValkyrieId)
    ensures !Contains(x, "://") ==> t == Iri(ConnectionPrefix(a) + "/" + PairPath(x).value + "/" + x)
  {
    if Contains(x, "://") then TypedLit(x, ValkyrieId) else Iri(IdToUri(a, x).value)
  }

  /** Member IDs the converter can store: each names a URI, or has a
      character other than '-' to build its pair path from. */
  predicate StorableIds(xs: seq<string>) {
    |xs| == 0 || ((Contains(xs[0], "://") || !AllChar(xs[0], '-')) && StorableIds(xs[1..]))
  }

  /** The terms the member IDs are stored as, in order. */
  function MemberTerms(a: Adapter, xs: seq<string>): (ts: seq<Term>)
    requires StorableIds(xs)
    ensures |ts| == |xs|
  {
    if |xs| == 0 then [] else [MemberTerm(a, xs[0])] + MemberTerms(a, xs[1..])
  }

  /** The member IDs as the values of a `member_ids` attribute. */
  function IdValues(xs: seq<string>): (vs: seq<Value>)
    ensures |vs| == |xs|
  {
    if |xs| == 0 then [] else [Id(xs[0])] + IdValues(xs[1..])
  }

  /** The counters `m`, `m + 1`, ..., one for each of `xs`. */
  function Slots(m: nat, xs: seq<string>): (r: seq<nat>)
    ensures |r| == |xs| && forall i :: 0 <= i < |xs| ==> r[i] == m + i
    ensures Allocated(r, m, m + |xs|)
    decreases |xs|
  {
    if |xs| == 0 then [] else [m] + Slots(m + 1, xs[1..])
  }

  /** One member ID resolved under `:member_id`. */
  lemma MemberResolved(cfg: Config, a: Adapter, subject: string, x: string, n: nat, depth: nat)
    requires '#' !in subject && (Contains(x, "://") || !AllChar(x, '-'))
    ensures Resolve(cfg, a, subject, "member_id", Id(x), n, depth) == Ok(Step(Prop(subject, "member_id", Rdf(MemberTerm(a, x))), n))
  {
    if Contains(x, "://") {
      IdAsLiteral(cfg, a, subject, "member_id", x, n, depth);
    } else {
      IdAsUri(cfg, a, subject, "member_id", x, n, depth);
    }
  }

  /** A member resolved to a plain property holding a term puts that term
      first and takes the next counter for its proxy. */
  lemma MembersCons(cfg: Config, a: Adapter, subject: string, vals: seq<Value>, n: nat, depth: nat, x: string, rest: Members)
    requires |vals| > 0 && vals[0] == Id(x)
    requires '#' !in subject && (Contains(x, "://") || !AllChar(x, '-'))
    requires ResolveMembers(cfg, a, subject, vals[1..], n + 1, depth) == Ok(rest)
    ensures ResolveMembers(cfg, a, subject, vals, n, depth) == Ok(Members([MemberTerm(a, x)] + rest.targets, [n] + rest.ids, rest.next))
  {
    MemberResolved(cfg, a, subject, x, n, depth);
    assert ResolveMembers(cfg, a, subject, vals, n, depth) ==
      MembersAfter(cfg, a, subject, vals, n, depth, Resolve(cfg, a, subject, "member_id", vals[0], n, depth));
    MembersStep(cfg, a, subject, vals, n, depth, MemberTerm(a, x));
  }

  /** A first member resolved to a plain property holding a term goes in
      front of the rest. */
  lemma MembersStep(cfg: Config, a: Adapter, subject: string, vals: seq<Value>, n: nat, depth: nat, t: Term)
    requires |vals| > 0
    ensures MembersAfter(cfg, a, subject, vals, n, depth, Ok(Step(Prop(subject, "member_id", Rdf(t)), n))) ==
      Joined(t, n, ResolveMembers(cfg, a, subject, vals[1..], n + 1, depth))
  {
    assert ToTerm(cfg, Rdf(t)) == t;
  }

  /** Each member gets its term, in order, and the next counter as its
      proxy node; `m` is the counter left after the last. */
  lemma {:induction false} MembersResolved(cfg: Config, a: Adapter, subject: string, xs: seq<string>, n: nat, m: nat, depth: nat)
    requires '#' !in subject && StorableIds(xs) && m == n + |xs|
    ensures ResolveMembers(cfg, a, subject, IdValues(xs), n, depth) == Ok(Members(MemberTerms(a, xs), Slots(n, xs), m))
    decreases |xs|
  {
    if |xs| > 0 {
      MembersResolved(cfg, a, subject, xs[1..], n + 1, m, depth);
      MembersInduct(cfg, a, subject, xs, n, m, depth);
    }
  }

  /** The inductive step of `MembersResolved`. */
  lemma MembersInduct(cfg: Config, a: Adapter, subject: string, xs: seq<string>, n: nat, m: nat, depth: nat)
    requires '#' !in subject && StorableIds(xs) && |xs| > 0
    requires ResolveMembers(cfg, a, subject, IdValues(xs[1..]), n + 1, depth) ==
      Ok(Members(MemberTerms(a, xs[1..]), Slots(n + 1, xs[1..]), m))
    ensures ResolveMembers(cfg, a, subject, IdValues(xs), n, depth) == Ok(Members(MemberTerms(a, xs), Slots(n, xs), m))
  {
    var vals := IdValues(xs);
    assert vals[1..] == IdValues(xs[1..]) && vals[0] == Id(xs[0]);
    var rest := Members(MemberTerms(a, xs[1..]), Slots(n + 1, xs[1..]), m);
    MembersCons(cfg, a, subject, vals, n, depth, xs[0], rest);
    SameMembers(ResolveMembers(cfg, a, subject, vals, n, depth), MemberTerm(a, xs[0]), n, rest,
      MemberTerms(a, xs), Slots(n, xs), m);
  }

  lemma SameMembers(r: Result<Members>, t: Term, n: nat, rest: Members, ts: seq<Term>, ids: seq<nat>, next: nat)
    requires r == Ok(Members([t] + rest.targets, [n] + rest.ids, rest.next))
    requires ts == [t] + rest.targets && ids == [n] + rest.ids && next == rest.next
    ensures r == Ok(Members(ts, ids, next))
  {
  }

  /** `OrderedMembers#result` on member IDs builds the list of their terms
      on the counters from `n`; `m` is the counter left after the last. */
  lemma MembersApplied(cfg: Config, a: Adapter, subject: string, xs: seq<string>, n: nat, m: nat, depth: nat)
    requires '#' !in subject && |xs| > 0 && StorableIds(xs) && m == n + |xs|
    ensures ApplyMembers(cfg, a, subject, "member_ids", Arr(IdValues(xs)), n, depth) ==
      Ok(Step(GraphOut(subject, "member_ids", ListOut(subject, Members(MemberTerms(a, xs), Slots(n, xs), m), n)), m))
  {
    MembersResolved(cfg, a, subject, xs, n, m, depth);
    ArrayMembers(cfg, a, subject, xs, n, m, depth);
    MembersListed(cfg, a, subject, xs, n, m, depth);
  }

  lemma MembersListed(cfg: Config, a: Adapter, subject: string, xs: seq<string>, n: nat, m: nat, depth: nat)
    requires |xs| > 0 && StorableIds(xs) && m == n + |xs|
    requires ResolveMembers(cfg, a, subject, KernelArray(Arr(IdValues(xs))), n, depth) == Ok(Members(MemberTerms(a, xs), Slots(n, xs), m))
    ensures ApplyMembers(cfg, a, subject, "member_ids", Arr(IdValues(xs)), n, depth) ==
      Ok(Step(GraphOut(subject, "member_ids", ListOut(subject, Members(MemberTerms(a, xs), Slots(n, xs), m), n)), m))
  {
  }

  lemma ArrayMembers(cfg: Config, a: Adapter, subject: string, xs: seq<string>, n: nat, m: nat, depth: nat)
    requires StorableIds(xs)
    requires ResolveMembers(cfg, a, subject, IdValues(xs), n, depth) == Ok(Members(MemberTerms(a, xs), Slots(n, xs), m))
    ensures ResolveMembers(cfg, a, subject, KernelArray(Arr(IdValues(xs))), n, depth) == Ok(Members(MemberTerms(a, xs), Slots(n, xs), m))
  {
    assert KernelArray(Arr(IdValues(xs))) == IdValues(xs);
  }

  /** `iana:first` and `iana:last` of the member list lead back to the
      members' terms in order. */
  lemma MemberListShape(a: Adapter, subject: string, xs: seq<string>, n: nat, m: nat)
    requires '#' !in subject && |xs| > 0 && StorableIds(xs) && m == n + |xs|
    ensures var g := ListOut(subject, Members(MemberTerms(a, xs), Slots(n, xs), m), n);
      FirstObject(g, subject, IanaFirst).Some? && FirstObject(g, subject, IanaLast).Some? &&
      Decode(g, FirstObject(g, subject, IanaFirst).value, FirstObject(g, subject, IanaLast).value) == Ok(MemberTerms(a, xs))
  {
    ListOutShape(subject, Members(MemberTerms(a, xs), Slots(n, xs), m), n);
  }

  /** A non-empty array of member IDs, under a subject that is not a blank
      node, is stored as an ordered list whose `iana:first` and `iana:last`
      lead back to the members' terms in order. */
  lemma MemberIdsEncoding(cfg: Config, a: Adapter, subject: string, xs: seq<string>, n: nat, depth: nat)
    requires '#' !in subject && |xs| > 0 && StorableIds(xs)
    ensures var r := Resolve(cfg, a, subject, "member_ids", Arr(IdValues(xs)), n, depth);
      r.Ok? && r.value.out.GraphOut? && r.value.next == n + |xs| &&
      var g := r.value.out.graph;
      FirstObject(g, subject, IanaFirst).Some? && FirstObject(g, subject, IanaLast).Some? &&
      Decode(g, FirstObject(g, subject, IanaFirst).value, FirstObject(g, subject, IanaLast).value) == Ok(MemberTerms(a, xs))
  {
    var v := Arr(IdValues(xs));
    var m := n + |xs|;
    DispatchAt(subject, "member_ids", v, 0);
    assert Resolve(cfg, a, subject, "member_ids", v, n, depth) == ApplyMembers(cfg, a, subject, "member_ids", v, n, depth);
    MembersApplied(cfg, a, subject, xs, n, m, depth);
    MemberListShape(a, subject, xs, n, m);
  }
}

=== FILE: orm_converter.dfy ===
/** `Valkyrie::Persistence::Fedora::Persister::OrmConverter`: a Fedora
    resource's graph read back into an attribute hash, and that hash made
    into a resource. Every statement of the graph becomes a `Property`; the
    first registered value mapper that handles it yields an applicator,
    which writes into the hash. The mappers that decode an RDF literal or an
    internal URI put the decoded value into the statement and dispatch it
    again.

    RDF.rb gives integer, date-time and plain string literals classes of
    their own, so the mappers' datatype tests are read as tests of the
    `Term` constructor. The statements a mapper edits are taken to be copies:
    an edit is not seen by later queries of the graph. */
module OrmConverter {
  import opened Wrappers
  import opened Strs
  import opened Values
  import opened Types
  import opened MetadataAdapter
  import opened PermissiveSchema
  import opened RdfGraph

  /** A statement as the mappers see it: its object starts as an RDF term
      and may be replaced by the Ruby value a mapper decodes. */
  datatype Stmt = Stmt(s: string, p: string, o: Value)

  function StmtOf(t: Triple): Stmt {
    Stmt(t.s, t.p, Rdf(t.o))
  }

  const LdpPrefix: string := "http://www.w3.org/ns/ldp"
  const FedoraPrefix: string := "http://fedora.info"
  const InternalResource: string := UriFor("internal_resource")
  const CreatedAt: string := UriFor("created_at")
  const UpdatedAt: string := UriFor("updated_at")

  /** Objects `BlacklistedValue` drops: LDP and Fedora server terms. */
  predicate Reserved(s: string) {
    StartsWith(s, LdpPrefix) || StartsWith(s, FedoraPrefix)
  }

  // ---- the value mappers ----

  datatype Handler =
    | BlacklistedValue
    | DifferentSubject
    | MemberId
    | NestedValue
    | IntegerValue
    | DateTimeValue
    | LiteralValue
    | ValkyrieIdValue
    | InternalUri
    | InternalModelValue
    | CreatedAtValue
    | UpdatedAtValue
    | Fallback  // no mapper handles the statement: `FedoraValue` itself

  /** The mappers in registration order. */
  const Registry: seq<Handler> := [BlacklistedValue, DifferentSubject, MemberId, NestedValue,
    IntegerValue, DateTimeValue, LiteralValue, ValkyrieIdValue, InternalUri,
    InternalModelValue, CreatedAtValue, UpdatedAtValue]

  /** An IRI object a nested resource hangs from: a fragment of this
      resource or of one under the connection prefix. */
  predicate NestedIri(a: Adapter, o: Value) {
    o.Rdf? && o.term.Iri? && '#' in o.term.iri &&
    (StartsWith(o.term.iri, "#") || StartsWith(o.term.iri, ConnectionPrefix(a)))
  }

  /** Each mapper's `handles?`. */
  predicate Handles(cfg: Config, a: Adapter, h: Handler, st: Stmt) {
    match h
    case BlacklistedValue => Reserved(ToS(cfg, st.o))
    case DifferentSubject => '#' in st.s
    case MemberId => st.p == IanaFirst
    case NestedValue => NestedIri(a, st.o)
    case IntegerValue => st.o.Rdf? && st.o.term.IntLit?
    case DateTimeValue => st.o.Rdf? && st.o.term.DateTimeLit?
    case LiteralValue => st.o.Rdf? && st.o.term.StrLit? && st.o.term.lang == ""
    case ValkyrieIdValue => st.o.Rdf? && st.o.term.TypedLit? && st.o.term.dtype == ValkyrieId
    case InternalUri => st.o.Rdf? && st.o.term.Iri? && StartsWith(st.o.term.iri, ConnectionPrefix(a))
    case InternalModelValue => st.p == InternalResource
    case CreatedAtValue => st.p == CreatedAt
    case UpdatedAtValue => st.p == UpdatedAt
    case Fallback => true
  }

  /** The five mappers that decode the object and dispatch again. */
  predicate Decodes(h: Handler) {
    h.IntegerValue? || h.DateTimeValue? || h.LiteralValue? || h.ValkyrieIdValue? || h.InternalUri?
  }

  /** Where a mapper stands in the registration order (`FedoraValue`
      itself after all of them). */
  function Index(h: Handler): (i: nat)
    ensures h != Fallback ==> i < |Registry| && Registry[i] == h
    ensures h == Fallback ==> i == |Registry|
  {
    match h
    case BlacklistedValue => 0
    case DifferentSubject => 1
    case MemberId => 2
    case NestedValue => 3
    case IntegerValue => 4
    case DateTimeValue => 5
    case LiteralValue => 6
    case ValkyrieIdValue => 7
    case InternalUri => 8
    case InternalModelValue => 9
    case CreatedAtValue => 10
    case UpdatedAtValue => 11
    case Fallback => 12
  }

  /** `FedoraValue.for(property)`: the mappers are asked in registration
      order. */
  function Dispatch(cfg: Config, a: Adapter, st: Stmt): (h: Handler)
    ensures Handles(cfg, a, h, st)
  {
    if Handles(cfg, a, BlacklistedValue, st) then BlacklistedValue
    else if Handles(cfg, a, DifferentSubject, st) then DifferentSubject
    else if Handles(cfg, a, MemberId, st) then MemberId
    else if Handles(cfg, a, NestedValue, st) then NestedValue
    else if Handles(cfg, a, IntegerValue, st) then IntegerValue
    else if Handles(cfg, a, DateTimeValue, st) then DateTimeValue
    else if Handles(cfg, a, LiteralValue, st) then LiteralValue
    else if Handles(cfg, a, ValkyrieIdValue, st) then ValkyrieIdValue
    else if Handles(cfg, a, InternalUri, st) then InternalUri
    else if Handles(cfg, a, InternalModelValue, st) then InternalModelValue
    else if Handles(cfg, a, CreatedAtValue, st) then CreatedAtValue
    else if Handles(cfg, a, UpdatedAtValue, st) then UpdatedAtValue
    else Fallback
  }

  /** The first-match rule: the mapper chosen handles the statement, and
      no mapper that handles it is registered before the chosen one. */
  lemma DispatchFirst(cfg: Config, a: Adapter, st: Stmt, i: nat)
    requires i < |Registry| && Handles(cfg, a, Registry[i], st)
    ensures Index(Dispatch(cfg, a, st)) <= i
  {
  }

  /** A statement reaches a mapper registered after `DifferentSubject` and
      `MemberID` only if it is about the resource itself and not the head
      of a list. */
  lemma DispatchPast(cfg: Config, a: Adapter, st: Stmt)
    ensures var h := Dispatch(cfg, a, st);
      h.NestedValue? || Decodes(h) ==> '#' !in st.s && st.p != IanaFirst
  {
  }

  /** The value a decoding mapper puts in place of the object: the
      integer, the date-time as ActiveSupport's `utc` gives it (a `Time` in
      zone UTC), the string, the ID, or the ID an
      internal URI names. */
  function Decoded(cfg: Config, a: Adapter, h: Handler, st: Stmt): (v: Value)
    requires Decodes(h) && Handles(cfg, a, h, st)
    ensures !v.Rdf?
    ensures h.InternalUri? || h.ValkyrieIdValue? <==> v.Id?
  {
    match h
    case IntegerValue => Int(st.o.term.i)
    case DateTimeValue => Time(ToUtc(st.o.term.t))
    case LiteralValue => Str(st.o.term.lex)
    case ValkyrieIdValue => Id(st.o.term.lex)
    case InternalUri => Id(UriToId(st.o.term.iri))
  }

  // ---- applicators ----

  /** What a mapper's `result` is: it writes the statement's object into
      the hash under the key its predicate gives. */
  datatype Applicator =
    | NullApp                                // NullApplicator
    | Append(p: string, v: Value)            // Applicator
    | Single(p: string, v: Value)            // SingleApplicator
    | NonStringSingle(p: string, v: Value)   // NonStringSingleApplicator
    | Composite(parts: seq<Applicator>)      // CompositeApplicator

  /** What an applicator produced for a statement with predicate `p` may
      write: only under the predicate's own key, with the singular
      applicators reserved to their three predicates, and a list head's
      members only under `member_ids`. */
  predicate Writes(app: Applicator, p: string)
    decreases app
  {
    match app
    case NullApp => true
    case Append(q, _) => q == p
    case Single(q, _) => q == p && p == InternalResource
    case NonStringSingle(q, _) => q == p && (p == CreatedAt || p == UpdatedAt)
    case Composite(parts) => p == IanaFirst && WritesAll(parts, MemberIds)
  }

  predicate WritesAll(parts: seq<Applicator>, p: string)
    decreases parts
  {
    |parts| == 0 || (Writes(parts[0], p) && WritesAll(parts[1..], p))
  }

  /** The namespaces `key` strips, in order. */
  const FedoraNs: string := "http://www.fedora.info/definitions/v4/"
  const RdfNs: string := "http://www.w3.org/1999/02/22-rdf-syntax-ns#"
  /** Keys starting with this name Fedora's own properties. */
  const FedoraDefinitions: string := "http://fedora.info/definitions"

  /** The regexp `/^ns/` matches at the start of `line`: a namespace's '.'
      matches any character but a line break, its other characters only
      themselves. */
  predicate MatchesAt(line: string, ns: string) {
    |ns| <= |line| &&
    forall i :: 0 <= i < |ns| ==> if ns[i] == '.' then line[i] != '\n' else line[i] == ns[i]
  }

  /** `gsub(/^ns/, '')` on text without a line break. */
  function StripLine(line: string, ns: string): (r: string)
    ensures |r| <= |line| && r == line[|line| - |r|..]
  {
    if MatchesAt(line, ns) then line[|ns|..] else line
  }

  /** `s.gsub(/^ns/, '')`: `^` matches at the start of every line, and a
      match never crosses a line break, so each line loses a match at its
      start. */
  function StripNs(s: string, ns: string): (r: string)
    ensures '\n' !in s ==> r == StripLine(s, ns)
    decreases |s|
  {
    if '\n' !in s then StripLine(s, ns)
    else
      var line := BeforeFirst(s, '\n');
      StripLine(line, ns) + "\n" + StripNs(s[|line| + 1..], ns)
  }

  /** `Applicator#key`: the predicate with the three namespaces stripped in
      turn. */
  function KeyOf(p: string): string {
    StripNs(StripNs(StripNs(p, FedoraNs), RdfNs), UriPrefix)
  }

  /** `blacklist?`: keys of Fedora's own properties and of the list's
      `iana:last`. */
  predicate Blacklisted(k: string) {
    StartsWith(k, FedoraDefinitions) || StartsWith(k, IanaLast)
  }

  /** `cast_array`: a `Time` alone, anything else through `Kernel#Array`. */
  function CastArray(v: Value): (r: seq<Value>)
    ensures v.Time? ==> r == [v]
    ensures !v.Time? ==> r == KernelArray(v)
  {
    if v.Time? then [v] else KernelArray(v)
  }

  /** The exception `current + array` raises for a stored value that is
      neither nil, false nor an array: strings, numbers and times refuse an
      array argument; every other object, RDF terms included, is taken to
      raise NoMethodError, although `RDF::URI#+` would concatenate the
      array's text. */
  function PlusError(v: Value): Error {
    if v.Str? || v.Int? || v.DateTime? || v.Time? then TypeError else NoMethodError
  }

  /** The array `hsh[k] ||= []` leaves to be added to, if any. */
  function Current(hsh: seq<Entry>, k: Key): Option<seq<Value>> {
    var cur := Fetch(hsh, k);
    if !Truthy(cur) then Some([]) else if cur.Arr? then Some(cur.items) else None
  }

  /** `Applicator#apply_to`: nothing for a blacklisted key; otherwise the
      key's array (a new one if it is unset, nil or false) grows by the
      object cast to an array. */
  function AppendTo(p: string, v: Value, hsh: seq<Entry>): (r: Result<seq<Entry>>)
    ensures Blacklisted(KeyOf(p)) ==> r == Ok(hsh)
    ensures !Blacklisted(KeyOf(p)) ==>
      match Current(hsh, SymKey(KeyOf(p)))
      case None => r == Err(PlusError(Fetch(hsh, SymKey(KeyOf(p)))))
      case Some(xs) => (r.Ok? && Lookup(r.value, SymKey(KeyOf(p))) == Some(Arr(xs + CastArray(v))) &&
        forall k :: k != SymKey(KeyOf(p)) ==> Lookup(r.value, k) == Lookup(hsh, k))
  {
    var k := SymKey(KeyOf(p));
    if Blacklisted(KeyOf(p)) then Ok(hsh)
    else
      match Current(hsh, k)
      case None => Err(PlusError(Fetch(hsh, k)))
      case Some(xs) => Ok(Put(hsh, k, Arr(xs + CastArray(v))))
  }

  /** `apply_to` of any applicator. */
  function ApplyTo(cfg: Config, app: Applicator, hsh: seq<Entry>): (r: Result<seq<Entry>>)
    ensures app.NullApp? ==> r == Ok(hsh)
    ensures app.Single? ==> r.Ok? && Lookup(r.value, SymKey(KeyOf(app.p))) == Some(Str(ToS(cfg, app.v)))
    ensures app.NonStringSingle? ==> r.Ok? && Lookup(r.value, SymKey(KeyOf(app.p))) == Some(app.v)
    ensures app.Single? || app.NonStringSingle? ==>
      forall k :: k != SymKey(KeyOf(app.p)) ==> Lookup(r.value, k) == Lookup(hsh, k)
    decreases app
  {
    match app
    case NullApp => Ok(hsh)
    case Append(p, v) => AppendTo(p, v, hsh)
    case Single(p, v) => Ok(Put(hsh, SymKey(KeyOf(p)), Str(ToS(cfg, v))))
    case NonStringSingle(p, v) => Ok(Put(hsh, SymKey(KeyOf(p)), v))
    case Composite(parts) => ApplyAll(cfg, parts, hsh)
  }

  /** `CompositeApplicator#apply_to`: the parts in order. */
  function ApplyAll(cfg: Config, parts: seq<Applicator>, hsh: seq<Entry>): (r: Result<seq<Entry>>)
    ensures |parts| == 0 ==> r == Ok(hsh)
    decreases parts
  {
    if |parts| == 0 then Ok(hsh)
    else
      match ApplyTo(cfg, parts[0], hsh)
      case Err(e) => Err(e)
      case Ok(h) => ApplyAll(cfg, parts[1..], h)
  }

  // ---- the nested resource's graph ----

  /** `new_subject`: the nested resource's own IRI becomes the resource
      itself (`RDF::URI("")`). */
  function Rename(t: Triple, u: string): Triple {
    if t.s == u then Triple("", t.p, t.o) else t
  }

  /** The statements about fragments, renamed, in scope order. */
  function Renamed(scope: seq<Triple>, u: string): (h: seq<Triple>)
    ensures |h| <= |scope|
  {
    if |scope| == 0 then []
    else if '#' in scope[0].s then [Rename(scope[0], u)] + Renamed(scope[1..], u)
    else Renamed(scope[1..], u)
  }

  /** `NestedValue#graph` once `result` has filled it. */
  function NestedScope(scope: seq<Triple>, u: string): (g: seq<Triple>)
    ensures NoRepeat(g)
    ensures forall t :: t in g <==> t in Renamed(scope, u)
  {
    AddAll([], Renamed(scope, u))
  }

  /** A scope with a statement about a subject that is no fragment has
      fewer fragment statements than statements. */
  lemma {:induction false} RenamedShorter(scope: seq<Triple>, u: string, w: nat)
    requires w < |scope| && '#' !in scope[w].s
    ensures |Renamed(scope, u)| < |scope|
  {
    if w > 0 {
      RenamedShorter(scope[1..], u, w - 1);
    }
  }

  /** A graph built by adding statements holds at most that many more. */
  lemma {:induction false} AddAllSize(g: seq<Triple>, h: seq<Triple>)
    ensures |AddAll(g, h)| <= |g| + |h|
    decreases |h|
  {
    if |h| > 0 {
      AddAllSize(Add(g, h[0]), h[1..]);
    }
  }

  /** The nested scope is smaller than the scope it is taken from, which
      bounds the recursion into nested resources. */
  lemma NestedSmaller(scope: seq<Triple>, u: string, w: nat)
    requires w < |scope| && '#' !in scope[w].s
    ensures |NestedScope(scope, u)| < |scope|
  {
    RenamedShorter(scope, u, w);
    AddAllSize([], Renamed(scope, u));
  }

  // ---- conversion ----

  /** The recursion measure's flag for `iana:first` statements, whose
      mapper resolves each list member as a statement of its own. */
  function Firstness(st: Stmt): nat {
    if st.p == IanaFirst then 2 else 0
  }

  /** The flag for objects a mapper may still decode. */
  function Undecoded(st: Stmt): nat {
    if st.o.Rdf? then 1 else 0
  }

  /** `FedoraValue.for(property).result` for a statement about the subject
      of the scope's statement `w` (a ghost witness that carries the
      recursion into nested resources). */
  function Resolve(cfg: Config, a: Adapter, scope: seq<Triple>, st: Stmt, ghost w: nat): (r: Result<Applicator>)
    requires w < |scope| && scope[w].s == st.s
    ensures r.Ok? ==> Writes(r.value, st.p)
    decreases |scope|, 1, Firstness(st), Undecoded(st), 2
  {
    DispatchPast(cfg, a, st);
    Apply(cfg, a, scope, Dispatch(cfg, a, st), st, w)
  }

  /** The `result` of mapper `h`. */
  function Apply(cfg: Config, a: Adapter, scope: seq<Triple>, h: Handler, st: Stmt, ghost w: nat): (r: Result<Applicator>)
    requires w < |scope| && scope[w].s == st.s
    requires Handles(cfg, a, h, st)
    requires h.NestedValue? || Decodes(h) ==> '#' !in st.s && st.p != IanaFirst
    ensures r.Ok? ==> Writes(r.value, st.p)
    decreases |scope|, 1, Firstness(st), Undecoded(st), 1
  {
    if h.BlacklistedValue? || h.DifferentSubject? then Ok(NullApp)
    else if h.MemberId? then ApplyMembers(cfg, a, scope, st, w)
    else if h.NestedValue? then ApplyNested(cfg, a, scope, st, w)
    else if h.InternalModelValue? then Ok(Single(st.p, st.o))
    else if h.CreatedAtValue? || h.UpdatedAtValue? then Ok(NonStringSingle(st.p, st.o))
    else if h.Fallback? then Ok(Append(st.p, st.o))
    else Resolve(cfg, a, scope, st.(o := Decoded(cfg, a, h, st)), w)
  }

  /** `MemberID#result`: the list from the subject's `iana:first` to its
      `iana:last`, each member resolved as a `member_ids` statement. A
      missing `iana:first` or `iana:last` is `nil.object`. */
  function ApplyMembers(cfg: Config, a: Adapter, scope: seq<Triple>, st: Stmt, ghost w: nat): (r: Result<Applicator>)
    requires w < |scope| && scope[w].s == st.s && st.p == IanaFirst
    ensures r.Ok? ==> Writes(r.value, st.p)
    decreases |scope|, 1, Firstness(st), Undecoded(st), 0
  {
    match FirstObject(scope, st.s, IanaFirst)
    case None => Err(NoMethodError)
    case Some(head) =>
      match FirstObject(scope, st.s, IanaLast)
      case None => Err(NoMethodError)
      case Some(tail) =>
        match RdfGraph.Decode(scope, head, tail)
        case Err(e) => Err(e)
        case Ok(targets) =>
          match ResolveAll(cfg, a, scope, st.s, targets, w)
          case Err(e) => Err(e)
          case Ok(apps) => Ok(Composite(apps))
  }

  /** Each list member resolved in turn. */
  function ResolveAll(cfg: Config, a: Adapter, scope: seq<Triple>, s: string, ts: seq<Term>, ghost w: nat): (r: Result<seq<Applicator>>)
    requires w < |scope| && scope[w].s == s
    ensures r.Ok? ==> |r.value| == |ts| && WritesAll(r.value, MemberIds)
    decreases |scope|, 1, 1, |ts|, 0
  {
    if |ts| == 0 then Ok([])
    else
      match Resolve(cfg, a, scope, Stmt(s, MemberIds, Rdf(ts[0])), w)
      case Err(e) => Err(e)
      case Ok(app) =>
        match ResolveAll(cfg, a, scope, s, ts[1..], w)
        case Err(e) => Err(e)
        case Ok(rest) =>
          assert ([app] + rest)[1..] == rest;
          Ok([app] + rest)
  }

  /** `NestedValue#result`: the fragment statements, the nested resource's
      own renamed to the resource itself, converted as a resource of their
      own, which becomes the statement's object. */
  function ApplyNested(cfg: Config, a: Adapter, scope: seq<Triple>, st: Stmt, ghost w: nat): (r: Result<Applicator>)
    requires w < |scope| && scope[w].s == st.s
    requires NestedIri(a, st.o) && '#' !in st.s
    ensures r.Ok? ==> Writes(r.value, st.p)
    decreases |scope|, 1, Firstness(st), Undecoded(st), 0
  {
    var u := st.o.term.iri;
    NestedSmaller(scope, u, w);
    match Convert(cfg, a, NestedScope(scope, u), u)
    case Err(e) => Err(e)
    case Ok(res) => Ok(Append(st.p, res))
  }

  /** `GraphToAttributes#convert` from statement `i` to statement `j`. */
  function Attributes(cfg: Config, a: Adapter, scope: seq<Triple>, i: nat, j: nat, acc: seq<Entry>): (r: Result<seq<Entry>>)
    requires i <= j <= |scope|
    ensures i == j ==> r == Ok(acc)
    decreases |scope|, 2, j - i, 1, 0
  {
    if i == j then Ok(acc) else Continue(cfg, a, scope, i, j, Step(cfg, a, scope, i, acc))
  }

  /** Reading goes on from statement `i + 1` with what statement `i` left,
      unless statement `i` failed. */
  function Continue(cfg: Config, a: Adapter, scope: seq<Triple>, i: nat, j: nat, r: Result<seq<Entry>>): Result<seq<Entry>>
    requires i < j <= |scope|
    decreases |scope|, 2, j - i, 0, 0
  {
    match r
    case Err(e) => Err(e)
    case Ok(h) => Attributes(cfg, a, scope, i + 1, j, h)
  }

  /** Statement `i` of the scope resolved and applied to the attributes. */
  function Step(cfg: Config, a: Adapter, scope: seq<Triple>, i: nat, acc: seq<Entry>): (r: Result<seq<Entry>>)
    requires i < |scope|
    decreases |scope|, 2, 0, 0, 0
  {
    match Resolve(cfg, a, scope, StmtOf(scope[i]), i)
    case Err(e) => Err(e)
    case Ok(app) => ApplyTo(cfg, app, acc)
  }

  /** `id_property`: nothing unless the subject is a fragment; then the
      string of the first `id` statement about the resource itself, or ""
      when there is none. */
  function IdProperty(cfg: Config, scope: seq<Triple>, subject: string): (r: Option<string>)
    ensures r.None? <==> '#' !in subject
  {
    if '#' !in subject then None
    else
      match FirstObject(scope, "", IdPredicate)
      case None => Some("")
      case Some(o) => Some(ToS(cfg, Rdf(o)))
  }

  /** `OrmConverter#id`: a present id property, else the ID the subject's
      URI names. */
  function IdOf(cfg: Config, scope: seq<Triple>, subject: string): (v: Value)
    ensures v.Id?
  {
    match IdProperty(cfg, scope, subject)
    case Some(s) => if !BlankString(s) then Id(s) else Id(UriToId(subject))
    case None => Id(UriToId(subject))
  }

  /** `OrmConverter#convert`: the graph's attributes with the id merged
      in, made into a resource by `Anything`. */
  function Convert(cfg: Config, a: Adapter, scope: seq<Triple>, subject: string): (r: Result<Value>)
    decreases |scope|, 3, 0, 0, 0
  {
    match Attributes(cfg, a, scope, 0, |scope|, [])
    case Err(e) => Err(e)
    case Ok(attrs) => Anything(cfg, Map(Put(attrs, SymKey("id"), IdOf(cfg, scope, subject))))
  }
}

=== FILE: orm_decoding.dfy ===
/** What `OrmConverter` makes of the statements of a stored graph: the key a
    predicate is read under, which statements leave the attributes alone,
    how a literal is decoded, how a run of statements for one property
    builds the property's array, and how a list head becomes `member_ids`. */
module OrmDecoding {
  import opened Wrappers
  import opened Strs
  import opened Values
  import opened Types
  import opened MetadataAdapter
  import opened PermissiveSchema
  import opened RdfGraph
  import opened OrmConverter

  // ---- keys ----

  /** A predicate made up under the predicate prefix is read back under
      its own name, when the name stays on one line. */
  lemma KeyOfUriFor(k: string)
    requires '\n' !in k
    ensures KeyOf(UriFor(k)) == k
  {
    var u := UriFor(k);
    assert '\n' !in u by {
      assert u == UriPrefix + k;
    }
    assert !MatchesAt(u, FedoraNs) by {
      assert u[7] == 'e' && FedoraNs[7] == 'w';
    }
    assert !MatchesAt(u, RdfNs) by {
      assert u[7] == 'e' && RdfNs[7] == 'w';
    }
    assert MatchesAt(u, UriPrefix);
  }

  /** A one-line predicate under none of the namespaces is its own key. */
  lemma KeyOfOwn(p: string)
    requires '\n' !in p
    requires !MatchesAt(p, FedoraNs) && !MatchesAt(p, RdfNs) && !MatchesAt(p, UriPrefix)
    ensures KeyOf(p) == p
  {
  }

  /** The list predicates are under none of the stripped namespaces, so
      they are their own keys; `iana:last`'s is blacklisted. */
  lemma KeyOfIana()
    ensures KeyOf(IanaFirst) == IanaFirst && !Blacklisted(KeyOf(IanaFirst))
    ensures KeyOf(IanaLast) == IanaLast && Blacklisted(KeyOf(IanaLast))
  {
    IanaFirstKept();
    IanaOwnKey(IanaFirst);
    IanaOwnKey(IanaLast);
  }

  /** The list's two ends have different predicates. */
  lemma IanaDistinct()
    ensures IanaFirst != IanaLast
  {
    assert IanaFirst[41] == 'f' && IanaLast[41] == 'l';
  }

  /** The list head's predicate is not blacklisted. */
  lemma IanaFirstKept()
    ensures !Blacklisted(IanaFirst)
  {
    assert IanaFirst[41] == 'f' && IanaLast[41] == 'l';
    DiffersAt(IanaFirst, IanaLast, 41);
    assert IanaFirst[7] == 'w' && FedoraDefinitions[7] == 'f';
    DiffersAt(IanaFirst, FedoraDefinitions, 7);
  }

  /** IANA relation IRIs are their own keys. */
  lemma IanaOwnKey(p: string)
    requires p == IanaFirst || p == IanaLast
    ensures KeyOf(p) == p
  {
    IanaOneLine(p);
    IanaUnderNone(p);
    KeyOfOwn(p);
  }

  /** IANA relation IRIs lie under none of the stripped namespaces. */
  lemma IanaUnderNone(p: string)
    requires p == IanaFirst || p == IanaLast
    ensures !MatchesAt(p, FedoraNs) && !MatchesAt(p, RdfNs) && !MatchesAt(p, UriPrefix)
  {
    assert p[7] == 'w' && p[11] == 'i';
    assert FedoraNs[11] == 'f' && RdfNs[11] == 'w' && UriPrefix[7] == 'e';
  }

  /** IANA relation IRIs hold no line break. */
  lemma IanaOneLine(p: string)
    requires p == IanaFirst || p == IanaLast
    ensures '\n' !in p
  {
    assert p == "http://www.iana.org/assignments/relation/" + p[41..];
    assert p[41..] == "first" || p[41..] == "last";
  }

  /** The key `member_ids` is read under, and that of the singular
      predicates, none of them blacklisted. */
  lemma KeyOfClassPredicates()
    ensures KeyOf(MemberIds) == "member_ids" && !Blacklisted("member_ids")
    ensures KeyOf(InternalResource) == "internal_resource" && !Blacklisted("internal_resource")
    ensures KeyOf(CreatedAt) == "created_at" && !Blacklisted("created_at")
    ensures KeyOf(UpdatedAt) == "updated_at" && !Blacklisted("updated_at")
  {
    KeyOfUriFor("member_ids");
    KeyOfUriFor("internal_resource");
    KeyOfUriFor("created_at");
    KeyOfUriFor("updated_at");
  }

  /** Predicates no singular mapper and no list mapper claims. */
  predicate Ordinary(p: string) {
    p != IanaFirst && p != InternalResource && p != CreatedAt && p != UpdatedAt
  }

  /** A made-up predicate is ordinary unless it names one of the three
      singular attributes. */
  lemma UriForOrdinary(k: string)
    requires k != "internal_resource" && k != "created_at" && k != "updated_at"
    ensures Ordinary(UriFor(k))
  {
    assert UriFor(k)[7] == 'e' && IanaFirst[7] == 'w';
    assert UriFor(k)[|UriPrefix|..] == k;
  }

  // ---- what a statement may change ----

  /** The key an applicator other than the null one writes under: a list
      head's members go under `member_ids`, anything else under its
      predicate's key. */
  function WrittenKey(app: Applicator): Key
    requires !app.NullApp?
  {
    if app.Composite? then SymKey(KeyOf(MemberIds)) else SymKey(KeyOf(app.p))
  }

  /** An applicator changes nothing but the key it writes under, and the
      null applicator changes nothing at all. */
  lemma ApplyFrame(cfg: Config, app: Applicator, p: string, hsh: seq<Entry>)
    requires Writes(app, p)
    ensures var r := ApplyTo(cfg, app, hsh);
      r.Ok? ==> forall k :: (app.NullApp? || k != WrittenKey(app)) ==> Lookup(r.value, k) == Lookup(hsh, k)
  {
    match app
    case NullApp =>
    case Append(q, v) =>
      AppendFrame(cfg, q, v, hsh);
    case Single(q, v) =>
    case NonStringSingle(q, v) =>
    case Composite(parts) =>
      ApplyAllFrame(cfg, parts, hsh);
  }

  /** An appending applicator changes nothing but its own key. */
  lemma AppendFrame(cfg: Config, p: string, v: Value, hsh: seq<Entry>)
    ensures var r := ApplyTo(cfg, Append(p, v), hsh);
      r.Ok? ==> forall k :: k != SymKey(KeyOf(p)) ==> Lookup(r.value, k) == Lookup(hsh, k)
  {
    assert ApplyTo(cfg, Append(p, v), hsh) == AppendTo(p, v, hsh);
  }

  /** Member applicators change nothing but `member_ids`. */
  lemma {:induction false} ApplyAllFrame(cfg: Config, parts: seq<Applicator>, hsh: seq<Entry>)
    requires WritesAll(parts, MemberIds)
    ensures var r := ApplyAll(cfg, parts, hsh);
      r.Ok? ==> forall k :: k != SymKey(KeyOf(MemberIds)) ==> Lookup(r.value, k) == Lookup(hsh, k)
    decreases |parts|
  {
    if |parts| > 0 {
      PredicatesDiffer();
      match ApplyTo(cfg, parts[0], hsh)
      case Err(_) =>
      case Ok(h) =>
        ApplyAllFrame(cfg, parts[1..], h);
    }
  }

  /** The class's own predicates differ from one another and from the list
      head. */
  lemma PredicatesDiffer()
    ensures MemberIds != InternalResource && MemberIds != CreatedAt && MemberIds != UpdatedAt
    ensures MemberIds != IanaFirst
  {
    assert MemberIds[|UriPrefix|] == 'm' && CreatedAt[|UriPrefix|] == 'c' && UpdatedAt[|UriPrefix|] == 'u';
    assert |MemberIds| != |InternalResource|;
    assert MemberIds[7] == 'e' && IanaFirst[7] == 'w';
  }

  /** A statement whose key is blacklisted leaves the attributes as they
      were, whatever its object resolves to. */
  lemma BlacklistedKeyDropped(cfg: Config, app: Applicator, p: string, hsh: seq<Entry>)
    requires Writes(app, p) && Blacklisted(KeyOf(p))
    ensures ApplyTo(cfg, app, hsh) == Ok(hsh)
  {
    KeyOfIana();
    KeyOfClassPredicates();
  }

  // ---- statements that are skipped ----

  /** `BlacklistedValue` and `DifferentSubject`: a statement about a
      fragment, or whose object is an LDP or Fedora term, resolves to the
      null applicator. */
  lemma IgnoredStatement(cfg: Config, a: Adapter, scope: seq<Triple>, st: Stmt, w: nat)
    requires w < |scope| && scope[w].s == st.s
    requires '#' in st.s || Reserved(ToS(cfg, st.o))
    ensures Resolve(cfg, a, scope, st, w) == Ok(NullApp)
  {
  }

  /** Statement `i`, when ignored, leaves the attributes unchanged. */
  lemma IgnoredStep(cfg: Config, a: Adapter, scope: seq<Triple>, i: nat, acc: seq<Entry>)
    requires i < |scope|
    requires '#' in scope[i].s || Reserved(ToS(cfg, Rdf(scope[i].o)))
    ensures Attributes(cfg, a, scope, i, i + 1, acc) == Ok(acc)
  {
    IgnoredStatement(cfg, a, scope, StmtOf(scope[i]), i);
  }

  /** Statements `lo` to `hi - 1` are all about fragments. */
  predicate AllFragments(scope: seq<Triple>, lo: nat, hi: nat)
    requires lo <= hi <= |scope|
  {
    forall k :: lo <= k < hi ==> '#' in scope[k].s
  }

  /** A run of statements about fragments adds nothing to the attributes:
      what the fragments say is read only through the statement that links
      to them. */
  lemma {:induction false} FragmentsSkipped(cfg: Config, a: Adapter, scope: seq<Triple>, i: nat, j: nat, acc: seq<Entry>)
    requires i <= j <= |scope|
    requires forall k :: i <= k < j ==> '#' in scope[k].s
    ensures Attributes(cfg, a, scope, i, j, acc) == Ok(acc)
    decreases j - i, 1
  {
    if i < j {
      SkippedStep(cfg, a, scope, i, acc);
      ContinueSkipped(cfg, a, scope, i, j, Step(cfg, a, scope, i, acc));
    }
  }

  /** A statement about a fragment is read as the null applicator. */
  lemma SkippedStep(cfg: Config, a: Adapter, scope: seq<Triple>, i: nat, acc: seq<Entry>)
    requires i < |scope| && '#' in scope[i].s
    ensures Step(cfg, a, scope, i, acc) == Ok(acc)
  {
    IgnoredStatement(cfg, a, scope, StmtOf(scope[i]), i);
  }

  /** `FragmentsSkipped` once statement `i` has left the attributes as
      they were. */
  lemma {:induction false} ContinueSkipped(cfg: Config, a: Adapter, scope: seq<Triple>, i: nat, j: nat, r: Result<seq<Entry>>)
    requires i < j <= |scope| && AllFragments(scope, i + 1, j)
    ensures Continue(cfg, a, scope, i, j, r) == r
    decreases j - i, 0
  {
    if r.Ok? {
      FragmentsSkipped(cfg, a, scope, i + 1, j, r.value);
    }
  }

  /** The statements are read one after another: reading up to `k` is
      reading up to `j` and going on from there. */
  lemma {:induction false} AttributesSplit(cfg: Config, a: Adapter, scope: seq<Triple>, i: nat, j: nat, k: nat, acc: seq<Entry>)
    requires i <= j <= k <= |scope|
    ensures Attributes(cfg, a, scope, i, k, acc) ==
      match Attributes(cfg, a, scope, i, j, acc)
      case Ok(h) => Attributes(cfg, a, scope, j, k, h)
      case Err(e) => Err(e)
    decreases j - i, 1
  {
    if i < j {
      ContinueSplit(cfg, a, scope, i, j, k, Step(cfg, a, scope, i, acc));
    }
  }

  /** `AttributesSplit` once statement `i` has given `r`. */
  lemma {:induction false} ContinueSplit(cfg: Config, a: Adapter, scope: seq<Triple>, i: nat, j: nat, k: nat, r: Result<seq<Entry>>)
    requires i < j <= k <= |scope|
    ensures Continue(cfg, a, scope, i, k, r) ==
      match Continue(cfg, a, scope, i, j, r)
      case Ok(h) => Attributes(cfg, a, scope, j, k, h)
      case Err(e) => Err(e)
    decreases j - i, 0
  {
    if r.Ok? {
      AttributesSplit(cfg, a, scope, i + 1, j, k, r.value);
    }
  }

  // ---- literals ----

  /** What reading makes of a literal, stated without the mapper chain:
      integers, date-times as `Time`s in UTC, plain strings and `valkyrie_id`
      literals are decoded; other terms are not. */
  function ReadLiteral(t: Term): Option<Value> {
    match t
    case IntLit(i) => Some(Int(i))
    case DateTimeLit(x) => Some(Time(ToUtc(x)))
    case StrLit(lex, lang) => if lang == "" then Some(Str(lex)) else None
    case TypedLit(lex, dt) => if dt == ValkyrieId then Some(Id(lex)) else None
    case Iri(_) => None
    case BoolLit(_) => None
    case BNode(_) => None
  }

  /** A decoded literal such that neither it nor its decoding looks like a
      server term. */
  predicate Readable(cfg: Config, t: Term)
    requires ReadLiteral(t).Some?
  {
    !Reserved(ToS(cfg, Rdf(t))) && !Reserved(ToS(cfg, ReadLiteral(t).value))
  }

  /** A decoded literal is a single value to `cast_array`. */
  lemma ReadAlone(t: Term)
    requires ReadLiteral(t).Some?
    ensures CastArray(ReadLiteral(t).value) == [ReadLiteral(t).value]
  {
  }

  /** An integer's decimal form never starts like a server term. */
  lemma IntNotReserved(i: int)
    ensures !Reserved(IntToString(i))
  {
    var s := IntToString(i);
    assert s[0] == '-' || '0' <= s[0] <= '9' by {
      if i >= 0 {
        assert s == Digits(i);
      }
    }
    assert LdpPrefix[0] == 'h' && FedoraPrefix[0] == 'h';
  }

  /** Integer literals are always readable. */
  lemma IntReadable(cfg: Config, i: int)
    ensures ReadLiteral(IntLit(i)).Some? && Readable(cfg, IntLit(i))
  {
    IntNotReserved(i);
  }

  /** The mapper chain on a readable literal of an ordinary statement about
      the resource itself: one of the decoding mappers, then `FedoraValue`,
      append the decoded value under the predicate. */
  lemma LiteralRead(cfg: Config, a: Adapter, scope: seq<Triple>, st: Stmt, w: nat)
    requires w < |scope| && scope[w].s == st.s
    requires '#' !in st.s && Ordinary(st.p)
    requires st.o.Rdf? && ReadLiteral(st.o.term).Some? && Readable(cfg, st.o.term)
    ensures Resolve(cfg, a, scope, st, w) == Ok(Append(st.p, ReadLiteral(st.o.term).value))
  {
    var h := Dispatch(cfg, a, st);
    LiteralDispatch(cfg, a, st);
    var st' := st.(o := Decoded(cfg, a, h, st));
    DecodedDispatch(cfg, a, st');
    assert Resolve(cfg, a, scope, st, w) == Apply(cfg, a, scope, h, st, w);
    assert Apply(cfg, a, scope, h, st, w) == Resolve(cfg, a, scope, st', w);
    assert Resolve(cfg, a, scope, st', w) == Apply(cfg, a, scope, Fallback, st', w);
  }

  /** A readable literal goes to the mapper that decodes it as
      `ReadLiteral` does. */
  lemma LiteralDispatch(cfg: Config, a: Adapter, st: Stmt)
    requires '#' !in st.s && Ordinary(st.p)
    requires st.o.Rdf? && ReadLiteral(st.o.term).Some? && Readable(cfg, st.o.term)
    ensures Decodes(Dispatch(cfg, a, st))
    ensures Decoded(cfg, a, Dispatch(cfg, a, st), st) == ReadLiteral(st.o.term).value
  {
    assert !Handles(cfg, a, BlacklistedValue, st) && !Handles(cfg, a, MemberId, st);
    assert !Handles(cfg, a, NestedValue, st);
  }

  /** A decoded object that does not look like a server term goes to
      `FedoraValue`. */
  lemma DecodedDispatch(cfg: Config, a: Adapter, st: Stmt)
    requires '#' !in st.s && Ordinary(st.p)
    requires !st.o.Rdf? && !Reserved(ToS(cfg, st.o))
    ensures Dispatch(cfg, a, st) == Fallback
  {
  }

  // ---- one property's statements ----

  /** `vs` are the decoded values of the literals `ts`, in order. */
  predicate DecodedAs(ts: seq<Term>, vs: seq<Value>) {
    |vs| == |ts| && forall i :: 0 <= i < |ts| ==> ReadLiteral(ts[i]) == Some(vs[i])
  }

  /** Statements `lo`, `lo + 1`, ... of the scope hold the terms `ts` for
      one subject and predicate. */
  predicate RunAt(scope: seq<Triple>, lo: nat, s: string, p: string, ts: seq<Term>) {
    lo + |ts| <= |scope| && forall i :: 0 <= i < |ts| ==> scope[lo + i] == Triple(s, p, ts[i])
  }

  /** Reading goes on from the next statement with what the first one
      left. */
  lemma AttributesCons(cfg: Config, a: Adapter, scope: seq<Triple>, i: nat, j: nat, acc: seq<Entry>, h: seq<Entry>)
    requires i < j <= |scope|
    requires Step(cfg, a, scope, i, acc) == Ok(h)
    ensures Attributes(cfg, a, scope, i, j, acc) == Attributes(cfg, a, scope, i + 1, j, h)
  {
    assert Attributes(cfg, a, scope, i, j, acc) == Continue(cfg, a, scope, i, j, Step(cfg, a, scope, i, acc));
    ContinueOk(cfg, a, scope, i, j, h);
  }

  /** After a statement that succeeded, reading goes on from the next. */
  lemma ContinueOk(cfg: Config, a: Adapter, scope: seq<Triple>, i: nat, j: nat, h: seq<Entry>)
    requires i < j <= |scope|
    ensures Continue(cfg, a, scope, i, j, Ok(h)) == Attributes(cfg, a, scope, i + 1, j, h)
  {
  }

  /** The rest of the values extend the first one's. */
  lemma ConsSplit(cur: seq<Value>, vs: seq<Value>)
    requires |vs| > 0
    ensures cur + [vs[0]] + vs[1..] == cur + vs
  {
    assert vs == [vs[0]] + vs[1..];
  }

  /** A run without its first statement is a run from the next position. */
  lemma RunAtTail(scope: seq<Triple>, lo: nat, s: string, p: string, ts: seq<Term>)
    requires |ts| > 0 && RunAt(scope, lo, s, p, ts)
    ensures RunAt(scope, lo + 1, s, p, ts[1..])
  {
    forall i | 0 <= i < |ts| - 1 ensures scope[lo + 1 + i] == Triple(s, p, ts[1..][i]) {
      assert scope[lo + (i + 1)] == Triple(s, p, ts[i + 1]);
    }
  }

  /** A key that a property made up under the prefix is read back under
      and that `apply_to` accepts. */
  predicate PlainKey(k: string) {
    '\n' !in k && !Blacklisted(k) && k != "internal_resource" && k != "created_at" && k != "updated_at"
  }

  /** One readable literal of an ordinary property about the resource
      itself is appended to the property's array. */
  lemma LiteralStep(cfg: Config, a: Adapter, scope: seq<Triple>, i: nat, s: string, k: string, t: Term,
                    acc: seq<Entry>, cur: seq<Value>)
    requires i < |scope| && scope[i] == Triple(s, UriFor(k), t)
    requires '#' !in s && PlainKey(k)
    requires ReadLiteral(t).Some? && Readable(cfg, t)
    requires Current(acc, SymKey(k)) == Some(cur)
    ensures Step(cfg, a, scope, i, acc) == Ok(Put(acc, SymKey(k), Arr(cur + [ReadLiteral(t).value])))
  {
    var p := UriFor(k);
    KeyOfUriFor(k);
    UriForOrdinary(k);
    var v := ReadLiteral(t).value;
    LiteralRead(cfg, a, scope, StmtOf(scope[i]), i);
    ReadAlone(t);
    assert ApplyTo(cfg, Append(p, v), acc) == AppendTo(p, v, acc);
  }

  /** A run of readable literals for one property, about the resource
      itself, appends their decoded values to the property's array, in
      statement order. */
  lemma {:induction false} PropertyRead(cfg: Config, a: Adapter, scope: seq<Triple>, lo: nat, hi: nat, s: string, k: string,
                                        ts: seq<Term>, vs: seq<Value>, acc: seq<Entry>, cur: seq<Value>)
    requires |ts| > 0 && hi == lo + |ts| && RunAt(scope, lo, s, UriFor(k), ts)
    requires '#' !in s && PlainKey(k)
    requires DecodedAs(ts, vs) && forall i :: 0 <= i < |ts| ==> Readable(cfg, ts[i])
    requires Current(acc, SymKey(k)) == Some(cur)
    ensures Attributes(cfg, a, scope, lo, hi, acc) == Ok(Put(acc, SymKey(k), Arr(cur + vs)))
    decreases |ts|
  {
    var v := vs[0];
    assert ReadLiteral(ts[0]) == Some(v);
    var acc1 := Put(acc, SymKey(k), Arr(cur + [v]));
    LiteralStep(cfg, a, scope, lo, s, k, ts[0], acc, cur);
    AttributesCons(cfg, a, scope, lo, hi, acc, acc1);
    if |ts| == 1 {
      assert vs == [v];
    } else {
      RunAtTail(scope, lo, s, UriFor(k), ts);
      assert DecodedAs(ts[1..], vs[1..]) by {
        forall i | 0 <= i < |ts| - 1 ensures ReadLiteral(ts[1..][i]) == Some(vs[1..][i]) {
          assert ReadLiteral(ts[i + 1]) == Some(vs[i + 1]);
        }
      }
      PropertyRead(cfg, a, scope, lo + 1, hi, s, k, ts[1..], vs[1..], acc1, cur + [v]);
      PutPut(acc, SymKey(k), Arr(cur + [v]), Arr(cur + [v] + vs[1..]));
      ConsSplit(cur, vs);
    }
  }
}

=== FILE: orm_identity.dfy ===
/** The ID `OrmConverter` gives the resource it reads: the one its own URI
    names, or for a nested resource the one its `id` statement holds, and
    always in place of any `id` the statements produced. */
module OrmIdentity {
  import opened Wrappers
  import opened Strs
  import opened Values
  import opened Types
  import opened MetadataAdapter
  import opened PermissiveSchema
  import opened RdfGraph
  import opened OrmConverter
  import opened OrmMembers

  /** A resource read from its own URI gets back the ID the URI was made
      from. */
  lemma IdOfStored(cfg: Config, a: Adapter, scope: seq<Triple>, x: string)
    requires ReadableAdapter(a) && !AllChar(x, '-') && '/' !in x && '\n' !in x && '#' !in x
    ensures IdToUri(a, x).Ok?
    ensures IdOf(cfg, scope, IdToUri(a, x).value) == Id(x)
  {
    RoundTrip(a, x);
    PairPathAbsent(x, '#');
    assert '#' !in ConnectionPrefix(a);
  }

  /** A nested resource takes the ID its `id` statement about the resource
      itself holds, unless that is blank; then the ID its subject names. */
  lemma IdOfNested(cfg: Config, scope: seq<Triple>, subject: string, o: Term)
    requires '#' in subject && FirstObject(scope, "", IdPredicate) == Some(o)
    ensures !BlankString(ToS(cfg, Rdf(o))) ==> IdOf(cfg, scope, subject) == Id(ToS(cfg, Rdf(o)))
    ensures BlankString(ToS(cfg, Rdf(o))) ==> IdOf(cfg, scope, subject) == Id(UriToId(subject))
  {
  }

  /** A `valkyrie_id` literal under the `id` predicate gives the nested
      resource that ID. */
  lemma IdOfNestedLiteral(cfg: Config, scope: seq<Triple>, subject: string, x: string)
    requires '#' in subject && FirstObject(scope, "", IdPredicate) == Some(TypedLit(x, ValkyrieId))
    requires !BlankString(x)
    ensures IdOf(cfg, scope, subject) == Id(x)
  {
    IdOfNested(cfg, scope, subject, TypedLit(x, ValkyrieId));
  }

  /** `attributes.merge(id: id)`: whatever the statements said, the hash
      handed to `Anything` has the converter's ID under `id` and every
      other key as the statements left it. */
  lemma ConvertIdLast(cfg: Config, a: Adapter, scope: seq<Triple>, subject: string)
    ensures var r := Attributes(cfg, a, scope, 0, |scope|, []);
      r.Ok? ==> exists m ::
        Convert(cfg, a, scope, subject) == Anything(cfg, Map(m)) &&
        Lookup(m, SymKey("id")) == Some(IdOf(cfg, scope, subject)) &&
        forall k :: k != SymKey("id") ==> Lookup(m, k) == Lookup(r.value, k)
    ensures Attributes(cfg, a, scope, 0, |scope|, []).Err? ==>
      Convert(cfg, a, scope, subject) == Err(Attributes(cfg, a, scope, 0, |scope|, []).error)
  {
    var r := Attributes(cfg, a, scope, 0, |scope|, []);
    if r.Ok? {
      var m := Put(r.value, SymKey("id"), IdOf(cfg, scope, subject));
      assert Convert(cfg, a, scope, subject) == Anything(cfg, Map(m));
    }
  }
}

=== FILE: orm_members.dfy ===
/** How `OrmConverter` reads back the `member_ids` list that `ModelConverter`
    stored: each member term resolves to its ID, and the list head's
    statement appends the IDs, in list order, to `member_ids`. */
module OrmMembers {
  import opened Wrappers
  import Seqs
  import opened Strs
  import opened Values
  import opened MetadataAdapter
  import opened PermissiveSchema
  import opened RdfGraph
  import opened OrmConverter
  import opened OrmDecoding
  import ME = ModelEncoding
  import MC = ModelConverter

  /** A connection whose members can be read back: its URIs stay on one
      line, hold no fragment, and do not look like server terms. */
  predicate ReadableAdapter(a: Adapter) {
    '\n' !in a.options && '\n' !in a.basePath && '#' !in a.options && '#' !in a.basePath &&
    |ConnectionPrefix(a)| >= |LdpPrefix| && !Reserved(ConnectionPrefix(a))
  }

  /** A member ID that is read back as itself: it does not look like a
      server term, and it is either stored as a `valkyrie_id` literal or
      makes a URI that `uri_to_id` takes apart again. */
  predicate ReadableMember(x: string) {
    !Reserved(x) &&
    (Contains(x, "://") || (!AllChar(x, '-') && '/' !in x && '\n' !in x && '#' !in x))
  }

  predicate ReadableMembers(xs: seq<string>) {
    |xs| == 0 || (ReadableMember(xs[0]) && ReadableMembers(xs[1..]))
  }

  /** Readable members can be stored. */
  lemma {:induction false} ReadableStorable(xs: seq<string>)
    requires ReadableMembers(xs)
    ensures ME.StorableIds(xs)
    decreases |xs|
  {
    if |xs| > 0 {
      ReadableStorable(xs[1..]);
    }
  }

  /** A string that extends a prefix at least as long as the server
      namespaces looks like a server term only if the prefix does. */
  lemma ReservedExtend(p: string, q: string)
    requires |p| >= |LdpPrefix| && !Reserved(p)
    ensures !Reserved(p + q)
  {
    assert |FedoraPrefix| <= |LdpPrefix|;
    assert (p + q)[..|LdpPrefix|] == p[..|LdpPrefix|];
    assert (p + q)[..|FedoraPrefix|] == p[..|FedoraPrefix|];
  }

  /** The URI a member ID is stored under, when it names no URI itself. */
  lemma MemberUri(a: Adapter, x: string)
    requires ReadableAdapter(a) && ReadableMember(x) && !Contains(x, "://")
    ensures IdToUri(a, x).Ok?
    ensures var u := IdToUri(a, x).value;
      '#' !in u && !Reserved(u) && StartsWith(u, ConnectionPrefix(a)) && UriToId(u) == x
  {
    var cp := ConnectionPrefix(a);
    var rest := UriRest(a, x);
    ReservedExtend(cp, rest);
    RoundTrip(a, x);
  }

  /** What follows the connection prefix in a member's URI, free of
      fragments. */
  lemma UriRest(a: Adapter, x: string) returns (rest: string)
    requires ReadableAdapter(a) && ReadableMember(x) && !Contains(x, "://")
    ensures IdToUri(a, x).Ok? && IdToUri(a, x).value == ConnectionPrefix(a) + rest
    ensures '#' !in IdToUri(a, x).value
  {
    PairPathAbsent(x, '#');
    rest := "/" + PairPath(x).value + "/" + x;
    assert '#' !in ConnectionPrefix(a);
  }

  /** `InternalURI`: a member stored as a URI under the connection goes
      to the mapper that decodes it by `uri_to_id`. */
  lemma UriDispatch(cfg: Config, a: Adapter, s: string, u: string)
    requires '#' !in u && !Reserved(u) && StartsWith(u, ConnectionPrefix(a)) && '#' !in s
    ensures Dispatch(cfg, a, Stmt(s, MemberIds, Rdf(Iri(u)))) == InternalUri
  {
    PredicatesDiffer();
    var st := Stmt(s, MemberIds, Rdf(Iri(u)));
    assert !Handles(cfg, a, BlacklistedValue, st) && !Handles(cfg, a, MemberId, st);
    assert !Handles(cfg, a, NestedValue, st);
  }

  /** The member ID statements are ordinary. */
  lemma MemberIdsOrdinary()
    ensures Ordinary(MemberIds)
  {
    PredicatesDiffer();
  }

  /** A member's statement resolves to appending its ID under `member_ids`. */
  lemma MemberRead(cfg: Config, a: Adapter, scope: seq<Triple>, s: string, x: string, w: nat)
    requires w < |scope| && scope[w].s == s && '#' !in s
    requires ReadableAdapter(a) && ReadableMember(x)
    ensures Resolve(cfg, a, scope, Stmt(s, MemberIds, Rdf(ME.MemberTerm(a, x))), w) == Ok(Append(MemberIds, Id(x)))
  {
    if Contains(x, "://") {
      MemberIdsOrdinary();
      var st := Stmt(s, MemberIds, Rdf(ME.MemberTerm(a, x)));
      assert ReadLiteral(st.o.term) == Some(Id(x));
      LiteralRead(cfg, a, scope, st, w);
    } else {
      MemberUri(a, x);
      MemberUriRead(cfg, a, scope, s, IdToUri(a, x).value, x, w);
    }
  }

  /** A member stored as a URI under the connection resolves to appending
      the ID the URI names. */
  lemma MemberUriRead(cfg: Config, a: Adapter, scope: seq<Triple>, s: string, u: string, x: string, w: nat)
    requires w < |scope| && scope[w].s == s && '#' !in s
    requires '#' !in u && !Reserved(u) && StartsWith(u, ConnectionPrefix(a)) && UriToId(u) == x && !Reserved(x)
    ensures Resolve(cfg, a, scope, Stmt(s, MemberIds, Rdf(Iri(u))), w) == Ok(Append(MemberIds, Id(x)))
  {
    MemberIdsOrdinary();
    var st := Stmt(s, MemberIds, Rdf(Iri(u)));
    UriDispatch(cfg, a, s, u);
    var st' := st.(o := Id(x));
    DecodedDispatch(cfg, a, st');
    assert Resolve(cfg, a, scope, st, w) == Apply(cfg, a, scope, InternalUri, st, w);
    assert Apply(cfg, a, scope, InternalUri, st, w) == Resolve(cfg, a, scope, st', w);
    assert Resolve(cfg, a, scope, st', w) == Apply(cfg, a, scope, Fallback, st', w);
  }

  /** The applicators the members resolve to, in order. */
  function MemberApps(xs: seq<string>): (apps: seq<Applicator>)
    ensures |apps| == |xs|
    ensures forall i :: 0 <= i < |xs| ==> apps[i] == Append(MemberIds, Id(xs[i]))
  {
    if |xs| == 0 then [] else [Append(MemberIds, Id(xs[0]))] + MemberApps(xs[1..])
  }

  /** Each member term resolves, in list order. */
  lemma {:induction false} MembersResolved(cfg: Config, a: Adapter, scope: seq<Triple>, s: string, xs: seq<string>, w: nat)
    requires w < |scope| && scope[w].s == s && '#' !in s
    requires ReadableAdapter(a) && ReadableMembers(xs) && ME.StorableIds(xs)
    ensures ResolveAll(cfg, a, scope, s, ME.MemberTerms(a, xs), w) == Ok(MemberApps(xs))
    decreases |xs|
  {
    if |xs| > 0 {
      MemberRead(cfg, a, scope, s, xs[0], w);
      MembersResolved(cfg, a, scope, s, xs[1..], w);
      assert ME.MemberTerms(a, xs)[1..] == ME.MemberTerms(a, xs[1..]);
      assert [Append(MemberIds, Id(xs[0]))] + MemberApps(xs[1..]) == MemberApps(xs);
    }
  }

  /** The member applicators append the IDs, in order, to `member_ids`. */
  lemma {:induction false} MembersApplied(cfg: Config, xs: seq<string>, hsh: seq<Entry>, cur: seq<Value>)
    requires |xs| > 0 && Current(hsh, SymKey("member_ids")) == Some(cur)
    ensures ApplyAll(cfg, MemberApps(xs), hsh) == Ok(Put(hsh, SymKey("member_ids"), Arr(cur + ME.IdValues(xs))))
    decreases |xs|
  {
    var k := SymKey("member_ids");
    var v := Id(xs[0]);
    MemberAppend(cfg, xs[0], hsh, cur);
    var hsh1 := Put(hsh, k, Arr(cur + [v]));
    ApplyAllCons(cfg, MemberApps(xs), hsh, hsh1);
    assert MemberApps(xs)[1..] == MemberApps(xs[1..]);
    if |xs| == 1 {
      IdValuesOne(xs, cur);
    } else {
      IdValuesCons(xs, cur);
      MembersApplied(cfg, xs[1..], hsh1, cur + [v]);
      PutPut(hsh, k, Arr(cur + [v]), Arr(cur + [v] + ME.IdValues(xs[1..])));
    }
  }

  /** The parts after the first apply to what the first one left. */
  lemma ApplyAllCons(cfg: Config, parts: seq<Applicator>, hsh: seq<Entry>, h: seq<Entry>)
    requires |parts| > 0 && ApplyTo(cfg, parts[0], hsh) == Ok(h)
    ensures ApplyAll(cfg, parts, hsh) == ApplyAll(cfg, parts[1..], h)
  {
  }

  /** The IDs' values are the first one's followed by the rest's. */
  lemma IdValuesCons(xs: seq<string>, cur: seq<Value>)
    requires |xs| > 0
    ensures cur + [Id(xs[0])] + ME.IdValues(xs[1..]) == cur + ME.IdValues(xs)
  {
    var t := ME.IdValues(xs[1..]);
    assert ME.IdValues(xs) == [Id(xs[0])] + t;
    Seqs.AppendAssoc(cur, [Id(xs[0])], t);
  }

  /** A single ID's values. */
  lemma IdValuesOne(xs: seq<string>, cur: seq<Value>)
    requires |xs| == 1
    ensures cur + ME.IdValues(xs) == cur + [Id(xs[0])]
  {
    assert ME.IdValues(xs) == [Id(xs[0])] + ME.IdValues(xs[1..]);
  }

  /** One member's applicator appends its ID. */
  lemma MemberAppend(cfg: Config, x: string, hsh: seq<Entry>, cur: seq<Value>)
    requires Current(hsh, SymKey("member_ids")) == Some(cur)
    ensures ApplyTo(cfg, Append(MemberIds, Id(x)), hsh) == Ok(Put(hsh, SymKey("member_ids"), Arr(cur + [Id(x)])))
  {
    KeyOfClassPredicates();
    assert CastArray(Id(x)) == [Id(x)];
    assert ApplyTo(cfg, Append(MemberIds, Id(x)), hsh) == AppendTo(MemberIds, Id(x), hsh);
  }

  // ---- the list head ----

  /** `MemberID`: the head statement of a list whose members are readable
      resolves to the members' appending applicators, in list order. */
  lemma HeadResolve(cfg: Config, a: Adapter, scope: seq<Triple>, i: nat, xs: seq<string>)
    requires i < |scope| && scope[i].p == IanaFirst && '#' !in scope[i].s
    requires !Reserved(ToS(cfg, Rdf(scope[i].o)))
    requires ReadableAdapter(a) && ReadableMembers(xs) && ME.StorableIds(xs)
    requires FirstObject(scope, scope[i].s, IanaFirst).Some? && FirstObject(scope, scope[i].s, IanaLast).Some?
    requires Decode(scope, FirstObject(scope, scope[i].s, IanaFirst).value,
                    FirstObject(scope, scope[i].s, IanaLast).value) == Ok(ME.MemberTerms(a, xs))
    ensures Resolve(cfg, a, scope, StmtOf(scope[i]), i) == Ok(Composite(MemberApps(xs)))
  {
    var st := StmtOf(scope[i]);
    HeadDispatch(cfg, a, st);
    MembersResolved(cfg, a, scope, st.s, xs, i);
    assert Resolve(cfg, a, scope, st, i) == Apply(cfg, a, scope, MemberId, st, i);
    assert Apply(cfg, a, scope, MemberId, st, i) == ApplyMembers(cfg, a, scope, st, i);
  }

  /** A list head about the resource itself goes to `MemberID`. */
  lemma HeadDispatch(cfg: Config, a: Adapter, st: Stmt)
    requires st.p == IanaFirst && '#' !in st.s && !Reserved(ToS(cfg, st.o))
    ensures Dispatch(cfg, a, st) == MemberId
  {
  }

  /** Reading the head statement of such a list appends the member IDs,
      in list order, to `member_ids`. */
  lemma HeadStep(cfg: Config, a: Adapter, scope: seq<Triple>, i: nat, xs: seq<string>, acc: seq<Entry>, cur: seq<Value>)
    requires i < |scope| && scope[i].p == IanaFirst && '#' !in scope[i].s
    requires !Reserved(ToS(cfg, Rdf(scope[i].o)))
    requires ReadableAdapter(a) && ReadableMembers(xs) && ME.StorableIds(xs)
    requires FirstObject(scope, scope[i].s, IanaFirst).Some? && FirstObject(scope, scope[i].s, IanaLast).Some?
    requires Decode(scope, FirstObject(scope, scope[i].s, IanaFirst).value,
                    FirstObject(scope, scope[i].s, IanaLast).value) == Ok(ME.MemberTerms(a, xs))
    requires Current(acc, SymKey("member_ids")) == Some(cur)
    ensures Step(cfg, a, scope, i, acc) == Ok(Put(acc, SymKey("member_ids"), Arr(cur + ME.IdValues(xs))))
  {
    HeadResolve(cfg, a, scope, i, xs);
    MembersApplied(cfg, xs, acc, cur);
  }

  /** Proxy node IRIs are fragments. */
  lemma NodesFragments(ids: seq<nat>)
    ensures forall k :: 0 <= k < |ids| ==> '#' in MC.NodeIris(ids)[k]
  {
    forall k | 0 <= k < |ids| ensures '#' in MC.NodeIris(ids)[k] {
      assert MC.NodeIris(ids)[k][0] == '#';
    }
  }

  /** In the graph stored for `member_ids`, the subject's `iana:first`
      statements point at a proxy node. */
  lemma ListOutHead(cfg: Config, subject: string, ms: MC.Members, n: nat, t: Triple)
    requires '#' !in subject
    requires |ms.targets| == |ms.ids| > 0 && MC.Allocated(ms.ids, n, ms.next)
    requires t in MC.ListOut(subject, ms, n) && t.s == subject && t.p == IanaFirst
    ensures t.o.Iri? && |t.o.iri| > 0 && t.o.iri[0] == '#'
    ensures !Reserved(ToS(cfg, Rdf(t.o)))
  {
    MC.AllocatedBounds(ms.ids, n, ms.next);
    var nodes := MC.NodeIris(ms.ids);
    var first := Triple(subject, IanaFirst, Iri(nodes[0]));
    var last := Triple(subject, IanaLast, Iri(nodes[|nodes| - 1]));
    assert MC.ListOut(subject, ms, n) == Add(Add(ListGraph(ms.targets, nodes), first), last);
    IanaDistinct();
    NodesFragments(ms.ids);
    assert t !in ListGraph(ms.targets, nodes);
    assert t == first;
    assert nodes[0][0] == '#';
    FragmentNotReserved(nodes[0]);
  }

  /** A fragment reference never looks like a server term. */
  lemma FragmentNotReserved(u: string)
    requires |u| > 0 && u[0] == '#'
    ensures !Reserved(u)
  {
    assert LdpPrefix[0] == 'h' && FedoraPrefix[0] == 'h';
    DiffersAt(u, LdpPrefix, 0);
    DiffersAt(u, FedoraPrefix, 0);
  }

  /** Reading a graph whose list head for the subject leads to the member
      terms, and whose head statements for the subject point at no server
      term: every such statement appends the member IDs in order. */
  lemma HeadsRead(cfg: Config, a: Adapter, g: seq<Triple>, subject: string, xs: seq<string>,
                  acc: seq<Entry>, cur: seq<Value>)
    requires '#' !in subject && ReadableAdapter(a) && ReadableMembers(xs) && ME.StorableIds(xs)
    requires FirstObject(g, subject, IanaFirst).Some? && FirstObject(g, subject, IanaLast).Some?
    requires Decode(g, FirstObject(g, subject, IanaFirst).value, FirstObject(g, subject, IanaLast).value) == Ok(ME.MemberTerms(a, xs))
    requires forall i :: 0 <= i < |g| && g[i].s == subject && g[i].p == IanaFirst ==> !Reserved(ToS(cfg, Rdf(g[i].o)))
    requires Current(acc, SymKey("member_ids")) == Some(cur)
    ensures forall i :: 0 <= i < |g| && g[i].s == subject && g[i].p == IanaFirst ==>
      Step(cfg, a, g, i, acc) == Ok(Put(acc, SymKey("member_ids"), Arr(cur + ME.IdValues(xs))))
  {
    forall i | 0 <= i < |g| && g[i].s == subject && g[i].p == IanaFirst
      ensures Step(cfg, a, g, i, acc) == Ok(Put(acc, SymKey("member_ids"), Arr(cur + ME.IdValues(xs))))
    {
      HeadStep(cfg, a, g, i, xs, acc, cur);
    }
  }

  /** In the graph stored for `member_ids`, the subject's list heads point
      at fragment nodes, which are no server terms. */
  lemma StoredHeads(cfg: Config, subject: string, ms: MC.Members, n: nat)
    requires '#' !in subject
    requires |ms.targets| == |ms.ids| > 0 && MC.Allocated(ms.ids, n, ms.next)
    ensures var g := MC.ListOut(subject, ms, n);
      forall i :: 0 <= i < |g| && g[i].s == subject && g[i].p == IanaFirst ==> !Reserved(ToS(cfg, Rdf(g[i].o)))
  {
    var g := MC.ListOut(subject, ms, n);
    forall i | 0 <= i < |g| && g[i].s == subject && g[i].p == IanaFirst
      ensures !Reserved(ToS(cfg, Rdf(g[i].o)))
    {
      ListOutHead(cfg, subject, ms, n, g[i]);
    }
  }

  /** Round trip of `member_ids`: a non-empty list of readable member IDs,
      stored by `ModelConverter` for a resource that is not a fragment,
      is read back by the subject's `iana:first` statement as the same
      IDs in the same order, appended to what `member_ids` held. */
  lemma MemberIdsRoundTrip(cfg: Config, a: Adapter, subject: string, xs: seq<string>, n: nat, depth: nat,
                           acc: seq<Entry>, cur: seq<Value>)
    requires '#' !in subject && |xs| > 0 && ReadableAdapter(a) && ReadableMembers(xs)
    requires Current(acc, SymKey("member_ids")) == Some(cur)
    ensures var r := MC.Resolve(cfg, a, subject, "member_ids", Arr(ME.IdValues(xs)), n, depth);
      r.Ok? && r.value.out.GraphOut? &&
      var g := r.value.out.graph;
      (exists i :: 0 <= i < |g| && g[i].s == subject && g[i].p == IanaFirst) &&
      forall i :: 0 <= i < |g| && g[i].s == subject && g[i].p == IanaFirst ==>
        Step(cfg, a, g, i, acc) == Ok(Put(acc, SymKey("member_ids"), Arr(cur + ME.IdValues(xs))))
  {
    ReadableStorable(xs);
    var v := Arr(ME.IdValues(xs));
    var m := n + |xs|;
    ME.DispatchAt(subject, "member_ids", v, 0);
    assert MC.Resolve(cfg, a, subject, "member_ids", v, n, depth) == MC.ApplyMembers(cfg, a, subject, "member_ids", v, n, depth);
    ME.MembersApplied(cfg, a, subject, xs, n, m, depth);
    var ms := MC.Members(ME.MemberTerms(a, xs), ME.Slots(n, xs), m);
    var g := MC.ListOut(subject, ms, n);
    ME.MemberListShape(a, subject, xs, n, m);
    StoredHeads(cfg, subject, ms, n);
    HeadsRead(cfg, a, g, subject, xs, acc, cur);
  }
}

=== FILE: orm_round_trip.dfy ===
/** Plain properties written by `ModelConverter` and read back by
    `OrmConverter`: integers and strings come back as they were, a
    `DateTime` comes back as a `Time` at the same instant in UTC, and the
    order of the values is kept. */
module OrmRoundTrip {
  import opened Wrappers
  import opened Values
  import opened MetadataAdapter
  import opened PermissiveSchema
  import opened RdfGraph
  import opened OrmConverter
  import opened OrmDecoding
  import ME = ModelEncoding
  import MC = ModelConverter

  /** A value the read side gives back: an integer, a string that does not
      look like a server term, or a `DateTime` whose renderings do not
      either. */
  predicate Restorable(cfg: Config, v: Value) {
    v.Int?
    || (v.Str? && !Reserved(v.s))
    || (v.DateTime? && !Reserved(cfg.render(Rdf(DateTimeLit(v.t)))) && !Reserved(cfg.render(Time(ToUtc(v.t)))))
  }

  /** What a restorable value reads back as. */
  function ReadBack(v: Value): Value {
    if v.DateTime? then Time(ToUtc(v.t)) else v
  }

  /** What restorable values read back as, in order. */
  function ReadBacks(xs: seq<Value>): seq<Value> {
    seq(|xs|, i requires 0 <= i < |xs| => ReadBack(xs[i]))
  }

  /** The literal a restorable value is written as is decoded, and decodes
      to the value itself (a date-time to the same instant in UTC). */
  lemma TermRead(cfg: Config, v: Value)
    requires Restorable(cfg, v)
    ensures ReadLiteral(MC.ToTerm(cfg, v)) == Some(ReadBack(v))
    ensures Readable(cfg, MC.ToTerm(cfg, v))
    ensures v.DateTime? ==> ReadBack(v).Time? && ReadBack(v).t.epoch == v.t.epoch && ReadBack(v).t.offset == 0
    ensures !v.DateTime? ==> ReadBack(v) == v
  {
    if v.Int? {
      IntReadable(cfg, v.i);
    }
  }

  /** The terms written for the values, read back. */
  lemma TermsRead(cfg: Config, xs: seq<Value>, ts: seq<Term>)
    requires forall i :: 0 <= i < |xs| ==> Restorable(cfg, xs[i])
    requires |ts| == |xs| && forall i :: 0 <= i < |xs| ==> ts[i] == MC.ToTerm(cfg, xs[i])
    ensures DecodedAs(ts, ReadBacks(xs))
    ensures forall i :: 0 <= i < |ts| ==> Readable(cfg, ts[i])
  {
    var vs := ReadBacks(xs);
    forall i | 0 <= i < |ts| ensures ReadLiteral(ts[i]) == Some(vs[i]) && Readable(cfg, ts[i]) {
      TermRead(cfg, xs[i]);
    }
  }

  /** Statements sitting together in the graph form a run of their terms. */
  lemma SliceRun(cfg: Config, scope: seq<Triple>, lo: nat, subject: string, key: string, xs: seq<Value>, ts: seq<Term>)
    requires lo + |xs| <= |scope| && scope[lo..lo + |xs|] == MC.PropTriples(cfg, subject, key, xs)
    requires |ts| == |xs| && forall i :: 0 <= i < |xs| ==> ts[i] == MC.ToTerm(cfg, xs[i])
    ensures RunAt(scope, lo, subject, UriFor(key), ts)
  {
    forall i | 0 <= i < |ts| ensures scope[lo + i] == Triple(subject, UriFor(key), ts[i]) {
      assert scope[lo + i] == scope[lo..lo + |xs|][i];
    }
  }

  /** Reading the statements of a plain property appends the values, as
      read back, to the key's array. */
  lemma PlainRead(cfg: Config, a: Adapter, subject: string, key: string, xs: seq<Value>,
                  scope: seq<Triple>, lo: nat, hi: nat, acc: seq<Entry>, cur: seq<Value>)
    requires |xs| > 0 && PlainKey(key) && '#' !in subject
    requires forall i :: 0 <= i < |xs| ==> Restorable(cfg, xs[i])
    requires hi == lo + |xs| <= |scope| && scope[lo..hi] == MC.PropTriples(cfg, subject, key, xs)
    requires Current(acc, SymKey(key)) == Some(cur)
    ensures Attributes(cfg, a, scope, lo, hi, acc) == Ok(Put(acc, SymKey(key), Arr(cur + ReadBacks(xs))))
  {
    var ts := WrittenRun(cfg, scope, lo, subject, key, xs);
    RunRead(cfg, a, subject, key, xs, ts, scope, lo, hi, acc, cur);
  }

  /** A run of literals decoding to the values as read back reads back as
      them. */
  lemma RunRead(cfg: Config, a: Adapter, subject: string, key: string, xs: seq<Value>, ts: seq<Term>,
                scope: seq<Triple>, lo: nat, hi: nat, acc: seq<Entry>, cur: seq<Value>)
    requires |xs| > 0 && PlainKey(key) && '#' !in subject
    requires |ts| == |xs| && hi == lo + |xs| && RunAt(scope, lo, subject, UriFor(key), ts)
    requires DecodedAs(ts, ReadBacks(xs)) && forall i :: 0 <= i < |ts| ==> Readable(cfg, ts[i])
    requires Current(acc, SymKey(key)) == Some(cur)
    ensures hi <= |scope|
    ensures Attributes(cfg, a, scope, lo, hi, acc) == Ok(Put(acc, SymKey(key), Arr(cur + ReadBacks(xs))))
  {
    PropertyRead(cfg, a, scope, lo, hi, subject, key, ts, ReadBacks(xs), acc, cur);
  }

  /** The statements written for restorable values are a run of readable
      literals decoding to the values as read back. */
  lemma WrittenRun(cfg: Config, scope: seq<Triple>, lo: nat, subject: string, key: string, xs: seq<Value>)
    returns (ts: seq<Term>)
    requires forall i :: 0 <= i < |xs| ==> Restorable(cfg, xs[i])
    requires lo + |xs| <= |scope| && scope[lo..lo + |xs|] == MC.PropTriples(cfg, subject, key, xs)
    ensures |ts| == |xs| && RunAt(scope, lo, subject, UriFor(key), ts)
    ensures DecodedAs(ts, ReadBacks(xs)) && forall i :: 0 <= i < |ts| ==> Readable(cfg, ts[i])
  {
    ts := TermsOf(cfg, xs);
    TermsRead(cfg, xs, ts);
    SliceRun(cfg, scope, lo, subject, key, xs, ts);
  }

  /** The terms `ModelConverter` writes for the values, in order. */
  function TermsOf(cfg: Config, xs: seq<Value>): (ts: seq<Term>)
    ensures |ts| == |xs| && forall i :: 0 <= i < |xs| ==> ts[i] == MC.ToTerm(cfg, xs[i])
  {
    if |xs| == 0 then [] else [MC.ToTerm(cfg, xs[0])] + TermsOf(cfg, xs[1..])
  }

  /** Restorable values are plain, so the array is written one statement
      per value. */
  lemma PlainWritten(cfg: Config, a: Adapter, subject: string, key: string, xs: seq<Value>, n: nat, depth: nat)
    requires key != "member_ids" && forall i :: 0 <= i < |xs| ==> Restorable(cfg, xs[i])
    ensures MC.Resolve(cfg, a, subject, key, Arr(xs), n, depth).Ok?
    ensures MC.Statements(cfg, MC.Resolve(cfg, a, subject, key, Arr(xs), n, depth).value.out) == MC.PropTriples(cfg, subject, key, xs)
  {
    forall i | 0 <= i < |xs| ensures ME.Plain(xs[i]) {
      assert Restorable(cfg, xs[i]);
    }
    ME.PlainArrayEncoding(cfg, a, subject, key, xs, n, depth);
  }

  /** Round trip of a plain property: `ModelConverter` turns an array of
      restorable values under an ordinary key into one statement per value,
      in order; wherever those statements sit together in the graph
      `OrmConverter` reads, reading them appends the values, as read back,
      to the key's array. */
  lemma PlainRoundTrip(cfg: Config, a: Adapter, subject: string, key: string, xs: seq<Value>, n: nat, depth: nat,
                       st: MC.Step, scope: seq<Triple>, lo: nat, hi: nat, acc: seq<Entry>, cur: seq<Value>)
    requires |xs| > 0 && PlainKey(key) && key != "member_ids" && '#' !in subject
    requires forall i :: 0 <= i < |xs| ==> Restorable(cfg, xs[i])
    requires MC.Resolve(cfg, a, subject, key, Arr(xs), n, depth) == Ok(st)
    requires hi == lo + |xs| <= |scope| && scope[lo..hi] == MC.Statements(cfg, st.out)
    requires Current(acc, SymKey(key)) == Some(cur)
    ensures Attributes(cfg, a, scope, lo, hi, acc) == Ok(Put(acc, SymKey(key), Arr(cur + ReadBacks(xs))))
  {
    PlainWritten(cfg, a, subject, key, xs, n, depth);
    PlainRead(cfg, a, subject, key, xs, scope, lo, hi, acc, cur);
  }
}

=== FILE: permissive_schema.dfy ===
/** `Valkyrie::Persistence::Fedora::PermissiveSchema`: the mapping between
    attribute names and RDF predicates. A configured name maps to its
    configured predicate; any other name gets a predicate made up under
    `URI_PREFIX`. URIs are compared and returned as their strings, and the
    resource argument of both lookups, which neither uses, is dropped. */
module PermissiveSchema {
  import opened Wrappers
  import opened Strs

  const UriPrefix: string := "http://example.com/predicate/"

  /** One entry of the configured hash: an attribute name and its predicate. */
  datatype Mapping = Mapping(property: string, uri: string)

  /** A Ruby hash has each key once. */
  predicate UniqueProperties(schema: seq<Mapping>) {
    forall i, j :: 0 <= i < j < |schema| ==> schema[i].property != schema[j].property
  }

  /** No two configured names share a predicate. */
  predicate DistinctPredicates(schema: seq<Mapping>) {
    forall i, j :: 0 <= i < j < |schema| ==> schema[i].uri != schema[j].uri
  }

  /** `uri_for`: the name appended to the prefix. */
  function UriFor(property: string): (u: string)
    ensures UriPrefix <= u && u[|UriPrefix|..] == property
  {
    UriPrefix + property
  }

  /** The predicates the class itself names (`valkyrie_id`, `id`,
      `member_ids`, and the literal-type markers). */
  const ValkyrieId: string := UriFor("valkyrie_id")
  const IdPredicate: string := UriFor("id")
  const MemberIds: string := UriFor("member_ids")
  const ValkyrieBool: string := UriFor("valkyrie_bool")
  const ValkyrieDatetime: string := UriFor("valkyrie_datetime")
  const ValkyrieFloat: string := UriFor("valkyrie_float")
  const ValkyrieInt: string := UriFor("valkyrie_int")
  const ValkyrieTime: string := UriFor("valkyrie_time")
  const OptimisticLockToken: string := UriFor("optimistic_lock_token")

  /** `schema.fetch(property)` without its block: the configured predicate,
      if any. */
  function Configured(schema: seq<Mapping>, property: string): (p: Option<string>)
    ensures p.None? <==> forall i :: 0 <= i < |schema| ==> schema[i].property != property
    ensures p.Some? ==> exists i :: 0 <= i < |schema| && schema[i] == Mapping(property, p.value)
  {
    if |schema| == 0 then None
    else if schema[0].property == property then Some(schema[0].uri)
    else
      var p := Configured(schema[1..], property);
      assert p.Some? ==> exists i :: 0 <= i < |schema| && schema[i] == Mapping(property, p.value) by {
        if p.Some? {
          var i :| 0 <= i < |schema| - 1 && schema[1..][i] == Mapping(property, p.value);
          assert schema[i + 1] == Mapping(property, p.value);
        }
      }
      p
  }

  /** `predicate_for`: the configured predicate, or one made up from the
      name. */
  function PredicateFor(schema: seq<Mapping>, property: string): (u: string)
    ensures (forall i :: 0 <= i < |schema| ==> schema[i].property != property) ==> u == UriFor(property)
    ensures UniqueProperties(schema) ==>
      forall i :: 0 <= i < |schema| && schema[i].property == property ==> u == schema[i].uri
  {
    match Configured(schema, property)
    case Some(p) =>
      assert UniqueProperties(schema) ==>
        forall i :: 0 <= i < |schema| && schema[i].property == property ==> p == schema[i].uri by {
        if UniqueProperties(schema) {
          var j :| 0 <= j < |schema| && schema[j] == Mapping(property, p);
        }
      }
      p
    case None => UriFor(property)
  }

  /** `schema.find { |_k, v| v == predicate }`: the first entry, in hash
      order, configured with the predicate. */
  function FindPredicate(schema: seq<Mapping>, pred: string): (m: Option<Mapping>)
    ensures m.None? <==> forall i :: 0 <= i < |schema| ==> schema[i].uri != pred
    ensures m.Some? ==>
      exists i :: 0 <= i < |schema| && schema[i] == m.value && m.value.uri == pred &&
        forall k :: 0 <= k < i ==> schema[k].uri != pred
  {
    if |schema| == 0 then None
    else if schema[0].uri == pred then Some(schema[0])
    else
      var m := FindPredicate(schema[1..], pred);
      assert m.Some? ==>
        exists i :: 0 <= i < |schema| && schema[i] == m.value && m.value.uri == pred &&
          forall k :: 0 <= k < i ==> schema[k].uri != pred
      by {
        if m.Some? {
          var i :| 0 <= i < |schema| - 1 && schema[1..][i] == m.value && m.value.uri == pred &&
            forall k :: 0 <= k < i ==> schema[1..][k].uri != pred;
          assert schema[i + 1] == m.value;
          forall k | 0 <= k < i + 1 ensures schema[k].uri != pred {
            if k > 0 {
              assert schema[k] == schema[1..][k - 1];
            }
          }
        }
      }
      m
  }

  /** `property_for`: the first name configured with the predicate;
      failing that, the predicate with every occurrence of the prefix
      removed. (Ruby returns the configured key as a symbol and the
      fallback as a string; both are names here.) */
  function PropertyFor(schema: seq<Mapping>, pred: string): (p: string)
    ensures FindPredicate(schema, pred).Some? ==> p == FindPredicate(schema, pred).value.property
    ensures FindPredicate(schema, pred).None? ==> p == RemoveAll(pred, UriPrefix)
  {
    match FindPredicate(schema, pred)
    case Some(m) => m.property
    case None => RemoveAll(pred, UriPrefix)
  }

  /** Round trip for a name that is not configured: the made-up predicate
      leads back to the name, provided the name does not itself contain the
      prefix and no configured name uses the made-up predicate. */
  lemma RoundTripUnconfigured(schema: seq<Mapping>, property: string)
    requires forall i :: 0 <= i < |schema| ==> schema[i].property != property
    requires forall i :: 0 <= i < |schema| ==> schema[i].uri != UriFor(property)
    requires !Contains(property, UriPrefix)
    ensures PropertyFor(schema, PredicateFor(schema, property)) == property
  {
    RemoveAllPrefix(UriPrefix, property);
    RemoveAllAbsent(property, UriPrefix);
  }

  /** Round trip for a configured name, when no two names share a
      predicate. */
  lemma RoundTripConfigured(schema: seq<Mapping>, k: nat)
    requires UniqueProperties(schema) && DistinctPredicates(schema) && k < |schema|
    ensures PropertyFor(schema, PredicateFor(schema, schema[k].property)) == schema[k].property
  {
    var u := PredicateFor(schema, schema[k].property);
    assert u == schema[k].uri;
    var m := FindPredicate(schema, u).value;
    var i :| 0 <= i < |schema| && schema[i] == m && m.uri == u &&
      forall j :: 0 <= j < i ==> schema[j].uri != u;
    assert i == k;
  }

  /** With nothing configured, every predicate the class names leads back
      to its own name. */
  lemma ClassPredicatesRoundTrip()
    ensures PropertyFor([], MemberIds) == "member_ids"
    ensures PropertyFor([], IdPredicate) == "id"
    ensures PropertyFor([], ValkyrieId) == "valkyrie_id"
    ensures PropertyFor([], OptimisticLockToken) == "optimistic_lock_token"
  {
    ShortName("member_ids");
    RoundTripUnconfigured([], "member_ids");
    ShortName("id");
    RoundTripUnconfigured([], "id");
    ShortName("valkyrie_id");
    RoundTripUnconfigured([], "valkyrie_id");
    ShortName("optimistic_lock_token");
    RoundTripUnconfigured([], "optimistic_lock_token");
  }

  /** A name shorter than the prefix cannot contain it. */
  lemma ShortName(property: string)
    requires |property| < |UriPrefix|
    ensures !Contains(property, UriPrefix)
  {
    if Contains(property, UriPrefix) {
      var k := ContainsWitness(property, UriPrefix);
    }
  }
}

=== FILE: postgres_orm.dfy ===
/** The Postgres adapter's record and resource factory: how a row's JSON
    metadata becomes attribute values (`ORM::Resource#all_attributes` and
    `RDFMetadata`), and how a resource becomes a row
    (`ResourceFactory.from_model`). JSON objects are hashes with string
    keys; the table is a sequence of rows in the order the database
    returns them. */
module PostgresOrm {
  import opened Wrappers
  import opened Values
  import opened Types
  import opened Resources

  // ---- RDFMetadata ----

  /** `value[name]` on a JSON object: `nil` when the key is absent. */
  function Field(es: seq<Entry>, name: string): Value {
    Fetch(es, StrKey(name))
  }

  /** `RDF::Literal.new(value, language: lang)`: a string becomes a plain
      literal tagged with the language (none for `nil`); integers and
      booleans become typed literals, which carry no language; anything
      else a literal of its string form. */
  function Literal(cfg: Config, value: Value, lang: Value): (t: Term)
    ensures value.Str? ==> t == StrLit(value.s, if lang.Nil? then "" else ToS(cfg, lang))
    ensures value.Int? ==> t == IntLit(value.i)
  {
    var tag := if lang.Nil? then "" else ToS(cfg, lang);
    match value
    case Str(s) => StrLit(s, tag)
    case Int(i) => IntLit(i)
    case Bool(b) => BoolLit(b)
    case _ => StrLit(ToS(cfg, value), tag)
  }

  /** `PostgresValue.for(value).result`: the handlers in registration
      order — `HashValue` (a hash with a truthy "@value"), `IDValue` (one
      with a truthy "id"), `URIValue` (one with a truthy "@id"),
      `EnumeratorValue` (anything with `each`: arrays, and hashes, which
      enumerate as [key, value] pairs) — and the base mapper's identity for
      everything else. */
  function PgValue(cfg: Config, v: Value): (r: Value)
    ensures !v.Arr? && !v.Map? ==> r == v
    ensures v.Arr? ==> r.Arr? && |r.items| == |v.items|
    ensures v.Map? && !Truthy(Field(v.entries, "@value")) && !Truthy(Field(v.entries, "id")) && !Truthy(Field(v.entries, "@id")) ==>
      r.Arr? && |r.items| == |v.entries|
    decreases Size(v), 0
  {
    if v.Map? && Truthy(Field(v.entries, "@value")) then
      Rdf(Literal(cfg, Field(v.entries, "@value"), Field(v.entries, "@language")))
    else if v.Map? && Truthy(Field(v.entries, "id")) then
      Id(ToS(cfg, Field(v.entries, "id")))
    else if v.Map? && Truthy(Field(v.entries, "@id")) then
      Rdf(Iri(ToS(cfg, Field(v.entries, "@id"))))
    else if v.Arr? then
      Arr(PgValues(cfg, v.items))
    else if v.Map? then
      Arr(PgPairs(cfg, v.entries))
    else v
  }

  /** `map` of the mapper over an array. */
  function PgValues(cfg: Config, xs: seq<Value>): (r: seq<Value>)
    ensures |r| == |xs|
    decreases SizeSeq(xs), 1
  {
    if |xs| == 0 then [] else [PgValue(cfg, xs[0])] + PgValues(cfg, xs[1..])
  }

  /** `map` of the mapper over a hash: each [key, value] pair is itself an
      array and is mapped element by element. */
  function PgPairs(cfg: Config, es: seq<Entry>): (r: seq<Value>)
    ensures |r| == |es|
    decreases SizeEntries(es), 1
  {
    if |es| == 0 then []
    else
      assert SizeEntries(es) == Size(es[0].val) + SizeEntries(es[1..]);
      [Arr([PgValue(cfg, KeyValue(es[0].key)), PgValue(cfg, es[0].val)])] + PgPairs(cfg, es[1..])
  }

  /** Arrays are mapped element by element, keeping length and order. */
  lemma {:induction false} PgValuesAt(cfg: Config, xs: seq<Value>, i: nat)
    requires i < |xs|
    ensures PgValues(cfg, xs)[i] == PgValue(cfg, xs[i])
  {
    if i > 0 {
      PgValuesAt(cfg, xs[1..], i - 1);
    }
  }

  /** The handlers, first match first: "@value" wins over "id" and "@id",
      and "id" over "@id". */
  lemma HandlerOrder(cfg: Config, es: seq<Entry>)
    ensures Truthy(Field(es, "@value")) ==>
      PgValue(cfg, Map(es)) == Rdf(Literal(cfg, Field(es, "@value"), Field(es, "@language")))
    ensures !Truthy(Field(es, "@value")) && Truthy(Field(es, "id")) ==>
      PgValue(cfg, Map(es)) == Id(ToS(cfg, Field(es, "id")))
    ensures !Truthy(Field(es, "@value")) && !Truthy(Field(es, "id")) && Truthy(Field(es, "@id")) ==>
      PgValue(cfg, Map(es)) == Rdf(Iri(ToS(cfg, Field(es, "@id"))))
  {
  }

  /** What the mapper produces holds no hash. */
  predicate HashFree(v: Value)
    decreases Size(v), 0
  {
    match v
    case Map(_) => false
    case Arr(xs) => HashFreeSeq(xs)
    case _ => true
  }

  predicate HashFreeSeq(xs: seq<Value>)
    decreases SizeSeq(xs), 1
  {
    |xs| == 0 || (HashFree(xs[0]) && HashFreeSeq(xs[1..]))
  }

  /** The mapper leaves no hash behind, and mapping its result again
      changes nothing. */
  lemma {:induction false} PgValueSettles(cfg: Config, v: Value)
    ensures HashFree(PgValue(cfg, v))
    ensures PgValue(cfg, PgValue(cfg, v)) == PgValue(cfg, v)
    decreases Size(v), 0
  {
    if v.Map? && (Truthy(Field(v.entries, "@value")) || Truthy(Field(v.entries, "id")) || Truthy(Field(v.entries, "@id"))) {
    } else if v.Arr? {
      PgValuesSettle(cfg, v.items);
    } else if v.Map? {
      PgPairsSettle(cfg, v.entries);
    }
  }

  lemma {:induction false} PgValuesSettle(cfg: Config, xs: seq<Value>)
    ensures HashFreeSeq(PgValues(cfg, xs))
    ensures PgValues(cfg, PgValues(cfg, xs)) == PgValues(cfg, xs)
    decreases SizeSeq(xs), 1
  {
    if |xs| > 0 {
      PgValueSettles(cfg, xs[0]);
      PgValuesSettle(cfg, xs[1..]);
      var r := PgValues(cfg, xs);
      assert r[0] == PgValue(cfg, xs[0]) && r[1..] == PgValues(cfg, xs[1..]);
    }
  }

  lemma {:induction false} PgPairsSettle(cfg: Config, es: seq<Entry>)
    ensures HashFreeSeq(PgPairs(cfg, es))
    ensures PgValues(cfg, PgPairs(cfg, es)) == PgPairs(cfg, es)
    decreases SizeEntries(es), 1
  {
    if |es| > 0 {
      assert SizeEntries(es) == Size(es[0].val) + SizeEntries(es[1..]);
      var k := PgValue(cfg, KeyValue(es[0].key));
      assert k == KeyValue(es[0].key);
      PgValueSettles(cfg, es[0].val);
      PgPairsSettle(cfg, es[1..]);
      var pair := Arr([k, PgValue(cfg, es[0].val)]);
      var r := PgPairs(cfg, es);
      assert r[0] == pair && r[1..] == PgPairs(cfg, es[1..]);
      assert PgValues(cfg, [k, PgValue(cfg, es[0].val)]) == [k, PgValue(cfg, es[0].val)] by {
        assert [k, PgValue(cfg, es[0].val)][1..] == [PgValue(cfg, es[0].val)];
      }
      assert HashFreeSeq([k, PgValue(cfg, es[0].val)]) by {
        assert [k, PgValue(cfg, es[0].val)][1..] == [PgValue(cfg, es[0].val)];
        assert [PgValue(cfg, es[0].val)][1..] == [];
      }
    }
  }

  /** `RDFMetadata#result`: the same keys, each value mapped on its own. */
  function RdfMetadata(cfg: Config, md: seq<Entry>): (r: seq<Entry>)
    ensures |r| == |md|
    ensures forall i :: 0 <= i < |md| ==> r[i].key == md[i].key
  {
    if |md| == 0 then [] else [Entry(md[0].key, PgValue(cfg, md[0].val))] + RdfMetadata(cfg, md[1..])
  }

  /** Looking a key up in the result finds the mapped value of the same key
      in the metadata, and nothing for a key it lacks. */
  lemma {:induction false} RdfMetadataLookup(cfg: Config, md: seq<Entry>, k: Key)
    ensures Lookup(RdfMetadata(cfg, md), k) ==
      (match Lookup(md, k) case Some(v) => Some(PgValue(cfg, v)) case None => None)
  {
    if |md| > 0 {
      RdfMetadataLookup(cfg, md[1..], k);
    }
  }

  // ---- all_attributes ----

  predicate StrKeyed(es: seq<Entry>) {
    forall i :: 0 <= i < |es| ==> es[i].key.StrKey?
  }

  /** The entries with every key made a symbol. */
  function SymEntries(es: seq<Entry>): (r: seq<Entry>)
    ensures |r| == |es|
    ensures forall i :: 0 <= i < |es| ==> r[i] == Entry(SymKey(es[i].key.name), es[i].val)
  {
    if |es| == 0 then [] else [Entry(SymKey(es[0].key.name), es[0].val)] + SymEntries(es[1..])
  }

  /** `symbolize_keys`: each entry assigned again under its symbol. */
  function Symbolize(es: seq<Entry>): seq<Entry> {
    Merge([], SymEntries(es))
  }

  /** `attributes.merge(rdf_metadata).symbolize_keys`. */
  function AllAttributes(cfg: Config, columns: seq<Entry>, md: seq<Entry>): seq<Entry> {
    Symbolize(Merge(columns, RdfMetadata(cfg, md)))
  }

  /** Merging keeps keys unique and string-keyed. */
  lemma {:induction false} MergeStrUnique(a: seq<Entry>, b: seq<Entry>)
    requires UniqueKeys(a) && StrKeyed(a) && StrKeyed(b)
    ensures UniqueKeys(Merge(a, b)) && StrKeyed(Merge(a, b))
    decreases |b|
  {
    if |b| > 0 {
      var a' := Put(a, b[0].key, b[0].val);
      PutUnique(a, b[0].key, b[0].val);
      forall i | 0 <= i < |a'| ensures a'[i].key.StrKey? {
        var k := a'[i].key;
        assert HasKey(a', k);
        if k != b[0].key {
          assert Lookup(a, k).Some?;
          var j :| 0 <= j < |a| && a[j].key == k;
        }
      }
      MergeStrUnique(a', b[1..]);
    }
  }

  /** String keys that differ stay different as symbols. */
  lemma SymEntriesUnique(es: seq<Entry>)
    requires UniqueKeys(es) && StrKeyed(es)
    ensures UniqueKeys(SymEntries(es))
  {
  }

  lemma {:induction false} SymEntriesLookup(es: seq<Entry>, n: string)
    requires StrKeyed(es)
    ensures Lookup(SymEntries(es), SymKey(n)) == Lookup(es, StrKey(n))
  {
    if |es| > 0 {
      SymEntriesLookup(es[1..], n);
      assert SymEntries(es)[1..] == SymEntries(es[1..]);
    }
  }

  /** What `all_attributes` holds under a name: the mapped metadata value
      when the metadata has the name, the column value otherwise; every key
      is a symbol. */
  lemma AllAttributesLookup(cfg: Config, columns: seq<Entry>, md: seq<Entry>, n: string)
    requires UniqueKeys(columns) && StrKeyed(columns) && UniqueKeys(md) && StrKeyed(md)
    ensures Lookup(AllAttributes(cfg, columns, md), SymKey(n)) ==
      (match Lookup(md, StrKey(n)) case Some(v) => Some(PgValue(cfg, v)) case None => Lookup(columns, StrKey(n)))
    ensures Lookup(AllAttributes(cfg, columns, md), StrKey(n)) == None
  {
    var m := RdfMetadata(cfg, md);
    assert UniqueKeys(m) && StrKeyed(m);
    var merged := Merge(columns, m);
    MergeStrUnique(columns, m);
    SymEntriesUnique(merged);
    MergeLookup([], SymEntries(merged), SymKey(n));
    MergeLookup([], SymEntries(merged), StrKey(n));
    SymEntriesLookup(merged, n);
    MergeLookup(columns, m, StrKey(n));
    RdfMetadataLookup(cfg, md, StrKey(n));
    assert !HasKey(SymEntries(merged), StrKey(n));
  }

  // ---- ResourceFactory ----

  /** A row of `orm_resources` as the factory sees it. */
  datatype Row = Row(secondaryIdentifier: string, internalModel: Value, metadata: seq<Entry>)

  /** The attributes `from_model` keeps out of the metadata. */
  const Bookkeeping: set<Key> := {SymKey("id"), SymKey("internal_model"), SymKey("created_at"), SymKey("updated_at")}

  predicate RowExists(table: seq<Row>, sid: string) {
    exists i :: 0 <= i < |table| && table[i].secondaryIdentifier == sid
  }

  /** `find_or_initialize_by(secondary_identifier: sid)`: the first row with
      that identifier, or a new row carrying it with empty metadata. */
  function FindOrInitialize(table: seq<Row>, sid: string): (r: Row)
    ensures r.secondaryIdentifier == sid
    ensures !RowExists(table, sid) ==> r == Row(sid, Nil, [])
    ensures RowExists(table, sid) ==> r in table
  {
    if |table| == 0 then Row(sid, Nil, [])
    else if table[0].secondaryIdentifier == sid then table[0]
    else
      var r := FindOrInitialize(table[1..], sid);
      assert RowExists(table, sid) ==> RowExists(table[1..], sid) by {
        if RowExists(table, sid) {
          var i :| 0 <= i < |table| && table[i].secondaryIdentifier == sid;
          assert table[1..][i - 1] == table[i];
        }
      }
      r
  }

  /** `from_model`: a resource with no `created_at` but an id names a new
      resource, so a row already holding that id is an `IllegalOperation`;
      otherwise the row for the id (found or new) takes the resource's
      model name, and its metadata is updated with every attribute except
      the bookkeeping ones. */
  function FromModel(cfg: Config, table: seq<Row>, res: Resource): (r: Result<Row>)
    ensures r.Err? <==> Blank(Get(res, "created_at")) && !Blank(Get(res, "id")) && RowExists(table, ToS(cfg, Get(res, "id")))
    ensures r.Err? ==> r.error == IllegalOperation
    ensures r.Ok? ==> r.value.secondaryIdentifier == ToS(cfg, Get(res, "id"))
    ensures r.Ok? ==> r.value.internalModel == Get(res, "internal_model")
  {
    var sid := ToS(cfg, Get(res, "id"));
    if Blank(Get(res, "created_at")) && !Blank(Get(res, "id")) && RowExists(table, sid) then
      Err(IllegalOperation)
    else
      var row := FindOrInitialize(table, sid);
      var row1 := row.(internalModel := Get(res, "internal_model"));
      var row2 := if Blank(Get(res, "id")) then row1 else row1.(secondaryIdentifier := sid);
      Ok(row2.(metadata := Merge(row2.metadata, Except(res.attrs, Bookkeeping))))
  }

  /** Dropping keys keeps the rest unique. */
  lemma {:induction false} ExceptUnique(es: seq<Entry>, ks: set<Key>)
    requires UniqueKeys(es)
    ensures UniqueKeys(Except(es, ks))
  {
    if |es| > 0 {
      RestUnique(es);
      ExceptUnique(es[1..], ks);
      if es[0].key !in ks {
        var rest := Except(es[1..], ks);
        assert !HasKey(rest, es[0].key) by {
          assert Lookup(rest, es[0].key) == Lookup(es[1..], es[0].key);
        }
        var r := Except(es, ks);
        assert r == [es[0]] + rest;
        forall i, j | 0 <= i < j < |r| ensures r[i].key != r[j].key {
          if i == 0 {
            assert r[j] == rest[j - 1];
          } else {
            assert r[i] == rest[i - 1] && r[j] == rest[j - 1];
          }
        }
      }
    }
  }

  /** What the saved row's metadata holds under a key: the bookkeeping
      attributes are never written, an attribute of the resource
      overwrites, and a key the resource lacks keeps what the row had. */
  lemma FromModelMetadata(cfg: Config, table: seq<Row>, res: Resource, k: Key)
    requires UniqueKeys(res.attrs)
    requires FromModel(cfg, table, res).Ok?
    ensures var row := FindOrInitialize(table, ToS(cfg, Get(res, "id")));
      Lookup(FromModel(cfg, table, res).value.metadata, k) ==
        if k in Bookkeeping || !HasKey(res.attrs, k) then Lookup(row.metadata, k) else Lookup(res.attrs, k)
  {
    ExceptUnique(res.attrs, Bookkeeping);
    var row := FindOrInitialize(table, ToS(cfg, Get(res, "id")));
    MergeLookup(row.metadata, Except(res.attrs, Bookkeeping), k);
  }

  /** Saving again a resource that already has `created_at` never raises. */
  lemma ResaveAllowed(cfg: Config, table: seq<Row>, res: Resource)
    requires !Blank(Get(res, "created_at"))
    ensures FromModel(cfg, table, res).Ok?
  {
  }
}

=== FILE: postgres_query.dfy ===
/** `Valkyrie::Persistence::Postgres::QueryService`: what its SQL selects,
    stated over the table of `orm_resources` rows. A row has its id, its
    `internal_resource` column and its JSON metadata (string keys). The
    resource factory's `to_resource` and PostgreSQL's text-to-uuid cast
    are parameters; the SQL text and ActiveRecord are not modelled. Rows
    come back in table order where the SQL sets no order. */
module PostgresQuery {
  import opened Wrappers
  import opened Values
  import opened Resources
  import opened Seqs
  import JsonText

  datatype PgRow = PgRow(id: string, internalResource: string, metadata: seq<Entry>)

  /** `uuid` is the text-to-uuid cast: the canonical text of the UUID a
      string spells, or `None` when it spells none (the cast raises). */
  datatype Service = Service(cfg: Config, table: seq<PgRow>, toResource: PgRow -> Resource,
                             uuid: string -> Option<string>)

  /** `resource_factory.to_resource` on every row, in order. */
  function Load(svc: Service, rows: seq<PgRow>): (r: seq<Resource>)
    ensures |r| == |rows| && forall i :: 0 <= i < |rows| ==> r[i] == svc.toResource(rows[i])
  {
    if |rows| == 0 then [] else [svc.toResource(rows[0])] + Load(svc, rows[1..])
  }

  /** Row ids are the table's primary key. */
  predicate UniqueIds(table: seq<PgRow>) {
    forall i, j :: 0 <= i < j < |table| ==> table[i].id != table[j].id
  }

  function RowsWithId(table: seq<PgRow>, id: string): (r: seq<PgRow>)
    ensures forall i :: 0 <= i < |r| ==> r[i].id == id && r[i] in table
    ensures forall x :: x in table && x.id == id ==> x in r
  {
    Filter(table, (x: PgRow) => x.id == id)
  }

  /** Under a primary key, at most one row has a given id. */
  lemma {:induction false} AtMostOne(table: seq<PgRow>, id: string)
    requires UniqueIds(table)
    ensures |RowsWithId(table, id)| <= 1
    ensures forall i :: 0 <= i < |table| && table[i].id == id ==> RowsWithId(table, id) == [table[i]]
  {
    if |table| > 0 {
      assert UniqueIds(table[1..]) by {
        forall i, j | 0 <= i < j < |table| - 1 ensures table[1..][i].id != table[1..][j].id {
          assert table[i + 1].id != table[j + 1].id;
        }
      }
      AtMostOne(table[1..], id);
      var f := (x: PgRow) => x.id == id;
      assert RowsWithId(table, id) == (if f(table[0]) then [table[0]] else []) + RowsWithId(table[1..], id);
      if table[0].id == id {
        assert forall x :: x in table[1..] ==> x.id != id by {
          forall x | x in table[1..] ensures x.id != id {
            var j :| 0 <= j < |table| - 1 && table[1..][j] == x;
            assert table[j + 1].id != table[0].id;
          }
        }
      } else {
        forall i | 0 <= i < |table| && table[i].id == id ensures RowsWithId(table, id) == [table[i]] {
          assert table[1..][i - 1] == table[i];
        }
      }
    }
  }

  /** `find_by`: ActiveRecord casts the id to a UUID, and a string that
      spells none finds nothing; otherwise the row with that UUID, or
      `ObjectNotFoundError` when there is none. */
  function FindBy(svc: Service, id: Value): (r: Result<Resource>)
    ensures r.Ok? <==> svc.uuid(ToS(svc.cfg, id)).Some? && |RowsWithId(svc.table, svc.uuid(ToS(svc.cfg, id)).value)| > 0
    ensures r.Err? ==> r.error == ObjectNotFound
    ensures r.Ok? ==> exists x :: x in svc.table && svc.uuid(ToS(svc.cfg, id)) == Some(x.id) && r.value == svc.toResource(x)
  {
    match svc.uuid(ToS(svc.cfg, id))
    case None => Err(ObjectNotFound)
    case Some(u) =>
      var rows := RowsWithId(svc.table, u);
      if |rows| == 0 then Err(ObjectNotFound)
      else
        assert rows[0] in svc.table;
        Ok(svc.toResource(rows[0]))
  }

  /** Under the primary key, `find_by` gives the one row with the id; a
      row's id is the canonical text of its UUID. */
  lemma FindByRow(svc: Service, i: nat)
    requires UniqueIds(svc.table) && i < |svc.table|
    requires svc.uuid(svc.table[i].id) == Some(svc.table[i].id)
    ensures FindBy(svc, Str(svc.table[i].id)) == Ok(svc.toResource(svc.table[i]))
  {
    AtMostOne(svc.table, svc.table[i].id);
    assert ToS(svc.cfg, Str(svc.table[i].id)) == svc.table[i].id;
  }

  /** `find_all`: every row. */
  function FindAll(svc: Service): (r: seq<Resource>)
    ensures |r| == |svc.table|
    ensures forall i :: 0 <= i < |r| ==> r[i] == svc.toResource(svc.table[i])
  {
    Load(svc, svc.table)
  }

  /** `where(internal_resource: model.to_s)`. */
  function OfModel(rows: seq<PgRow>, model: string): (r: seq<PgRow>)
    ensures forall i :: 0 <= i < |r| ==> r[i].internalResource == model && r[i] in rows
    ensures forall x :: x in rows && x.internalResource == model ==> x in r
  {
    Filter(rows, (x: PgRow) => x.internalResource == model)
  }

  /** `find_all_of_model`: exactly the rows of that model. */
  function FindAllOfModel(svc: Service, model: string): (r: seq<Resource>)
    ensures |r| == |OfModel(svc.table, model)|
    ensures forall i :: 0 <= i < |r| ==> r[i] == svc.toResource(OfModel(svc.table, model)[i])
  {
    Load(svc, OfModel(svc.table, model))
  }

  // ---- the member join ----

  /** `b.member->>'id'`: the text under "id" of an object element, or NULL
      (`None`) for an element that is not an object, has no "id", or holds
      null there. The text of a value that is not a string is its `to_s`. */
  function IdText(cfg: Config, e: Value): Option<string> {
    if !e.Map? then None
    else match Lookup(e.entries, StrKey("id"))
      case None => None
      case Some(v) => if v.Nil? then None else Some(ToS(cfg, v))
  }

  /** `(b.member->>'id')::uuid` for one element: NULL stays NULL and joins
      nothing, text that spells no UUID makes the query raise, and other
      text becomes the UUID it spells. */
  function ElementUuid(svc: Service, e: Value): Result<Option<string>> {
    match IdText(svc.cfg, e)
    case None => Ok(None)
    case Some(t) => if svc.uuid(t).Some? then Ok(svc.uuid(t)) else Err(QueryFailed)
  }

  /** The rows one element joins with: those whose id is the UUID it
      spells. */
  function Matches(svc: Service, e: Value): seq<PgRow> {
    match ElementUuid(svc, e)
    case Ok(Some(u)) => RowsWithId(svc.table, u)
    case _ => []
  }

  lemma MatchesMembers(svc: Service, e: Value)
    ensures forall row :: row in Matches(svc, e) <==> row in svc.table && ElementUuid(svc, e) == Ok(Some(row.id))
  {
  }

  /** Every element's cast succeeds; an element whose cast fails makes the
      query raise. */
  predicate Castable(svc: Service, es: seq<Value>) {
    forall i :: 0 <= i < |es| ==> ElementUuid(svc, es[i]).Ok?
  }

  lemma CastableAppend(svc: Service, xs: seq<Value>, ys: seq<Value>)
    ensures Castable(svc, xs + ys) <==> Castable(svc, xs) && Castable(svc, ys)
  {
    if Castable(svc, xs) && Castable(svc, ys) {
      forall i | 0 <= i < |xs + ys| ensures ElementUuid(svc, (xs + ys)[i]).Ok? {
        if i >= |xs| {
          assert (xs + ys)[i] == ys[i - |xs|];
        }
      }
    }
    if Castable(svc, xs + ys) {
      forall i | 0 <= i < |xs| ensures ElementUuid(svc, xs[i]).Ok? {
        assert (xs + ys)[i] == xs[i];
      }
      forall i | 0 <= i < |ys| ensures ElementUuid(svc, ys[i]).Ok? {
        assert (xs + ys)[|xs| + i] == ys[i];
      }
    }
  }

  /** The positional join of `jsonb_array_elements ... WITH ORDINALITY`
      with `orm_resources`, ordered by position: for each element in turn,
      the rows whose id it names. */
  function Join(svc: Service, es: seq<Value>): (r: seq<PgRow>)
  {
    if |es| == 0 then [] else Matches(svc, es[0]) + Join(svc, es[1..])
  }

  /** The join of a concatenation is the concatenation of the joins: order
      follows position, and a repeated id gives its row again. */
  lemma {:induction false} JoinAppend(svc: Service, xs: seq<Value>, ys: seq<Value>)
    ensures Join(svc, xs + ys) == Join(svc, xs) + Join(svc, ys)
  {
    if |xs| > 0 {
      assert (xs + ys)[1..] == xs[1..] + ys;
      JoinAppend(svc, xs[1..], ys);
    } else {
      assert xs + ys == ys;
    }
  }

  /** An element whose cast succeeds but names no row: NULL, or a UUID no
      row has. */
  predicate Dangling(svc: Service, e: Value) {
    ElementUuid(svc, e).Ok? &&
    (ElementUuid(svc, e).value.None? || |RowsWithId(svc.table, ElementUuid(svc, e).value.value)| == 0)
  }

  /** An element that spells the UUID of a row. */
  predicate NamesRow(svc: Service, e: Value) {
    ElementUuid(svc, e).Ok? && ElementUuid(svc, e).value.Some? &&
    |RowsWithId(svc.table, ElementUuid(svc, e).value.value)| > 0
  }

  /** A dangling element joins with nothing. */
  lemma JoinDangling(svc: Service, e: Value)
    requires Dangling(svc, e)
    ensures Join(svc, [e]) == []
  {
    assert [e][1..] == [];
  }

  /** A dangling element contributes nothing and does not make the query
      raise, wherever it sits. */
  lemma DanglingDropped(svc: Service, xs: seq<Value>, e: Value, ys: seq<Value>)
    requires Dangling(svc, e)
    ensures Join(svc, xs + [e] + ys) == Join(svc, xs + ys)
    ensures Castable(svc, xs + [e] + ys) <==> Castable(svc, xs + ys)
  {
    var a := xs + [e];
    JoinAppend(svc, a, ys);
    JoinAppend(svc, xs, [e]);
    JoinAppend(svc, xs, ys);
    JoinDangling(svc, e);
    var j := Join(svc, xs);
    assert j + [] == j;
    CastableAppend(svc, a, ys);
    CastableAppend(svc, xs, [e]);
    CastableAppend(svc, xs, ys);
  }

  /** A row is in the join exactly when it is a row of the table whose id
      some element spells. */
  lemma {:induction false} JoinMembers(svc: Service, es: seq<Value>)
    ensures forall row :: row in Join(svc, es) <==>
      row in svc.table && exists e :: e in es && ElementUuid(svc, e) == Ok(Some(row.id))
  {
    if |es| > 0 {
      JoinMembers(svc, es[1..]);
      MatchesMembers(svc, es[0]);
      assert Join(svc, es) == Matches(svc, es[0]) + Join(svc, es[1..]);
      assert forall e :: e in es <==> e == es[0] || e in es[1..];
    }
  }

  /** When ids are unique and every element names a row, the join is one
      row per element, in element order. */
  lemma {:induction false} JoinPositional(svc: Service, es: seq<Value>)
    requires UniqueIds(svc.table)
    requires forall i :: 0 <= i < |es| ==> NamesRow(svc, es[i])
    ensures |Join(svc, es)| == |es|
    ensures forall i :: 0 <= i < |es| ==> ElementUuid(svc, es[i]) == Ok(Some(Join(svc, es)[i].id))
  {
    if |es| > 0 {
      assert forall i :: 0 <= i < |es| - 1 ==> es[1..][i] == es[i + 1];
      JoinPositional(svc, es[1..]);
      NamedOnce(svc, es[0]);
      PositionalStep(svc, es, Matches(svc, es[0]), Join(svc, es[1..]));
      assert Join(svc, es) == Matches(svc, es[0]) + Join(svc, es[1..]);
    }
  }

  /** One row for the first element followed by one row per later
      element is one row per element. */
  lemma PositionalStep(svc: Service, es: seq<Value>, head: seq<PgRow>, tail: seq<PgRow>)
    requires |es| > 0 && |head| == 1 && ElementUuid(svc, es[0]) == Ok(Some(head[0].id))
    requires |tail| == |es| - 1 && forall i :: 0 <= i < |tail| ==> ElementUuid(svc, es[1..][i]) == Ok(Some(tail[i].id))
    ensures forall i :: 0 <= i < |es| ==> ElementUuid(svc, es[i]) == Ok(Some((head + tail)[i].id))
  {
    forall i | 0 <= i < |es| ensures ElementUuid(svc, es[i]) == Ok(Some((head + tail)[i].id)) {
      if i > 0 {
        assert (head + tail)[i] == tail[i - 1];
        assert es[i] == es[1..][i - 1];
      }
    }
  }

  /** Under the primary key, an element naming a row joins with exactly
      that row. */
  lemma NamedOnce(svc: Service, e: Value)
    requires UniqueIds(svc.table) && NamesRow(svc, e)
    ensures |Matches(svc, e)| == 1 && ElementUuid(svc, e) == Ok(Some(Matches(svc, e)[0].id))
  {
    AtMostOne(svc.table, ElementUuid(svc, e).value.value);
  }

  /** `member.internal_resource = ?` applied to the join. */
  lemma {:induction false} JoinOfModel(svc: Service, es: seq<Value>, model: string)
    ensures OfModel(Join(svc, es), model) == JoinModel(svc, es, model)
  {
    if |es| > 0 {
      FilterAppend(Matches(svc, es[0]), Join(svc, es[1..]), (x: PgRow) => x.internalResource == model);
      JoinOfModel(svc, es[1..], model);
    }
  }

  /** The join restricted to one model, element by element: what
      `find_members_with_type_query` selects. */
  function JoinModel(svc: Service, es: seq<Value>, model: string): (r: seq<PgRow>)
    ensures forall i :: 0 <= i < |r| ==> r[i].internalResource == model
  {
    if |es| == 0 then []
    else OfModel(Matches(svc, es[0]), model) + JoinModel(svc, es[1..], model)
  }

  lemma {:induction false} JoinModelRows(svc: Service, es: seq<Value>, model: string)
    ensures forall i :: 0 <= i < |JoinModel(svc, es, model)| ==> JoinModel(svc, es, model)[i] in svc.table
  {
    if |es| > 0 {
      JoinModelRows(svc, es[1..], model);
    }
  }

  /** The elements under `key` of the row with id `a`: none when the row
      or the key is missing; an error when the key holds JSON that is not
      an array (`jsonb_array_elements` refuses it). */
  function Elements(svc: Service, a: string, key: string): (r: Result<seq<Value>>)
    ensures r.Err? ==> r.error == QueryFailed
  {
    var rows := RowsWithId(svc.table, a);
    if |rows| == 0 then Ok([])
    else match Lookup(rows[0].metadata, StrKey(key))
      case None => Ok([])
      case Some(v) => if v.Arr? then Ok(v.items) else Err(QueryFailed)
  }

  /** `find_members`: nothing for a resource without an id; an id that
      spells no UUID (`a.id = ?`), or a member element whose id spells none,
      makes the query raise; otherwise the members by position in
      `member_ids`, narrowed to the model if one is given. */
  function FindMembers(svc: Service, res: Resource, model: Option<string>): (r: Result<seq<Resource>>)
    ensures Blank(Get(res, "id")) ==> r == Ok([])
    ensures !Blank(Get(res, "id")) && svc.uuid(ToS(svc.cfg, Get(res, "id"))).None? ==> r == Err(QueryFailed)
    ensures r.Err? ==> r.error == QueryFailed
    ensures r.Ok? && model.Some? ==> forall i :: 0 <= i < |r.value| ==>
      exists x :: x in svc.table && x.internalResource == model.value && r.value[i] == svc.toResource(x)
  {
    if Blank(Get(res, "id")) then Ok([])
    else match svc.uuid(ToS(svc.cfg, Get(res, "id")))
      case None => Err(QueryFailed)
      case Some(a) =>
        var es :- Elements(svc, a, "member_ids");
        if !Castable(svc, es) then Err(QueryFailed)
        else match model
          case None => Ok(Load(svc, Join(svc, es)))
          case Some(m) =>
            var rows := JoinModel(svc, es, m);
            assert forall i :: 0 <= i < |rows| ==> rows[i] in svc.table by {
              JoinModelRows(svc, es, m);
            }
            Ok(Load(svc, rows))
  }

  /** Once the id spells the UUID `a` and that row's `member_ids` holds
      `es`: `find_members` without a model succeeds exactly when every
      element's cast does, and then returns a resource exactly when it is
      built from a row whose UUID some element spells. */
  lemma MembersJoin(svc: Service, res: Resource, a: string, es: seq<Value>)
    requires !Blank(Get(res, "id")) && svc.uuid(ToS(svc.cfg, Get(res, "id"))) == Some(a)
    requires Elements(svc, a, "member_ids") == Ok(es)
    ensures FindMembers(svc, res, None).Ok? <==> Castable(svc, es)
    ensures Castable(svc, es) ==> forall x :: x in FindMembers(svc, res, None).value <==>
      exists e, row :: e in es && row in svc.table && ElementUuid(svc, e) == Ok(Some(row.id)) && x == svc.toResource(row)
  {
    if Castable(svc, es) {
      var rows := Join(svc, es);
      assert FindMembers(svc, res, None) == Ok(Load(svc, rows));
      LoadMembers(svc, rows);
      JoinMembers(svc, es);
    }
  }

  /** Under the primary key, when every member element names a row,
      `find_members` returns one resource per element, in element order,
      each built from the row the element names. */
  lemma MembersInOrder(svc: Service, res: Resource, a: string, es: seq<Value>)
    requires !Blank(Get(res, "id")) && svc.uuid(ToS(svc.cfg, Get(res, "id"))) == Some(a)
    requires Elements(svc, a, "member_ids") == Ok(es)
    requires UniqueIds(svc.table) && forall i :: 0 <= i < |es| ==> NamesRow(svc, es[i])
    ensures FindMembers(svc, res, None).Ok? && |FindMembers(svc, res, None).value| == |es|
    ensures forall i :: 0 <= i < |es| ==>
      exists row :: row in svc.table && ElementUuid(svc, es[i]) == Ok(Some(row.id)) &&
        FindMembers(svc, res, None).value[i] == svc.toResource(row)
  {
    assert Castable(svc, es);
    var rows := Join(svc, es);
    assert FindMembers(svc, res, None) == Ok(Load(svc, rows));
    JoinPositional(svc, es);
    JoinMembers(svc, es);
    forall i | 0 <= i < |es|
      ensures exists row :: row in svc.table && ElementUuid(svc, es[i]) == Ok(Some(row.id)) && Load(svc, rows)[i] == svc.toResource(row)
    {
      assert rows[i] in rows;
    }
  }

  /** With a model, `find_members` gives the members without one, narrowed
      to that model, in the same order. */
  lemma MembersOfModel(svc: Service, res: Resource, m: string)
    ensures FindMembers(svc, res, Some(m)).Ok? == FindMembers(svc, res, None).Ok?
    ensures FindMembers(svc, res, None).Ok? ==>
      exists rows :: FindMembers(svc, res, None) == Ok(Load(svc, rows)) && FindMembers(svc, res, Some(m)) == Ok(Load(svc, OfModel(rows, m)))
  {
    if Blank(Get(res, "id")) {
      assert FindMembers(svc, res, None) == Ok(Load(svc, []));
      assert OfModel([], m) == [];
    } else if svc.uuid(ToS(svc.cfg, Get(res, "id"))).Some? {
      var a := svc.uuid(ToS(svc.cfg, Get(res, "id"))).value;
      var e := Elements(svc, a, "member_ids");
      if e.Ok? && Castable(svc, e.value) {
        JoinOfModel(svc, e.value, m);
        var rows := Join(svc, e.value);
        assert FindMembers(svc, res, None) == Ok(Load(svc, rows));
      }
    }
  }

  /** `find_references_by`: nothing when the id or the property is blank;
      an id that spells no UUID, a property that holds no JSON array, or
      an element whose id spells no UUID makes the query raise; otherwise
      the rows the elements under the property name. */
  function FindReferencesBy(svc: Service, res: Resource, property: string): (r: Result<seq<Resource>>)
    ensures Blank(Get(res, "id")) || Blank(Get(res, property)) ==> r == Ok([])
    ensures !Blank(Get(res, "id")) && !Blank(Get(res, property)) && svc.uuid(ToS(svc.cfg, Get(res, "id"))).None? ==>
      r == Err(QueryFailed)
    ensures r.Err? ==> r.error == QueryFailed
  {
    if Blank(Get(res, "id")) || Blank(Get(res, property)) then Ok([])
    else match svc.uuid(ToS(svc.cfg, Get(res, "id")))
      case None => Err(QueryFailed)
      case Some(a) =>
        var es :- Elements(svc, a, property);
        if !Castable(svc, es) then Err(QueryFailed)
        else Ok(Load(svc, Join(svc, es)))
  }

  /** Once the id spells the UUID `a`: `find_references_by` raises when the
      row's property holds no array, and otherwise, for its elements `es`,
      succeeds exactly when every element's cast does and returns a
      resource exactly when it is built from a row whose UUID some element
      spells. */
  lemma ReferencesMembers(svc: Service, res: Resource, property: string, a: string)
    requires !Blank(Get(res, "id")) && !Blank(Get(res, property))
    requires svc.uuid(ToS(svc.cfg, Get(res, "id"))) == Some(a)
    ensures Elements(svc, a, property).Err? ==> FindReferencesBy(svc, res, property) == Err(QueryFailed)
    ensures Elements(svc, a, property).Ok? ==>
      (FindReferencesBy(svc, res, property).Ok? <==> Castable(svc, Elements(svc, a, property).value))
    ensures FindReferencesBy(svc, res, property).Ok? ==> forall x :: x in FindReferencesBy(svc, res, property).value <==>
      exists e, row :: e in Elements(svc, a, property).value && row in svc.table &&
        ElementUuid(svc, e) == Ok(Some(row.id)) && x == svc.toResource(row)
  {
    var el := Elements(svc, a, property);
    if el.Ok? && Castable(svc, el.value) {
      var rows := Join(svc, el.value);
      assert FindReferencesBy(svc, res, property) == Ok(Load(svc, rows));
      LoadMembers(svc, rows);
      JoinMembers(svc, el.value);
    }
  }

  /** The string under "id" of an object element, which is what JSON
      containment compares. */
  function IdString(e: Value): Option<string> {
    if e.Map? && Lookup(e.entries, StrKey("id")).Some? && Lookup(e.entries, StrKey("id")).value.Str? then
      Some(Lookup(e.entries, StrKey("id")).value.s)
    else None
  }

  /** `metadata->property @> '[{"id": "<id>"}]'`: the property holds an
      array with an object whose "id" is the id's string. */
  predicate Refers(row: PgRow, property: string, id: string) {
    var v := Lookup(row.metadata, StrKey(property));
    v.Some? && v.value.Arr? && exists e :: e in v.value.items && IdString(e) == Some(id)
  }

  /** `find_inverse_references_by`: the id's text is pasted, unescaped,
      between the quotation marks of `[{"id": "<id>"}]`, so PostgreSQL
      compares against the text that body stands for and raises when the
      body is not a JSON string; otherwise every row whose property refers
      to that text, in table order. */
  function FindInverseReferencesBy(svc: Service, res: Resource, property: string): (r: Result<seq<Resource>>)
    ensures r.Ok? <==> JsonText.Unescape(ToS(svc.cfg, Get(res, "id"))).Some?
    ensures r.Err? ==> r.error == QueryFailed
    ensures r.Ok? ==> |r.value| <= |svc.table|
  {
    match JsonText.Unescape(ToS(svc.cfg, Get(res, "id")))
    case None => Err(QueryFailed)
    case Some(t) => Ok(Load(svc, Filter(svc.table, (x: PgRow) => Refers(x, property, t))))
  }

  /** `find_parents`: the inverse references through `member_ids`. */
  function FindParents(svc: Service, res: Resource): (r: Result<seq<Resource>>)
    ensures r == FindInverseReferencesBy(svc, res, "member_ids")
  {
    FindInverseReferencesBy(svc, res, "member_ids")
  }

  /** The resources loaded from some rows are exactly those built from one
      of the rows. */
  lemma LoadMembers(svc: Service, rows: seq<PgRow>)
    ensures forall x :: x in Load(svc, rows) <==> exists row :: row in rows && x == svc.toResource(row)
  {
    var r := Load(svc, rows);
    forall x ensures x in r <==> exists row :: row in rows && x == svc.toResource(row) {
      if x in r {
        var i :| 0 <= i < |r| && r[i] == x;
        assert rows[i] in rows;
      }
      if exists row :: row in rows && x == svc.toResource(row) {
        var row :| row in rows && x == svc.toResource(row);
        var j :| 0 <= j < |rows| && rows[j] == row;
        assert r[j] == x;
      }
    }
  }

  /** `find_all_of_model` returns a resource exactly when it is built from a
      row of that model. */
  lemma AllOfModelMembers(svc: Service, model: string)
    ensures forall x :: x in FindAllOfModel(svc, model) <==>
      exists row :: row in svc.table && row.internalResource == model && x == svc.toResource(row)
  {
    var rows := OfModel(svc.table, model);
    LoadMembers(svc, rows);
    forall row ensures row in rows <==> row in svc.table && row.internalResource == model {
      if row in rows {
        var i :| 0 <= i < |rows| && rows[i] == row;
      }
    }
  }

  /** `find_inverse_references_by` returns a resource exactly when it is
      built from a row whose property refers to the text the id's string
      body stands for. */
  lemma InverseReferencesMembers(svc: Service, res: Resource, property: string)
    ensures FindInverseReferencesBy(svc, res, property).Ok? ==>
      var t := JsonText.Unescape(ToS(svc.cfg, Get(res, "id"))).value;
      forall x :: x in FindInverseReferencesBy(svc, res, property).value <==>
        exists row :: row in svc.table && Refers(row, property, t) && x == svc.toResource(row)
  {
    if JsonText.Unescape(ToS(svc.cfg, Get(res, "id"))).Some? {
      var t := JsonText.Unescape(ToS(svc.cfg, Get(res, "id"))).value;
      var f := (x: PgRow) => Refers(x, property, t);
      var rows := Filter(svc.table, f);
      LoadMembers(svc, rows);
      forall row ensures row in rows <==> row in svc.table && Refers(row, property, t) {
        if row in rows {
          var i :| 0 <= i < |rows| && rows[i] == row;
          assert f(rows[i]);
        }
        if row in svc.table && Refers(row, property, t) {
          assert f(row);
        }
      }
    }
  }

  /** An id of plain characters only, such as the text of a UUID, is
      compared as it is and never makes the query raise. */
  lemma InversePlainId(svc: Service, res: Resource, property: string)
    requires forall i :: 0 <= i < |ToS(svc.cfg, Get(res, "id"))| ==> JsonText.Plain(ToS(svc.cfg, Get(res, "id"))[i])
    ensures FindInverseReferencesBy(svc, res, property) ==
      Ok(Load(svc, Filter(svc.table, (x: PgRow) => Refers(x, property, ToS(svc.cfg, Get(res, "id"))))))
  {
    JsonText.UnescapePlain(ToS(svc.cfg, Get(res, "id")));
  }

  /** An id holding a bare quotation mark makes the query raise, and one
      holding an escape is compared as the text the escape stands for. */
  lemma InverseEscapedId(svc: Service, res: Resource, property: string)
    ensures ToS(svc.cfg, Get(res, "id")) == ['a', '"', 'b'] ==> FindInverseReferencesBy(svc, res, property) == Err(QueryFailed)
    ensures ToS(svc.cfg, Get(res, "id")) == ['a', '\\', '"', 'b'] ==>
      FindInverseReferencesBy(svc, res, property) == Ok(Load(svc, Filter(svc.table, (x: PgRow) => Refers(x, property, ['a', '"', 'b']))))
  {
    JsonText.QuoteExamples();
  }

  /** The elements of a row's `member_ids`, or none when it holds no
      array. */
  function MemberElements(p: PgRow): seq<Value> {
    var v := Lookup(p.metadata, StrKey("member_ids"));
    if v.Some? && v.value.Arr? then v.value.items else []
  }

  /** How Valkyrie writes a reference: an object whose "id" is a string
      that is the canonical text of a UUID. */
  predicate CanonicalRef(svc: Service, e: Value) {
    IdString(e).Some? && svc.uuid(IdString(e).value) == IdString(e)
  }

  /** A string id reads back under `->>` as itself, so a canonical
      reference casts to its own string. */
  lemma CanonicalCast(svc: Service, e: Value)
    requires CanonicalRef(svc, e)
    ensures ElementUuid(svc, e) == Ok(IdString(e))
  {
    assert IdText(svc.cfg, e) == IdString(e);
  }

  /** Parents and members are inverse for references written as Valkyrie
      writes them: a row refers to a child through `member_ids` (JSON
      containment, which compares id strings) exactly when the child's row
      is among the rows its `member_ids` join gives (which compares UUIDs). */
  lemma ParentsInverseMembers(svc: Service, p: PgRow, child: PgRow)
    requires child in svc.table && svc.uuid(child.id) == Some(child.id)
    requires forall e :: e in MemberElements(p) ==> CanonicalRef(svc, e)
    ensures Refers(p, "member_ids", child.id) <==> child in Join(svc, MemberElements(p))
  {
    var es := MemberElements(p);
    JoinMembers(svc, es);
    if Refers(p, "member_ids", child.id) {
      var e :| e in es && IdString(e) == Some(child.id);
      CanonicalCast(svc, e);
    }
    if child in Join(svc, es) {
      var e :| e in es && ElementUuid(svc, e) == Ok(Some(child.id));
      CanonicalCast(svc, e);
    }
  }
}

=== FILE: rdf_graph.dfy ===
/** RDF graphs as the Fedora converters build and read them, the vocabulary
    they share, and a stand-in for ActiveFedora's `OrderedList`.

    A graph is a set of statements; RDF.rb enumerates an in-memory graph in
    insertion order and ignores a statement it already holds, so a graph is
    a sequence without repeats, extended with `Add`. */
module RdfGraph {
  import opened Wrappers
  import opened Strs
  import opened Values
  import opened Seqs

  /** One statement. The subject is an IRI, written as its string: the
      empty string is the resource itself (`RDF::URI("")`) and "#..." a
      fragment of it. */
  datatype Triple = Triple(s: string, p: string, o: Term)

  const IanaFirst: string := "http://www.iana.org/assignments/relation/first"
  const IanaLast: string := "http://www.iana.org/assignments/relation/last"
  const IanaNext: string := "http://www.iana.org/assignments/relation/next"
  const IanaPrev: string := "http://www.iana.org/assignments/relation/prev"
  const ProxyFor: string := "http://www.openarchives.org/ore/terms/proxyFor"

  /** `graph << statement`. */
  function Add(g: seq<Triple>, t: Triple): (r: seq<Triple>)
    ensures t in r
    ensures forall u :: u in r <==> u in g || u == t
    ensures NoRepeat(g) ==> NoRepeat(r)
    ensures g <= r
  {
    if t in g then g else g + [t]
  }

  /** `graph << other_graph`: the other graph's statements, in its order. */
  function AddAll(g: seq<Triple>, h: seq<Triple>): (r: seq<Triple>)
    ensures forall u :: u in r <==> u in g || u in h
    ensures NoRepeat(g) ==> NoRepeat(r)
    ensures g <= r
    decreases |h|
  {
    if |h| == 0 then g else AddAll(Add(g, h[0]), h[1..])
  }

  /** A graph holds each statement once. */
  predicate NoRepeat(g: seq<Triple>) {
    forall i, j :: 0 <= i < j < |g| ==> g[i] != g[j]
  }

  /** Adding the statements of a graph that shares none with `g` appends
      them unchanged. */
  lemma {:induction false} AddAllDisjoint(g: seq<Triple>, h: seq<Triple>)
    requires NoRepeat(h)
    requires forall t :: t in h ==> t !in g
    ensures AddAll(g, h) == g + h
    decreases |h|
  {
    if |h| > 0 {
      assert Add(g, h[0]) == g + [h[0]];
      assert NoRepeat(h[1..]) by {
        forall i, j | 0 <= i < j < |h| - 1 ensures h[1..][i] != h[1..][j] {
          assert h[i + 1] != h[j + 1];
        }
      }
      forall t | t in h[1..] ensures t !in g + [h[0]] {
        var i :| 0 <= i < |h| - 1 && h[1..][i] == t;
        assert h[i + 1] != h[0];
      }
      AddAllDisjoint(g + [h[0]], h[1..]);
      ConsSplit(g, h);
    }
  }

  lemma ConsSplit(g: seq<Triple>, h: seq<Triple>)
    requires |h| > 0
    ensures g + [h[0]] + h[1..] == g + h
  {
    assert [h[0]] + h[1..] == h;
  }

  /** `RDF::Node.new.to_s.gsub("_:", "#")`: a fresh fragment IRI. RDF.rb's
      node ids are replaced by a counter the converter threads through. */
  function NodeIri(n: nat): (u: string)
    ensures |u| > 2 && u[0] == '#' && u[1] == 'g'
  {
    "#g" + Digits(n)
  }

  lemma NodeIriInjective(a: nat, b: nat)
    requires NodeIri(a) == NodeIri(b)
    ensures a == b
  {
    assert Digits(a) == NodeIri(a)[2..];
    assert Digits(b) == NodeIri(b)[2..];
    DigitsInjective(a, b);
  }

  /** `graph.query([s, p]).to_a.first.object`: the object of the first
      statement, in enumeration order, with that subject and predicate. */
  function FirstObject(g: seq<Triple>, s: string, p: string): (o: Option<Term>)
    ensures o.None? <==> forall i :: 0 <= i < |g| ==> !(g[i].s == s && g[i].p == p)
    ensures o.Some? ==>
      exists i :: 0 <= i < |g| && g[i] == Triple(s, p, o.value) &&
        forall j :: 0 <= j < i ==> !(g[j].s == s && g[j].p == p)
  {
    if |g| == 0 then None
    else if g[0].s == s && g[0].p == p then Some(g[0].o)
    else
      var o := FirstObject(g[1..], s, p);
      assert o.None? ==> forall i :: 0 <= i < |g| ==> !(g[i].s == s && g[i].p == p) by {
        if o.None? {
          forall i | 0 < i < |g| ensures !(g[i].s == s && g[i].p == p) {
            assert g[i] == g[1..][i - 1];
          }
        }
      }
      assert o.Some? ==>
        exists i :: 0 <= i < |g| && g[i] == Triple(s, p, o.value) &&
          forall j :: 0 <= j < i ==> !(g[j].s == s && g[j].p == p)
      by {
        if o.Some? {
          var i :| 0 <= i < |g| - 1 && g[1..][i] == Triple(s, p, o.value) &&
            forall j :: 0 <= j < i ==> !(g[1..][j].s == s && g[1..][j].p == p);
          assert g[i + 1] == Triple(s, p, o.value);
          forall j | 0 <= j < i + 1 ensures !(g[j].s == s && g[j].p == p) {
            if j > 0 {
              assert g[j] == g[1..][j - 1];
            }
          }
        }
      }
      o
  }

  /** When the only statement with that subject and predicate is `t`, the
      lookup finds `t`'s object. */
  lemma FirstObjectOnly(g: seq<Triple>, t: Triple)
    requires t in g
    requires forall u :: u in g && u.s == t.s && u.p == t.p ==> u == t
    ensures FirstObject(g, t.s, t.p) == Some(t.o)
  {
    var o := FirstObject(g, t.s, t.p);
    if o.Some? {
      var i :| 0 <= i < |g| && g[i] == Triple(t.s, t.p, o.value);
    }
  }

  // ---- the proxy list (stand-in for ActiveFedora's OrderedList) ----

  /** The statements of one proxy: what it stands for, and its links to the
      neighbouring proxies. `nodes` are the proxies' IRIs, one per target. */
  function ProxyNode(targets: seq<Term>, nodes: seq<string>, i: nat): (g: seq<Triple>)
    requires |nodes| == |targets| && i < |targets|
    ensures |g| > 0 && g[0] == Triple(nodes[i], ProxyFor, targets[i])
  {
    [Triple(nodes[i], ProxyFor, targets[i])]
    + (if i + 1 < |nodes| then [Triple(nodes[i], IanaNext, Iri(nodes[i + 1]))] else [])
    + (if i > 0 then [Triple(nodes[i], IanaPrev, Iri(nodes[i - 1]))] else [])
  }

  /** `ordered_list.to_graph`: the proxies from the `i`-th on, in list order. */
  function ListFrom(targets: seq<Term>, nodes: seq<string>, i: nat): (g: seq<Triple>)
    requires |nodes| == |targets| && i <= |targets|
    ensures forall t :: t in g ==> exists k :: i <= k < |nodes| && t.s == nodes[k]
    decreases |targets| - i
  {
    if i == |targets| then []
    else
      var g := ProxyNode(targets, nodes, i) + ListFrom(targets, nodes, i + 1);
      assert forall t :: t in ProxyNode(targets, nodes, i) ==> t.s == nodes[i];
      g
  }

  /** The statements of the whole list. */
  function ListGraph(targets: seq<Term>, nodes: seq<string>): (g: seq<Triple>)
    requires |nodes| == |targets|
    ensures forall t :: t in g ==> t.s in nodes
  {
    ListFrom(targets, nodes, 0)
  }

  predicate DistinctNodes(nodes: seq<string>) {
    forall i, j :: 0 <= i < j < |nodes| ==> nodes[i] != nodes[j]
  }

  /** Later proxies have other subjects. */
  lemma ListFromOthers(targets: seq<Term>, nodes: seq<string>, i: nat, k: nat)
    requires |nodes| == |targets| && k < i <= |targets| && DistinctNodes(nodes)
    ensures forall t :: t in ListFrom(targets, nodes, i) ==> t.s != nodes[k]
  {
    forall t | t in ListFrom(targets, nodes, i) ensures t.s != nodes[k] {
      var m :| i <= m < |nodes| && t.s == nodes[m];
      assert nodes[k] != nodes[m];
    }
  }

  /** A statement of the list about proxy `k` is one of that proxy's own. */
  lemma {:induction false} ListFromAbout(targets: seq<Term>, nodes: seq<string>, i: nat, k: nat, t: Triple)
    requires |nodes| == |targets| && i <= k < |targets| && DistinctNodes(nodes)
    requires t in ListFrom(targets, nodes, i) && t.s == nodes[k]
    ensures t in ProxyNode(targets, nodes, k)
    decreases |targets| - i
  {
    assert ListFrom(targets, nodes, i) == ProxyNode(targets, nodes, i) + ListFrom(targets, nodes, i + 1);
    if i < k {
      assert nodes[i] != nodes[k];
      assert forall u :: u in ProxyNode(targets, nodes, i) ==> u.s == nodes[i];
      ListFromAbout(targets, nodes, i + 1, k, t);
    } else {
      ListFromOthers(targets, nodes, k + 1, k);
    }
  }

  lemma {:induction false} ListFromHas(targets: seq<Term>, nodes: seq<string>, i: nat, k: nat)
    requires |nodes| == |targets| && i <= k < |targets|
    ensures forall t :: t in ProxyNode(targets, nodes, k) ==> t in ListFrom(targets, nodes, i)
    decreases |targets| - i
  {
    if i < k {
      ListFromHas(targets, nodes, i + 1, k);
    }
  }

  /** Reading the list back: from `head`, collect what each proxy stands
      for and follow `next` until `tail`. A proxy without `proxyFor` or
      `next`, a non-IRI link, or a proxy reached twice is a malformed list.
      `seen` holds the proxies already passed. */
  function Walk(g: seq<Triple>, head: Term, tail: Term, seen: set<string>): (r: Result<seq<Term>>)
    ensures r.Err? ==> r.error == MalformedList
    decreases (set t | t in g :: t.s) - seen
  {
    if !head.Iri? || head.iri in seen then Err(MalformedList)
    else
      match FirstObject(g, head.iri, ProxyFor)
      case None => Err(MalformedList)
      case Some(target) =>
        if head == tail then Ok([target])
        else
          match FirstObject(g, head.iri, IanaNext)
          case None => Err(MalformedList)
          case Some(next) =>
            var subjects := set t | t in g :: t.s;
            assert head.iri in subjects by {
              var i :| 0 <= i < |g| && g[i] == Triple(head.iri, ProxyFor, target);
            }
            assert subjects - (seen + {head.iri}) < subjects - seen;
            var rest :- Walk(g, next, tail, seen + {head.iri});
            Ok([target] + rest)
  }

  /** `OrderedList.new(graph, head, tail).to_a.map(&:proxy_for)`. */
  function Decode(g: seq<Triple>, head: Term, tail: Term): (r: Result<seq<Term>>)
    ensures r.Ok? ==> |r.value| > 0
  {
    Walk(g, head, tail, {})
  }

  /** The list sits in `g`, and `g` says nothing else about its proxies. */
  predicate ListIn(g: seq<Triple>, targets: seq<Term>, nodes: seq<string>)
    requires |nodes| == |targets|
  {
    (forall t :: t in ListGraph(targets, nodes) ==> t in g) &&
    (forall t :: t in g && t.s in nodes ==> t in ListGraph(targets, nodes))
  }

  /** The lookup of a proxy's own statement finds it. */
  lemma OwnStatement(g: seq<Triple>, targets: seq<Term>, nodes: seq<string>, i: nat, own: Triple)
    requires |nodes| == |targets| && i < |targets| && DistinctNodes(nodes)
    requires ListIn(g, targets, nodes)
    requires own in ProxyNode(targets, nodes, i)
    requires forall u :: u in ProxyNode(targets, nodes, i) && u.p == own.p ==> u == own
    ensures FirstObject(g, own.s, own.p) == Some(own.o)
  {
    ListFromHas(targets, nodes, 0, i);
    assert own.s == nodes[i];
    forall u | u in g && u.s == own.s && u.p == own.p ensures u == own {
      ListFromAbout(targets, nodes, 0, i, u);
    }
    FirstObjectOnly(g, own);
  }

  lemma ProxyForOf(g: seq<Triple>, targets: seq<Term>, nodes: seq<string>, i: nat)
    requires |nodes| == |targets| && i < |targets| && DistinctNodes(nodes)
    requires ListIn(g, targets, nodes)
    ensures FirstObject(g, nodes[i], ProxyFor) == Some(targets[i])
  {
    OwnStatement(g, targets, nodes, i, Triple(nodes[i], ProxyFor, targets[i]));
  }

  lemma NextOf(g: seq<Triple>, targets: seq<Term>, nodes: seq<string>, i: nat)
    requires |nodes| == |targets| && i + 1 < |targets| && DistinctNodes(nodes)
    requires ListIn(g, targets, nodes)
    ensures FirstObject(g, nodes[i], IanaNext) == Some(Iri(nodes[i + 1]))
  {
    OwnStatement(g, targets, nodes, i, Triple(nodes[i], IanaNext, Iri(nodes[i + 1])));
  }

  /** One step of the walk: a proxy not yet seen, other than the tail, with
      its target and its successor. */
  lemma WalkStep(g: seq<Triple>, x: string, tail: Term, seen: set<string>, target: Term, next: Term)
    requires x !in seen && Iri(x) != tail
    requires FirstObject(g, x, ProxyFor) == Some(target)
    requires FirstObject(g, x, IanaNext) == Some(next)
    ensures Walk(g, Iri(x), tail, seen) ==
      match Walk(g, next, tail, seen + {x})
      case Ok(rest) => Ok([target] + rest)
      case Err(e) => Err(e)
  {
  }

  /** The last step: the tail itself, not yet seen. */
  lemma WalkLast(g: seq<Triple>, x: string, seen: set<string>, target: Term)
    requires x !in seen
    requires FirstObject(g, x, ProxyFor) == Some(target)
    ensures Walk(g, Iri(x), Iri(x), seen) == Ok([target])
  {
  }

  /** Walking a list written by `ListGraph` from its `i`-th proxy gives the
      remaining targets, in any graph that says nothing else about the
      proxies. */
  lemma {:induction false} WalkList(g: seq<Triple>, targets: seq<Term>, nodes: seq<string>, i: nat, seen: set<string>)
    requires |nodes| == |targets| && i < |targets| && DistinctNodes(nodes)
    requires ListIn(g, targets, nodes)
    requires forall k :: i <= k < |nodes| ==> nodes[k] !in seen
    ensures Walk(g, Iri(nodes[i]), Iri(nodes[|nodes| - 1]), seen) == Ok(targets[i..])
    decreases |targets| - i
  {
    ProxyForOf(g, targets, nodes, i);
    if i + 1 < |nodes| {
      assert nodes[i] != nodes[|nodes| - 1];
      NextOf(g, targets, nodes, i);
      WalkStep(g, nodes[i], Iri(nodes[|nodes| - 1]), seen, targets[i], Iri(nodes[i + 1]));
      forall k | i + 1 <= k < |nodes| ensures nodes[k] !in seen + {nodes[i]} {
        assert nodes[i] != nodes[k];
      }
      WalkList(g, targets, nodes, i + 1, seen + {nodes[i]});
      SliceCons(targets, i);
    } else {
      WalkLast(g, nodes[i], seen, targets[i]);
      assert targets[i..] == [targets[i]];
    }
  }

  /** Round trip of the proxy list: decoding from the first proxy to the
      last gives back the targets, in order. */
  lemma DecodeList(g: seq<Triple>, targets: seq<Term>, nodes: seq<string>)
    requires |nodes| == |targets| && |targets| > 0 && DistinctNodes(nodes)
    requires ListIn(g, targets, nodes)
    ensures Decode(g, Iri(nodes[0]), Iri(nodes[|nodes| - 1])) == Ok(targets)
  {
    WalkList(g, targets, nodes, 0, {});
  }
}

=== FILE: registry.dfy ===
/** First-match selection: the rule by which `Valkyrie::ValueMapper.for`
    picks, among the mappers registered with a value mapper class, the
    first whose `handles?` accepts the value. */
module Registries {
  import opened Wrappers

  /** The first element of `xs` that satisfies `p`, if any. */
  function FirstWhere<T(==)>(xs: seq<T>, p: T -> bool): (r: Option<T>)
    ensures r.None? <==> forall i :: 0 <= i < |xs| ==> !p(xs[i])
    ensures r.Some? ==>
      exists i :: 0 <= i < |xs| && xs[i] == r.value && p(r.value) &&
        forall j :: 0 <= j < i ==> !p(xs[j])
  {
    if |xs| == 0 then None
    else if p(xs[0]) then Some(xs[0])
    else
      var r := FirstWhere(xs[1..], p);
      assert r.Some? ==>
        exists i :: 0 <= i < |xs| && xs[i] == r.value && p(r.value) &&
          forall j :: 0 <= j < i ==> !p(xs[j])
      by {
        if r.Some? {
          var i :| 0 <= i < |xs| - 1 && xs[1..][i] == r.value && p(r.value) &&
            forall j :: 0 <= j < i ==> !p(xs[1..][j]);
          assert xs[i + 1] == r.value;
          forall j | 0 <= j < i + 1 ensures !p(xs[j]) {
            if j > 0 {
              assert xs[j] == xs[1..][j - 1];
            }
          }
        }
      }
      r
  }

  /** An element that satisfies `p`, with none before it doing so, is the
      one selected. */
  lemma {:induction false} FirstWhereAt<T>(xs: seq<T>, p: T -> bool, i: nat)
    requires i < |xs| && p(xs[i])
    requires forall j :: 0 <= j < i ==> !p(xs[j])
    ensures FirstWhere(xs, p) == Some(xs[i])
  {
    if i > 0 {
      assert !p(xs[0]);
      FirstWhereAt(xs[1..], p, i - 1);
    }
  }
}

=== FILE: resource.dfy ===
/** `Valkyrie::Resource`: the attributes every subclass inherits, the rules
    for declaring further attributes, and attribute reads and writes. */
module Resources {
  import opened Wrappers
  import opened Values
  import opened Types

  /** `Valkyrie::Persistence::Attributes::OPTIMISTIC_LOCK`. */
  const OptimisticLock: string := "optimistic_lock_token"

  /** The schema every subclass starts with (`Resource.inherited`): five
      reserved attributes, none of them ordered. */
  function BaseSchema(className: string): (ds: seq<Decl>)
    ensures |ds| == 5 && UniqueNames(ds)
    ensures forall i :: 0 <= i < 5 ==> Reserved(ds[i].name) && !ds[i].ordered
  {
    [ Decl("id", TOptional(TId), false),
      Decl("internal_resource", TDefault(TNominal, Str(className)), false),
      Decl("created_at", TOptional(TNominal), false),
      Decl("updated_at", TOptional(TNominal), false),
      Decl("new_record", TDefault(TNominal, Bool(true)), false) ]
  }

  /** A freshly defined subclass. */
  function Inherited(className: string): (k: Klass)
    ensures k.name == className && k.schema == BaseSchema(className)
  {
    Klass(className, BaseSchema(className))
  }

  /** `Resource.reserved_attributes`. */
  predicate Reserved(name: string) {
    name == "id" || name == "internal_resource" || name == "created_at" || name == "updated_at" ||
    name == "new_record"
  }

  predicate Declares(ds: seq<Decl>, name: string) {
    exists i :: 0 <= i < |ds| && ds[i].name == name
  }

  /** The declaration of `name`, if any (`schema[name]`). */
  function DeclOf(ds: seq<Decl>, name: string): (r: Option<Decl>)
    ensures r.Some? <==> Declares(ds, name)
    ensures r.Some? ==> r.value.name == name && r.value in ds
  {
    if |ds| == 0 then None
    else if ds[0].name == name then Some(ds[0])
    else
      var r := DeclOf(ds[1..], name);
      assert Declares(ds, name) <==> Declares(ds[1..], name) by {
        if Declares(ds, name) {
          var i :| 0 <= i < |ds| && ds[i].name == name;
          assert ds[1..][i - 1].name == name;
        }
        if Declares(ds[1..], name) {
          var i :| 0 <= i < |ds| - 1 && ds[1..][i].name == name;
          assert ds[i + 1].name == name;
        }
      }
      r
  }

  /** `schema.delete(name)`. */
  function RemoveDecl(ds: seq<Decl>, name: string): (r: seq<Decl>)
    ensures !Declares(r, name)
    ensures forall d :: d in r <==> d in ds && d.name != name
    ensures UniqueNames(ds) ==> UniqueNames(r)
  {
    if |ds| == 0 then []
    else if ds[0].name == name then RemoveDecl(ds[1..], name)
    else
      var rest := RemoveDecl(ds[1..], name);
      assert UniqueNames(ds) ==> UniqueNames([ds[0]] + rest) by {
        if UniqueNames(ds) {
          assert forall d :: d in rest ==> d.name != ds[0].name by {
            forall d | d in rest ensures d.name != ds[0].name {
              var i :| 0 <= i < |ds| - 1 && ds[1..][i] == d;
              assert ds[i + 1] == d;
            }
          }
          assert UniqueNames(ds[1..]) by {
            forall i, j | 0 <= i < j < |ds| - 1 ensures ds[1..][i].name != ds[1..][j].name {
              assert ds[i + 1].name != ds[j + 1].name;
            }
          }
          forall i, j | 0 <= i < j < |rest| + 1
            ensures ([ds[0]] + rest)[i].name != ([ds[0]] + rest)[j].name
          {
            if i == 0 {
              assert rest[j - 1] in rest;
            }
          }
        }
      }
      assert !Declares([ds[0]] + rest, name) by {
        forall i | 0 <= i < |rest| + 1 ensures ([ds[0]] + rest)[i].name != name {
          if i > 0 {
            assert rest[i - 1] in rest;
          }
        }
      }
      [ds[0]] + rest
  }

  /** The outcome of `Resource.attribute`: the class afterwards and whether
      the reserved-name warning was printed. */
  datatype Declared = Declared(klass: Klass, warned: bool)

  /** `Resource.attribute(name, type, internal:)`. Without a type the
      attribute is a `Set.optional`. Re-declaring a reserved name from
      outside the base class warns and first deletes the inherited entry;
      `member_ids` is always marked ordered; declaring any other existing
      name is refused by Dry::Struct. */
  function Declare(klass: Klass, name: string, ty: Option<AttrType>, internal: bool): (r: Result<Declared>)
    ensures r.Err? <==> Declares(klass.schema, name) && !(Reserved(name) && !internal)
    ensures r.Err? ==> r.error == RepeatedAttribute
    ensures r.Ok? ==> (r.value.warned <==> Reserved(name) && !internal && Declares(klass.schema, name))
    ensures r.Ok? ==> r.value.klass.name == klass.name
  {
    var warned := Reserved(name) && Declares(klass.schema, name) && !internal;
    var ds := if warned then RemoveDecl(klass.schema, name) else klass.schema;
    if Declares(ds, name) then Err(RepeatedAttribute)
    else Ok(Declared(Klass(klass.name, ds + [NewDecl(name, ty)]), warned))
  }

  /** The declaration `attribute(name, ty)` adds. */
  function NewDecl(name: string, ty: Option<AttrType>): (d: Decl)
    ensures d.name == name && d.ordered == (name == "member_ids")
    ensures ty.Some? ==> d.ty == ty.value
    ensures ty.None? ==> d.ty == TOptional(SetType())
  {
    Decl(name, if ty.Some? then ty.value else TOptional(SetType()), name == "member_ids")
  }

  /** After a declaration the name is looked up as declared, and every other
      name as before. */
  lemma DeclareLookup(klass: Klass, name: string, ty: Option<AttrType>, internal: bool)
    requires Declare(klass, name, ty, internal).Ok?
    ensures DeclOf(Declare(klass, name, ty, internal).value.klass.schema, name) == Some(NewDecl(name, ty))
    ensures forall n :: n != name ==>
      DeclOf(Declare(klass, name, ty, internal).value.klass.schema, n) == DeclOf(klass.schema, n)
  {
    var warned := Reserved(name) && Declares(klass.schema, name) && !internal;
    var ds := if warned then RemoveDecl(klass.schema, name) else klass.schema;
    DeclOfAppend(ds, NewDecl(name, ty));
    forall n | n != name ensures DeclOf(ds, n) == DeclOf(klass.schema, n) {
      if warned {
        RemoveDeclOf(klass.schema, name, n);
      }
    }
  }

  /** A declaration keeps names unique, and adds no declaration under any
      other name. */
  lemma DeclareSchema(klass: Klass, name: string, ty: Option<AttrType>, internal: bool)
    requires Declare(klass, name, ty, internal).Ok?
    ensures UniqueNames(klass.schema) ==> UniqueNames(Declare(klass, name, ty, internal).value.klass.schema)
    ensures forall i :: 0 <= i < |Declare(klass, name, ty, internal).value.klass.schema| ==>
      Declare(klass, name, ty, internal).value.klass.schema[i] in klass.schema ||
      Declare(klass, name, ty, internal).value.klass.schema[i].name == name
  {
    var warned := Reserved(name) && Declares(klass.schema, name) && !internal;
    var ds := if warned then RemoveDecl(klass.schema, name) else klass.schema;
    var ds' := ds + [NewDecl(name, ty)];
    assert Declare(klass, name, ty, internal).value.klass.schema == ds';
    forall i | 0 <= i < |ds| ensures ds[i].name != name {
      assert ds[i] in ds;
    }
    forall i | 0 <= i < |ds'| ensures ds'[i] in klass.schema || ds'[i].name == name {
      if i < |ds| {
        assert ds'[i] in ds;
      }
    }
  }

  lemma {:induction false} DeclOfAppend(ds: seq<Decl>, d: Decl)
    requires !Declares(ds, d.name)
    ensures DeclOf(ds + [d], d.name) == Some(d)
    ensures forall n :: n != d.name ==> DeclOf(ds + [d], n) == DeclOf(ds, n)
  {
    if |ds| > 0 {
      assert (ds + [d])[1..] == ds[1..] + [d];
      assert !Declares(ds[1..], d.name) by {
        forall i | 0 <= i < |ds| - 1 ensures ds[1..][i].name != d.name {
          assert ds[i + 1].name != d.name;
        }
      }
      DeclOfAppend(ds[1..], d);
    }
  }

  lemma {:induction false} RemoveDeclOf(ds: seq<Decl>, name: string, n: string)
    requires n != name
    ensures DeclOf(RemoveDecl(ds, name), n) == DeclOf(ds, n)
  {
    if |ds| > 0 {
      RemoveDeclOf(ds[1..], name, n);
    }
  }

  /** Every reserved name is declared by the base schema. */
  lemma BaseDeclaresReserved(className: string, name: string)
    requires Reserved(name)
    ensures Declares(BaseSchema(className), name)
  {
    var ds := BaseSchema(className);
    var i := if name == "id" then 0 else if name == "internal_resource" then 1
      else if name == "created_at" then 2 else if name == "updated_at" then 3 else 4;
    assert ds[i].name == name;
  }

  /** Declarations before the first one named `name` do not affect its
      lookup. */
  lemma {:induction false} DeclOfSkip(ds: seq<Decl>, k: nat, name: string)
    requires k <= |ds|
    requires forall j :: 0 <= j < k ==> ds[j].name != name
    ensures DeclOf(ds, name) == DeclOf(ds[k..], name)
  {
    if k > 0 {
      assert ds[1..][k - 1..] == ds[k..];
      DeclOfSkip(ds[1..], k - 1, name);
    }
  }

  /** Each inherited attribute is looked up as declared. */
  lemma BaseDecl(className: string, k: nat)
    requires k < 5
    ensures DeclOf(BaseSchema(className), BaseSchema(className)[k].name) == Some(BaseSchema(className)[k])
  {
    DeclOfSkip(BaseSchema(className), k, BaseSchema(className)[k].name);
  }

  /** The concrete declaration of a reserved name replaces the inherited
      one, with a warning. */
  lemma ReservedRedeclarationWins(className: string, name: string, ty: AttrType)
    requires Reserved(name)
    ensures Declare(Inherited(className), name, Some(ty), false).Ok?
    ensures Declare(Inherited(className), name, Some(ty), false).value.warned
    ensures DeclOf(Declare(Inherited(className), name, Some(ty), false).value.klass.schema, name)
      == Some(Decl(name, ty, name == "member_ids"))
  {
    BaseDeclaresReserved(className, name);
    DeclareLookup(Inherited(className), name, Some(ty), false);
  }

  /** `Resource.fields`: the schema's names without `new_record`, in
      declaration order. */
  function Fields(klass: Klass): (r: seq<string>)
    ensures forall n :: n in r <==> Declares(klass.schema, n) && n != "new_record"
  {
    FieldsOf(klass.schema)
  }

  function FieldsOf(ds: seq<Decl>): (r: seq<string>)
    ensures |r| <= |ds|
    ensures forall n :: n in r <==> Declares(ds, n) && n != "new_record"
  {
    if |ds| == 0 then []
    else
      var rest := FieldsOf(ds[1..]);
      assert forall n :: Declares(ds, n) <==> ds[0].name == n || Declares(ds[1..], n) by {
        forall n ensures Declares(ds, n) <==> ds[0].name == n || Declares(ds[1..], n) {
          if Declares(ds, n) && ds[0].name != n {
            var i :| 0 <= i < |ds| && ds[i].name == n;
            assert ds[1..][i - 1].name == n;
          }
          if Declares(ds[1..], n) {
            var i :| 0 <= i < |ds| - 1 && ds[1..][i].name == n;
            assert ds[i + 1].name == n;
          }
        }
      }
      if ds[0].name == "new_record" then rest else [ds[0].name] + rest
  }

  /** `r[name]`: the attribute's value, `nil` when it was never set, and
      `nil` instead of an error for a name the class does not declare. */
  function Get(r: Resource, name: string): Value {
    Fetch(r.attrs, SymKey(name))
  }

  /** A resource whose attribute hash holds only declared names. */
  predicate WellFormed(r: Resource) {
    forall i :: 0 <= i < |r.attrs| ==> r.attrs[i].key.SymKey? && Declares(r.klass.schema, r.attrs[i].key.name)
  }

  /** A resource as Ruby holds it: declared symbol keys, each once. */
  predicate Valid(r: Resource) {
    WellFormed(r) && UniqueKeys(r.attrs)
  }

  /** Reading an undeclared attribute of a well-formed resource gives `nil`. */
  lemma GetUndeclared(r: Resource, name: string)
    requires WellFormed(r) && !Declares(r.klass.schema, name)
    ensures Get(r, name) == Nil
  {
    assert !HasKey(r.attrs, SymKey(name)) by {
      forall i | 0 <= i < |r.attrs| ensures r.attrs[i].key != SymKey(name) {
        assert Declares(r.klass.schema, r.attrs[i].key.name);
      }
    }
  }

  /** Instantiation only ever fills declared attributes. */
  lemma NewResourceWellFormed(cfg: Config, klass: Klass, input: seq<Entry>)
    requires NewResource(cfg, klass, input).Ok?
    ensures WellFormed(NewResource(cfg, klass, input).value)
  {
    var r := NewResource(cfg, klass, input).value;
    forall j | 0 <= j < |r.attrs| ensures r.attrs[j].key.SymKey? && Declares(klass.schema, r.attrs[j].key.name) {
      var k := r.attrs[j].key;
      assert HasKey(r.attrs, k);
      var i :| 0 <= i < |klass.schema| && k == SymKey(klass.schema[i].name);
    }
  }

  /** Instantiation without input cannot fail: every attribute is missing. */
  lemma {:induction false} NewAttrsEmptyOk(cfg: Config, ds: seq<Decl>)
    ensures NewAttrs(cfg, ds, []).Ok?
  {
    if |ds| > 0 {
      NewAttrsEmptyOk(cfg, ds[..|ds| - 1]);
    }
  }

  /** An attribute missing from the input takes its type's default, or is
      left out when the type has none. */
  lemma {:induction false} NewAttrsMissing(cfg: Config, ds: seq<Decl>, input: seq<Entry>, i: nat)
    requires UniqueNames(ds) && i < |ds|
    requires !HasKey(input, SymKey(ds[i].name))
    requires NewAttrs(cfg, ds, input).Ok?
    ensures Lookup(NewAttrs(cfg, ds, input).value, SymKey(ds[i].name)) == DefaultOf(ds[i].ty)
  {
    var k := SymKey(ds[i].name);
    var init := ds[..|ds| - 1];
    var rest := NewAttrs(cfg, init, input).value;
    assert forall j :: 0 <= j < |ds| - 1 ==> ds[j] == init[j];
    assert UniqueNames(init);
    if i < |ds| - 1 {
      NewAttrsMissing(cfg, init, input, i);
      assert ds[|ds| - 1].name != ds[i].name;
    }
  }

  /** A new instance of a freshly defined class carries its class name and
      is a new record, so it is not persisted. */
  lemma NewInheritedDefaults(cfg: Config, className: string)
    ensures NewResource(cfg, Inherited(className), []).Ok?
    ensures Get(NewResource(cfg, Inherited(className), []).value, "internal_resource") == Str(className)
    ensures Get(NewResource(cfg, Inherited(className), []).value, "new_record") == Bool(true)
    ensures !Persisted(NewResource(cfg, Inherited(className), []).value)
  {
    var ds := BaseSchema(className);
    NewAttrsEmptyOk(cfg, ds);
    NewAttrsMissing(cfg, ds, [], 1);
    NewAttrsMissing(cfg, ds, [], 4);
  }

  /** `set_value(key, value)`: the value is coerced by the attribute's schema
      type before it is stored. An undeclared name has no schema entry, and
      calling it fails. */
  function SetValue(cfg: Config, r: Resource, name: string, v: Value): (r': Result<Resource>)
    ensures !Declares(r.klass.schema, name) ==> r' == Err(NoMethodError)
    ensures r'.Ok? ==> r'.value.klass == r.klass
    ensures r'.Ok? ==> Coerce(cfg, DeclOf(r.klass.schema, name).value.ty, v) == Ok(Get(r'.value, name))
    ensures r'.Ok? ==> forall n :: n != name ==> Get(r'.value, n) == Get(r, n)
    ensures r'.Ok? && WellFormed(r) ==> WellFormed(r'.value)
    ensures r'.Ok? && UniqueKeys(r.attrs) ==> UniqueKeys(r'.value.attrs)
    ensures Declares(r.klass.schema, name) && Coerce(cfg, DeclOf(r.klass.schema, name).value.ty, v).Ok? ==> r'.Ok?
  {
    match DeclOf(r.klass.schema, name)
    case None => Err(NoMethodError)
    case Some(d) =>
      var y :- Coerce(cfg, d.ty, v);
      var attrs := Put(r.attrs, SymKey(name), y);
      assert WellFormed(r) ==> WellFormed(Resource(r.klass, attrs)) by {
        if WellFormed(r) {
          forall j | 0 <= j < |attrs| ensures attrs[j].key.SymKey? && Declares(r.klass.schema, attrs[j].key.name) {
            var k := attrs[j].key;
            assert HasKey(attrs, k);
            assert Lookup(attrs, k).Some?;
            if k != SymKey(name) {
              assert HasKey(r.attrs, k);
              var i :| 0 <= i < |r.attrs| && r.attrs[i].key == k;
            }
          }
        }
      }
      assert UniqueKeys(r.attrs) ==> UniqueKeys(attrs) by {
        if UniqueKeys(r.attrs) {
          PutUnique(r.attrs, SymKey(name), y);
        }
      }
      Ok(Resource(r.klass, attrs))
  }

  /** `persisted?`: exactly when `new_record` is `false`. */
  predicate Persisted(r: Resource) {
    Get(r, "new_record") == Bool(false)
  }

  /** `to_param`: the id's string (`to_key` holds the id alone). */
  function ToParam(cfg: Config, r: Resource): (s: string)
    ensures Get(r, "id").Id? ==> s == Get(r, "id").id
    ensures Get(r, "id").Nil? ==> s == ""
  {
    ToS(cfg, Get(r, "id"))
  }

  /** `optimistic_locking_enabled?`: the class declares the lock attribute. */
  predicate LockingEnabled(klass: Klass) {
    Declares(klass.schema, OptimisticLock)
  }

  /** `enable_optimistic_locking`: declare the lock attribute as a set of
      lock tokens. */
  function EnableLocking(klass: Klass): (r: Result<Declared>)
    ensures r.Ok? <==> !LockingEnabled(klass)
    ensures r.Ok? ==> LockingEnabled(r.value.klass) && !r.value.warned
  {
    var r := Declare(klass, OptimisticLock, Some(TDefault(TLockTokens, Arr([]))), false);
    assert r.Ok? ==> LockingEnabled(r.value.klass) by {
      if r.Ok? {
        DeclareLookup(klass, OptimisticLock, Some(TDefault(TLockTokens, Arr([]))), false);
      }
    }
    r
  }
}

=== FILE: seqs.dfy ===
/** Ruby's `select` on arrays, shared by the query services. */
module Seqs {

  /** `select(&f)`: the elements satisfying `f`, in their original order. */
  function Filter<T>(xs: seq<T>, f: T -> bool): (r: seq<T>)
    ensures |r| <= |xs|
    ensures forall i :: 0 <= i < |r| ==> f(r[i]) && r[i] in xs
    ensures forall x :: x in xs && f(x) ==> x in r
    ensures (forall x :: x in xs ==> !f(x)) ==> r == []
  {
    if |xs| == 0 then []
    else (if f(xs[0]) then [xs[0]] else []) + Filter(xs[1..], f)
  }

  /** Selecting from a concatenation selects from each part in turn, so
      the kept elements stay in input order. */
  lemma {:induction false} FilterAppend<T>(xs: seq<T>, ys: seq<T>, f: T -> bool)
    ensures Filter(xs + ys, f) == Filter(xs, f) + Filter(ys, f)
  {
    if |xs| > 0 {
      assert (xs + ys)[1..] == xs[1..] + ys;
      FilterAppend(xs[1..], ys, f);
    } else {
      assert xs + ys == ys;
    }
  }

  /** Selecting keeps everything exactly when everything satisfies `f`. */
  lemma {:induction false} FilterKeepsAll<T>(xs: seq<T>, f: T -> bool)
    ensures Filter(xs, f) == xs <==> forall i :: 0 <= i < |xs| ==> f(xs[i])
  {
    if |xs| > 0 {
      FilterKeepsAll(xs[1..], f);
      if !f(xs[0]) {
        assert |Filter(xs, f)| < |xs|;
      } else if Filter(xs, f) == xs {
        assert Filter(xs[1..], f) == xs[1..];
      }
    }
  }

  /** A non-empty suffix is its first element followed by the rest. */
  lemma SliceCons<T>(xs: seq<T>, i: nat)
    requires i < |xs|
    ensures xs[i..] == [xs[i]] + xs[i + 1..]
  {
  }

  /** Concatenation groups either way. */
  lemma AppendAssoc<T>(xs: seq<T>, ys: seq<T>, zs: seq<T>)
    ensures xs + ys + zs == xs + (ys + zs)
  {
  }
}

=== FILE: strings.dfy ===
/** The handful of Ruby string operations the persistence code relies on:
    `start_with?`, `include?`, `gsub`/`sub` with a literal pattern, the
    "everything after the last '/'" regexp, `split(...).first` and
    decimal rendering of integers. Strings are `seq<char>`; a line break is
    an ordinary character here, and callers whose regexps anchor at line
    starts split lines themselves. */
module Strs {
  import opened Wrappers

  /** Ruby `s.start_with?(p)`. */
  predicate StartsWith(s: string, p: string) {
    p <= s
  }

  /** Strings that differ at a position both reach do not start one with
      the other. */
  lemma DiffersAt(s: string, p: string, i: nat)
    requires i < |s| && i < |p| && s[i] != p[i]
    ensures !StartsWith(s, p)
  {
  }

  /** Ruby `s.include?(sub)`. */
  predicate Contains(s: string, sub: string)
    decreases |s|
  {
    sub <= s || (|s| > 0 && Contains(s[1..], sub))
  }

  lemma ContainsSuffix(s: string, sub: string, k: nat)
    requires k <= |s|
    requires Contains(s[k..], sub)
    ensures Contains(s, sub)
    decreases k
  {
    if k > 0 {
      assert s[1..][k - 1..] == s[k..];
      ContainsSuffix(s[1..], sub, k - 1);
    }
  }

  lemma {:induction false} ContainsAt(s: string, sub: string, k: nat)
    requires k + |sub| <= |s| && s[k..k + |sub|] == sub
    ensures Contains(s, sub)
  {
    assert sub <= s[k..];
    ContainsSuffix(s, sub, k);
  }

  /** A string that contains `sub` has a position where `sub` occurs. */
  lemma {:induction false} ContainsWitness(s: string, sub: string) returns (k: nat)
    requires Contains(s, sub)
    ensures k + |sub| <= |s| && s[k..k + |sub|] == sub
    decreases |s|
  {
    if sub <= s {
      k := 0;
    } else {
      var k' := ContainsWitness(s[1..], sub);
      k := k' + 1;
      assert s[k..k + |sub|] == s[1..][k'..k' + |sub|];
    }
  }

  /** A single-character string occurs exactly when the character does. */
  lemma {:induction false} ContainsChar(s: string, c: char)
    ensures Contains(s, [c]) <==> c in s
    decreases |s|
  {
    if |s| > 0 {
      ContainsChar(s[1..], c);
      assert s == [s[0]] + s[1..];
    }
  }

  /** Ruby `s.gsub(p, '')` for a literal, non-empty pattern: occurrences are
      removed left to right, without overlap. */
  function RemoveAll(s: string, p: string): (r: string)
    requires |p| > 0
    ensures |r| <= |s|
    decreases |s|
  {
    if |s| < |p| then s
    else if p <= s then RemoveAll(s[|p|..], p)
    else [s[0]] + RemoveAll(s[1..], p)
  }

  /** `gsub` leaves a string without the pattern unchanged. */
  lemma {:induction false} RemoveAllAbsent(s: string, p: string)
    requires |p| > 0
    requires !Contains(s, p)
    ensures RemoveAll(s, p) == s
    decreases |s|
  {
    if |s| >= |p| {
      assert !(p <= s);
      RemoveAllAbsent(s[1..], p);
      assert s == [s[0]] + s[1..];
    }
  }

  /** `gsub` removes a leading occurrence and carries on with the rest. */
  lemma RemoveAllPrefix(p: string, s: string)
    requires |p| > 0
    ensures RemoveAll(p + s, p) == RemoveAll(s, p)
  {
    assert (p + s)[|p|..] == s;
  }

  /** Ruby `s.sub(p, q)` for a literal, non-empty pattern: only the first
      occurrence is replaced. */
  function ReplaceFirst(s: string, p: string, q: string): (r: string)
    requires |p| > 0
    decreases |s|
  {
    if |s| < |p| then s
    else if p <= s then q + s[|p|..]
    else [s[0]] + ReplaceFirst(s[1..], p, q)
  }

  lemma {:induction false} ReplaceFirstAbsent(s: string, p: string, q: string)
    requires |p| > 0
    requires !Contains(s, p)
    ensures ReplaceFirst(s, p, q) == s
    decreases |s|
  {
    if |s| >= |p| {
      assert !(p <= s);
      ReplaceFirstAbsent(s[1..], p, q);
      assert s == [s[0]] + s[1..];
    }
  }

  /** The text after the last `c`, or all of `s` when `c` does not occur:
      what Ruby's `gsub` with the pattern "anything up to c" leaves of a
      single line (the match is greedy, so it ends at the last `c`). */
  function AfterLast(s: string, c: char): (r: string)
    ensures c !in r
    ensures |r| <= |s| && r == s[|s| - |r|..]
    ensures c !in s ==> r == s
    ensures c in s ==> |r| < |s| && s[|s| - |r| - 1] == c
    decreases |s|
  {
    if c !in s then s
    else if s[|s| - 1] == c then ""
    else
      var last := s[|s| - 1];
      var init := s[..|s| - 1];
      assert c in init by {
        var i :| 0 <= i < |s| && s[i] == c;
        assert i < |s| - 1 && init[i] == c;
      }
      AfterLast(init, c) + [last]
  }

  /** Whatever precedes the last `c`, `AfterLast` returns what follows it. */
  lemma {:induction false} AfterLastAppend(a: string, c: char, b: string)
    requires c !in b
    ensures AfterLast(a + [c] + b, c) == b
    decreases |b|
  {
    var s := a + [c] + b;
    assert s[|a|] == c;
    if |b| == 0 {
      assert s[|s| - 1] == c;
    } else {
      assert s[|s| - 1] == b[|b| - 1];
      assert s[..|s| - 1] == a + [c] + b[..|b| - 1];
      AfterLastAppend(a, c, b[..|b| - 1]);
      assert b[..|b| - 1] + [b[|b| - 1]] == b;
    }
  }

  /** The text before the first `c`, or all of `s` when `c` does not occur:
      what Ruby's `gsub` with the pattern "c followed by anything" leaves
      of a single line. */
  function BeforeFirst(s: string, c: char): (r: string)
    ensures c !in r
    ensures r <= s
    ensures c !in s ==> r == s
    ensures c in s ==> |r| < |s| && s[|r|] == c
    decreases |s|
  {
    if |s| == 0 then ""
    else if s[0] == c then ""
    else [s[0]] + BeforeFirst(s[1..], c)
  }

  lemma {:induction false} BeforeFirstAppend(a: string, c: char, b: string)
    requires c !in a
    ensures BeforeFirst(a + [c] + b, c) == a
    decreases |a|
  {
    if |a| > 0 {
      assert (a + [c] + b)[1..] == a[1..] + [c] + b;
      BeforeFirstAppend(a[1..], c, b);
    }
  }

  /** Every character of `s` is `c` (this includes the empty string). */
  predicate AllChar(s: string, c: char) {
    forall i :: 0 <= i < |s| ==> s[i] == c
  }

  /** `s` with every `c` deleted. */
  function Without(s: string, c: char): (r: string)
    ensures c !in r
    ensures |r| <= |s|
  {
    if |s| == 0 then ""
    else if s[0] == c then Without(s[1..], c)
    else [s[0]] + Without(s[1..], c)
  }

  lemma {:induction false} WithoutAppend(a: string, b: string, c: char)
    ensures Without(a + b, c) == Without(a, c) + Without(b, c)
    decreases |a|
  {
    if |a| > 0 {
      assert (a + b)[1..] == a[1..] + b;
      WithoutAppend(a[1..], b, c);
    } else {
      assert a + b == b;
    }
  }

  lemma {:induction false} WithoutAbsent(s: string, c: char)
    requires c !in s
    ensures Without(s, c) == s
    decreases |s|
  {
    if |s| > 0 {
      WithoutAbsent(s[1..], c);
      assert s == [s[0]] + s[1..];
    }
  }

  /** Ruby `s.split(sep)` keeps at least one field exactly when some character
      differs from the separator; `split(sep).first` is then the text before
      the first separator. */
  function SplitFirst(s: string, sep: char): (r: Option<string>)
    ensures r.None? <==> AllChar(s, sep)
    ensures r.Some? ==> r.value == BeforeFirst(s, sep)
  {
    if AllChar(s, sep) then None else Some(BeforeFirst(s, sep))
  }

  /** Decimal digits of a natural number, most significant first. */
  function Digits(n: nat): (r: string)
    ensures |r| > 0
    ensures forall i :: 0 <= i < |r| ==> '0' <= r[i] <= '9'
    decreases n
  {
    if n < 10 then [DigitChar(n)] else Digits(n / 10) + [DigitChar(n % 10)]
  }

  function DigitChar(d: nat): (c: char)
    requires d < 10
    ensures '0' <= c <= '9'
  {
    ['0', '1', '2', '3', '4', '5', '6', '7', '8', '9'][d]
  }

  lemma DigitCharInjective(a: nat, b: nat)
    requires a < 10 && b < 10 && DigitChar(a) == DigitChar(b)
    ensures a == b
  {
  }

  /** Different numbers render differently. */
  lemma {:induction false} DigitsInjective(a: nat, b: nat)
    requires Digits(a) == Digits(b)
    ensures a == b
    decreases a
  {
    if a < 10 && b < 10 {
      DigitCharInjective(a, b);
    } else if a >= 10 && b >= 10 {
      var da, db := Digits(a), Digits(b);
      assert da[|da| - 1] == DigitChar(a % 10) && db[|db| - 1] == DigitChar(b % 10);
      DigitCharInjective(a % 10, b % 10);
      assert da[..|da| - 1] == Digits(a / 10);
      assert db[..|db| - 1] == Digits(b / 10);
      DigitsInjective(a / 10, b / 10);
    }
  }

  /** Ruby `Integer#to_s`. */
  function IntToString(i: int): string {
    if i < 0 then "-" + Digits(-i) else Digits(i)
  }
}

=== FILE: types.dfy ===
/** The Dry::Types constructors of `Valkyrie::Types` and the instantiation of
    a resource from an attribute hash (Dry::Struct `new`), which the
    `Anything` constructor calls recursively for type-tagged hashes. */
module Types {
  import opened Wrappers
  import opened Strs
  import opened Values

  // ---- the library's named types ----

  /** `Valkyrie::Types::Array`: the constructor with its `[]` default. */
  function ArrayType(): AttrType { TDefault(TArray, Arr([])) }

  /** `Valkyrie::Types::Set`: the constructor with its `[]` default. */
  function SetType(): AttrType { TDefault(TSet, Arr([])) }

  /** The default a missing key takes, looking through `optional`. */
  function DefaultOf(ty: AttrType): Option<Value> {
    match ty
    case TDefault(_, d) => Some(d)
    case TOptional(inner) => DefaultOf(inner)
    case _ => None
  }

  // ---- Array.wrap and Types::Array ----

  /** ActiveSupport `Array.wrap`. */
  function Wrap(v: Value): (r: seq<Value>)
    ensures v.Nil? ==> r == []
    ensures v.Arr? ==> r == v.items
    ensures !v.Nil? && !v.Arr? ==> r == [v]
  {
    match v
    case Nil => []
    case Arr(xs) => xs
    case _ => [v]
  }

  /** Ruby's `Kernel#Array`: `nil` gives `[]`, an array itself, a hash its
      `[key, value]` pairs in order, anything else a one-element array. (A
      `Time` would give its ten calendar fields; the converters never apply
      it to one except for a bare `Time` under `member_ids`, which is taken
      as a one-element array.) */
  function KernelArray(v: Value): (r: seq<Value>)
    ensures v.Nil? ==> r == []
    ensures v.Arr? ==> r == v.items
    ensures v.Map? ==> |r| == |v.entries|
    ensures v.Map? ==> forall i :: 0 <= i < |r| ==> r[i] == Arr([KeyValue(v.entries[i].key), v.entries[i].val])
    ensures !v.Nil? && !v.Arr? && !v.Map? ==> r == [v]
  {
    match v
    case Map(es) => HashPairs(es)
    case _ => Wrap(v)
  }

  /** `hash.to_a`. */
  function HashPairs(es: seq<Entry>): (r: seq<Value>)
    ensures |r| == |es|
    ensures forall i :: 0 <= i < |r| ==> r[i] == Arr([KeyValue(es[i].key), es[i].val])
  {
    if |es| == 0 then [] else [Arr([KeyValue(es[0].key), es[0].val])] + HashPairs(es[1..])
  }

  /** `Kernel#Array` and `Array.wrap` differ only on hashes, which
      `Array.wrap` keeps whole. */
  lemma KernelArrayWrap(v: Value)
    ensures v.Map? ==> Wrap(v) == [v] && |KernelArray(v)| == |v.entries|
    ensures !v.Map? ==> KernelArray(v) == Wrap(v)
  {
  }

  /** The constructor of `Valkyrie::Types::Array`: an empty hash becomes `[]`,
      a non-empty one a one-element array, anything else goes through
      `Array.wrap`. */
  function ArrayCast(v: Value): (r: seq<Value>)
    ensures v.Nil? ==> r == []
    ensures v.Arr? ==> r == v.items
    ensures v.Map? && |v.entries| == 0 ==> r == []
    ensures v.Map? && |v.entries| > 0 ==> r == [v]
    ensures !v.Nil? && !v.Arr? && !v.Map? ==> r == [v]
    ensures SizeSeq(r) <= Size(v)
  {
    match v
    case Map(es) => if |es| == 0 then [] else [v]
    case _ => Wrap(v)
  }

  /** Casting the result of a cast changes nothing. */
  lemma ArrayCastIdempotent(v: Value)
    ensures ArrayCast(Arr(ArrayCast(v))) == ArrayCast(v)
  {
  }

  // ---- the cleaning step of Types::Set ----

  /** The elements `Set` rejects: those equal to `''` (the string itself,
      and the RDF terms whose `==` accepts it: a plain literal or a URI with
      empty text), an ID whose string is `''`, and `nil`. */
  predicate Dropped(x: Value) {
    x == Str("") || x == Rdf(StrLit("", "")) || x == Rdf(Iri("")) || x == Id("") || x == Nil
  }

  /** `reject { |val| val == '' || empty ID }.reject(&:nil?)`. */
  function Clean(xs: seq<Value>): (r: seq<Value>)
    ensures |r| <= |xs|
    ensures forall x :: x in r <==> x in xs && !Dropped(x)
  {
    if |xs| == 0 then []
    else if Dropped(xs[0]) then Clean(xs[1..])
    else [xs[0]] + Clean(xs[1..])
  }

  predicate NoDup(xs: seq<Value>) {
    forall i, j :: 0 <= i < j < |xs| ==> xs[i] != xs[j]
  }

  /** Ruby `uniq`: scanning left to right, an element is kept when it has not
      been kept before. */
  function Uniq(xs: seq<Value>): (r: seq<Value>)
    ensures |r| <= |xs|
    ensures NoDup(r)
    ensures forall x :: x in r <==> x in xs
  {
    if |xs| == 0 then []
    else
      var init := Uniq(xs[..|xs| - 1]);
      var last := xs[|xs| - 1];
      assert xs == xs[..|xs| - 1] + [last];
      if last in init then init else init + [last]
  }

  /** Position of the first occurrence of `x`. */
  function FirstIndex(xs: seq<Value>, x: Value): (i: nat)
    requires x in xs
    ensures i < |xs| && xs[i] == x
    ensures forall k :: 0 <= k < i ==> xs[k] != x
  {
    if xs[0] == x then 0 else 1 + FirstIndex(xs[1..], x)
  }

  lemma FirstIndexAppend(xs: seq<Value>, y: Value, x: Value)
    requires x in xs + [y]
    ensures x in xs ==> FirstIndex(xs + [y], x) == FirstIndex(xs, x)
    ensures x !in xs ==> FirstIndex(xs + [y], x) == |xs|
  {
    var zs := xs + [y];
    if x in xs {
      var j := FirstIndex(xs, x);
      assert zs[j] == x;
      assert forall k :: 0 <= k < j ==> zs[k] != x;
    } else {
      assert zs[|xs|] == x;
      assert forall k :: 0 <= k < |xs| ==> zs[k] != x;
    }
  }

  /** `uniq` keeps the survivors in the order of their first occurrence. */
  lemma {:induction false} UniqOrder(xs: seq<Value>)
    ensures forall i, j :: 0 <= i < j < |Uniq(xs)| ==>
      FirstIndex(xs, Uniq(xs)[i]) < FirstIndex(xs, Uniq(xs)[j])
  {
    if |xs| > 0 {
      var pre := xs[..|xs| - 1];
      var last := xs[|xs| - 1];
      assert xs == pre + [last];
      UniqOrder(pre);
      var u := Uniq(xs);
      var up := Uniq(pre);
      forall i, j | 0 <= i < j < |u|
        ensures FirstIndex(xs, u[i]) < FirstIndex(xs, u[j])
      {
        assert u[i] == up[i] && u[i] in pre;
        FirstIndexAppend(pre, last, u[i]);
        FirstIndexAppend(pre, last, u[j]);
        if j < |up| {
          assert u[j] == up[j] && u[j] in pre;
        } else {
          assert u[j] == last && last !in up;
        }
      }
    }
  }

  /** `uniq` changes nothing in a sequence without duplicates. */
  lemma {:induction false} UniqNoDup(xs: seq<Value>)
    requires NoDup(xs)
    ensures Uniq(xs) == xs
  {
    if |xs| > 0 {
      var pre := xs[..|xs| - 1];
      assert NoDup(pre) by {
        forall i, j | 0 <= i < j < |pre| ensures pre[i] != pre[j] {
          assert pre[i] == xs[i] && pre[j] == xs[j];
        }
      }
      UniqNoDup(pre);
      assert xs[|xs| - 1] !in pre by {
        forall i | 0 <= i < |pre| ensures pre[i] != xs[|xs| - 1] {
          assert pre[i] == xs[i];
        }
      }
      assert xs == pre + [xs[|xs| - 1]];
    }
  }

  /** `Clean` changes nothing when nothing is to be dropped. */
  lemma {:induction false} CleanNothingDropped(xs: seq<Value>)
    requires forall x :: x in xs ==> !Dropped(x)
    ensures Clean(xs) == xs
  {
    if |xs| > 0 {
      assert forall x :: x in xs[1..] ==> x in xs;
      CleanNothingDropped(xs[1..]);
      assert xs == [xs[0]] + xs[1..];
    }
  }

  /** The cleaned, de-duplicated sequence `Set` hands to `Anything`. */
  function SetClean(xs: seq<Value>): (r: seq<Value>)
    ensures |r| <= |xs|
    ensures NoDup(r)
    ensures forall x :: x in r <==> x in xs && !Dropped(x)
  {
    Uniq(Clean(xs))
  }

  // ---- scalar constructors ----

  /** A hash carrying a truthy `internal_resource`: `Anything` turns it into
      a resource. */
  predicate Tagged(v: Value) {
    v.Map? && Lookup(v.entries, SymKey("internal_resource")).Some?
    && Truthy(Lookup(v.entries, SymKey("internal_resource")).value)
  }

  function KeyValue(k: Key): Value {
    match k
    case SymKey(n) => Symbol(n)
    case StrKey(n) => Str(n)
  }

  /** `Valkyrie::Types::ID`: an enumerable (array or hash) gives the ID of
      its first element, anything else the ID of itself; an ID is built from
      its argument's string. */
  function IdCast(cfg: Config, v: Value): (r: Value)
    ensures r.Id?
    ensures !v.Arr? && !v.Map? ==> r == Id(ToS(cfg, v))
    ensures v.Arr? && |v.items| > 0 ==> r == Id(ToS(cfg, v.items[0]))
    ensures v.Arr? && |v.items| == 0 ==> r == Id("")
  {
    match v
    case Arr(xs) => if |xs| == 0 then Id("") else Id(ToS(cfg, xs[0]))
    case Map(es) =>
      if |es| == 0 then Id("") else Id(ToS(cfg, Arr([KeyValue(es[0].key), es[0].val])))
    case _ => Id(ToS(cfg, v))
  }

  /** An ID is its own ID. */
  lemma IdCastId(cfg: Config, s: string)
    ensures IdCast(cfg, Id(s)) == Id(s)
    ensures IdCast(cfg, Str(s)) == Id(s)
    ensures IdCast(cfg, Arr([Id(s)])) == Id(s)
  {
  }

  /** `Valkyrie::Types::Params::ID`: a constructor on top of
      `Valkyrie::Types::ID`, so the `ID` block runs first and the blank test
      sees the resulting ID. A blank ID gives `nil`; any other ID is cast
      with `Valkyrie::Types::ID` again. */
  function ParamsId(cfg: Config, v: Value): (r: Value)
    ensures r.Nil? || r.Id?
    ensures r.Nil? <==> Blank(IdCast(cfg, v))
    ensures !v.Arr? && !v.Map? ==> (r.Nil? <==> BlankString(ToS(cfg, v)))
    ensures r.Id? ==> r == IdCast(cfg, v)
  {
    var i := IdCast(cfg, v);
    if Blank(i) then Nil else IdCast(cfg, i)
  }

  /** `Params::ID` depends on its input only through the `ID` cast. */
  lemma ParamsIdThroughId(cfg: Config, v: Value)
    ensures ParamsId(cfg, v) == ParamsId(cfg, IdCast(cfg, v))
  {
    IdCastId(cfg, IdCast(cfg, v).id);
  }

  /** Casting a `Params::ID` result again changes nothing: `nil` stays
      `nil`, and a present ID stays that ID. */
  lemma ParamsIdIdempotent(cfg: Config, v: Value)
    ensures ParamsId(cfg, ParamsId(cfg, v)) == ParamsId(cfg, v)
  {
    var r := ParamsId(cfg, v);
    if r.Id? {
      IdCastId(cfg, r.id);
    } else {
      assert IdCast(cfg, Nil) == Id("");
    }
  }

  /** `false` is blank, but its ID "false" is not, so `Params::ID` gives
      that ID; an array whose first element is "" is not blank, but its ID
      is, so it gives `nil`. */
  lemma ParamsIdOfFalse(cfg: Config)
    ensures Blank(Bool(false)) && ParamsId(cfg, Bool(false)) == Id("false")
    ensures !Blank(Arr([Str("")])) && ParamsId(cfg, Arr([Str("")])) == Nil
  {
    assert ToS(cfg, Bool(false)) == "false";
    assert "false"[0] == 'f' && !IsSpace('f');
  }

  /** `Valkyrie::Types::URI`: a present value becomes the URI of its string,
      a blank one passes through. */
  function UriCast(cfg: Config, v: Value): (r: Value)
    ensures !Blank(v) ==> r == Rdf(Iri(ToS(cfg, v)))
    ensures Blank(v) ==> r == v
  {
    if !Blank(v) then Rdf(Iri(ToS(cfg, v))) else v
  }

  /** A URI cast is stable: casting its result again gives the same URI. */
  lemma UriCastIdempotent(cfg: Config, v: Value)
    ensures UriCast(cfg, UriCast(cfg, v)) == UriCast(cfg, v)
  {
    if !Blank(v) {
      var s := ToS(cfg, v);
      if |s| == 0 {
        assert Blank(Rdf(Iri(s)));
      }
    }
  }

  /** `Valkyrie::Types::SingleValuedString`: the string of the first element
      of the wrapped input; `nil` and `[]` give the empty string. */
  function SingleValuedString(cfg: Config, v: Value): (r: Value)
    ensures r.Str?
    ensures |Wrap(v)| == 0 ==> r == Str("")
    ensures |Wrap(v)| > 0 ==> r == Str(ToS(cfg, Wrap(v)[0]))
  {
    var w := Wrap(v);
    if |w| == 0 then Str("") else Str(ToS(cfg, w[0]))
  }

  /** A string is its own single-valued string, bare or in an array. */
  lemma SingleValuedStringOfString(cfg: Config, s: string)
    ensures SingleValuedString(cfg, Str(s)) == Str(s)
    ensures SingleValuedString(cfg, Arr([Str(s)])) == Str(s)
  {
  }

  // ---- Anything, Set, coercion and instantiation ----

  /** `Valkyrie::Types::Anything`: a tagged hash becomes an instance of the
      class the resolver returns for its tag. Any other value passes
      through, except an array: it answers `fetch`, and `[].fetch(:sym, nil)`
      raises a TypeError. */
  function Anything(cfg: Config, v: Value): (r: Result<Value>)
    ensures !Tagged(v) && v.Arr? ==> r == Err(TypeError)
    ensures !Tagged(v) && !v.Arr? ==> r == Ok(v)
    ensures Tagged(v) && r.Ok? ==>
      r.value.Res? && r.value.resource.klass == cfg.resolve(Lookup(v.entries, SymKey("internal_resource")).value)
    ensures r.Err? ==> r.error == TypeError
    decreases Size(v), 1
  {
    if Tagged(v) then
      var klass := cfg.resolve(Lookup(v.entries, SymKey("internal_resource")).value);
      var res :- NewResource(cfg, klass, v.entries);
      Ok(Res(res))
    else if v.Arr? then Err(TypeError)
    else Ok(v)
  }

  /** `Anything` applied to each element; `bound` is a ghost size bound
      that carries the recursion. */
  function MapAnything(cfg: Config, xs: seq<Value>, ghost bound: nat): (r: Result<seq<Value>>)
    requires forall x :: x in xs ==> Size(x) <= bound
    ensures r.Ok? ==> |r.value| == |xs|
    ensures r.Ok? ==> forall i :: 0 <= i < |xs| ==> Anything(cfg, xs[i]) == Ok(r.value[i])
    ensures r.Ok? <==> forall i :: 0 <= i < |xs| ==> Anything(cfg, xs[i]).Ok?
    ensures r.Err? ==> r.error == TypeError
    decreases bound, 2, |xs|
  {
    if |xs| == 0 then Ok([])
    else
      var y :- Anything(cfg, xs[0]);
      assert forall x :: x in xs[1..] ==> x in xs;
      var ys :- MapAnything(cfg, xs[1..], bound);
      assert forall i :: 1 <= i < |xs| ==> xs[i] == xs[1..][i - 1];
      Ok([y] + ys)
  }

  /** The constructor of `Valkyrie::Types::Set`: cast to an array, drop
      blanks and nils, remove duplicates, then pass each survivor through
      `Anything`. */
  function SetCast(cfg: Config, v: Value): (r: Result<seq<Value>>)
    ensures forall x :: x in SetClean(ArrayCast(v)) ==> Size(x) <= Size(v)
    ensures r.Ok? ==> |r.value| == |SetClean(ArrayCast(v))|
    ensures r.Ok? ==> forall i :: 0 <= i < |r.value| ==>
      Anything(cfg, SetClean(ArrayCast(v))[i]) == Ok(r.value[i])
    ensures r.Err? ==> r.error == TypeError
    decreases Size(v), 3, 0
  {
    var xs := SetClean(ArrayCast(v));
    forall x | x in xs ensures Size(x) <= Size(v) {
      SizeSeqMember(ArrayCast(v), x);
    }
    MapAnything(cfg, xs, Size(v))
  }

  /** A successful `Set` cast holds no `nil`, `''` or empty ID, is no longer
      than the array-wrapped input. */
  lemma SetCastProps(cfg: Config, v: Value)
    ensures SetCast(cfg, v).Ok? ==> |SetCast(cfg, v).value| <= |ArrayCast(v)|
    ensures SetCast(cfg, v).Ok? ==> forall x :: x in SetCast(cfg, v).value ==> !Dropped(x)
  {
    var xs := SetClean(ArrayCast(v));
    var r := SetCast(cfg, v);
    if r.Ok? {
      forall x | x in r.value ensures !Dropped(x) {
        var i :| 0 <= i < |r.value| && r.value[i] == x;
        assert xs[i] in xs;
      }
    }
  }

  /** `Anything` is stable: what it returns, it returns unchanged. */
  lemma AnythingIdempotent(cfg: Config, v: Value)
    requires Anything(cfg, v).Ok?
    ensures Anything(cfg, Anything(cfg, v).value) == Anything(cfg, v)
  {
  }

  /** `Anything` leaves a sequence of untagged non-arrays as it is. */
  lemma {:induction false} MapAnythingIdentity(cfg: Config, xs: seq<Value>, bound: nat)
    requires forall x :: x in xs ==> Size(x) <= bound && !Tagged(x) && !x.Arr?
    ensures MapAnything(cfg, xs, bound) == Ok(xs)
  {
    if |xs| > 0 {
      assert forall x :: x in xs[1..] ==> x in xs;
      MapAnythingIdentity(cfg, xs[1..], bound);
      assert xs == [xs[0]] + xs[1..];
    }
  }

  /** `Set` is idempotent on input without type-tagged hashes: casting its
      result again gives the same elements. */
  lemma {:induction false} SetIdempotent(cfg: Config, v: Value)
    requires SetCast(cfg, v).Ok?
    requires forall x :: x in ArrayCast(v) ==> !Tagged(x)
    ensures SetCast(cfg, Arr(SetCast(cfg, v).value)) == SetCast(cfg, v)
  {
    var xs := SetClean(ArrayCast(v));
    var ys := SetCast(cfg, v).value;
    assert ys == xs by {
      forall i | 0 <= i < |xs| ensures ys[i] == xs[i] {
        assert xs[i] in ArrayCast(v);
      }
    }
    assert forall x :: x in xs ==> !Tagged(x) && !x.Arr? && !Dropped(x) by {
      forall x | x in xs ensures !Tagged(x) && !x.Arr? && !Dropped(x) {
        var i :| 0 <= i < |xs| && xs[i] == x;
        assert Anything(cfg, xs[i]) == Ok(ys[i]);
      }
    }
    SetCastFixpoint(cfg, xs);
  }

  /** A duplicate-free sequence of untagged scalars is its own `Set` cast. */
  lemma SetCastFixpoint(cfg: Config, xs: seq<Value>)
    requires NoDup(xs)
    requires forall x :: x in xs ==> !Tagged(x) && !x.Arr? && !Dropped(x)
    ensures SetCast(cfg, Arr(xs)) == Ok(xs)
  {
    CleanNothingDropped(xs);
    UniqNoDup(xs);
    assert SetClean(ArrayCast(Arr(xs))) == xs;
    forall x | x in xs ensures Size(x) <= Size(Arr(xs)) {
      SizeSeqMember(xs, x);
    }
    MapAnythingIdentity(cfg, xs, Size(Arr(xs)));
  }

  /** `RDF::Literal#==` accepts `''` only for a literal without language
      or datatype: `Set` drops the empty plain literal and keeps an empty
      language-tagged one. */
  lemma SetEmptyLiterals(cfg: Config)
    ensures SetCast(cfg, Arr([Rdf(StrLit("", "")), Rdf(Iri(""))])) == Ok([])
    ensures SetCast(cfg, Arr([Rdf(StrLit("", "en"))])) == Ok([Rdf(StrLit("", "en"))])
  {
    SetAllDropped(cfg, [Rdf(StrLit("", "")), Rdf(Iri(""))]);
    SetCastFixpoint(cfg, [Rdf(StrLit("", "en"))]);
  }

  /** An array of dropped elements only is the empty set. */
  lemma SetAllDropped(cfg: Config, xs: seq<Value>)
    requires forall i :: 0 <= i < |xs| ==> Dropped(xs[i])
    ensures SetCast(cfg, Arr(xs)) == Ok([])
  {
    CleanAllDropped(xs);
  }

  /** Cleaning an array of dropped elements only leaves nothing. */
  lemma {:induction false} CleanAllDropped(xs: seq<Value>)
    requires forall i :: 0 <= i < |xs| ==> Dropped(xs[i])
    ensures Clean(xs) == []
    decreases |xs|
  {
    if |xs| > 0 {
      CleanAllDropped(xs[1..]);
    }
  }

  /** `schema[name].call(value)` for one attribute type. */
  function Coerce(cfg: Config, ty: AttrType, v: Value): (r: Result<Value>)
    ensures ty.TOptional? && v.Nil? ==> r == Ok(Nil)
    ensures ty.TDefault? && v.Nil? ==> r == Ok(ty.default)
    ensures ty.TSet? ==> (r.Ok? <==> SetCast(cfg, v).Ok?)
    ensures ty.TSet? && r.Ok? ==> r.value == Arr(SetCast(cfg, v).value)
    ensures r.Err? ==> r.error == TypeError
    decreases Size(v), 4, ty
  {
    match ty
    case TId => Ok(IdCast(cfg, v))
    case TParamsId => Ok(ParamsId(cfg, v))
    case TUri => Ok(UriCast(cfg, v))
    case TAnything => Anything(cfg, v)
    case TArray => Ok(Arr(ArrayCast(v)))
    case TSet =>
      var xs :- SetCast(cfg, v);
      Ok(Arr(xs))
    case TLockTokens =>
      var xs :- SetCast(cfg, v);
      Ok(Arr(MapDeserialize(cfg, xs)))
    case TSingleValuedString => Ok(SingleValuedString(cfg, v))
    case TNominal => Ok(v)
    case TOptional(inner) => if v.Nil? then Ok(Nil) else Coerce(cfg, inner, v)
    case TDefault(inner, d) => if v.Nil? then Ok(d) else Coerce(cfg, inner, v)
  }

  /** `OptimisticLockToken.deserialize` on each element: a token is kept as
      it is, anything else is handed to the configured deserializer. */
  function MapDeserialize(cfg: Config, xs: seq<Value>): (r: seq<Value>)
    ensures |r| == |xs|
    ensures forall i :: 0 <= i < |xs| ==> r[i].Token?
    ensures forall i :: 0 <= i < |xs| && xs[i].Token? ==> r[i] == xs[i]
  {
    if |xs| == 0 then []
    else
      var x := if xs[0].Token? then xs[0] else Token(cfg.deserialize(xs[0]));
      [x] + MapDeserialize(cfg, xs[1..])
  }

  /** Dry::Struct refuses to declare a name twice, so schemas have unique
      names. */
  predicate UniqueNames(decls: seq<Decl>) {
    forall i, j :: 0 <= i < j < |decls| ==> decls[i].name != decls[j].name
  }

  /** Dry::Struct `new` on an attribute hash: each schema attribute takes its
      coerced input value; a missing key (or `nil` for a type with a default)
      takes the type's default, and without one the attribute is left out.
      Keys the schema does not declare are ignored. */
  function NewResource(cfg: Config, klass: Klass, input: seq<Entry>): (r: Result<Resource>)
    ensures r.Ok? ==> r.value.klass == klass
    ensures r.Ok? ==> NewAttrs(cfg, klass.schema, input) == Ok(r.value.attrs)
    ensures r.Err? ==> r.error == TypeError
    decreases SizeEntries(input), 7, 0
  {
    var attrs :- NewAttrs(cfg, klass.schema, input);
    Ok(Resource(klass, attrs))
  }

  /** The attribute hash, filled in declaration order: each declared name
      is assigned after the names declared before it. */
  function NewAttrs(cfg: Config, decls: seq<Decl>, input: seq<Entry>): (r: Result<seq<Entry>>)
    ensures r.Ok? ==> forall k :: HasKey(r.value, k) ==>
      exists i :: 0 <= i < |decls| && k == SymKey(decls[i].name)
    ensures r.Ok? && UniqueNames(decls) ==> forall i :: 0 <= i < |decls| ==>
      (HasKey(r.value, SymKey(decls[i].name)) <==>
        HasKey(input, SymKey(decls[i].name)) || DefaultOf(decls[i].ty).Some?)
    ensures r.Err? ==> r.error == TypeError
    decreases SizeEntries(input), 6, |decls|
  {
    if |decls| == 0 then Ok([])
    else
      var d := decls[|decls| - 1];
      var k := SymKey(d.name);
      var rest :- NewAttrs(cfg, decls[..|decls| - 1], input);
      var here :- AttrValue(cfg, d, input);
      assert forall i :: 0 <= i < |decls| - 1 ==> decls[i] == decls[..|decls| - 1][i];
      assert UniqueNames(decls) ==> UniqueNames(decls[..|decls| - 1]);
      match here
      case None =>
        assert !HasKey(input, k) && DefaultOf(d.ty).None?;
        Ok(rest)
      case Some(x) =>
        var r := Put(rest, k, x);
        assert forall k' :: HasKey(r, k') <==> k' == k || HasKey(rest, k') by {
          forall k' ensures HasKey(r, k') <==> k' == k || HasKey(rest, k') {
            assert Lookup(r, k').Some? <==> Lookup(rest, k').Some? || k' == k;
          }
        }
        Ok(r)
  }

  /** The names a new instance holds, in declaration order: those given in
      the input or with a default. */
  function PresentKeys(decls: seq<Decl>, input: seq<Entry>): seq<Key> {
    if |decls| == 0 then []
    else
      var d := decls[|decls| - 1];
      PresentKeys(decls[..|decls| - 1], input) +
        (if HasKey(input, SymKey(d.name)) || DefaultOf(d.ty).Some? then [SymKey(d.name)] else [])
  }

  /** A new instance's attribute hash lists its names in the order the
      schema declares them. */
  lemma {:induction false} NewAttrsOrder(cfg: Config, decls: seq<Decl>, input: seq<Entry>)
    requires UniqueNames(decls) && NewAttrs(cfg, decls, input).Ok?
    ensures Keys(NewAttrs(cfg, decls, input).value) == PresentKeys(decls, input)
  {
    if |decls| > 0 {
      var d := decls[|decls| - 1];
      var k := SymKey(d.name);
      var init := decls[..|decls| - 1];
      assert forall i :: 0 <= i < |decls| - 1 ==> decls[i] == init[i];
      assert UniqueNames(init);
      NewAttrsOrder(cfg, init, input);
      var rest := NewAttrs(cfg, init, input).value;
      match AttrValue(cfg, d, input).value
      case None =>
      case Some(x) =>
        assert !HasKey(rest, k);
        PutAppends(rest, k, x);
        KeysSnoc(rest, Entry(k, x));
    }
  }
  /** The value one declared attribute takes from the input hash. */
  function AttrValue(cfg: Config, d: Decl, input: seq<Entry>): (r: Result<Option<Value>>)
    ensures r.Ok? ==> (r.value.Some? <==> HasKey(input, SymKey(d.name)) || DefaultOf(d.ty).Some?)
    ensures !HasKey(input, SymKey(d.name)) ==> r == Ok(DefaultOf(d.ty))
    ensures r.Err? ==> r.error == TypeError
    decreases SizeEntries(input), 5, 0
  {
    var k := SymKey(d.name);
    match Lookup(input, k)
    case None => Ok(DefaultOf(d.ty))
    case Some(x) =>
      if x.Nil? && DefaultOf(d.ty).Some? then Ok(DefaultOf(d.ty))
      else
        SizeEntriesLookup(input, k);
        var y :- Coerce(cfg, d.ty, x);
        Ok(Some(y))
  }
}

=== FILE: values.dfy ===
/** The Ruby objects that flow through Valkyrie's persistence core, as one
    closed datatype, plus the ordered-hash operations the code performs on
    attribute hashes. */
module Values {
  import opened Wrappers
  import opened Strs

  /** A point in time together with the UTC offset it is expressed in. The
      calendar arithmetic behind Ruby's time classes is not modelled: moving
      a value to UTC keeps the instant and sets the offset to zero. */
  datatype Instant = Instant(epoch: int, offset: int)

  function ToUtc(t: Instant): (u: Instant)
    ensures u.epoch == t.epoch && u.offset == 0
  {
    Instant(t.epoch, 0)
  }

  /** An optimistic-lock token: the adapter that issued it and an opaque
      token value (the source uses `Time.now.to_r`). */
  datatype LockToken = LockToken(adapterId: string, token: int)

  /** Ruby hash keys: symbols (`:title`) and strings (`"title"`) are
      different keys. */
  datatype Key = SymKey(name: string) | StrKey(name: string)

  /** RDF terms as RDF.rb builds them. A literal with an empty `lang` is an
      `xsd:string` literal; `TypedLit` carries any other datatype IRI;
      `BNode(id)` is the blank node `_:id`. */
  datatype Term =
    | Iri(iri: string)
    | StrLit(lex: string, lang: string)
    | IntLit(i: int)
    | DateTimeLit(t: Instant)
    | BoolLit(b: bool)
    | TypedLit(lex: string, dtype: string)
    | BNode(id: string)

  datatype Value =
    | Nil
    | Bool(b: bool)
    | Int(i: int)
    | Str(s: string)
    | Symbol(name: string)
    | Id(id: string)             // Valkyrie::ID, compared by its string
    | Time(t: Instant)           // Ruby Time / ActiveSupport::TimeWithZone
    | DateTime(t: Instant)       // Ruby DateTime
    | Rdf(term: Term)            // RDF::URI and RDF::Literal objects
    | Token(token: LockToken)    // Valkyrie::Persistence::OptimisticLockToken
    | Arr(items: seq<Value>)
    | Map(entries: seq<Entry>)   // a Ruby Hash, in insertion order
    | Res(resource: Resource)    // an instance of a Valkyrie::Resource subclass

  datatype Entry = Entry(key: Key, val: Value)

  /** A resource instance: its class and its attribute hash (symbol keys). */
  datatype Resource = Resource(klass: Klass, attrs: seq<Entry>)

  /** A resource class: its name and its Dry::Struct schema, in declaration
      order. */
  datatype Klass = Klass(name: string, schema: seq<Decl>)

  /** One schema entry; `ordered` is the `meta(ordered: true)` flag. */
  datatype Decl = Decl(name: string, ty: AttrType, ordered: bool)

  /** The attribute types the resource schema uses. */
  datatype AttrType =
    | TId                         // Valkyrie::Types::ID
    | TParamsId                   // Valkyrie::Types::Params::ID
    | TUri                        // Valkyrie::Types::URI
    | TAnything                   // Valkyrie::Types::Anything
    | TArray                      // the constructor of Valkyrie::Types::Array
    | TSet                        // the constructor of Valkyrie::Types::Set
    | TLockTokens                 // Set.of(OptimisticLockToken)
    | TSingleValuedString         // Valkyrie::Types::SingleValuedString
    | TNominal                    // a nominal Dry type (DateTime, Bool, Any): no coercion
    | TOptional(inner: AttrType)  // type.optional: nil passes through
    | TDefault(inner: AttrType, default: Value)  // type.default(value)

  /** What the model takes from its environment instead of computing it:
      Valkyrie's resource class resolver (called with the value stored under
      `internal_resource`), `OptimisticLockToken.deserialize` on values that
      are not already tokens, and Ruby's
      `to_s` for the objects whose string form the model does not spell out
      (times and compound values). */
  datatype Config = Config(
    resolve: Value -> Klass,
    deserialize: Value -> LockToken,
    render: Value -> string)

  /** A size measure on values, used to bound the recursion of the converters
      that descend into arrays, hashes and nested resources. */
  function Size(v: Value): (n: nat)
    ensures n >= 1
  {
    match v
    case Arr(xs) => 1 + SizeSeq(xs)
    case Map(es) => 1 + SizeEntries(es)
    case _ => 1
  }

  function SizeSeq(xs: seq<Value>): nat {
    if |xs| == 0 then 0 else Size(xs[0]) + SizeSeq(xs[1..])
  }

  function SizeEntry(e: Entry): nat {
    Size(e.val)
  }

  function SizeEntries(es: seq<Entry>): nat {
    if |es| == 0 then 0 else SizeEntry(es[0]) + SizeEntries(es[1..])
  }

  /** Every element of a sequence is no larger than the whole sequence. */
  lemma {:induction false} SizeSeqMember(xs: seq<Value>, x: Value)
    requires x in xs
    ensures Size(x) <= SizeSeq(xs)
  {
    if xs[0] != x {
      assert x in xs[1..];
      SizeSeqMember(xs[1..], x);
    }
  }

  lemma {:induction false} SizeSeqAppend(xs: seq<Value>, ys: seq<Value>)
    ensures SizeSeq(xs + ys) == SizeSeq(xs) + SizeSeq(ys)
  {
    if |xs| > 0 {
      assert (xs + ys)[1..] == xs[1..] + ys;
      SizeSeqAppend(xs[1..], ys);
    } else {
      assert xs + ys == ys;
    }
  }

  /** Every value stored in a hash is no larger than the hash's entries. */
  lemma {:induction false} SizeEntriesLookup(es: seq<Entry>, k: Key)
    requires Lookup(es, k).Some?
    ensures Size(Lookup(es, k).value) <= SizeEntries(es)
  {
    if es[0].key != k {
      SizeEntriesLookup(es[1..], k);
    }
  }

  /** Ruby truthiness: everything except `nil` and `false`. */
  predicate Truthy(v: Value) {
    !(v.Nil? || v == Bool(false))
  }

  predicate IsSpace(c: char) {
    c == ' ' || c == '\t' || c == '\n' || c == '\r' || c == '\U{B}' || c == '\U{C}'
  }

  /** ActiveSupport `String#blank?`: empty or whitespace only. */
  predicate BlankString(s: string) {
    forall i :: 0 <= i < |s| ==> IsSpace(s[i])
  }

  /** ActiveSupport `blank?` on the values the core tests: nil, false, blank
      strings and symbols, empty arrays and hashes, and an ID or RDF term
      whose string is blank. */
  predicate Blank(v: Value) {
    match v
    case Nil => true
    case Bool(b) => !b
    case Str(s) => BlankString(s)
    case Symbol(n) => |n| == 0
    case Id(s) => BlankString(s)
    case Rdf(t) => t.Iri? && |t.iri| == 0
    case Arr(xs) => |xs| == 0
    case Map(es) => |es| == 0
    case _ => false
  }

  function BoolString(b: bool): string {
    if b then "true" else "false"
  }

  /** Ruby `to_s`. */
  function ToS(cfg: Config, v: Value): (s: string)
    ensures v.Str? ==> s == v.s
    ensures v.Id? ==> s == v.id
    ensures v.Nil? ==> s == ""
  {
    match v
    case Nil => ""
    case Bool(b) => BoolString(b)
    case Int(i) => IntToString(i)
    case Str(s) => s
    case Symbol(n) => n
    case Id(s) => s
    case Rdf(t) =>
      (match t
       case Iri(s) => s
       case StrLit(lex, _) => lex
       case TypedLit(lex, _) => lex
       case IntLit(i) => IntToString(i)
       case BoolLit(b) => BoolString(b)
       case BNode(id) => "_:" + id
       case DateTimeLit(_) => cfg.render(v))
    case _ => cfg.render(v)
  }

  // ---- Ruby Hash operations on an ordered list of entries ----

  predicate HasKey(es: seq<Entry>, k: Key) {
    exists i :: 0 <= i < |es| && es[i].key == k
  }

  predicate UniqueKeys(es: seq<Entry>) {
    forall i, j :: 0 <= i < j < |es| ==> es[i].key != es[j].key
  }

  function Keys(es: seq<Entry>): (ks: seq<Key>)
    ensures |ks| == |es|
    ensures forall i :: 0 <= i < |es| ==> ks[i] == es[i].key
  {
    if |es| == 0 then [] else [es[0].key] + Keys(es[1..])
  }

  /** A key occurs in a non-empty hash exactly when it is the first key or
      occurs in the rest. */
  lemma HasKeyCons(es: seq<Entry>, k: Key)
    requires |es| > 0
    ensures HasKey(es, k) <==> es[0].key == k || HasKey(es[1..], k)
  {
    if HasKey(es, k) && es[0].key != k {
      var i :| 0 <= i < |es| && es[i].key == k;
      assert es[1..][i - 1].key == k;
    }
    if HasKey(es[1..], k) {
      var i :| 0 <= i < |es| - 1 && es[1..][i].key == k;
      assert es[i + 1].key == k;
    }
  }

  /** `hash[k]`: the value stored under `k`, if any. */
  function Lookup(es: seq<Entry>, k: Key): (r: Option<Value>)
    ensures r.Some? <==> HasKey(es, k)
  {
    if |es| == 0 then None
    else
      HasKeyCons(es, k);
      if es[0].key == k then Some(es[0].val) else Lookup(es[1..], k)
  }

  /** With unique keys, `hash[k]` finds exactly the entry stored under `k`. */
  lemma {:induction false} LookupUnique(es: seq<Entry>, i: nat)
    requires UniqueKeys(es) && i < |es|
    ensures Lookup(es, es[i].key) == Some(es[i].val)
  {
    if i > 0 {
      assert es[0].key != es[i].key;
      assert UniqueKeys(es[1..]) by {
        forall a, b | 0 <= a < b < |es| - 1 ensures es[1..][a].key != es[1..][b].key {
          assert es[a + 1].key != es[b + 1].key;
        }
      }
      LookupUnique(es[1..], i - 1);
    }
  }

  /** `hash[k]`, or `nil` when absent. */
  function Fetch(es: seq<Entry>, k: Key): Value {
    match Lookup(es, k)
    case Some(v) => v
    case None => Nil
  }

  /** `hash[k] = v`: an existing key keeps its position, a new key goes last. */
  function Put(es: seq<Entry>, k: Key, v: Value): (r: seq<Entry>)
    ensures Lookup(r, k) == Some(v)
    ensures forall k' :: k' != k ==> Lookup(r, k') == Lookup(es, k')
  {
    if |es| == 0 then [Entry(k, v)]
    else if es[0].key == k then [Entry(k, v)] + es[1..]
    else
      var r := [es[0]] + Put(es[1..], k, v);
      assert r[1..] == Put(es[1..], k, v);
      r
  }

  /** Appending an entry appends its key. */
  lemma KeysSnoc(es: seq<Entry>, e: Entry)
    ensures Keys(es + [e]) == Keys(es) + [e.key]
  {
  }

  /** Assigning a new key appends it at the end of the hash. */
  lemma {:induction false} PutAppends(es: seq<Entry>, k: Key, v: Value)
    requires !HasKey(es, k)
    ensures Put(es, k, v) == es + [Entry(k, v)]
  {
    if |es| > 0 {
      HasKeyCons(es, k);
      PutAppends(es[1..], k, v);
      assert es == [es[0]] + es[1..];
    }
  }

  /** Assigning a key twice is assigning it the second value. */
  lemma {:induction false} PutPut(es: seq<Entry>, k: Key, v: Value, w: Value)
    ensures Put(Put(es, k, v), k, w) == Put(es, k, w)
  {
    if |es| > 0 && es[0].key != k {
      var once := Put(es, k, v);
      assert once == [es[0]] + Put(es[1..], k, v);
      assert once[0] == es[0] && once[1..] == Put(es[1..], k, v);
      PutPut(es[1..], k, v, w);
    }
  }

  lemma RestUnique(es: seq<Entry>)
    requires |es| > 0 && UniqueKeys(es)
    ensures UniqueKeys(es[1..]) && !HasKey(es[1..], es[0].key)
  {
    forall i, j | 0 <= i < j < |es| - 1 ensures es[1..][i].key != es[1..][j].key {
      assert es[i + 1].key != es[j + 1].key;
    }
    forall i | 0 <= i < |es| - 1 ensures es[1..][i].key != es[0].key {
      assert es[i + 1].key != es[0].key;
    }
  }

  /** Assignment never introduces a duplicate key. */
  lemma {:induction false} PutUnique(es: seq<Entry>, k: Key, v: Value)
    requires UniqueKeys(es)
    ensures UniqueKeys(Put(es, k, v))
  {
    if |es| > 0 {
      RestUnique(es);
      var r := Put(es, k, v);
      if es[0].key == k {
        forall i, j | 0 <= i < j < |r| ensures r[i].key != r[j].key {
          assert r[i].key == es[i].key && r[j].key == es[j].key;
        }
      } else {
        PutUnique(es[1..], k, v);
        var rest := Put(es[1..], k, v);
        assert r == [es[0]] + rest;
        assert !HasKey(rest, es[0].key) by {
          assert Lookup(rest, es[0].key) == Lookup(es[1..], es[0].key);
        }
        forall i, j | 0 <= i < j < |r| ensures r[i].key != r[j].key {
          if i == 0 {
            assert r[j] == rest[j - 1];
          } else {
            assert r[i] == rest[i - 1] && r[j] == rest[j - 1];
          }
        }
      }
    }
  }

  /** `hash.except(*ks)`. */
  function Except(es: seq<Entry>, ks: set<Key>): (r: seq<Entry>)
    ensures forall k :: k in ks ==> Lookup(r, k).None?
    ensures forall k :: k !in ks ==> Lookup(r, k) == Lookup(es, k)
  {
    if |es| == 0 then []
    else if es[0].key in ks then Except(es[1..], ks)
    else
      var r := [es[0]] + Except(es[1..], ks);
      assert r[1..] == Except(es[1..], ks);
      r
  }

  /** `a.merge(b)`: every entry of `b` is put into `a` in order. */
  function Merge(a: seq<Entry>, b: seq<Entry>): seq<Entry>
    decreases |b|
  {
    if |b| == 0 then a else Merge(Put(a, b[0].key, b[0].val), b[1..])
  }

  /** Keys `b` lacks keep their value from `a`; with unique keys in `b`, its
      values win on the keys it has. */
  lemma {:induction false} MergeLookup(a: seq<Entry>, b: seq<Entry>, k: Key)
    requires UniqueKeys(b)
    ensures Lookup(Merge(a, b), k) == if HasKey(b, k) then Lookup(b, k) else Lookup(a, k)
    decreases |b|
  {
    if |b| > 0 {
      HasKeyCons(b, k);
      RestUnique(b);
      MergeLookup(Put(a, b[0].key, b[0].val), b[1..], k);
      RestUnique(b);
    }
  }
}

=== FILE: wrappers.dfy ===
/** Failure-compatible result types and the error taxonomy shared by every
    part of the model. Ruby exceptions become `Err` values. */
module Wrappers {

  datatype Option<+T> = None | Some(value: T)

  /** The exceptions the modelled code raises, or lets through from Ruby itself. */
  datatype Error =
    | StaleObject          // Valkyrie::Persistence::StaleObjectError
    | ObjectNotFound       // Valkyrie::Persistence::ObjectNotFoundError
    | IllegalOperation     // Valkyrie::Persistence::IllegalOperation
    | ArgumentError        // ::ArgumentError raised by the query services
    | FileNotFound         // Valkyrie::StorageAdapter::FileNotFound
    | TypeError            // a Ruby TypeError (e.g. `[].fetch(:key, nil)`)
    | NoMethodError        // a Ruby NoMethodError (e.g. a method called on nil)
    | RepeatedAttribute    // Dry::Struct refusing a second declaration of a name
    | MalformedList        // a proxy list that cannot be walked from head to tail
    | StackExhausted       // nesting deeper than the bound a recursive converter is given
    | QueryFailed          // an error the database raises for a query

  datatype Result<+T> = Ok(value: T) | Err(error: Error) {
    predicate IsFailure() {
      Err?
    }

    function PropagateFailure<U>(): Result<U>
      requires Err?
    {
      Err(error)
    }

    function Extract(): T
      requires Ok?
    {
      value
    }
  }
}
